=== FILE: README.md ===
# A verified model of the core of Sdf

This project models, in Dafny, the self-contained algorithms and data
structures at the heart of Sdf, the scene-description layer of Universal
Scene Description (USD). Each operation is written as a pure function or a
short method over immutable data, and each carries a contract stating what
the C++ code promises. Lemmas tie the operations to independent reference
definitions, inverses or invariants.

Paths are modelled as sequences of prim names with an optional trailing
property name (`Paths`). `HasPrefix` is the sequence prefix, and the parent
path drops the last element. The empty `SdfPath` is `Paths.EmptyPath`.

| module | file | what it models |
|---|---|---|
| `Wrappers`, `Seqs`, `Strings`, `Paths` | wrappers.dfy, seqs.dfy, strings.dfy, paths.dfy | `Option`, sequence utilities (first-occurrence de-duplication, removal), byte-wise string order and C strings, the path model |
| `FileVersion` | file_version.dfy | `SdfFileVersion`: packing, validity, `CanRead`/`CanWrite`, the six comparisons, `FromString`, `AsString`, `AsFullString` |
| `UsdaData` | usda_data.dfy | layer-version validation and `SetLayerVersion` |
| `TextOutput` | text_output.dfy | `Sdf_TextOutput`: the 4096-byte write buffer, flush, seek and close, the stream asset, header composition and the version-upgrade header rewrite |
| `UsdaFormat` | usda_format.dfy | the `.usda` cookie check, the legacy `#sdf 1.4.32` header rewrite in `ReadFromString`, and the layout of `_WriteLayer` |
| `ParserHelpers` | parser_helpers.dfy | bool parsing, the parser `Value` and its `Get<T>` conversions, bounds-checked tuple reads, shaped-array sizing, value factories, quoted-string and asset-path stripping |
| `AssetPaths`, `Sites` | asset_path.dfy, site.dfy | `SdfAssetPath` and `SdfSite`: equality, ordering and accessors |
| `PredicateExpressions`, `PredicateLibrary` | predicate_expression.dfy, predicate_library.dfy | the reverse-postfix predicate expression, its stack walker and text printer; parameter-default validation |
| `ListOps`, `ListOpApply` | list_op.dfy, list_op_apply.dfy | `SdfListOp`: setters with de-duplication, modes, range replacement, modification, application to a list, composition, and `SdfApplyListOrdering` |
| `ListEditors`, `ListEditorProxies`, `SubLayerListEditor` | list_editor.dfy, list_editor_proxy.dfy, sublayer_list_editor.dfy | `Sdf_ListEditor` queries, edit validation and printing; the `SdfListEditorProxy` edits; the sublayer offset re-pairing |
| `PathTables` | path_table.dfy | `SdfPathTable` as a pre-order sequence of entries that is closed under ancestors: insert, erase, find, subtree ranges, `operator[]`, clear and rename |
| `SpecData`, `AbstractData`, `MapEditors` | spec_data.dfy, abstract_data.dfy, map_editor.dfy | the in-memory spec store `SdfData`: specs, fields and time samples; the generic `SdfAbstractData` algorithms (emptiness, copy, equality, dictionary keys); the map editor that writes back to its field |
| `CopyUtils` | copy_utils.dfy | the sorted-merge field visitor, child pairing and removal scheduling, sub-root reference fix-up, `SdfCopySpec`'s argument checks and new-prim inertness |
| `ChildrenViews` | children_view.dfy | the filtered children view and its filter iterator |
| `PathExpressionEval` | path_expression_eval.dfy | the path-expression evaluator: the compiled short-circuit program, the pattern compiler, the from-scratch matcher `_Match`, and the incremental matcher `_Next` with `Pop` |

Everything external to this logic is a parameter of the model:
- glob matching and the predicate library's functions;
- the escape decoder;
- the supported `.usda` version limits;
- the child policies' path functions;
- the callbacks handed to the list-op and copy algorithms.

The model performs no input or output of its own. A file or stream is a
record holding its text and its offset.

## Model

| member | source | states |
|---|---|---|
| AssetPaths.GetAssetPathAfterSetters | assetPath.h:199-201 | the path handed to resolution is the evaluated path when there is one and the authored path otherwise; setting the resolved path never changes it |
| AssetPaths.EqualIsIdentity | assetPath.h:114-124 | `==` compares all three fields, so it is value identity, and `!=` is its negation |
| AssetPaths.LessIsStrictTotalOrder | assetPath.h:127 | `<` is irreflexive, asymmetric, transitive and total, so asset paths can key ordered containers |
| AssetPaths.DerivedOperators | assetPath.h:129-146 | `<=`, `>` and `>=`, defined from `<`, agree with it and with equality |
| AssetPaths.EmptyIsSmallest | assetPath.h:127 | the default (all-empty) asset path orders before every other one |
| AssetPaths.AuthoredPrefixIsLess | assetPath.h:127 | an asset path whose authored text is a proper prefix of another's orders first |
| AssetPaths.ResolvingIsGreater | assetPath.h:127 | filling in the resolved path of an unresolved asset path moves it up the order, whatever its evaluated path |
| AssetPaths.EvaluatingIsGreater | assetPath.h:127 | filling in the evaluated path of an asset path without one moves it up the order, whatever its resolved path |
| AssetPaths.FromAuthoredSpec | assetPath.h:64-89 | construction from text keeps the text as the authored path exactly when it holds no C0 control, delete or C1 control character, and yields the empty asset path otherwise; the result never holds such a character |
| Sites.LessIsLexicographic | src/pxr/sdf/site.h:45-49 | `layer < o.layer \|\| (!(o.layer < layer) && path < o.path)` is exactly the lexicographic order on (layer, path) |
| Sites.EqualIsIdentity | src/pxr/sdf/site.h:35-43 | `==` compares layer and path, so it is value identity; `!=` is its negation |
| Sites.LessIsStrictTotalOrder | src/pxr/sdf/site.h:45-49 | `<` is a strict total order, as the ordered site set requires |
| Sites.DerivedOperators | src/pxr/sdf/site.h:51-64 | `<=`, `>` and `>=` agree with `<` and equality |
| Sites.DefaultSite | src/pxr/sdf/site.h:29 | the default site (null layer, empty path) is not valid and orders before every other site |
| FileVersion.AsIntInjective | fileVersion.h:49-53 | packing major, minor and patch into one integer loses nothing: equal integers mean equal versions |
| FileVersion.ValidIffSomeFieldNonZero | fileVersion.h:66-70 | a version is valid exactly when one of its three numbers is non-zero |
| FileVersion.CanWriteImpliesCanRead | fileVersion.h:76-86 | whatever a version can write it can read; reading also accepts a newer patch of the same minor version, which writing does not |
| FileVersion.CanWriteImpliesNotOlder | fileVersion.h:83-86 | a version that can write a file version is not older than it |
| FileVersion.NewerIsValid | fileVersion.h:66-94 | any version above another is valid |
| FileVersion.LessIsLexicographic | fileVersion.h:49-94 | comparing packed integers is the lexicographic order on (major, minor, patch) |
| FileVersion.RelationalOperatorsConsistent | fileVersion.h:87-94 | the six operators on packed integers are field equality and one total order |
| FileVersion.DecimalRoundTrip | src/pxr/sdf/fileVersion.cpp:77-94 | the digits printed for a number read back as that number |
| FileVersion.ReadDigits | src/pxr/sdf/fileVersion.cpp:41 | reading an 8-bit number succeeds on a run of digits worth at most 255 and stops after it |
| FileVersion.ReadOverflow | src/pxr/sdf/fileVersion.cpp:41-46 | a run of digits worth 256 or more is not read as an 8-bit number |
| FileVersion.AsStringRoundTrip | src/pxr/sdf/fileVersion.cpp:27-86 | parsing the short form of any version, followed by nothing or white space, gives the version back |
| FileVersion.AsFullStringRoundTrip | src/pxr/sdf/fileVersion.cpp:27-73 | parsing the three-number form of any version gives it back |
| FileVersion.MissingMinorRejected | src/pxr/sdf/fileVersion.cpp:41-69 | text without a '.' has no minor number and parses to the invalid version |
| FileVersion.MissingPatchRejected | src/pxr/sdf/fileVersion.cpp:47-69 | a '.' after the minor number demands a patch number: "1.0." parses to the invalid version |
| FileVersion.TrailingJunkRejected | src/pxr/sdf/fileVersion.cpp:63-65 | any character after the minor number other than '.', a digit or white space gives the invalid version |
| FileVersion.FieldOverflowRejected | src/pxr/sdf/fileVersion.cpp:45-69 | a minor number that does not fit 8 bits ("3.1416") gives the invalid version |
| AssetPaths.ValidTextHasNoControl | assetPath.h:66-69 | text is valid for an asset path exactly when none of its characters is a C0 control, delete or a C1 control |
| UsdaData.ValidateLayerVersionString | src/pxr/sdf/usdaData.cpp:29-57 | the reason is cleared exactly when the text parses to a version that is at least the minimum input version and readable by the maximum input version, and then that version is returned; every rejection returns the invalid version, and unparseable text is reported as such |
| UsdaData.AcceptedVersionIsValid | src/pxr/sdf/usdaData.cpp:29-57 | whatever version validation returns is valid exactly when the text was accepted, so the invalid version signals rejection |
| UsdaData.PrintedVersionValidates | src/pxr/sdf/usdaData.cpp:29-57 | the printed form of any version inside the supported input range validates to that version with the reason cleared |
| UsdaData.SetLayerVersion | src/pxr/sdf/usdaData.cpp:59-74 | the stored version becomes the new one exactly when it is invalid or the maximum output version can write it; otherwise the data is unchanged |
| UsdaData.SetLayerVersionKeepsWritable | src/pxr/sdf/usdaData.cpp:59-74 | if the stored version was invalid or writable, it stays so after any call |
| TextOutput.Overwrite | src/pxr/sdf/fileIO.h:50-75 | writing bytes at an offset keeps the text before it, places the bytes there, keeps the text after them, and grows the text only when the bytes run past its end |
| TextOutput.StreamWrite | src/pxr/sdf/fileIO.h:50-75 | a write at the stream's own offset always delivers every byte and advances the offset by the count; a write elsewhere seeks first, and a failed seek delivers nothing |
| TextOutput.StreamClose | src/pxr/sdf/fileIO.h:43-48 | closing a stream asset keeps its text and resets its offset to 0 |
| TextOutput.NewOutput | src/pxr/sdf/fileIO.h:91-98 | a new output is open, at offset 0, with an empty buffer |
| TextOutput.FlushBuffer | src/pxr/sdf/fileIO.h:194-210 | flushing an empty buffer succeeds and changes nothing; a success empties the buffer and advances the offset by its length; a short write fails and keeps buffer and offset; on a sequential output the delivered text is unchanged |
| TextOutput.Seek | src/pxr/sdf/fileIO.h:212-223 | seeking succeeds exactly when the flush does, and then only the output offset changes, to the target |
| TextOutput.Write | src/pxr/sdf/fileIO.h:170-192 | the buffer never exceeds its 4096-byte size and is flushed exactly when full; on a sequential output the text delivered so far followed by the buffer grows by exactly the string written |
| TextOutput.ComposeHeader | fileIO.cpp:31-46 | the header is the cookie, one space, the version's short form and a newline |
| TextOutput.ComposeHeaderRoundTrip | fileIO.cpp:31-46 | the version text in a composed header parses back to the version, the trailing newline included |
| TextOutput.WriteHeader | fileIO.cpp:48-77 | an invalid version falls back to the default output version; on success the requested and written versions both become the chosen one and the header follows what was already delivered; an invalid chosen version changes nothing |
| TextOutput.RequestWriteVersionUpgrade | fileIO.cpp:79-105 | a version above the maximum output version is refused and changes nothing; otherwise the call succeeds and the requested version becomes the new one exactly when the current one cannot read it |
| TextOutput.UpgradeCoversRequest | fileIO.cpp:79-105 | after an accepted request the requested version can read the version asked for |
| TextOutput.UpdateHeader | fileIO.cpp:107-138 | with no newer version requested only the buffer is flushed; with one, success means the written version becomes the requested one, and on a seekable sequential output the new header lands over the start of the text |
| TextOutput.RewriteHeader | fileIO.cpp:110-134 | the upgrade branch: seek to 0, write and flush the new header; it succeeds exactly when the written version becomes the requested one, and a failure keeps the old written version |
| TextOutput.SameLengthHeaderRewrite | fileIO.cpp:107-138 | a new header exactly as long as the old one replaces it and keeps the rest of the file byte for byte |
| TextOutput.Close | src/pxr/sdf/fileIO.h:110-123 | closing a closed output succeeds and changes nothing; a full buffer left by a failed write is accepted, and a flush that fails again makes closing fail with the buffer kept; otherwise the output ends closed and a sequential asset holds everything written, with the header rewritten when an upgrade was pending |
| UsdaFormat.TrimLeft | usdaFileFormat.cpp:386 | the trimmed string is a suffix of the input, everything cut off is white space, and it does not itself start with white space |
| UsdaFormat.TrimLeftIdempotent | usdaFileFormat.cpp:386 | trimming twice is trimming once |
| UsdaFormat.TrimLeftKeeps | usdaFileFormat.cpp:386 | a string not starting with white space is left as it is |
| UsdaFormat.ReadFromString | usdaFileFormat.cpp:373-421 | leading white space is dropped first; a string starting with the legacy `#sdf 1.4.32` cookie has that cookie replaced by `#usda 1.0` and the rest kept verbatim under the allow and warn settings, and is refused before parsing otherwise; any other string reaches the parser trimmed and unchanged |
| UsdaFormat.ReadFromStringIsStable | usdaFileFormat.cpp:386-416 | the text handed to the parser never starts with the legacy cookie, and reading it again hands over the same text |
| UsdaFormat.LegacyAndModernAgree | usdaFileFormat.cpp:389-404 | unless legacy strings are refused, a legacy-headed string and the `#usda 1.0` string with the same body reach the parser as the same text |
| UsdaFormat.LegacyRead | usdaFileFormat.cpp:391-404 | after any leading white space, a legacy-headed body reaches the parser as `#usda 1.0` followed by the body |
| UsdaFormat.ModernRead | usdaFileFormat.cpp:386-416 | after any leading white space, a `#usda 1.0` body reaches the parser unchanged under every setting |
| UsdaFormat.ReadPrefix | usdaFileFormat.cpp:126-128 | reading the cookie's length from offset 0 yields a prefix of the content, as long as the cookie when the content is long enough |
| UsdaFormat.CanReadIffCookiePrefix | usdaFileFormat.cpp:111-135 | for a cookie without NUL characters the check succeeds exactly when no read error occurred and the content starts with the cookie |
| UsdaFormat.NulInPrefixRefuses | usdaFileFormat.cpp:130-134 | a NUL byte inside the cookie-length prefix ends the C string early, so the check fails |
| UsdaFormat.WriteLayer | usdaFileFormat.cpp:233-341 | the written layer opens with the cookie line and closes with a newline |
| UsdaFormat.WriteLayerSections | usdaFileFormat.cpp:313-336 | the `( ... )` header block appears exactly when the header is non-empty, `reorder rootPrims` exactly when there is more than one root name, each with the layer's own content, plus one section per root prim |
| UsdaFormat.WriteLayerPrimOrder | usdaFileFormat.cpp:332-336 | the root prims follow the header and reorder sections, in the layer's order, before the final newline |
| UsdaFormat.WrittenLayerIsReadable | usdaFileFormat.cpp:373-416 | a layer written with the `#usda` cookie passes the cookie check and reaches the parser unchanged |
| ParserHelpers.Lower | src/pxr/sdf/parserHelpers.cpp:520-521 | lower-casing maps each character on its own, `A`-`Z` to `a`-`z`, and keeps the length |
| ParserHelpers.LowerIdempotent | src/pxr/sdf/parserHelpers.cpp:520-521 | lower-casing twice is lower-casing once |
| ParserHelpers.BoolFromString | src/pxr/sdf/parserHelpers.cpp:513-539 | after lower-casing, "true", "yes" and "1" read as true and "false", "no" and "0" as false, with the parse reported ok; anything else is reported unparsed and returns true |
| ParserHelpers.BoolFromStringIgnoresCase | src/pxr/sdf/parserHelpers.cpp:520-521 | the result does not depend on letter case |
| ParserHelpers.BoolFromStringRoundTrip | src/pxr/sdf/parserHelpers.cpp:523-526 | "true" and "false" read back as the boolean they name |
| ParserHelpers.BoolFromStringStopsAtNul | src/pxr/sdf/parserHelpers.cpp:523-534 | the comparisons see the C string, so anything after a NUL character is ignored |
| ParserHelpers.FromIntegral | src/pxr/sdf/parserHelpers.h:224-233 | a value built from a signed integral type holds a signed 64-bit number and one from an unsigned type an unsigned one, with the same value |
| ParserHelpers.GetInt | src/pxr/sdf/parserHelpers.h:51-90 | reading an integral type from a 64-bit integer succeeds exactly when the number is in the type's range; non-finite doubles, strings, tokens and asset paths fail |
| ParserHelpers.IntegralRoundTrip | src/pxr/sdf/parserHelpers.h:224-233 | an in-range number stored in a value reads back unchanged as its own type |
| ParserHelpers.GetBool | src/pxr/sdf/parserHelpers.h:158-192 | a number reads as whether it is non-zero; a string or token goes through the bool parser and fails when unparsed; an asset path fails |
| ParserHelpers.GetFloating | src/pxr/sdf/parserHelpers.h:92-141 | numbers convert to doubles; a string or token reads only when it is "inf", "-inf" or "nan"; an asset path fails |
| ParserHelpers.GetString | src/pxr/sdf/parserHelpers.h:40-48 | the general read demands the exact held type: a string reads only from a string value |
| ParserHelpers.GetAssetPath | src/pxr/sdf/parserHelpers.h:143-156 | an asset path reads from an asset path as is and from a string as a path with nothing evaluated or resolved; anything else fails |
| ParserHelpers.GetAssetPathOfText | src/pxr/sdf/parserHelpers.h:143-156 | a string reads as the asset path it spells exactly when it holds no control character, and as the empty asset path otherwise |
| ParserHelpers.ReadComponents | src/pxr/sdf/parserHelpers.cpp:100-239 | the components are read in order; the read succeeds exactly when every component converts, and a failure stops right after the first one that does not |
| ParserHelpers.MakeScalarValueImpl | src/pxr/sdf/parserHelpers.cpp:100-239 | too few remaining values, or the opaque type, fail without consuming anything; a success consumes exactly the type's component count (2, 3 or 4 for vectors, 9 for `Matrix3d`, 16 for `Matrix4d`) and each component comes from its own value |
| ParserHelpers.MakeScalarValue | src/pxr/sdf/parserHelpers.cpp:295-311 | a failure reports the sub-part `(index - origIndex) - 1`, which is -1 for a failed bounds check and otherwise names the component that failed to convert |
| ParserHelpers.TupleReadSucceeds | src/pxr/sdf/parserHelpers.cpp:100-239 | with enough values, each convertible, the read succeeds and advances by exactly the component count |
| ParserHelpers.ShapeSizeIsProduct | src/pxr/sdf/parserHelpers.cpp:321-323 | the 32-bit unsigned size is the product of the shape's dimensions whenever that product fits |
| ParserHelpers.FlatShapeSize | src/pxr/sdf/parserHelpers.cpp:321-323 | a one-dimensional shape's size is its only dimension |
| ParserHelpers.ReadElements | src/pxr/sdf/parserHelpers.cpp:325-335 | reading `count` elements succeeds with each element read where the previous one ended, `count` times the arity in all; a failure reports an element below `count` |
| ParserHelpers.ReadElementsFailure | src/pxr/sdf/parserHelpers.cpp:325-335 | a failure names the first element that does not convert: the elements before it read in full, and the read starting where they end fails at the reported index |
| ParserHelpers.MakeShapedValue | src/pxr/sdf/parserHelpers.cpp:314-341 | an empty shape gives an empty array without reading; otherwise the array has as many elements as the shape's size and consumes that many tuples, and an error names the first element that fails, with all elements before it read in full, and the sub-part counted from the array's start |
| ParserHelpers.AddFactories | src/pxr/sdf/parserHelpers.cpp:346-372 | registering a type adds its scalar factory and its shaped array factory and keeps every other entry |
| ParserHelpers.GetValueFactory | src/pxr/sdf/parserHelpers.cpp:496-509 | a known name is found with its own factory; an unknown one reports not found and yields the "None" factory |
| ParserHelpers.Unescape | src/pxr/sdf/parserHelpers.cpp:562-579 | text without a backslash is copied unchanged |
| ParserHelpers.EvalQuotedString | src/pxr/sdf/parserHelpers.cpp:541-594 | a token no longer than its two delimiters gives the empty string and no line count; otherwise the line count is the number of newlines in the result, and without backslashes the result is the inner text |
| ParserHelpers.QuotedRoundTrip | src/pxr/sdf/parserHelpers.cpp:541-594 | a body without backslashes between two equal delimiters evaluates back to the body |
| ParserHelpers.EvalAssetPath | src/pxr/sdf/parserHelpers.cpp:596-611 | one delimiter is stripped from each side, or three with `\@@@` unescaped to `@@@`, and the result is kept exactly when it holds no control character and is empty otherwise, so what is returned is always valid asset-path text |
| ParserHelpers.ControlCharacterEmpties | src/pxr/sdf/parserHelpers.cpp:609-611 | the token `@a<TAB>b@` evaluates to the empty path, since a tab is a control character |
| ParserHelpers.AssetPathRoundTrip | src/pxr/sdf/parserHelpers.cpp:596-611 | a valid path without backslashes whose `@@@` runs are escaped and wrapped in `@@@` delimiters evaluates back to the path |
| ParserHelpers.UnescapeEscaped | src/pxr/sdf/parserHelpers.cpp:605-607 | unescaping `\@@@` undoes escaping `@@@` for text without backslashes |
| PredicateLibrary.CountDefaults | src/pxr/sdf/predicateLibrary.cpp:22-32 | the count of defaulted parameters is zero exactly when no parameter has a default, and the number of parameters exactly when all have one |
| PredicateLibrary.CheckValidity | src/pxr/sdf/predicateLibrary.cpp:34-60 | validity holds exactly when every name is non-empty and no parameter without a default follows one with a default |
| PredicateLibrary.DefaultsFormSuffix | src/pxr/sdf/predicateLibrary.cpp:34-60 | in a valid list the defaulted parameters are exactly the last `CountDefaults` ones |
| PredicateExpressions.CallCount | src/pxr/sdf/predicateExpression.cpp:70-78 | the number of `Call` ops is zero exactly when there is none |
| PredicateExpressions.CallCountAppend | src/pxr/sdf/predicateExpression.cpp:49-68 | counting `Call` ops distributes over concatenation, which is why `MakeOp` keeps the invariant |
| PredicateExpressions.MakeCall | src/pxr/sdf/predicateExpression.cpp:70-78 | a call expression has one `Call` op and exactly that one call, so it keeps ops and calls in step |
| PredicateExpressions.MakeNot | src/pxr/sdf/predicateExpression.cpp:38-47 | the operand's ops followed by `Not`, the calls unchanged; the result keeps ops and calls in step exactly when the operand does |
| PredicateExpressions.MakeOp | src/pxr/sdf/predicateExpression.cpp:49-68 | the ops are the right operand's, then the left operand's, then the operator, and the calls are the left's then the right's; in-step operands give an in-step result |
| PredicateExpressions.Encode | src/pxr/sdf/predicateExpression.cpp:38-78 | every expression built from calls with the three constructors is non-empty and keeps ops and calls in step |
| PredicateExpressions.EncodeLayout | src/pxr/sdf/predicateExpression.cpp:38-95 | read backwards, a built expression's ops are the pre-order listing of its tree, and its calls are the tree's leaves from left to right |
| PredicateExpressions.Step | src/pxr/sdf/predicateExpression.cpp:108-125 | one turn of the walker reports one event; a `Call` consumes the next call, and a finished `Call` is popped |
| PredicateExpressions.Run | src/pxr/sdf/predicateExpression.cpp:104-126 | the walker reports at most one event per turn and stops once its stack is empty |
| PredicateExpressions.StepsBound | src/pxr/sdf/predicateExpression.cpp:104-126 | the walk of a tree takes at most three turns per op |
| PredicateExpressions.RunSubtree | src/pxr/sdf/predicateExpression.cpp:104-126 | entered at the root of a subtree, the walker reports exactly that subtree's reference events, consumes exactly its ops and calls, and returns to the stack below |
| PredicateExpressions.WalkWithOpStack | src/pxr/sdf/predicateExpression.cpp:80-128 | walking the empty expression reports nothing, and a walk reports at most three events per op |
| PredicateExpressions.RunWholeTree | src/pxr/sdf/predicateExpression.cpp:80-128 | with enough turns the walk of a built expression reports exactly the events of the reference traversal of its tree |
| PredicateExpressions.WalkMatchesTree | src/pxr/sdf/predicateExpression.cpp:80-128 | the walk of any built expression is the reference traversal: each operator's logic callback before, between and after its operands, each call at its leaf |
| PredicateExpressions.EventsCalls | src/pxr/sdf/predicateExpression.cpp:108-111 | the calls reported by the reference traversal are the tree's leaves in order |
| PredicateExpressions.WalkVisitsCallsInOrder | src/pxr/sdf/predicateExpression.cpp:91-111 | the walk visits every stored call exactly once, in forward order |
| PredicateExpressions.Walk | src/pxr/sdf/predicateExpression.cpp:130-139 | the plain walk reports one callback per walker event, passing only the innermost op and operand index |
| PredicateExpressions.EventsIndices | src/pxr/sdf/predicateExpression.cpp:112-117 | in the reference traversal `not` reports operand indices 0 and 1 and binary operators 0, 1 and 2 |
| PredicateExpressions.WalkLogicIndices | src/pxr/sdf/predicateExpression.cpp:112-139 | every logic callback of a walk gets index 0 or 1 for `not` and 0, 1 or 2 for a binary operator |
| PredicateExpressions.CallText | src/pxr/sdf/predicateExpression.cpp:189-220 | a call prints as its name, bare for a bare call, and with a closing parenthesis for a parenthesised call |
| PredicateExpressions.GetText | src/pxr/sdf/predicateExpression.cpp:141-147 | the empty expression prints as the empty string |
| PredicateExpressions.EventsText | src/pxr/sdf/predicateExpression.cpp:160-187 | printing the events of the reference traversal yields the reference text of the tree under its parent |
| PredicateExpressions.GetTextMatchesTree | src/pxr/sdf/predicateExpression.cpp:141-227 | the printed text of any built expression is the reference text of its tree |
| PredicateExpressions.ParenthesisedIff | src/pxr/sdf/predicateExpression.cpp:166-177 | an operator's text is parenthesised exactly when its parent op compares less than it, or the ops are equal and it is the right operand |
| PredicateExpressions.NegationText | src/pxr/sdf/predicateExpression.cpp:151-187 | a negation prints as "not " followed by its operand, wrapped when the parent asks for it |
| PredicateExpressions.BinaryText | src/pxr/sdf/predicateExpression.cpp:152-187 | a binary operator prints its name, " " for implied and, " and ", " or ", between its operands, wrapped when the parent asks for it |
| PredicateExpressions.SameOperatorLeftBare | src/pxr/sdf/predicateExpression.cpp:166-177 | `a op b op c` built left-nested prints without parentheses |
| PredicateExpressions.SameOperatorRightParenthesised | src/pxr/sdf/predicateExpression.cpp:166-177 | a right operand built with the same operator is parenthesised |
| PredicateExpressions.NotOfAndParenthesised | src/pxr/sdf/predicateExpression.cpp:166-177 | `not` applied to an `and` parenthesises it |
| PredicateExpressions.AndUnderOrBare | src/pxr/sdf/predicateExpression.cpp:166-177 | an `and` under an `or` prints bare |
| PredicateExpressions.OrUnderAndParenthesised | src/pxr/sdf/predicateExpression.cpp:166-177 | an `or` under an `and` is parenthesised |
| ListOps.WithItems | src/pxr/sdf/listOp.cpp:131-152 | storing one list replaces exactly that list and leaves the mode and the other five lists alone |
| ListOps.SetMode | src/pxr/sdf/listOp.cpp:312-325 | switching to the other mode clears all six lists; asking for the current mode changes nothing |
| ListOps.Clear | src/pxr/sdf/listOp.cpp:327-335 | clearing gives the empty non-explicit op whatever the starting mode |
| ListOps.ClearAndMakeExplicit | src/pxr/sdf/listOp.cpp:337-345 | the result is explicit with every list empty whatever the starting mode |
| ListOps.CanonicalSpec | src/pxr/sdf/listOp.cpp:165-235 | the explicit, prepended, appended and deleted setters store a duplicate-free list with the same members, and store the input unchanged exactly when it had no duplicates; added and ordered items are stored as given |
| ListOps.HasNoDuplicates | src/pxr/sdf/listOp.cpp:170-205 | the pairwise test answers exactly whether the items are free of duplicates |
| ListOps.KeepFirst | src/pxr/sdf/listOp.cpp:222-228 | the forward pass keeps the first occurrence of each item, in order |
| ListOps.KeepLast | src/pxr/sdf/listOp.cpp:214-221 | the backward pass, reversed, keeps the last occurrence of each item, in order |
| ListOps.MakeUnique | src/pxr/sdf/listOp.cpp:165-235 | the result is false exactly when duplicates were present, which is exactly when the list was changed; the kept occurrence is the first one, or the last when asked to reverse |
| ListOps.SetItems | src/pxr/sdf/listOp.cpp:237-310 | setting a list switches the op to that list's mode (clearing the others when the mode changes), stores the list de-duplicated where its setter de-duplicates, and reports false exactly when duplicates were removed |
| ListOps.CreateExplicit | src/pxr/sdf/listOp.cpp:72-80 | an explicit op holding the items with later duplicates dropped and nothing else |
| ListOps.Create | src/pxr/sdf/listOp.cpp:82-94 | a non-explicit op with the prepended and deleted items keeping first occurrences and the appended items keeping last occurrences |
| ListOps.SetItemsWellFormed | src/pxr/sdf/listOp.cpp:237-325 | setting any list keeps an op in the shape the setters promise: only its own mode's lists hold items and the de-duplicated lists hold no duplicates |
| ListOps.ReplaceOperations | src/pxr/sdf/listOp.cpp:733-779 | the call refuses and changes nothing exactly when it needs a mode switch and does more than insert, or the range runs past the end; otherwise the list becomes its items before the range, the new items and its items after the range, stored through the setter |
| ListOps.ModifyList | src/pxr/sdf/listOp.cpp:663-699 | each item goes through the callback; dropped items and repeats of an earlier output are removed; the flag says exactly whether the list changed |
| ListOps.ModifyOperations | src/pxr/sdf/listOp.cpp:701-731 | without a callback nothing changes; with one all six lists are rewritten as above, the mode is kept, and the result is true exactly when the op changed |
| ListOpApply.ItemsTrack | src/pxr/sdf/listOp.cpp:378-388 | loading a vector into the working list and reading it back gives the vector unchanged |
| ListOpApply.TrackUnique | src/pxr/sdf/listOp.cpp:382-388 | on a vector without duplicates every entry of the working list is the one the search map tracks |
| ListOpApply.InsertMembers | src/pxr/sdf/listOp.cpp:484-504 | inserting if unique and inserting-or-moving to either end each leave the list holding exactly its old items plus the new one |
| ListOpApply.AddKeysMembers | src/pxr/sdf/listOp.cpp:517-536 | after adding keys an item is present exactly when it was present before or is one of the added items |
| ListOpApply.PrependKeysMembers | src/pxr/sdf/listOp.cpp:538-557 | after prepending keys an item is present exactly when it was present before or is one of the prepended items |
| ListOpApply.AppendKeysMembers | src/pxr/sdf/listOp.cpp:559-578 | after appending keys an item is present exactly when it was present before or is one of the appended items |
| ListOpApply.DeleteKeysOthers | src/pxr/sdf/listOp.cpp:580-597 | deleting keys never adds or removes an item that is not among the deleted ones |
| ListOpApply.AddKeysTag | src/pxr/sdf/listOp.cpp:484-536 | on distinct items, adding keys appends, in order, the first occurrence of each new item and keeps the old list in front |
| ListOpApply.DeleteKeysTag | src/pxr/sdf/listOp.cpp:580-597 | on distinct items, deleting keys removes exactly the deleted items and keeps the order of the rest |
| ListOpApply.PrependKeysTag | src/pxr/sdf/listOp.cpp:538-557 | on distinct items, prepending puts the first occurrence of each prepended item in front, in the given order, followed by the rest of the list in its old order |
| ListOpApply.AppendKeysTag | src/pxr/sdf/listOp.cpp:559-578 | on distinct items, appending keeps the rest of the list in its old order followed by the last occurrence of each appended item, in the given order |
| ListOpApply.AppendNewSpec | src/pxr/sdf/listOp.cpp:426-432 | pushing each delete not yet listed equals the old list followed by the duplicate-free new items |
| ListOpApply.RemoveEachSpec | src/pxr/sdf/listOp.cpp:426-447 | a run of erase-remove passes removes exactly the listed items and keeps the order of the rest |
| ListOpApply.ReorderPermutes | src/pxr/sdf/listOp.cpp:599-661 | reordering is a permutation: the same items with the same multiplicities |
| ListOpApply.ReorderKeepsOrder | src/pxr/sdf/listOp.cpp:609-661 | on distinct items, the ordered items present in the list appear in the order of their first occurrence in the ordering |
| ListOpApply.ApplyExplicit | src/pxr/sdf/listOp.cpp:361-364 | an explicit op yields its explicit items, each once, in first-occurrence order, whatever the input vector; an item is in the result exactly when the op holds it |
| ListOpApply.ApplyUntouched | src/pxr/sdf/listOp.cpp:365-395 | under a non-explicit op an item the op does not mention is in the result exactly when it was in the input |
| ListOpApply.ApplyMembers | src/pxr/sdf/listOp.cpp:365-395 | on a duplicate-free input, under a non-explicit op an item is in the result exactly when it is added, prepended or appended, or was in the input and is not deleted |
| ListOpApply.SimpleResultUnique | src/pxr/sdf/listOp.cpp:365-395 | for a well-formed op without added or ordered items, the result on a duplicate-free list is itself duplicate-free |
| ListOpApply.ApplySimple | src/pxr/sdf/listOp.cpp:365-395 | for a well-formed op without added or ordered items on distinct items, the result is the prepended items not also appended, then the untouched rest of the list, then the appended items |
| ListOpApply.ComposeEditsSpec | src/pxr/sdf/listOp.cpp:421-450 | the composed prepends are the outer prepends not appended followed by the inner prepends the outer op does not mention; the composed appends are the inner appends the outer op does not mention followed by the outer appends; an item is deleted exactly when either op deletes it and the outer op neither prepends nor appends it |
| ListOpApply.ComposedOp | src/pxr/sdf/listOp.cpp:452-456 | the composition of two well-formed simple ops is a well-formed op with no added or ordered items that stores the built lists |
| ListOpApply.ComposeCovers | src/pxr/sdf/listOp.cpp:421-456 | the composition mentions exactly the items one of the two ops mentions |
| ListOpApply.ComposeLeft | src/pxr/sdf/listOp.cpp:421-456 | applying the composed op to distinct items gives: the outer prepends not appended, the inner prepends that neither the inner appends nor the outer op mention, the list items neither op mentions, the inner appends the outer op does not mention, then the outer appends |
| ListOpApply.ComposeRight | src/pxr/sdf/listOp.cpp:421-456 | applying the inner op and then the outer op to distinct items gives the same five parts in the same order, grouped as the two passes build them |
| ListOpApply.ComposeSimpleLaw | src/pxr/sdf/listOp.cpp:418-456 | applying the composition of two simple ops to distinct items equals applying the inner op and then the outer one |
| ListOpApply.ComposeLaw | src/pxr/sdf/listOp.cpp:402-482 | whenever the composition exists it is well-formed and applying it to distinct items equals applying the inner op and then the outer one |
| ListOpApply.ApplyListOrderingPermutes | src/pxr/sdf/listOp.cpp:832-856 | applying a list ordering permutes the vector |
| ListOpApply.ApplyListOrderingOrders | src/pxr/sdf/listOp.cpp:832-856 | on distinct items, the ordered items present appear in the order of their first occurrence in the ordering |
| ListOpApply.ApplyOrderedOnly | src/pxr/sdf/listOp.cpp:365-395 | an op holding only ordered items acts on a vector as the list ordering does |
| ListOpApply.ExampleReorder | src/pxr/sdf/listOp.cpp:609-661 | ordering [a, c, e, b, f, d] by [b, c, d] moves each ordered item with the unordered run that follows it, giving [a, b, f, c, e, d] |
| ListOpApply.OrderedItemsExample | src/pxr/sdf/listOp.cpp:349-400 | the same example through the full apply operation |
| ListOpApply.ComposeOperationsMembers | src/pxr/sdf/listOp.cpp:781-830 | composing one list stores the stronger explicit items deduplicated or, for the other lists, exactly the items of both; no other list changes unless the mode does |
| ListOpApply.ComposeOperationsPlaces | src/pxr/sdf/listOp.cpp:781-830 | on a duplicate-free weaker list, composing prepends puts the stronger items first, composing appends puts them last, and composing added or deleted items appends the new ones |
| ListEditors.NoKeysNoItems | src/pxr/sdf/listEditor.h:66-82 | a full editor without keys names no item, so applying it leaves a list unchanged |
| ListEditors.HasKeysIffSomeList | src/pxr/sdf/listEditor.h:66-82 | a full editor has keys exactly when it is explicit or one of its lists is non-empty |
| ListEditors.Find | src/pxr/sdf/listEditor.h:158-171 | the search answers -1 exactly when the value is absent, and otherwise the index of its first occurrence |
| ListEditors.Count | src/pxr/sdf/listEditor.h:150-156 | the count is the number of occurrences of the value |
| ListEditors.FindIn | src/pxr/sdf/listEditor.h:158-171 | searching a list for the canonical form of a value answers -1 exactly when the list lacks it, and otherwise an index that holds it |
| ListEditors.CountIn | src/pxr/sdf/listEditor.h:150-156 | the count of the canonical form is zero exactly when the list lacks it |
| ListEditors.CountUnique | src/pxr/sdf/listEditor.h:150-171 | in a list without duplicates a value occurs at most once, and once exactly when the search finds it |
| ListEditors.PermissionToEdit | src/pxr/sdf/listEditor.h:86-97 | editing is allowed exactly when the editor is live and its owner may be edited; an expired editor and a read-only owner are refused with their own messages |
| ListEditors.ValidateEdit | src/pxr/sdf/listEditor.h:209-270 | an edit is accepted exactly when no new value past the common prefix of old and new values repeats an earlier new value and the field definition, if any, accepts each of them |
| ListEditors.AcceptedEditUnique | src/pxr/sdf/listEditor.h:223-230 | when the old values are duplicate-free, an accepted edit leaves the new values duplicate-free, so skipping the common prefix is sound |
| ListEditors.UniqueEditDistinct | src/pxr/sdf/listEditor.h:238-251 | duplicate-free new values always pass the duplicate check |
| ListEditors.WriteList | src/pxr/sdf/listEditor.h:293-304 | the written list text is the bracketed item texts separated by ", " |
| ListEditors.PrintAsWritten | src/pxr/sdf/listEditor.h:286-331 | an expired editor prints nothing and an explicit one prints its explicit list |
| ListEditors.Print | src/pxr/sdf/listEditor.h:286-331 | an expired editor prints nothing, an explicit one prints its explicit list, and any other prints its labelled lists separated by ", " inside braces |
| ListEditors.PrintMissesSeparators | src/pxr/sdf/listEditor.h:315-320 | for a full editor with empty lists, the printed added list runs straight into the next label, where the corrected printer writes ", " |
| ListEditorProxies.NoEditorDefaults | src/pxr/sdf/listEditorProxy.h:69-99 | a proxy without an editor is not expired, reads as explicit with keys and not ordered-only, applies to nothing, names no item, and ignores every edit |
| ListEditorProxies.AppliedItemsExplicit | src/pxr/sdf/listEditorProxy.h:292-299 | the applied items of an explicit editor are its explicit items, each once |
| ListEditorProxies.EditStores | src/pxr/sdf/listOp.cpp:733-779 | a range replacement inside a list of the op's own mode that leaves no duplicate stores exactly the replaced list and changes nothing else |
| ListEditorProxies.AddSpec | src/pxr/sdf/listEditorProxy.h:301-314 | adding writes the value over the item its canonical form is found as in the target list (explicit, or added), or appends it when that form is missing; a non-explicit editor first drops the canonical form from the deleted list; no other list changes and an ordered-only or invalid editor is unchanged |
| ListEditorProxies.PrependSpec | src/pxr/sdf/listEditorProxy.h:316-329 | prepending leaves the target list alone when the canonical form is first already, and otherwise makes the value first, followed by the other items in order without the canonical form; a canonical value thus ends up first and once; a non-explicit editor also drops the canonical form from the deleted list and no other list changes |
| ListEditorProxies.AppendSpec | src/pxr/sdf/listEditorProxy.h:331-344 | appending leaves the target list alone when the canonical form is last already, and otherwise makes the value last, after the other items in order without the canonical form; a canonical value thus ends up last and once; a non-explicit editor also drops the canonical form from the deleted list and no other list changes |
| ListEditorProxies.RemoveSpec | src/pxr/sdf/listEditorProxy.h:346-359 | removing from an explicit editor drops the canonical form of the value from the explicit list; an ordered-only non-explicit editor or an invalid proxy is unchanged |
| ListEditorProxies.RemoveRecordsDeletion | src/pxr/sdf/listEditorProxy.h:346-359 | removing from a full non-explicit editor drops the canonical form from the added, prepended and appended lists, and appends the value as given to the deleted list unless its canonical form is there already |
| ListEditorProxies.EraseSpec | src/pxr/sdf/listEditorProxy.h:361-375 | erasing drops the canonical form just as removing does, except that the deleted list is never touched and an ordered-only editor is unchanged |
| ListEditorProxies.DropEditsSpec | src/pxr/sdf/listEditorProxy.h:352-356 | dropping a value from the three insertion lists removes its canonical form from exactly those lists |
| ListEditorProxies.ContainsItemEditSpec | src/pxr/sdf/listEditorProxy.h:168-210 | a valid editor reports an item exactly when one of its lists holds the item's canonical form, or, when only added or explicit items count, one of the explicit, added, prepended or appended lists holds it |
| ListEditorProxies.RemoveFromAllSpec | src/pxr/sdf/listEditorProxy.h:212-225 | removing a value from all six lists removes its canonical form from each, keeps the rest of each list in order, and keeps the mode |
| ListEditorProxies.RemoveItemEditsSpec | src/pxr/sdf/listEditorProxy.h:212-225 | after removing an item's edits no list holds its canonical form, so `ContainsItemEdit` is false for it, and every list keeps its other items in order |
| SubLayerListEditor.OnEdit | src/pxr/sdf/subLayerListEditor.cpp:29-64 | when the stored offsets match the old paths in length, each new path gets the offset of its first old position and a new path the default offset; otherwise nothing is written |
| SubLayerListEditor.UnchangedPathsKeepOffsets | src/pxr/sdf/subLayerListEditor.cpp:47-61 | with distinct paths an edit that changes no path keeps every offset |
| SubLayerListEditor.RemovalDropsOffset | src/pxr/sdf/subLayerListEditor.cpp:47-61 | removing one sublayer removes its offset and keeps every other offset with its path |
| SubLayerListEditor.MovedPathKeepsOffset | src/pxr/sdf/subLayerListEditor.cpp:47-61 | a sublayer moved to a new position carries its offset along |
| PathTables.Find | src/pxr/sdf/pathTable.h:495-506 | the search answers a position holding the path exactly when the path is a key, and the end position otherwise |
| PathTables.Count | src/pxr/sdf/pathTable.h:543-546 | in a well-formed table the count is the number of entries keyed by the path, so at most one |
| PathTables.Clear | src/pxr/sdf/pathTable.h:599-614 | clearing leaves a well-formed table without keys |
| PathTables.BeginIsRoot | src/pxr/sdf/pathTable.h:440-446 | a non-empty well-formed table starts at the absolute root, which is a key |
| PathTables.PrefixedContained | src/pxr/sdf/pathTable.h:553-572 | every ancestor of a key is a key |
| PathTables.SubtreeEnd | src/pxr/sdf/pathTable.h:229-250 | the next-subtree position is the first position past the start whose path the start's path does not prefix |
| PathTables.FindSubtreeRange | src/pxr/sdf/pathTable.h:521-530 | the range is empty exactly when the path is not a key |
| PathTables.SubtreeRangeSpec | src/pxr/sdf/pathTable.h:521-530 | in a well-formed table a position lies in the range exactly when the path prefixes its key |
| PathTables.Erase | src/pxr/sdf/pathTable.h:466-478 | erasing reports whether the path was a key and leaves the table unchanged when it was not |
| PathTables.EraseSpec | src/pxr/sdf/pathTable.h:466-493 | erasing keeps the table well-formed and removes exactly the entries of the path's subtree, keeping the order of the rest |
| PathTables.Insert | src/pxr/sdf/pathTable.h:553-572 | inserting reports whether the path was new, changes nothing when it was not, and leaves the path a key |
| PathTables.InsertEntries | src/pxr/sdf/pathTable.h:553-572 | inserting keeps every entry, adds the new entry when the path was new, and adds nothing else but default entries for missing ancestors |
| PathTables.InsertSpec | src/pxr/sdf/pathTable.h:553-572 | inserting keeps the table well-formed and its keys become the old keys plus the path and all its ancestors |
| PathTables.At | src/pxr/sdf/pathTable.h:591-597 | indexing leaves the path a key and yields its stored value, or the default for a new path |
| PathTables.InsertNode | src/pxr/sdf/pathTable.h:574-589 | a node is moved in, leaving the handle empty, exactly when its key was new; otherwise the table is unchanged and the handle keeps the node |
| PathTables.RenameToItselfErases | src/pxr/sdf/pathTable.h:653-671 | renaming a present path to itself, as written, leaves the path no longer a key |
| PathTables.RenameSpec | src/pxr/sdf/pathTable.h:653-671 | a rename between paths that are not siblings, or to the same path, changes nothing; a rename between distinct siblings leaves a well-formed table without the old subtree, keeps every other entry, makes every renamed path a key, and carries each value to a renamed path that was not already a key |
| SpecData.EraseSpec | src/pxr/sdf/data.cpp:40-50 | erasing removes exactly the given spec and keeps every other spec as it was; a missing spec changes nothing |
| SpecData.MoveSpec | src/pxr/sdf/data.cpp:52-66 | a move with a missing source or an existing destination changes nothing; otherwise the spec appears at the new path, the old path is gone, and every other spec is kept |
| SpecData.CreateSpec | src/pxr/sdf/data.cpp:77-85 | the unknown type is refused; otherwise the spec at the path gets the type and keeps the fields it had (none for a new spec), and no other spec changes |
| SpecData.FieldIndex | src/pxr/sdf/data.cpp:241-264 | the field search finds the first field with the name, or reports the end when no field has it |
| SpecData.Erase | src/pxr/sdf/data.cpp:265-281 | erasing a field changes no other spec and keeps the spec's type |
| SpecData.Set | src/pxr/sdf/data.cpp:211-264 | setting a field changes no other spec, never creates a spec, and keeps the spec's type |
| SpecData.SetGet | src/pxr/sdf/data.cpp:203-281 | after setting a field of an existing spec, reading it gives the new value (the empty value when it was erased) and every other field of every spec reads as before |
| SpecData.SetList | src/pxr/sdf/data.cpp:211-303 | overwriting a field keeps the field list, a new field is listed last, and setting the empty value drops the name from the list |
| SpecData.SetWellFormed | src/pxr/sdf/data.cpp:211-281 | setting an acceptable value, or erasing, keeps every spec with distinct field names, non-empty values and ordered samples |
| SpecData.ListAllTimeSamples | src/pxr/sdf/data.cpp:304-316 | a time is listed exactly when some spec lists it for its own path |
| SpecData.PutSample | src/pxr/sdf/data.cpp:496-497 | inserting into an ordered sample map keeps it ordered and adds no time other than the one inserted |
| SpecData.RemoveSample | src/pxr/sdf/data.cpp:522-523 | erasing from a sample map only drops samples |
| SpecData.PutSampleAt | src/pxr/sdf/data.cpp:496-497 | after inserting, the inserted time reads as the new value and every other time as before |
| SpecData.RemoveSampleAt | src/pxr/sdf/data.cpp:522-523 | after erasing from an ordered map, the erased time reads as absent and every other time as before |
| SpecData.RemoveSampleOrdered | src/pxr/sdf/data.cpp:522-523 | erasing keeps the sample map ordered |
| SpecData.SetTimeSampleQuery | src/pxr/sdf/data.cpp:444-506 | after setting a sample of an existing spec, querying that time gives the value (nothing when the value was empty) and every other time answers as before |
| SpecData.EraseTimeSampleQuery | src/pxr/sdf/data.cpp:444-533 | after erasing a sample, querying that time gives nothing and every other time answers as before |
| SpecData.EraseLastSample | src/pxr/sdf/data.cpp:525-530 | erasing the only sample removes the time-samples field itself |
| SpecData.SetTimeSampleWellFormed | src/pxr/sdf/data.cpp:476-506 | setting a sample keeps the store well-formed |
| SpecData.EraseTimeSampleWellFormed | src/pxr/sdf/data.cpp:507-533 | erasing a sample keeps the store well-formed |
| SpecData.NumTimeSamplesCounts | src/pxr/sdf/data.cpp:318-399 | in a well-formed store the number of samples for a path is the number of distinct times listed for it |
| SpecData.LowerBound | src/pxr/sdf/data.cpp:352 | the lower bound is the first position whose time is not below the query, every earlier time being below it |
| SpecData.BracketSpec | src/pxr/sdf/data.cpp:336-364 | there are bracketing samples exactly when there are samples; both bounds are the first sample at or before it, the last at or after it, the query itself when it is a sample, and otherwise the two neighbouring samples with none between them |
| SpecData.BracketingTimeSamples | src/pxr/sdf/data.cpp:383-388 | over the set of all sample times of the store: there are bounds exactly when the set is non-empty; both bounds are in the set with no sample strictly between them; a sample at the query is both bounds; and a query with samples on both sides lies between the bounds |
| SpecData.PreviousSampleSpec | src/pxr/sdf/data.cpp:414-443 | there is no previous sample exactly when no sample lies below the query; otherwise it is the greatest sample time below the query |
| AbstractData.ListedIffNonEmpty | src/pxr/sdf/data.cpp:203-227 | in a well-formed store a field is listed exactly when it reads as a non-empty value |
| AbstractData.CreateSpecWellFormed | src/pxr/sdf/data.cpp:77-85 | creating a spec keeps the store well-formed |
| AbstractData.IsEmpty | src/pxr/sdf/abstractData.cpp:31-55 | the store is reported empty exactly when it holds no spec |
| AbstractData.SetAll | src/pxr/sdf/abstractData.cpp:71-74 | setting a run of fields of one spec leaves every other spec and the spec's type alone |
| AbstractData.SetAllList | src/pxr/sdf/abstractData.cpp:71-74 | after setting a run of fields the spec lists its old field names plus the set ones |
| AbstractData.SetAllGet | src/pxr/sdf/abstractData.cpp:71-74 | after setting a run of distinct fields each set field reads as set and every other field as before |
| AbstractData.CopyOneShape | src/pxr/sdf/abstractData.cpp:66-76 | visiting one source spec leaves it in the destination with the source's type and the union of both field-name lists, and keeps the store well-formed |
| AbstractData.CopyOneGet | src/pxr/sdf/abstractData.cpp:66-76 | after visiting one source spec, the source's fields read as in the source and any other field of the destination spec keeps its value |
| AbstractData.CopyStep | src/pxr/sdf/abstractData.cpp:62-92 | each visit extends the set of specs read as copied by the visited one and leaves the unvisited specs as the destination had them |
| AbstractData.CopyFrom | src/pxr/sdf/abstractData.cpp:62-92 | after copying in any visiting order, the store holds the specs of both stores, each source spec has the source's type, its fields read as in the source and its other fields as in the destination, a destination-only spec is unchanged, and copying into an empty store yields a store no query can tell from the source |
| AbstractData.CopiedAll | src/pxr/sdf/abstractData.cpp:62-92 | once every source spec has been visited, the properties of the copy stated above hold |
| AbstractData.AreSpecsAtPathEqual | src/pxr/sdf/abstractData.cpp:136-160 | two specs at a path match exactly when they have the same type, the same set of field names, and equal values for every field of the left one |
| AbstractData.FieldValuesAgree | src/pxr/sdf/abstractData.cpp:152-157 | the value loop succeeds exactly when every listed field reads the same in both stores |
| AbstractData.AllSpecsExist | src/pxr/sdf/abstractData.cpp:95-120 | the existence check passes exactly when every visited spec exists in the other store |
| AbstractData.AllSpecsMatch | src/pxr/sdf/abstractData.cpp:122-134 | the match check passes exactly when every spec of the left store matches the right one |
| AbstractData.Equals | src/pxr/sdf/abstractData.cpp:168-190 | equality holds exactly when both stores have the same specs and every spec matches; for well-formed stores exactly when no query can tell them apart |
| AbstractData.EqualsIffSameContents | src/pxr/sdf/abstractData.cpp:168-190 | for well-formed stores the three visitor checks accept exactly the pairs that agree on every spec, type and field |
| AbstractData.HasSpecAndField | src/pxr/sdf/abstractData.cpp:246-262 | the query reports the spec type, unknown and no value for a missing spec, and in a well-formed store the field's value |
| AbstractData.EraseDictValueByKey | src/pxr/sdf/abstractData.cpp:381-404 | erasing a key touches no other spec and leaves a field that holds no dictionary alone |
| AbstractData.SetDictValueByKey | src/pxr/sdf/abstractData.cpp:345-369 | setting a key touches no other spec |
| AbstractData.SetDictValueByKeyGet | src/pxr/sdf/abstractData.cpp:335-369 | after setting a key it reads as the value (nothing for the empty value) and every other key reads as before |
| AbstractData.EraseDictValueByKeyGet | src/pxr/sdf/abstractData.cpp:381-404 | after erasing a key it reads as nothing and every other key reads as before |
| AbstractData.SetDictKeyQueries | src/pxr/sdf/abstractData.cpp:301-333 | after setting a key it is present exactly when the value was not empty, and a dictionary set there lists exactly its own keys |
| AbstractData.EraseLastDictKey | src/pxr/sdf/abstractData.cpp:395-397 | erasing the last key of a dictionary removes the field |
| AbstractData.CopyOne | src/pxr/sdf/abstractData.cpp:66-76 | visiting one source spec changes no spec of the destination other than the visited one |
| MapEditors.Open | src/pxr/sdf/mapEditor.cpp:44-58 | the editor loads the field's map when the field holds one and an empty map otherwise |
| MapEditors.WriteBack | src/pxr/sdf/mapEditor.cpp:139-151 | writing back changes no spec other than the owner and neither creates nor removes the owner |
| MapEditors.WriteBackSpec | src/pxr/sdf/mapEditor.cpp:139-151 | after a write-back the field reads as the copy, or is cleared when the copy is empty, every other field reads as before, and the editor is in step with its field |
| MapEditors.Copy | src/pxr/sdf/mapEditor.cpp:88-92 | copying replaces the editor's map with the given one |
| MapEditors.SetEntry | src/pxr/sdf/mapEditor.cpp:94-98 | setting an entry maps the key to the value and keeps the other entries |
| MapEditors.Insert | src/pxr/sdf/mapEditor.cpp:100-108 | inserting reports success exactly for a new key; a present key keeps its value and nothing is written back |
| MapEditors.EraseEntry | src/pxr/sdf/mapEditor.cpp:110-118 | erasing reports success exactly when the key was present, removes it, and writes back only then |
| MapEditors.CopyKeepsInSync | src/pxr/sdf/mapEditor.cpp:88-151 | after copying, the editor's map matches the stored field |
| MapEditors.SetEntryKeepsInSync | src/pxr/sdf/mapEditor.cpp:94-151 | after setting an entry, the editor's map matches the stored field |
| MapEditors.InsertKeepsInSync | src/pxr/sdf/mapEditor.cpp:100-151 | an editor in step with its field stays in step after an insert, whether or not it wrote back |
| MapEditors.EraseKeepsInSync | src/pxr/sdf/mapEditor.cpp:110-151 | an editor in step with its field stays in step after an erase, and erasing the last entry clears the field |
| MapEditors.ReopenLoadsCopy | src/pxr/sdf/mapEditor.cpp:44-58 | opening a new editor on a field just written back loads the same map |
| CopyUtils.VisitedFields | src/pxr/sdf/copyUtils.cpp:462-495 | the fields of a visit sequence are listed in visit order, one per visit |
| CopyUtils.OnlyIn | src/pxr/sdf/copyUtils.cpp:488-494 | the tail loop reports every remaining field as present on exactly the side it came from |
| CopyUtils.MergeFromIsMerge | src/pxr/sdf/copyUtils.cpp:468-494 | the iterator-based walk from positions i and j is the merge of the two remaining suffixes |
| CopyUtils.MergeSpec | src/pxr/sdf/copyUtils.cpp:455-494 | for two sorted field lists the walk visits each field of either list exactly once, in increasing order, flagged as present in the source and/or the destination exactly when it is |
| CopyUtils.MergeHead | src/pxr/sdf/copyUtils.cpp:472-486 | prefixing a visit of a field below both remaining lists keeps the walk a correct sorted merge |
| CopyUtils.OnlyInSpec | src/pxr/sdf/copyUtils.cpp:488-494 | the tail loop visits exactly the remaining fields, in order |
| CopyUtils.MergeFromSrcStep | src/pxr/sdf/copyUtils.cpp:476-479 | a source field below the current destination field is visited as source-only and the source iterator advances |
| CopyUtils.MergeFromDstStep | src/pxr/sdf/copyUtils.cpp:481-485 | a destination field below the current source field is visited as destination-only and the destination iterator advances |
| CopyUtils.MergeFromEqualStep | src/pxr/sdf/copyUtils.cpp:472-475 | a field in both lists is visited once as present in both and both iterators advance |
| CopyUtils.SrcRunStep | src/pxr/sdf/copyUtils.cpp:476-479 | extending a run of source-only visits by one field keeps the run a prefix of the walk |
| CopyUtils.DstRunStep | src/pxr/sdf/copyUtils.cpp:481-485 | extending a run of destination-only visits by one field keeps the run a prefix of the walk |
| CopyUtils.VisitRest | src/pxr/sdf/copyUtils.cpp:488-494 | the final loop reports each remaining field of the unfinished list, flagged with its side |
| CopyUtils.VisitSrcRun | src/pxr/sdf/copyUtils.cpp:476-479 | the inner source loop consumes at least one field and its visits are exactly the walk's next steps |
| CopyUtils.VisitDstRun | src/pxr/sdf/copyUtils.cpp:481-485 | the inner destination loop consumes at least one field and its visits are exactly the walk's next steps |
| CopyUtils.ForEachField | src/pxr/sdf/copyUtils.cpp:455-495 | on sorted field lists the callback sequence is the sorted merge: every field of either list once, in order, with its presence flags |
| CopyUtils.PairChildren | src/pxr/sdf/copyUtils.cpp:136-147 | every copy request pairs the i-th source child with the i-th destination child, and every pair with two non-empty names is requested |
| CopyUtils.ScheduleRemovals | src/pxr/sdf/copyUtils.cpp:159-168 | exactly the old destination children missing from the new destination list are scheduled for removal |
| CopyUtils.ProcessChildren | src/pxr/sdf/copyUtils.cpp:113-170 | a children value of the wrong type adds nothing; otherwise the requests are the index-wise pairs of non-empty names, plus, when the destination had children held as a list, a removal for each old child no longer listed |
| CopyUtils.FixInternalSubrootPaths | src/pxr/sdf/copyUtils.cpp:717-733 | the fix-up never changes the asset path or the other fields and never empties or fills the prim path |
| CopyUtils.FixInternalSubrootPathsSpec | src/pxr/sdf/copyUtils.cpp:717-733 | external references, references without a prim path, references to a root prim and paths outside the copied prefix are left alone; an internal sub-root path under the prefix is moved to the new prefix; copying onto the same prefix changes nothing |
| CopyUtils.StartCopy | src/pxr/sdf/copyUtils.cpp:498-545 | an invalid layer is reported exactly when a layer handle is invalid; a copy that proceeds has two non-empty paths of compatible kinds and, for a target path, an existing destination spec; a copy goes through a temporary layer only within one layer with one path a prefix of the other |
| CopyUtils.StartCopyRefusals | src/pxr/sdf/copyUtils.cpp:509-533 | with valid layers and non-empty paths the copy is refused exactly for incompatible path kinds or a missing target spec; kind compatibility is symmetric and reflexive |
| CopyUtils.LastValue | src/pxr/sdf/copyUtils.cpp:278-290 | a field has a last value exactly when some entry for it is non-empty, and that value is non-empty |
| CopyUtils.NewPrimIsInert | src/pxr/sdf/copyUtils.cpp:272-297 | the new prim is inert exactly when the last non-empty specifier copied is over (or there is none) and the last non-empty type name copied is empty (or there is none) |
| ChildrenViews.FindFrom | src/pxr/sdf/children.cpp:85-101 | the search from position i stops at the first child with the key, or at the end when no later child has it |
| ChildrenViews.FindIndex | src/pxr/sdf/children.cpp:85-101 | the index found holds the key and no earlier child holds it; the number of children means there is none |
| ChildrenViews.Skip | src/pxr/sdf/childrenView.h:120-126 | the filter advances past exactly the children failing the predicate and stops at a passing child or the end |
| ChildrenViews.Begin | src/pxr/sdf/childrenView.h:415-419 | begin() is the first position whose child passes the predicate, or the end, and everything the view shows is shown from it on |
| ChildrenViews.Increment | src/pxr/sdf/childrenView.h:87-92 | advancing the filter iterator moves past exactly the filtered-out children to the next shown one or the end, so a shown child is followed by what the view shows from the new position |
| ChildrenViews.VisibleFromSpec | src/pxr/sdf/childrenView.h:115-126 | a child is shown from position i on exactly when it is stored from there and passes the predicate |
| ChildrenViews.SkipKeepsVisible | src/pxr/sdf/childrenView.h:87-99 | filtering does not change which children remain to be shown |
| ChildrenViews.TrivialPredicateShowsAll | src/pxr/sdf/childrenView.h:22-34 | with the trivial predicate the view shows every child in stored order |
| ChildrenViews.Iterate | src/pxr/sdf/childrenView.h:494-517 | walking from begin() to end() yields the shown children in stored order, and keys() their keys in the same order |
| ChildrenViews.Size | src/pxr/sdf/childrenView.h:439-442 | the size is the number of shown children |
| ChildrenViews.Empty | src/pxr/sdf/childrenView.h:444-447 | the view is empty exactly when no stored child passes the predicate |
| ChildrenViews.At | src/pxr/sdf/childrenView.h:449-454 | advancing begin() n times reaches the n-th shown child |
| ChildrenViews.Find | src/pxr/sdf/childrenView.h:466-477 | find by key returns the first child with the key when that child passes the predicate, and end() otherwise |
| ChildrenViews.FindValue | src/pxr/sdf/childrenView.h:479-483 | find by value returns a position holding that very value, shown and first with its key, or end() |
| ChildrenViews.Has | src/pxr/sdf/childrenView.h:535-538 | has is true exactly when some stored child has the key, whatever the predicate |
| ChildrenViews.HasValue | src/pxr/sdf/childrenView.h:540-544 | has by value is true exactly when some stored child shares the value's key |
| ChildrenViews.Count | src/pxr/sdf/childrenView.h:546-549 | count is at most one, and one exactly when some stored child has the key |
| ChildrenViews.Get | src/pxr/sdf/childrenView.h:551-569 | get returns the fallback when no child has the key, and otherwise the first stored child with it, filtered out or not |
| ChildrenViews.FindIffShown | src/pxr/sdf/childrenView.h:466-477 | with unique keys, find succeeds exactly for the keys of shown children and then points at the child get returns |
| ChildrenViews.HasSeesFilteredChild | src/pxr/sdf/childrenView.h:466-569 | whenever the first child with a key fails the predicate, has and count report the key, get returns that child, and find returns end() |
| ChildrenViews.EqualIgnoresFilter | src/pxr/sdf/children.cpp:127-134 | view equality is an equivalence that compares only layer, parent path and children field, so views differing only in their predicate are equal |
| PathExpressionEval.Flags | src/pxr/sdf/pathExpressionEval.cpp:60-72 | the skip loop reports one skipped pattern per pattern it passes |
| PathExpressionEval.SkipFrom | src/pxr/sdf/pathExpressionEval.cpp:60-72 | skipping always consumes at least one op of a non-empty program |
| PathExpressionEval.EvalExprEmpty | src/pxr/sdf/pathExpressionEval.cpp:43-111 | an empty program evaluates to constant false without calling the pattern callback |
| PathExpressionEval.Patterns | src/pxr/sdf/pathExpressionEval.cpp:776-859 | the compiled evaluator holds one pattern per pattern leaf of the expression |
| PathExpressionEval.MakeEvalImpl | src/pxr/sdf/pathExpressionEval.cpp:776-859 | an expression with unresolved references is refused; otherwise the program holds one pattern per pattern leaf |
| PathExpressionEval.Eval | src/pxr/sdf/pathExpressionEval.cpp:43-111 | the reference evaluation on the expression tree reports one skip flag per pattern leaf |
| PathExpressionEval.EvalRhs | src/pxr/sdf/pathExpressionEval.cpp:91-104 | evaluating a binary operation's right-hand side reports one skip flag per pattern leaf of it |
| PathExpressionEval.RhsOpsTail | src/pxr/sdf/pathExpressionEval.cpp:811-835 | a binary operation's right-hand side compiles to the logic op, an open parenthesis, the operand's ops and the closing ops |
| PathExpressionEval.SkipPattern | src/pxr/sdf/pathExpressionEval.cpp:64-65 | the skip loop calls the pattern callback with skip set for each pattern it passes |
| PathExpressionEval.SkipOpen | src/pxr/sdf/pathExpressionEval.cpp:67 | an open parenthesis deepens the skip nesting |
| PathExpressionEval.SkipClose | src/pxr/sdf/pathExpressionEval.cpp:68-71 | a close parenthesis ends the skip when the nesting returns to zero |
| PathExpressionEval.SkipLogic | src/pxr/sdf/pathExpressionEval.cpp:66 | logic ops are passed over while skipping |
| PathExpressionEval.ExecPattern | src/pxr/sdf/pathExpressionEval.cpp:82-85 | a pattern op calls the callback without skip and combines its result into the running result |
| PathExpressionEval.ExecNot | src/pxr/sdf/pathExpressionEval.cpp:86-90 | a Not op negates the running result and keeps its constancy |
| PathExpressionEval.ExecParen | src/pxr/sdf/pathExpressionEval.cpp:106-107 | parentheses do not change the running result |
| PathExpressionEval.SkipOps | src/pxr/sdf/pathExpressionEval.cpp:60-72 | skipping over a whole compiled subexpression passes exactly its pattern leaves and leaves the nesting unchanged |
| PathExpressionEval.SkipRhs | src/pxr/sdf/pathExpressionEval.cpp:60-72 | skipping over a binary operation's right-hand side passes exactly its pattern leaves |
| PathExpressionEval.SkipAfterRhs | src/pxr/sdf/pathExpressionEval.cpp:60-72 | the closing ops of a right-hand side end a skip started at its opening parenthesis |
| PathExpressionEval.ExecOps | src/pxr/sdf/pathExpressionEval.cpp:43-111 | running a compiled subexpression and then the rest of the program equals the reference evaluation of the subexpression followed by the rest |
| PathExpressionEval.ExecBinary | src/pxr/sdf/pathExpressionEval.cpp:91-104 | running a compiled binary operation is evaluating its left operand and then its right-hand side |
| PathExpressionEval.ExecRhs | src/pxr/sdf/pathExpressionEval.cpp:91-104 | running a compiled right-hand side agrees with its reference evaluation |
| PathExpressionEval.ExecDecided | src/pxr/sdf/pathExpressionEval.cpp:91-98 | an And after a false result, or an Or after a true one, skips the right-hand side's patterns and keeps the result |
| PathExpressionEval.ExecUndecided | src/pxr/sdf/pathExpressionEval.cpp:91-104 | otherwise the right-hand side is evaluated and its result replaces the running one |
| PathExpressionEval.ExecAfterRhs | src/pxr/sdf/pathExpressionEval.cpp:86-107 | the closing ops of a right-hand side negate its result for a difference and otherwise leave it |
| PathExpressionEval.EvalHolds | src/pxr/sdf/pathExpressionEval.cpp:43-111 | the short-circuit evaluation's verdict is the expression's set-membership meaning, whatever constancy it starts from |
| PathExpressionEval.EvaluatedConstantAppend | src/pxr/sdf/pathExpressionEval.cpp:82-85 | the evaluated patterns of two consecutive runs are all constant exactly when those of each run are |
| PathExpressionEval.EvalConstancy | src/pxr/sdf/pathExpressionEval.cpp:82-104 | a result is constant exactly when the starting result was and every pattern actually evaluated gave a constant result; skipped patterns do not matter |
| PathExpressionEval.EvalExprSpec | src/pxr/sdf/pathExpressionEval.cpp:43-111 | on a compiled expression the verdict is the expression's meaning, each pattern is called exactly once, evaluated or skipped, and the result is constant exactly when every evaluated pattern's was |
| PathExpressionEval.ShortCircuit | src/pxr/sdf/pathExpressionEval.cpp:91-98 | when the left operand decides an And or an Or, every right-hand pattern is called with skip set and the result is the left operand's |
| PathExpressionEval.DifferenceIsAndNot | src/pxr/sdf/pathExpressionEval.cpp:798-835 | a difference compiles to the program of an intersection with the complement |
| PathExpressionEval.CloseSegmentShape | src/pxr/sdf/pathExpressionEval.cpp:126-132 | closing a segment keeps the segments a partition of the components compiled so far and ends the last one at the current component |
| PathExpressionEval.InitStepBuilt | src/pxr/sdf/pathExpressionEval.cpp:136-176 | each step of the compile loop keeps the components, segments and stretch flags consistent with the pattern read so far |
| PathExpressionEval.InitStretchBuilt | src/pxr/sdf/pathExpressionEval.cpp:138-150 | a stretch component closes the current segment and sets the leading or trailing stretch flag |
| PathExpressionEval.Init | src/pxr/sdf/pathExpressionEval.cpp:114-236 | the matcher keeps the prefix, its segments partition its components, it has segments exactly when it has components, they are non-empty when no two stretches are adjacent, the stretch flags record a leading and a trailing stretch, and the object type is property-only for property patterns, prim-or-property after a trailing stretch or an empty final name, and prim-only otherwise |
| PathExpressionEval.FinishInit | src/pxr/sdf/pathExpressionEval.cpp:177-205 | finishing the compile closes the final segment unless the pattern ends in a stretch and sets the object type from the pattern's shape |
| PathExpressionEval.CompileComponent | src/pxr/sdf/pathExpressionEval.cpp:155-172 | a literal or empty name compiles to an explicit name and any other text to a whole-name glob, the predicate link is kept exactly when the component has a predicate, and the compiled component is a bare predicate exactly when its name is empty and it has a predicate |
| PathExpressionEval.PartitionCovers | src/pxr/sdf/pathExpressionEval.cpp:126-132 | every component lies in some segment |
| PathExpressionEval.CheckFrom | src/pxr/sdf/pathExpressionEval.cpp:257-308 | the component loop accepts exactly when every remaining component accepts its path element, and a rejection is varying false or a predicate's false result |
| PathExpressionEval.CheckExactMatch | src/pxr/sdf/pathExpressionEval.cpp:244-309 | an exact check succeeds exactly when the segment matches at the position, then as varying true advancing past the segment, and leaves the position alone on failure or when too few elements remain |
| PathExpressionEval.CheckMatch | src/pxr/sdf/pathExpressionEval.cpp:314-334 | the check succeeds exactly when the segment matches at the position or, starting with a bare predicate, one element earlier, and leaves the position alone on failure |
| PathExpressionEval.SearchFrom | src/pxr/sdf/pathExpressionEval.cpp:460-474 | the naive search succeeds exactly when some cursor position in the range matches near it, and a hit is the earliest place the segment matches from where the search starts |
| PathExpressionEval.SearchMatch | src/pxr/sdf/pathExpressionEval.cpp:448-474 | the bounded search succeeds exactly when the segment matches somewhere from where the search starts, which is one element before the cursor for a segment starting with a bare predicate, and a hit is the earliest such place |
| PathExpressionEval.SearchWindow | src/pxr/sdf/pathExpressionEval.cpp:499-506 | the cursor positions the bounded search tries, up to the minimum element count a segment needs, one fewer than its size when it starts with a bare predicate, are exactly enough to find every place the segment matches from where the search starts |
| PathExpressionEval.SearchMatchAsWritten | src/pxr/sdf/pathExpressionEval.cpp:448-474 | the search as written, bounded by the segment's full size, succeeds exactly when a cursor position leaving the whole segment's size of elements matches near it |
| PathExpressionEval.SearchAsWrittenMissesOverlap | src/pxr/sdf/pathExpressionEval.cpp:448-474 | with both predicates true, `//{a}//{b}//` matches `/W`, yet the search as written finds `{a}` there and then gives up on `{b}`, which the bounded search finds one element back |
| PathExpressionEval.CapitalPrimPathMatchesWorld | src/pxr/sdf/pathExpressionEval.cpp:656-660 | `//{capital}//{primPath}` matches `/World` when `/World` passes both predicates, both segments matching at `/World` without using up a second element |
| PathExpressionEval.MatchPrefixesTail | src/pxr/sdf/pathExpressionEval.cpp:403-415 | the paths `_Match` examines are all prefixes of the path from just below the pattern prefix on, or from the prefix itself for a leading stretch followed by a bare predicate |
| PathExpressionEval.PartitionWithin | src/pxr/sdf/pathExpressionEval.cpp:126-132 | every segment ends within the components |
| PathExpressionEval.WellFormedPartition | src/pxr/sdf/pathExpressionEval.cpp:114-236 | a partition into non-empty segments is a well-formed matcher |
| PathExpressionEval.Prefixes | src/pxr/sdf/pathExpressionEval.cpp:403-415 | asking for n prefixes of a path gives n of them, or all when the path is shorter |
| PathExpressionEval.PrefixesAt | src/pxr/sdf/pathExpressionEval.cpp:403-415 | the prefixes taken are the path's last ones, in order from the shortest |
| PathExpressionEval.MatchStep | src/pxr/sdf/pathExpressionEval.cpp:479-531 | a segment matched after the previous one, within their overlap, extends a valid partial match |
| PathExpressionEval.LaterSegmentsStartLater | src/pxr/sdf/pathExpressionEval.cpp:479-531 | only the first segment can start at the first component |
| PathExpressionEval.MatchSegment | src/pxr/sdf/pathExpressionEval.cpp:479-531 | a round of the segment loop succeeds exactly when the segment can be placed where the pattern allows it after the previous one, and then reports the earliest such place |
| PathExpressionEval.MatchInteriorSegment | src/pxr/sdf/pathExpressionEval.cpp:517-529 | a middle segment is found exactly when it matches somewhere from the cursor on, allowing one element of overlap for a bare predicate, and at the earliest such place |
| PathExpressionEval.FoundGivesSegment | src/pxr/sdf/pathExpressionEval.cpp:517-529 | a search hit far enough along places the segment validly |
| PathExpressionEval.MatchFirstSegment | src/pxr/sdf/pathExpressionEval.cpp:481-497 | an anchored first segment is found exactly when it matches at the head of the path, and also runs to its end when it is the only segment without a trailing stretch |
| PathExpressionEval.MatchLastSegment | src/pxr/sdf/pathExpressionEval.cpp:499-515 | without a trailing stretch the final segment is found exactly when it matches at the end of the path no earlier than the cursor allows, the overlap of a bare predicate included |
| PathExpressionEval.MatchSegments | src/pxr/sdf/pathExpressionEval.cpp:477-541 | the segment loop succeeds exactly when positions exist where every segment matches in order, the first at the head and the last at the end unless stretches free them, and then gives varying true |
| PathExpressionEval.Match | src/pxr/sdf/pathExpressionEval.cpp:337-542 | unsupported paths are constant false; a path outside the prefix is varying false above it and constant false elsewhere; the object-type checks reject with the constancy `_Match` gives; a pattern without components matches by stretch or by equality with the prefix; the result is true exactly when the path is supported, under the prefix, of an admitted object type, and its examined paths hold the segments in order, and a match of a pattern with components is constant exactly with a trailing stretch |
| PathExpressionEval.Below | src/pxr/sdf/pathExpressionEval.cpp:31-40 | the depths kept are exactly those below the new depth |
| PathExpressionEval.BelowOfSorted | src/pxr/sdf/pathExpressionEval.cpp:31-40 | on non-decreasing depths, dropping from the back keeps exactly the prefix below the new depth |
| PathExpressionEval.AllBelow | src/pxr/sdf/pathExpressionEval.cpp:31-40 | depths all below the new depth are all kept |
| PathExpressionEval.Pop | src/pxr/sdf/pathExpressionEval.cpp:31-40 | popping keeps a prefix of the match depths, drops only depths at or above the new depth, leaves the last kept one below it, keeps exactly the smaller depths of a non-decreasing stack, and clears a constant recorded at or below the new depth |
| PathExpressionEval.PrefixesTail | src/pxr/sdf/pathExpressionEval.cpp:403-415 | the last n prefixes are the tail of all prefixes |
| PathExpressionEval.FoundInTail | src/pxr/sdf/pathExpressionEval.cpp:448-474 | a match found in a tail of the prefixes is a match in the whole list, shifted |
| PathExpressionEval.Resume | src/pxr/sdf/pathExpressionEval.cpp:651-654 | a complete match is reopened by dropping its final depth, and a partial one is kept |
| PathExpressionEval.Finish | src/pxr/sdf/pathExpressionEval.cpp:740-772 | a complete match is true when the pattern has a trailing stretch, constant then, or when the final segment ended at the path; a complete match otherwise is constant false; an incomplete one is varying false; constant results are recorded in the search state |
| PathExpressionEval.EndFound | src/pxr/sdf/pathExpressionEval.cpp:719-733 | a segment found at the end of the examined paths, or one element earlier for a bare predicate, ends validly after the previous segment at the path or at its parent |
| PathExpressionEval.MissAtPath | src/pxr/sdf/pathExpressionEval.cpp:672-697 | a segment with a valid end at the path needs at least its minimum element count after the previous segment and, when it is an anchored first segment, exactly its size |
| PathExpressionEval.AppendDepth | src/pxr/sdf/pathExpressionEval.cpp:729-733 | pushing the depth of a segment matched after the previous one keeps the depth stack valid |
| PathExpressionEval.TrySegment | src/pxr/sdf/pathExpressionEval.cpp:663-733 | too many elements are reported only for an anchored first segment with more elements than its size; too few or a failed check means the segment has no valid end at the path; a match pushes a valid end at the path or its parent |
| PathExpressionEval.TryAtEnd | src/pxr/sdf/pathExpressionEval.cpp:699-733 | a match gives a valid end at the path or its parent, at the path for the final segment, and a miss means there is no valid end at the path |
| PathExpressionEval.MatchAtEnd | src/pxr/sdf/pathExpressionEval.cpp:719-727 | the final segment must match exactly at the end of the examined prefixes; any other segment may also match one element earlier when it starts with a bare predicate |
| PathExpressionEval.NextSegments | src/pxr/sdf/pathExpressionEval.cpp:651-772 | the segment loop extends the resumed depth stack with valid depths and reports true exactly when all segments are matched and the final one ends at the path or the pattern ends with a stretch, constant exactly then with a trailing stretch |
| PathExpressionEval.Next | src/pxr/sdf/pathExpressionEval.cpp:545-773 | a recorded constant is returned unchanged; an unsupported path is constant false at depth 0; above the prefix the result is varying false and outside it constant false at the prefix's depth; the object-type and component-less cases answer as `_Next` does; any true result is supported, under the prefix and of the right object type, with all segments matched; the depth stack stays valid |
| PathExpressionEval.NextAt | src/pxr/sdf/pathExpressionEval.cpp:545-773 | `_Next` on the path's prefix of depth d, where the walk stands at that depth, answers whether the prefix matches the pattern and leaves the walk standing at the next depth |
| PathExpressionEval.WalkStep | src/pxr/sdf/pathExpressionEval.cpp:545-773 | what `_Next` does at one prefix of a path, by cases on a recorded constant, the pattern prefix, the object type, a component-less pattern and the segment loop, gives whether that prefix matches and where the walk stands next |
| PathExpressionEval.SegmentsMatchIffChain | src/pxr/sdf/pathExpressionEval.cpp:337-542 | the segments match among the paths `_Match` examines for a prefix of a path exactly when a chain of valid segment ends runs along the path's prefixes up to it |
| PathExpressionEval.NextAlong | src/pxr/sdf/pathExpressionEval.cpp:545-773 | calling `_Next` on each prefix of a path from the root down, carrying the search state, answers for the path whether it matches exactly as `_Match` does |
| PathExpressionEval.NamesThenProperty | src/pxr/sdf/pathExpressionEval.cpp:141-203 | the matcher `_Init` builds for the property pattern `//a//b.c`: a segment `a` and a segment `b`, `c` after leading stretches, matching properties only |
| PathExpressionEval.PropertyPathPrefixes | src/pxr/sdf/pathExpressionEval.cpp:403-415 | the paths `_Match` examines for `//a//b.c` at `/a/b.c` are `/a`, `/a/b` and `/a/b.c` |
| PathExpressionEval.PropertySegmentsAt | src/pxr/sdf/pathExpressionEval.cpp:476-530 | the two segments of `//a//b.c` are found at `/a` and at `/a/b`, `/a/b.c`, in order and ending at the end |
| PathExpressionEval.PropertyPathMatches | src/pxr/sdf/pathExpressionEval.cpp:476-530 | `//a//b.c` matches `/a/b.c` whatever the predicates and the glob |
| PathExpressionEval.NoEndOfFirstSegment | src/pxr/sdf/pathExpressionEval.cpp:711-733 | the segment `a` cannot end at `/a/b` or `/a/b.c`, the only places `_Next` at `/a/b.c` tries it |
| PathExpressionEval.NoDepthAtPropertyPath | src/pxr/sdf/pathExpressionEval.cpp:711-741 | starting with no recorded depths, `_Next` at `/a/b.c` pushes none for `//a//b.c` |
| PathExpressionEval.PropertyWalkMisses | src/pxr/sdf/pathExpressionEval.cpp:597-603 | walking `_Next` from the root over `/a` and `/a/b` to `/a/b.c` answers false for `//a//b.c`, which matches `/a/b.c`: the prim paths return before any segment depth is recorded |
| PathExpressionEval.BareThenName | src/pxr/sdf/pathExpressionEval.cpp:141-180 | the matcher `_Init` builds for `//{p}/b`: one segment, a bare predicate then the name `b`, after a leading stretch |
| PathExpressionEval.FinalCursorBeforeFirst | src/pxr/sdf/pathExpressionEval.cpp:499-510 | for `//{p}/b` on `/x` the final segment passes `_Match`'s and `_Next`'s element-count check, yet the cursor `GetSize()` paths before the end lies one before the first examined path; the pattern does not match `/x` |
| AssetPaths.GetAssetPath | assetPath.h:199-202 | the path handed on is the evaluated path when one is set and the authored path otherwise |
| AssetPaths.SetAuthoredPath | assetPath.h:231-233 | setting the authored path changes only that field |
| AssetPaths.SetEvaluatedPath | assetPath.h:237-239 | setting the evaluated path changes only that field |
| AssetPaths.SetResolvedPath | assetPath.h:242-244 | setting the resolved path changes only that field |
| UsdaFormat.CanReadImpl | usdaFileFormat.cpp:111-135 | a file is accepted only when it holds at least the cookie's length and the read succeeded |
| UsdaFormat.PrimSections | usdaFileFormat.cpp:332-336 | one root-prim section per root prim, in the layer's order |
| TextOutput.FlushedHeaderLandsAtStart | src/pxr/sdf/fileIO.h:194-223 | on a seekable output written sequentially, seeking to 0 and flushing a header writes it over the start of everything delivered so far |
| ListEditorProxies.RemoveValueSpec | src/pxr/sdf/listEditorProxy.h:346-359 | removing a value from one list drops the canonical form from that list, keeps the rest in order and the editor free of duplicates |
| ListEditorProxies.PushBackSpec | src/pxr/sdf/listEditorProxy.h:412-419 | pushing a value not yet in a list appends it at the end |
| ListEditorProxies.AddIfMissingSpec | src/pxr/sdf/listEditorProxy.h:412-419 | a list holding the canonical form is left unchanged; otherwise the value as given is appended |
| ListEditorProxies.AddOrReplaceSpec | src/pxr/sdf/listEditorProxy.h:421-431 | when the canonical form is found the value as given is written over it, which changes nothing when the two are equal; otherwise the value is appended; for a canonical value this is exactly `_AddIfMissing` |
| ListEditorProxies.PrependValueSpec | src/pxr/sdf/listEditorProxy.h:433-443 | a list whose first item is the canonical form is left unchanged; otherwise the value goes first and the other items follow in order without the canonical form; a canonical value ends up first and once, and no duplicate arises |
| ListEditorProxies.AppendValueSpec | src/pxr/sdf/listEditorProxy.h:445-457 | a non-empty list whose last item is the canonical form is left unchanged; otherwise the other items keep their order without the canonical form and the value goes last; a canonical value ends up last and once, and no duplicate arises |
| ListEditorProxies.RemoveFromListsSpec | src/pxr/sdf/listEditorProxy.h:212-225 | removing a value from several lists drops its canonical form from exactly those lists and keeps every other list and the editor's mode |
| ListEditorProxies.EditsKeepSettled | src/pxr/sdf/listEditorProxy.h:301-375 | in a field that stores only canonical values, a search for any value sees every copy of it, and every edit with a canonical value keeps the field storing only canonical values |

## Left out

- Input and output, threading and diagnostics are not modelled. A coding error appears only as a failure result or unchanged state, and its message text is dropped, except where the message is itself the result (`PermissionToEdit`).
- Change blocks, change notification and layer handles are not modelled. A layer is a number, and a missing handle is `None`.
- `SdfPath` internals are not modelled: path.cpp is not part of this model. Paths are name sequences; `ReplacePrefix` is sequence-prefix replacement and path order is lexicographic on elements.
- The path-expression parser, its algebra and `pathExpression.cpp` are not part of this model. The expression and pattern trees are input datatypes of the evaluator.
- pathExpressionEval.h is not part of this model. `_IsBarePredicate` and `_SegmentMinMatchElts` are written out from their use in the evaluator.
- Glob matching (`ArchRegex`) and the predicate library's function bodies are function parameters.
- predicateLibrary.h is not part of this model. Combining a predicate result into a running one keeps the new value, and is constant only when both results are.
- The `.usda` version limits (minimum input, maximum input, maximum output and default output versions) are parameters, because the headers defining them are not part of this model.
- `TfEscapeStringReplaceChar` is a parameter. The quoted-string and asset-path round trips are proved for escape-free text, the asset-path one for text without control characters.
- `SdfAssetPath`'s UTF-8 check is not modelled, because a string is a sequence of Unicode characters; its control-character check is.
- numericCast.h is not part of this model. `GfNumericCast` is modelled as a range check on the exact integer value.
- Floating point is symbolic: a double is a finite real, an infinity or a NaN. Half and float conversions, `GfHalf` and vector construction are left out.
- The full value-factory type table is not modelled, only the lookup and the "None" fallback on a set of registered names.
- `SdfAbstractData::GetPreviousTimeSampleForPath` is not modelled, because it steps with `nexttoward`. `SdfData`'s override is modelled. Time-sample keys are `real`, since only their order matters.
- `SdfData::ListAllTimeSamples` returns a `std::set`, and so does the model. `BracketingTimeSamples` takes, with that set, the increasing sequence in which the `std::set` iterates, since the model has no ordered set type.
- VtDictionary key paths with `:` separators are not modelled. The dictionary operations address a single level of keys.
- The map editor's key and value validation (`IsValidKey`, `IsValidValue`) uses the spec's schema and is not modelled. Every key and value is accepted.
- ListEditorProxies.Edit: does not consult `PermissionToEdit` or `_ValidateEdit`. The list-op editor that calls them when a proxy edits a list (listOpListEditor.h) is not part of this model, so where and in which order they are called is not known here. Both checks are modelled on their own in `ListEditors`, and `UniqueEditDistinct` shows the duplicate check never refuses the duplicate-free lists the proxy's edits produce.
- ListEditorProxies: the field's type policy appears only as its canonicalisation, a function parameter `canon`. The policies themselves are in proxyPolicies.h, which is not part of this model. An example is the path policy, which makes a relative path absolute at the owning prim. The proxy's searches look for `canon(x)`, as `Sdf_ListEditor::Find` and `Count` do (listEditor.h:150-171). Its writes store `x` as `SdfListEditorProxy` passes it. Whether the list proxy canonicalises again before it stores is not known here, since listProxy.h is not part of this model. If it does, what is stored is the model's result for `canon(x)`, since the policies' canonicalisations are idempotent.
- ListEditorProxies.AddSpec: promises nothing when the target list holds the value itself while the value is not its own canonical form (the `FindableIn` requires). The search then misses that copy and the write adds a second one. What is stored then depends on the list op's de-duplication and on `_ValidateEdit`, which the list-op editor (not part of this model) calls. `EditsKeepSettled` shows that this never happens in a field that stores only canonical values.
- ListEditorProxies.PrependSpec: the same gap as `AddSpec`, for the prepended or explicit list.
- ListEditorProxies.AppendSpec: the same gap as `AddSpec`, for the appended or explicit list.
- ListEditorProxies.RemoveRecordsDeletion: the same gap as `AddSpec`, for the deleted list.
- ListEditorProxies.AddIfMissingSpec: the same gap as `AddSpec`, for the list it edits.
- ListEditorProxies.AddOrReplaceSpec: the same gap as `AddSpec`, for the list it edits.
- ListEditorProxies.PrependValueSpec: the same gap as `AddSpec`, for the list it edits.
- ListEditorProxies.AppendValueSpec: the same gap as `AddSpec`, for the list it edits.
- Of `SdfListEditorProxy`, the core edits are modelled: `Add`, `Prepend`, `Append`, `Remove`, `Erase`, `ContainsItemEdit`, `RemoveItemEdits` and the helpers they call. `CopyItems`, `ClearEdits`, `ModifyItemEdits`, `ReplaceItemEdits` and the callback form of `ApplyEditsToList` are thin forwards and are left out. The list-op operations they forward to are modelled in `ListOps`.
- `SdfCopySpec` is modelled only up to its argument checks and its choice to copy through a temporary layer. The copy loop itself works on `SdfLayer`, which is not part of this model.
- children.cpp is used only for `Find` and `IsEqualTo`. The spec handles a view converts are opaque values, with a key function and a predicate.
- ListOpApply.ComposeLaw: the composition law is proved for a duplicate-free input list, the case the exhaustive composition test in test_SdfListOp.py checks. With duplicates the model still computes a result, but no law is stated about it.
- ListOpApply.ApplyMembers: membership of the applied list is stated for a duplicate-free input list.
- PathExpressionEval.NextAlong: agreement of `_Next` with `_Match` along a walk from the root is proved only for patterns that are not property-only. On a prim path `_Next` answers such a pattern with a varying false before its segment loop and records no segment depth (pathExpressionEval.cpp:597-603), so a segment that ends at a prim path is never recorded and the walk can then miss a property path that `_Match` accepts. `PropertyWalkMisses` shows this for `//a//b.c` walked down to `/a/b.c`. The caller in pathExpressionEval.h decides which paths reach `_Next` and with which search state. That file is not part of this model, so this is not claimed as a defect. The second requires (a prim-only pattern does not end with a stretch) excludes nothing `_Init` builds, since a trailing stretch makes the pattern match prims and properties (pathExpressionEval.cpp:188-202). The third requires (a pattern without components that begins with a stretch also ends with one) excludes nothing either: `_Init` always sets the end flag for such a pattern.
- PathExpressionEval.MatchLastSegment: when a final segment starts with a bare predicate and follows a leading stretch, the paths `_Match` examines can number one fewer than the segment's components while still passing the check for enough elements. `//{p}/b` on `/x` is such a case, shown by `FinalCursorBeforeFirst`. The C++ then places the cursor `GetSize()` paths before the end, one before the first examined path, and reads there, which is undefined behaviour (pathExpressionEval.cpp:499-510). The model answers varying false instead. This is also whether the pattern matches the path, since no placement of the segment fits.
- PathExpressionEval.TryAtEnd: in `_Next` the same case arises (pathExpressionEval.cpp:711-722). `GetPrefixes` yields at most as many paths as the path has elements, so for `//{p}/b` at `/x` the two paths asked for come back as one, and `prefixes.end() - GetSize()` lies before the first of them. The C++ reads there, which is undefined behaviour. The model answers a miss instead (varying false, no depth pushed).
- PathExpressionEval.Match: searches for each segment with the corrected bound listed under "## Findings", not the bound `searchMatch` is written with. `SearchMatchAsWritten` keeps the written bound.
- PathExpressionEval.SkipFrom: its own contract only bounds how much it consumes. What it skips is stated by `SkipOps`, `SkipRhs` and `SkipAfterRhs`.

## Findings

| source | as written | input that shows it | evidently intended | confidence | as-written member | corrected member |
|---|---|---|---|---|---|---|
| src/pxr/sdf/listEditor.h:315-320 | `operator<<` writes `'prepended': ` right after the added list and `'appended': ` right after the prepended list, with no `", "` between them, though it writes `", "` before `'deleted'` and before `'ordered'` | a valid, non-explicit, not ordered-only editor with all lists empty prints `{ 'added': []'prepended': []'appended': [], 'deleted': [], 'ordered': [] }` | every label after the first is preceded by `", "` | not executed | ListEditors.PrintAsWritten, ListEditors.PrintMissesSeparators | ListEditors.Print, ListEditors.CorrectedSeparatesLabels |
| src/pxr/sdf/pathTable.h:653-671 | `UpdateForRename(p, p)` re-inserts each subtree entry at its own path, which is already present and so does nothing, then erases `p` | a table holding `p`, renamed from `p` to `p`, loses `p` and its whole subtree | renaming a path to itself leaves the table unchanged | not executed | PathTables.UpdateForRenameAsWritten, PathTables.RenameToItselfErases | PathTables.UpdateForRename, PathTables.RenameSpec |
| src/pxr/sdf/pathExpressionEval.cpp:448-474 | `searchMatch` gives up when the segment's size exceeds the paths left after the cursor, and stops its cursor that many paths before the end, though a segment that starts with a bare predicate tests that predicate on the path before the cursor and so needs one path fewer | with both predicates true, `//{a}//{b}//` on `/W`: `{a}` matches at `/W` and leaves the cursor after it, and `{b}`, of size 1, finds no path left, so the match fails although `/W` passes `{b}` too | the search bound is the segment's minimum number of matched paths (`_SegmentMinMatchElts`), as the evaluator's own incremental matcher uses | not executed | PathExpressionEval.SearchMatchAsWritten, PathExpressionEval.SearchAsWrittenMissesOverlap | PathExpressionEval.SearchMatch, PathExpressionEval.Match |

=== FILE: abstract_data.dfy ===
/** The generic algorithms every spec store shares (abstractData.cpp):
    emptiness, whole-store copy and equality (each a visitor over the
    store's specs, in an order the store does not promise), the combined
    spec-and-field query, and editing one key of a dictionary-valued field.
    They are stated here over the in-memory store of `SpecData`. */
module AbstractData {
  import opened Wrappers
  import opened Seqs
  import opened Paths
  import opened SpecData

  // ---- observational equality ----------------------------------------------

  /** Two stores that no query can tell apart: the same specs, of the same
      types, with the same value for every field name. */
  ghost predicate SameContents(a: Data, b: Data) {
    forall p ::
      (HasSpec(a, p) <==> HasSpec(b, p))
      && GetSpecType(a, p) == GetSpecType(b, p)
      && forall g :: Get(a, p, g) == Get(b, p, g)
  }

  /** In a well-formed store a field is listed exactly when it reads as a
      non-empty value. */
  lemma ListedIffNonEmpty(d: Data, p: Path, g: Token)
    requires WellFormed(d)
    ensures g in List(d, p) <==> Get(d, p, g) != Empty
  {
    if p in d {
      var fs := d[p].fields;
      var i := FieldIndex(fs, g);
      if i < |fs| {
        assert ValueOk(fs[i].value);
      }
    }
  }

  /** `CreateSpec` keeps the store well formed. */
  lemma CreateSpecWellFormed(d: Data, p: Path, t: SpecType)
    requires WellFormed(d)
    ensures WellFormed(CreateSpec(d, p, t))
  {
    var r := CreateSpec(d, p, t);
    if t != Unknown {
      assert SpecOk(r[p]) by {
        if p !in d {
          assert Names(r[p].fields) == [];
        }
      }
    }
  }

  // ---- IsEmpty --------------------------------------------------------------

  /** `IsEmpty`: a visitor that stops at the first spec it is shown. */
  method IsEmpty(d: Data) returns (empty: bool)
    ensures empty <==> forall p :: !HasSpec(d, p)
  {
    empty := true;
    if d.Keys != {} {
      var p :| p in d.Keys;
      assert HasSpec(d, p);
      empty := false;
    } else {
      forall p
        ensures !HasSpec(d, p)
      {
        assert p !in d.Keys;
      }
    }
  }

  // ---- CopyFrom -------------------------------------------------------------

  /** Sets each listed field in turn, as the copy visitor's inner loop does. */
  function SetAll(d: Data, p: Path, fs: seq<Field>): (r: Data)
    ensures forall q :: q != p ==> (q in r <==> q in d) && (q in r ==> r[q] == d[q])
    ensures (p in r <==> p in d) && (p in r ==> r[p].specType == d[p].specType)
    decreases |fs|
  {
    if fs == [] then d else SetAll(Set(d, p, fs[0].name, fs[0].value), p, fs[1..])
  }

  /** The fields the copy visitor writes for the spec at `p`: each name
      `List` gives, with the value `Get` reads. */
  function ListedFields(src: Data, p: Path): (fs: seq<Field>)
    ensures Names(fs) == List(src, p)
  {
    var keys := List(src, p);
    seq(|keys|, i requires 0 <= i < |keys| => Field(keys[i], Get(src, p, keys[i])))
  }

  /** In a well-formed store the listed fields are the spec's own fields. */
  lemma ListedFieldsAreFields(src: Data, p: Path)
    requires WellFormed(src) && p in src
    ensures ListedFields(src, p) == src[p].fields
  {
    var fs := src[p].fields;
    var ls := ListedFields(src, p);
    forall k | 0 <= k < |fs|
      ensures ls[k] == fs[k]
    {
      FieldIndexUnique(fs, k);
    }
  }

  /** Setting well-formed fields keeps the store well formed. */
  lemma {:induction false} SetAllWellFormed(d: Data, p: Path, fs: seq<Field>)
    requires WellFormed(d)
    requires forall i :: 0 <= i < |fs| ==> ValueOk(fs[i].value)
    ensures WellFormed(SetAll(d, p, fs))
    decreases |fs|
  {
    if fs != [] {
      assert ValueOk(fs[0].value);
      SetWellFormed(d, p, fs[0].name, fs[0].value);
      assert forall i :: 0 <= i < |fs[1..]| ==> fs[1..][i] == fs[i + 1];
      SetAllWellFormed(Set(d, p, fs[0].name, fs[0].value), p, fs[1..]);
    }
  }

  /** Setting well-formed fields grows the listed names by the new ones. */
  lemma {:induction false} SetAllList(d: Data, p: Path, fs: seq<Field>)
    requires WellFormed(d) && p in d
    requires forall i :: 0 <= i < |fs| ==> ValueOk(fs[i].value)
    ensures Elems(List(SetAll(d, p, fs), p)) == Elems(List(d, p)) + Elems(Names(fs))
    decreases |fs|
  {
    if fs != [] {
      var d1 := Set(d, p, fs[0].name, fs[0].value);
      assert ValueOk(fs[0].value);
      SetWellFormed(d, p, fs[0].name, fs[0].value);
      SetAddsName(d, p, fs[0].name, fs[0].value);
      NamesElems(fs);
      assert forall i :: 0 <= i < |fs[1..]| ==> fs[1..][i] == fs[i + 1];
      SetAllList(d1, p, fs[1..]);
    }
  }

  /** Setting a non-empty value lists the field's name. */
  lemma SetAddsName(d: Data, p: Path, name: Token, v: Value)
    requires WellFormed(d) && p in d && v != Empty
    ensures Elems(List(Set(d, p, name, v), p)) == Elems(List(d, p)) + {name}
  {
    SetList(d, p, name, v);
    if name !in List(d, p) {
      ElemsAppend(List(d, p), [name]);
    }
  }

  lemma NamesElems(fs: seq<Field>)
    requires fs != []
    ensures Elems(Names(fs)) == {fs[0].name} + Elems(Names(fs[1..]))
  {
    NamesCons(fs);
    ElemsAppend([fs[0].name], Names(fs[1..]));
  }

  /** Setting distinctly named, well-formed fields: each reads back as
      set, and every other field reads as before. */
  lemma {:induction false} SetAllGet(d: Data, p: Path, fs: seq<Field>, g: Token)
    requires WellFormed(d) && p in d
    requires Unique(Names(fs)) && forall i :: 0 <= i < |fs| ==> ValueOk(fs[i].value)
    ensures Get(SetAll(d, p, fs), p, g) == if g in Names(fs) then fs[FieldIndex(fs, g)].value else Get(d, p, g)
    decreases |fs|
  {
    if fs != [] {
      var d1 := Set(d, p, fs[0].name, fs[0].value);
      assert ValueOk(fs[0].value);
      SetWellFormed(d, p, fs[0].name, fs[0].value);
      SetGet(d, p, fs[0].name, fs[0].value, p, g);
      NamesCons(fs);
      UniqueCons(fs[0].name, Names(fs[1..]));
      assert forall i :: 0 <= i < |fs[1..]| ==> fs[1..][i] == fs[i + 1];
      SetAllGet(d1, p, fs[1..], g);
      if g != fs[0].name && g in Names(fs[1..]) {
        assert FieldIndex(fs, g) == 1 + FieldIndex(fs[1..], g);
      }
    }
  }

  /** The copy visitor on one source spec: create it with the source's
      type, then set every listed field to the source's value. */
  function CopyOne(d: Data, src: Data, p: Path): (r: Data)
    ensures forall q :: q != p ==> (q in r <==> q in d) && (q in r ==> r[q] == d[q])
  {
    SetAll(CreateSpec(d, p, GetSpecType(src, p)), p, ListedFields(src, p))
  }

  /** Copying one spec of a well-formed store: it exists with the source's
      type and gains the source's field names, and the store stays well
      formed. */
  lemma CopyOneShape(d: Data, src: Data, p: Path)
    requires WellFormed(d) && WellFormed(src) && p in src
    ensures var r := CopyOne(d, src, p);
      WellFormed(r) && p in r && r[p].specType == src[p].specType
      && Elems(List(r, p)) == Elems(List(d, p)) + Elems(List(src, p))
  {
    var c := CreateSpec(d, p, GetSpecType(src, p));
    CreateSpecWellFormed(d, p, GetSpecType(src, p));
    ListedFieldsAreFields(src, p);
    var fs := src[p].fields;
    assert SpecOk(src[p]);
    SetAllWellFormed(c, p, fs);
    SetAllList(c, p, fs);
    if p !in d {
      assert List(c, p) == [];
    }
  }

  /** After copying one spec, the source's fields read as in the source and
      any other field the destination had keeps its value. */
  lemma CopyOneGet(d: Data, src: Data, p: Path, g: Token)
    requires WellFormed(d) && WellFormed(src) && p in src
    ensures Get(CopyOne(d, src, p), p, g) == if g in List(src, p) then Get(src, p, g) else Get(d, p, g)
  {
    var c := CreateSpec(d, p, GetSpecType(src, p));
    CreateSpecWellFormed(d, p, GetSpecType(src, p));
    ListedFieldsAreFields(src, p);
    var fs := src[p].fields;
    assert SpecOk(src[p]);
    SetAllGet(c, p, fs, g);
    if p !in d {
      assert FieldValue(c, p, g) == None;
    }
    if g in List(src, p) {
      FieldIndexUnique(fs, FieldIndex(fs, g));
    }
  }

  /** What the copy has achieved once the specs at `done` are copied:
      those read as copied, every other spec is the destination's. */
  ghost predicate Copied(r: Data, dst: Data, src: Data, done: set<Path>) {
    WellFormed(r) && CopiedSpecs(r, dst, src, done) && CopiedReads(r, dst, src, done)
    && forall p :: p !in done ==> (p in r <==> p in dst) && (p in r ==> r[p] == dst[p])
  }

  ghost predicate CopiedSpecs(r: Data, dst: Data, src: Data, done: set<Path>) {
    forall p :: p in done ==>
      p in src && p in r && r[p].specType == src[p].specType
      && Elems(List(r, p)) == Elems(List(dst, p)) + Elems(List(src, p))
  }

  ghost predicate CopiedReads(r: Data, dst: Data, src: Data, done: set<Path>) {
    forall p, g :: p in done ==>
      Get(r, p, g) == if g in List(src, p) then Get(src, p, g) else Get(dst, p, g)
  }

  /** Before any visit the destination is what has been copied. */
  lemma CopiedNothing(dst: Data, src: Data)
    requires WellFormed(dst)
    ensures Copied(dst, dst, src, src.Keys - src.Keys)
  {
    assert src.Keys - src.Keys == {};
  }

  /** One visit of the copy visitor extends what has been copied. */
  lemma CopyStep(r: Data, dst: Data, src: Data, todo: set<Path>, p: Path)
    requires WellFormed(dst) && WellFormed(src)
    requires todo <= src.Keys && p in todo && Copied(r, dst, src, src.Keys - todo)
    ensures Copied(CopyOne(r, src, p), dst, src, src.Keys - (todo - {p}))
  {
    var done := src.Keys - todo;
    assert src.Keys - (todo - {p}) == done + {p};
    CopyStepSpecs(r, dst, src, done, p);
    CopyStepReads(r, dst, src, done, p);
  }

  lemma CopyStepSpecs(r: Data, dst: Data, src: Data, done: set<Path>, p: Path)
    requires WellFormed(src) && WellFormed(r)
    requires CopiedSpecs(r, dst, src, done) && p in src && p !in done
    requires (p in r <==> p in dst) && (p in r ==> r[p] == dst[p])
    ensures WellFormed(CopyOne(r, src, p))
    ensures CopiedSpecs(CopyOne(r, src, p), dst, src, done + {p})
  {
    var next := CopyOne(r, src, p);
    CopyOneShape(r, src, p);
    assert List(r, p) == List(dst, p);
    CopiedSpecsKept(r, next, dst, src, done);
  }

  /** Specs already copied stay copied while the visit writes elsewhere. */
  lemma CopiedSpecsKept(r: Data, next: Data, dst: Data, src: Data, done: set<Path>)
    requires CopiedSpecs(r, dst, src, done)
    requires forall q :: q in done ==> q in next && next[q] == r[q]
    ensures CopiedSpecs(next, dst, src, done)
  {
    forall q | q in done
      ensures List(next, q) == List(r, q)
    {
      assert next[q] == r[q];
    }
  }

  lemma CopyStepReads(r: Data, dst: Data, src: Data, done: set<Path>, p: Path)
    requires WellFormed(src) && WellFormed(r)
    requires CopiedReads(r, dst, src, done) && p in src && p !in done
    requires (p in r <==> p in dst) && (p in r ==> r[p] == dst[p])
    ensures CopiedReads(CopyOne(r, src, p), dst, src, done + {p})
  {
    var next := CopyOne(r, src, p);
    forall q, g | q in done + {p}
      ensures Get(next, q, g) == if g in List(src, q) then Get(src, q, g) else Get(dst, q, g)
    {
      if q == p {
        CopyOneGet(r, src, p, g);
        SameSpecSameGet(r, dst, p, g);
      } else {
        SameSpecSameGet(next, r, q, g);
      }
    }
  }

  /** A spec that is the same in two stores reads the same. */
  lemma SameSpecSameGet(a: Data, b: Data, p: Path, g: Token)
    requires (p in a <==> p in b) && (p in a ==> a[p] == b[p])
    ensures Get(a, p, g) == Get(b, p, g)
  {
    assert FieldValue(a, p, g) == FieldValue(b, p, g);
  }

  /** `CopyFrom`: visits every source spec (in whatever order the store
      yields them) and copies it into the destination. */
  method CopyFrom(dst: Data, src: Data) returns (r: Data)
    requires WellFormed(dst) && WellFormed(src)
    ensures WellFormed(r)
    ensures forall p :: HasSpec(r, p) <==> HasSpec(dst, p) || HasSpec(src, p)
    ensures forall p :: p in src ==>
      p in r && r[p].specType == src[p].specType
      && Elems(List(r, p)) == Elems(List(dst, p)) + Elems(List(src, p))
    ensures forall p, g :: Get(r, p, g) == if g in List(src, p) then Get(src, p, g) else Get(dst, p, g)
    ensures forall p :: p in dst && p !in src ==> p in r && r[p] == dst[p]
    ensures dst == map[] ==> SameContents(r, src)
  {
    r := dst;
    var todo := src.Keys;
    CopiedNothing(dst, src);
    while todo != {}
      invariant todo <= src.Keys
      invariant Copied(r, dst, src, src.Keys - todo)
      decreases |todo|
    {
      var p :| p in todo;
      CopyStep(r, dst, src, todo, p);
      r := CopyOne(r, src, p);
      todo := todo - {p};
    }
    CopiedAll(r, dst, src);
  }

  /** Once every source spec is copied, the copy reads as `CopyFrom`
      promises. */
  lemma CopiedAll(r: Data, dst: Data, src: Data)
    requires WellFormed(dst) && WellFormed(src) && Copied(r, dst, src, src.Keys - {})
    ensures WellFormed(r)
    ensures forall p :: HasSpec(r, p) <==> HasSpec(dst, p) || HasSpec(src, p)
    ensures forall p :: p in src ==>
      p in r && r[p].specType == src[p].specType
      && Elems(List(r, p)) == Elems(List(dst, p)) + Elems(List(src, p))
    ensures forall p, g :: Get(r, p, g) == if g in List(src, p) then Get(src, p, g) else Get(dst, p, g)
    ensures forall p :: p in dst && p !in src ==> p in r && r[p] == dst[p]
    ensures dst == map[] ==> SameContents(r, src)
  {
    assert src.Keys - {} == src.Keys;
    forall p, g | p !in src
      ensures Get(r, p, g) == Get(dst, p, g)
    {
      assert FieldValue(r, p, g) == FieldValue(dst, p, g);
    }
    forall p
      ensures HasSpec(r, p) <==> HasSpec(dst, p) || HasSpec(src, p)
    {
      assert p in src <==> p in src.Keys;
    }
    if dst == map[] {
      CopyIntoEmpty(r, src);
    }
  }

  /** What `CopyFrom` leaves when the destination starts empty reads exactly
      like the source. */
  lemma CopyIntoEmpty(r: Data, src: Data)
    requires WellFormed(src)
    requires forall p :: HasSpec(r, p) <==> HasSpec(src, p)
    requires forall p :: p in src ==> p in r && r[p].specType == src[p].specType
    requires forall p, g :: Get(r, p, g) == if g in List(src, p) then Get(src, p, g) else Get(map[], p, g)
    ensures SameContents(r, src)
  {
    forall p, g
      ensures Get(r, p, g) == Get(src, p, g)
    {
      ListedIffNonEmpty(src, p, g);
      assert FieldValue(map[], p, g) == None;
    }
  }

  // ---- Equals ---------------------------------------------------------------

  /** `_AreSpecsAtPathEqual`, as a condition: equal types, equal sets of
      field names, and equal values for the left store's fields. */
  predicate SpecsMatchAt(lhs: Data, rhs: Data, p: Path) {
    GetSpecType(lhs, p) == GetSpecType(rhs, p)
    && Elems(List(lhs, p)) == Elems(List(rhs, p))
    && FieldsAgree(lhs, rhs, p, List(lhs, p))
  }

  predicate FieldsAgree(lhs: Data, rhs: Data, p: Path, keys: seq<Token>) {
    forall i :: 0 <= i < |keys| ==> Get(lhs, p, keys[i]) == Get(rhs, p, keys[i])
  }

  /** `_AreSpecsAtPathEqual`: the type and field-name checks, then a loop
      comparing the left store's field values, stopping at the first
      difference. */
  method AreSpecsAtPathEqual(lhs: Data, rhs: Data, p: Path) returns (equal: bool)
    ensures equal <==> SpecsMatchAt(lhs, rhs, p)
  {
    var lhsFields := List(lhs, p);
    if GetSpecType(lhs, p) != GetSpecType(rhs, p) || Elems(lhsFields) != Elems(List(rhs, p)) {
      return false;
    }
    equal := FieldValuesAgree(lhs, rhs, p, lhsFields);
  }

  /** The value loop of `_AreSpecsAtPathEqual`. */
  method FieldValuesAgree(lhs: Data, rhs: Data, p: Path, keys: seq<Token>) returns (agree: bool)
    ensures agree <==> FieldsAgree(lhs, rhs, p, keys)
  {
    var i := 0;
    while i < |keys|
      invariant i <= |keys|
      invariant forall k :: 0 <= k < i ==> Get(lhs, p, keys[k]) == Get(rhs, p, keys[k])
    {
      var lv, rv := Get(lhs, p, keys[i]), Get(rhs, p, keys[i]);
      if lv != rv {
        return false;
      }
      i := i + 1;
    }
    return true;
  }

  /** `SdfAbstractData_CheckAllSpecsExist`: visits `visited` and stops at the
      first spec `other` lacks. */
  method AllSpecsExist(visited: Data, other: Data) returns (passed: bool)
    ensures passed <==> visited.Keys <= other.Keys
  {
    passed := true;
    var todo := visited.Keys;
    while todo != {} && passed
      invariant todo <= visited.Keys
      invariant passed <==> visited.Keys - todo <= other.Keys
      decreases |todo|
    {
      var p :| p in todo;
      if p !in other {
        passed := false;
      }
      todo := todo - {p};
    }
  }

  /** `SdfAbstractData_CheckAllSpecsMatch`: visits the left store and stops
      at the first spec that does not match. */
  method AllSpecsMatch(lhs: Data, rhs: Data) returns (passed: bool)
    ensures passed <==> forall p :: p in lhs.Keys ==> SpecsMatchAt(lhs, rhs, p)
  {
    passed := true;
    var todo := lhs.Keys;
    while todo != {} && passed
      invariant todo <= lhs.Keys
      invariant passed <==> forall p :: p in lhs.Keys - todo ==> SpecsMatchAt(lhs, rhs, p)
      decreases |todo|
    {
      var p :| p in todo;
      passed := AreSpecsAtPathEqual(lhs, rhs, p);
      todo := todo - {p};
    }
  }

  /** `Equals`: each store's specs exist in the other, then every spec of
      this store matches. For well-formed stores that is exactly
      observational equality. */
  method Equals(a: Data, b: Data) returns (eq: bool)
    ensures eq <==> a.Keys == b.Keys && forall p :: p in a.Keys ==> SpecsMatchAt(a, b, p)
    ensures WellFormed(a) && WellFormed(b) ==> (eq <==> SameContents(a, b))
  {
    eq := AllSpecsExist(a, b);
    if eq {
      eq := AllSpecsExist(b, a);
      if eq {
        eq := AllSpecsMatch(a, b);
      }
    }
    if WellFormed(a) && WellFormed(b) {
      EqualsIffSameContents(a, b);
    }
  }

  /** The three visitor checks accept exactly the pairs of well-formed
      stores no query can tell apart. */
  lemma EqualsIffSameContents(a: Data, b: Data)
    requires WellFormed(a) && WellFormed(b)
    ensures (a.Keys == b.Keys && forall p :: p in a.Keys ==> SpecsMatchAt(a, b, p)) <==> SameContents(a, b)
  {
    if a.Keys == b.Keys && forall p :: p in a.Keys ==> SpecsMatchAt(a, b, p) {
      forall p, g
        ensures Get(a, p, g) == Get(b, p, g)
      {
        ListedIffNonEmpty(a, p, g);
        ListedIffNonEmpty(b, p, g);
        if p in a && g in List(a, p) {
          assert SpecsMatchAt(a, b, p);
          var i :| 0 <= i < |List(a, p)| && List(a, p)[i] == g;
        } else if p in a {
          assert g !in Elems(List(a, p));
        } else {
          assert FieldValue(a, p, g) == None && FieldValue(b, p, g) == None;
        }
      }
    }
    if SameContents(a, b) {
      assert a.Keys == b.Keys by {
        forall p ensures p in a <==> p in b {
          assert HasSpec(a, p) <==> HasSpec(b, p);
        }
      }
      forall p | p in a
        ensures SpecsMatchAt(a, b, p)
      {
        assert GetSpecType(a, p) == GetSpecType(b, p);
        forall g
          ensures g in Elems(List(a, p)) <==> g in Elems(List(b, p))
        {
          ListedIffNonEmpty(a, p, g);
          ListedIffNonEmpty(b, p, g);
          assert Get(a, p, g) == Get(b, p, g);
        }
        forall i | 0 <= i < |List(a, p)|
          ensures Get(a, p, List(a, p)[i]) == Get(b, p, List(a, p)[i])
        {
          assert forall g :: Get(a, p, g) == Get(b, p, g);
        }
      }
    }
  }

  // ---- HasSpecAndField -----------------------------------------------------

  /** `HasSpecAndField`: the spec type (unknown for a missing spec), and the
      field's value when the type is known and the field exists. */
  function HasSpecAndField(d: Data, p: Path, name: Token): (r: (SpecType, Option<Value>))
    ensures r.0 == GetSpecType(d, p)
    ensures !HasSpec(d, p) ==> r == (Unknown, None)
    ensures WellFormed(d) ==> r.1 == FieldValue(d, p, name)
  {
    var specType := GetSpecType(d, p);
    if specType != Unknown && Has(d, p, name) then (specType, FieldValue(d, p, name))
    else (specType, None)
  }

  // ---- dictionary keys ------------------------------------------------------

  /** `GetDictValueByKey` for a single-level key: the entry of a dictionary
      field, and nothing when the field holds no dictionary. */
  function GetDictValueByKey(d: Data, p: Path, name: Token, key: Token): Option<Value> {
    match Get(d, p, name)
    case Dict(m) => if key in m then Some(m[key]) else None
    case _ => None
  }

  /** `EraseDictValueByKey`: a field that holds no dictionary is left
      alone; a dictionary that loses its last entry takes the field with
      it. */
  function EraseDictValueByKey(d: Data, p: Path, name: Token, key: Token): (r: Data)
    ensures forall q :: q != p ==> (q in r <==> q in d) && (q in r ==> r[q] == d[q])
    ensures !Get(d, p, name).Dict? ==> r == d
  {
    match Get(d, p, name)
    case Dict(m) =>
      var rest := m - {key};
      if rest == map[] then Erase(d, p, name) else Set(d, p, name, Dict(rest))
    case _ => d
  }

  /** `SetDictValueByKey`: an empty value erases the key; otherwise the key
      is set in the field's dictionary, which starts empty when the field
      holds anything else. */
  function SetDictValueByKey(d: Data, p: Path, name: Token, key: Token, v: Value): (r: Data)
    ensures forall q :: q != p ==> (q in r <==> q in d) && (q in r ==> r[q] == d[q])
  {
    if v == Empty then EraseDictValueByKey(d, p, name, key)
    else
      var m := match Get(d, p, name) case Dict(m) => m case _ => map[];
      Set(d, p, name, Dict(m[key := v]))
  }

  /** Setting a key reads back (nothing for the empty value), and every
      other key of the field reads as before when the field held a
      dictionary. */
  lemma SetDictValueByKeyGet(d: Data, p: Path, name: Token, key: Token, v: Value, k: Token)
    requires WellFormed(d) && p in d
    ensures var r := SetDictValueByKey(d, p, name, key, v);
      GetDictValueByKey(r, p, name, k)
        == if k == key then (if v == Empty then None else Some(v)) else GetDictValueByKey(d, p, name, k)
  {
    if v == Empty {
      EraseDictValueByKeyGet(d, p, name, key, k);
    } else {
      var m := match Get(d, p, name) case Dict(m) => m case _ => map[];
      SetGet(d, p, name, Dict(m[key := v]), p, name);
      if !Get(d, p, name).Dict? {
        assert GetDictValueByKey(d, p, name, k) == None;
      }
    }
  }

  /** Erasing a key removes it and keeps every other key. */
  lemma EraseDictValueByKeyGet(d: Data, p: Path, name: Token, key: Token, k: Token)
    requires WellFormed(d) && p in d
    ensures GetDictValueByKey(EraseDictValueByKey(d, p, name, key), p, name, k)
      == if k == key then None else GetDictValueByKey(d, p, name, k)
  {
    match Get(d, p, name)
    case Dict(m) =>
      var rest := m - {key};
      if rest == map[] {
        SetGet(d, p, name, Empty, p, name);
        assert k != key && k in m ==> k in rest;
      } else {
        SetGet(d, p, name, Dict(rest), p, name);
      }
    case _ =>
  }

  /** `HasDictKey`: the field holds a dictionary with an entry at `key`. */
  predicate HasDictKey(d: Data, p: Path, name: Token, key: Token) {
    GetDictValueByKey(d, p, name, key).Some?
  }

  /** `ListDictKeys`: the keys of the dictionary stored at `key`; none when
      that entry is missing or is not a dictionary. */
  function ListDictKeys(d: Data, p: Path, name: Token, key: Token): set<Token> {
    match GetDictValueByKey(d, p, name, key)
    case Some(Dict(m)) => m.Keys
    case _ => {}
  }

  /** After setting a key, the key is present exactly when the value was
      not empty, and a dictionary set there lists its own keys. */
  lemma SetDictKeyQueries(d: Data, p: Path, name: Token, key: Token, v: Value)
    requires WellFormed(d) && p in d
    ensures var r := SetDictValueByKey(d, p, name, key, v);
      (HasDictKey(r, p, name, key) <==> v != Empty)
      && (v.Dict? ==> ListDictKeys(r, p, name, key) == v.dict.Keys)
  {
    SetDictValueByKeyGet(d, p, name, key, v, key);
  }

  /** Erasing the last key of a dictionary field removes the field. */
  lemma EraseLastDictKey(d: Data, p: Path, name: Token, key: Token, v: Value)
    requires WellFormed(d) && p in d && Get(d, p, name) == Dict(map[key := v])
    ensures !Has(EraseDictValueByKey(d, p, name, key), p, name)
  {
    assert map[key := v] - {key} == map[];
    SetList(d, p, name, Empty);
    WithoutMembers(List(d, p), {name}, name);
  }
}

=== FILE: asset_path.dfy ===
/** `SdfAssetPath`: the path as authored, the path with expression
    variables evaluated (empty when there were none) and the resolved path
    (empty until resolution). Constructing one from text refuses control
    characters. */
module AssetPaths {
  import Strings

  datatype AssetPath = AssetPath(authored: string, evaluated: string, resolved: string)

  const Empty := AssetPath("", "", "")

  /** The characters an asset path may not hold: the C0 controls
      U+0000..U+001F, delete U+007F and the C1 controls U+0080..U+009F. */
  predicate IsControl(c: char) {
    c as int < 0x20 || 0x7F <= c as int <= 0x9F
  }

  /** Text an asset path may hold, checked one character at a time as the
      constructor scans it. */
  predicate ValidText(s: string) {
    |s| == 0 || (!IsControl(s[0]) && ValidText(s[1..]))
  }

  /** Valid text is exactly text with no control character anywhere. */
  lemma {:induction false} ValidTextHasNoControl(s: string)
    ensures ValidText(s) <==> forall i :: 0 <= i < |s| ==> !IsControl(s[i])
  {
    if |s| > 0 {
      ValidTextHasNoControl(s[1..]);
      assert forall i :: 1 <= i < |s| ==> s[i] == s[1..][i - 1];
    }
  }

  /** `SdfAssetPath(authoredPath)`: the authored path alone when it is
      valid text, the empty asset path otherwise. */
  function FromAuthored(p: string): AssetPath {
    if ValidText(p) then AssetPath(p, "", "") else Empty
  }

  /** The constructed path keeps the text exactly when it is valid, and it
      is always valid. */
  lemma FromAuthoredSpec(p: string)
    ensures var a := FromAuthored(p);
      a.evaluated == [] && a.resolved == [] && ValidText(a.authored)
    ensures FromAuthored(p).authored == p <==> ValidText(p)
    ensures !ValidText(p) ==> FromAuthored(p) == Empty
  {
  }

  /** `GetAssetPath`: the input to asset resolution. */
  function GetAssetPath(a: AssetPath): (r: string)
    ensures a.evaluated != [] ==> r == a.evaluated
    ensures a.evaluated == [] ==> r == a.authored
  {
    if |a.evaluated| == 0 then a.authored else a.evaluated
  }

  function SetAuthoredPath(a: AssetPath, p: string): (r: AssetPath)
    ensures r.authored == p && r.evaluated == a.evaluated && r.resolved == a.resolved
  {
    a.(authored := p)
  }

  function SetEvaluatedPath(a: AssetPath, p: string): (r: AssetPath)
    ensures r.evaluated == p && r.authored == a.authored && r.resolved == a.resolved
  {
    a.(evaluated := p)
  }

  function SetResolvedPath(a: AssetPath, p: string): (r: AssetPath)
    ensures r.resolved == p && r.authored == a.authored && r.evaluated == a.evaluated
  {
    a.(resolved := p)
  }

  /** `operator==`: all three fields. */
  predicate Equal(a: AssetPath, b: AssetPath) {
    a.authored == b.authored && a.evaluated == b.evaluated && a.resolved == b.resolved
  }

  predicate NotEqual(a: AssetPath, b: AssetPath) {
    !Equal(a, b)
  }

  /** `operator<`: by authored path, then resolved path, then evaluated
      path. */
  predicate Less(a: AssetPath, b: AssetPath) {
    Strings.Less(a.authored, b.authored)
    || (a.authored == b.authored && Strings.Less(a.resolved, b.resolved))
    || (a.authored == b.authored && a.resolved == b.resolved && Strings.Less(a.evaluated, b.evaluated))
  }

  predicate LessEq(a: AssetPath, b: AssetPath) {
    !Less(b, a)
  }

  predicate Greater(a: AssetPath, b: AssetPath) {
    Less(b, a)
  }

  predicate GreaterEq(a: AssetPath, b: AssetPath) {
    !Less(a, b)
  }

  /** Equality is field-wise, hence the value identity. */
  lemma EqualIsIdentity(a: AssetPath, b: AssetPath)
    ensures Equal(a, b) <==> a == b
    ensures NotEqual(a, b) <==> a != b
  {
  }

  /** `<` is a strict total order. */
  lemma LessIsStrictTotalOrder(a: AssetPath, b: AssetPath, c: AssetPath)
    ensures !Less(a, a)
    ensures Less(a, b) ==> !Less(b, a)
    ensures Less(a, b) && Less(b, c) ==> Less(a, c)
    ensures a == b || Less(a, b) || Less(b, a)
  {
    Strings.LessIrreflexive(a.authored);
    Strings.LessIrreflexive(a.resolved);
    Strings.LessIrreflexive(a.evaluated);
    Strings.LessTrichotomous(a.authored, b.authored);
    Strings.LessTrichotomous(a.resolved, b.resolved);
    Strings.LessTrichotomous(a.evaluated, b.evaluated);
    if Less(a, b) {
      LessAsymmetric(a, b);
    }
    if Less(a, b) && Less(b, c) {
      LessTransitive(a, b, c);
    }
  }

  lemma LessAsymmetric(a: AssetPath, b: AssetPath)
    requires Less(a, b)
    ensures !Less(b, a)
  {
    if Strings.Less(a.authored, b.authored) {
      Strings.LessAsymmetric(a.authored, b.authored);
    } else if Strings.Less(a.resolved, b.resolved) {
      Strings.LessAsymmetric(a.resolved, b.resolved);
    } else {
      Strings.LessAsymmetric(a.evaluated, b.evaluated);
    }
  }

  lemma LessTransitive(a: AssetPath, b: AssetPath, c: AssetPath)
    requires Less(a, b) && Less(b, c)
    ensures Less(a, c)
  {
    if Strings.Less(a.authored, b.authored) && Strings.Less(b.authored, c.authored) {
      Strings.LessTransitive(a.authored, b.authored, c.authored);
    } else if a.authored == b.authored == c.authored {
      if Strings.Less(a.resolved, b.resolved) && Strings.Less(b.resolved, c.resolved) {
        Strings.LessTransitive(a.resolved, b.resolved, c.resolved);
      } else if a.resolved == b.resolved == c.resolved {
        Strings.LessTransitive(a.evaluated, b.evaluated, c.evaluated);
      }
    }
  }

  /** The derived operators agree with the order they are derived from. */
  lemma DerivedOperators(a: AssetPath, b: AssetPath)
    ensures LessEq(a, b) <==> Less(a, b) || a == b
    ensures Greater(a, b) <==> !LessEq(a, b)
    ensures GreaterEq(a, b) <==> Greater(a, b) || a == b
  {
    LessIsStrictTotalOrder(a, b, a);
  }

  /** The empty asset path is below every other one. */
  lemma EmptyIsSmallest(a: AssetPath)
    requires a != Empty
    ensures Less(Empty, a)
  {
  }

  /** A path orders before the paths it is a proper prefix of, e.g. "/a" and
      "/a/b". */
  lemma AuthoredPrefixIsLess(a: AssetPath, b: AssetPath)
    requires a.authored < b.authored
    ensures Less(a, b)
  {
    Strings.ProperPrefixIsLess(a.authored, b.authored);
  }

  /** Filling in the resolved path of an unresolved asset path moves it
      up, whatever its evaluated path. */
  lemma ResolvingIsGreater(a: AssetPath, r: string)
    requires a.resolved == [] && r != []
    ensures Less(a, SetResolvedPath(a, r))
  {
  }

  /** Filling in the evaluated path of an asset path without one moves it
      up, whatever its resolved path. */
  lemma EvaluatingIsGreater(a: AssetPath, e: string)
    requires a.evaluated == [] && e != []
    ensures Less(a, SetEvaluatedPath(a, e))
  {
  }

  /** Only the evaluated path, when set, decides what is resolved. */
  lemma GetAssetPathAfterSetters(a: AssetPath, p: string)
    ensures GetAssetPath(SetResolvedPath(a, p)) == GetAssetPath(a)
    ensures p != [] ==> GetAssetPath(SetEvaluatedPath(a, p)) == p
    ensures GetAssetPath(SetEvaluatedPath(a, [])) == a.authored
    ensures a.evaluated == [] ==> GetAssetPath(SetAuthoredPath(a, p)) == p
  {
  }
}

=== FILE: children_view.dfy ===
/** The read-only, filtered view of a spec's children (childrenView.h).
    A view holds the children of one field of one spec in their stored
    order, a predicate choosing which children it shows, and the child
    policy's key of a child. Iterators are positions in the unfiltered
    list; the filter iterator skips the positions whose child fails the
    predicate. Lookups by key (`has`, `count`, `get`) consult the
    unfiltered list; `find` and iteration honour the predicate. */
module ChildrenViews {
  import opened Seqs
  import opened Paths

  type Token = string

  /** A view of the children stored under `childrenKey` of the spec at
      `parent` in layer `layer`. */
  datatype View<!V> = View(
    layer: nat, parent: Path, childrenKey: Token,
    children: seq<V>, pred: V -> bool, keyOf: V -> Token)

  // ---- the children store: Sdf_Children::Find --------------------------------

  function FindFrom<V>(v: View<V>, key: Token, i: nat): (r: nat)
    requires i <= |v.children|
    ensures i <= r <= |v.children|
    ensures r < |v.children| ==> v.keyOf(v.children[r]) == key
    ensures forall k :: i <= k < r ==> v.keyOf(v.children[k]) != key
    decreases |v.children| - i
  {
    if i == |v.children| || v.keyOf(v.children[i]) == key then i else FindFrom(v, key, i + 1)
  }

  /** The index of the first child with the key, the number of children
      when there is none. */
  function FindIndex<V>(v: View<V>, key: Token): (r: nat)
    ensures r <= |v.children|
    ensures r < |v.children| ==> v.keyOf(v.children[r]) == key
    ensures forall k :: 0 <= k < r ==> v.keyOf(v.children[k]) != key
  {
    FindFrom(v, key, 0)
  }

  // ---- the filter iterator ---------------------------------------------------

  /** `_Filter`: from position `i`, the first position whose child passes
      the predicate, or the end. */
  function Skip<V>(v: View<V>, i: nat): (j: nat)
    requires i <= |v.children|
    ensures i <= j <= |v.children|
    ensures forall k :: i <= k < j ==> !v.pred(v.children[k])
    ensures j < |v.children| ==> v.pred(v.children[j])
    decreases |v.children| - i
  {
    if i == |v.children| || v.pred(v.children[i]) then i else Skip(v, i + 1)
  }

  /** `begin()`: the first shown child's position, from which on the
      view shows everything it shows. */
  function Begin<V>(v: View<V>): (pos: nat)
    ensures pos <= |v.children| && (pos < |v.children| ==> v.pred(v.children[pos]))
    ensures forall k :: 0 <= k < pos ==> !v.pred(v.children[k])
    ensures VisibleFrom(v, pos) == Visible(v)
  {
    SkipKeepsVisible(v, 0);
    Skip(v, 0)
  }

  /** `end()`: the filter of the end position is the end. */
  function End<V>(v: View<V>): nat {
    |v.children|
  }

  /** `operator++` of the filter iterator: the next shown child's
      position; from a shown child, the view shows that child and then
      what it shows from the new position. */
  function Increment<V>(v: View<V>, pos: nat): (next: nat)
    requires pos < |v.children|
    ensures pos < next <= |v.children| && (next < |v.children| ==> v.pred(v.children[next]))
    ensures forall k :: pos < k < next ==> !v.pred(v.children[k])
    ensures v.pred(v.children[pos]) ==> VisibleFrom(v, pos) == [v.children[pos]] + VisibleFrom(v, next)
  {
    SkipKeepsVisible(v, pos + 1);
    Skip(v, pos + 1)
  }

  /** The children the view shows from position `i` on: those passing the
      predicate, in stored order. */
  function VisibleFrom<V>(v: View<V>, i: nat): seq<V>
    requires i <= |v.children|
    decreases |v.children| - i
  {
    if i == |v.children| then []
    else (if v.pred(v.children[i]) then [v.children[i]] else []) + VisibleFrom(v, i + 1)
  }

  /** Everything the view shows. */
  function Visible<V>(v: View<V>): seq<V> {
    VisibleFrom(v, 0)
  }

  /** A child is shown exactly when it is stored and passes the predicate. */
  lemma {:induction false} VisibleFromSpec<V>(v: View<V>, i: nat, x: V)
    requires i <= |v.children|
    ensures x in VisibleFrom(v, i) <==> x in v.children[i..] && v.pred(x)
    decreases |v.children| - i
  {
    if i < |v.children| {
      VisibleFromSpec(v, i + 1, x);
      assert v.children[i..] == [v.children[i]] + v.children[i + 1..];
    }
  }

  /** Skipping filtered-out children does not change what is shown. */
  lemma {:induction false} SkipKeepsVisible<V>(v: View<V>, i: nat)
    requires i <= |v.children|
    ensures VisibleFrom(v, Skip(v, i)) == VisibleFrom(v, i)
    decreases |v.children| - i
  {
    if i < |v.children| && !v.pred(v.children[i]) {
      SkipKeepsVisible(v, i + 1);
    }
  }

  /** With a predicate that passes everything, the view shows all
      children: the trivial predicate's specialisation. */
  lemma {:induction false} TrivialPredicateShowsAll<V>(v: View<V>, i: nat)
    requires i <= |v.children|
    requires forall x :: v.pred(x)
    ensures VisibleFrom(v, i) == v.children[i..]
    decreases |v.children| - i
  {
    if i < |v.children| {
      TrivialPredicateShowsAll(v, i + 1);
      assert v.children[i..] == [v.children[i]] + v.children[i + 1..];
    }
  }

  /** Walking the filter iterator from `begin()` to `end()`: the values
      collected (`values()`), and their keys (`keys()`), in order. */
  method Iterate<V>(v: View<V>) returns (values: seq<V>, keys: seq<Token>)
    ensures values == Visible(v)
    ensures |keys| == |values| && forall k :: 0 <= k < |keys| ==> keys[k] == v.keyOf(values[k])
  {
    var pos: nat := Begin(v);
    values, keys := [], [];
    while pos != End(v)
      invariant pos <= |v.children|
      invariant pos < |v.children| ==> v.pred(v.children[pos])
      invariant values + VisibleFrom(v, pos) == Visible(v)
      invariant |keys| == |values| && forall k :: 0 <= k < |keys| ==> keys[k] == v.keyOf(values[k])
      decreases |v.children| - pos
    {
      var next := Increment(v, pos);
      AppendAssoc(values, [v.children[pos]], VisibleFrom(v, next));
      values, keys := values + [v.children[pos]], keys + [v.keyOf(v.children[pos])];
      pos := next;
    }
  }

  /** `size()`: the distance from `begin()` to `end()`. */
  method Size<V>(v: View<V>) returns (n: nat)
    ensures n == |Visible(v)|
  {
    var pos: nat := Begin(v);
    n := 0;
    while pos != End(v)
      invariant pos <= |v.children|
      invariant pos < |v.children| ==> v.pred(v.children[pos])
      invariant n + |VisibleFrom(v, pos)| == |Visible(v)|
      decreases |v.children| - pos
    {
      n := n + 1;
      pos := Increment(v, pos);
    }
  }

  /** `empty()`: `begin() == end()`, which holds exactly when no child
      passes the predicate. */
  function Empty<V(!new)>(v: View<V>): (r: bool)
    ensures r <==> Visible(v) == []
    ensures r <==> forall x :: x in v.children ==> !v.pred(x)
  {
    assert v.children[0..] == v.children;
    assert forall x :: x in v.children ==> (x in VisibleFrom(v, 0) <==> v.pred(x)) by {
      forall x | x in v.children {
        VisibleFromSpec(v, 0, x);
      }
    }
    Begin(v) == End(v)
  }

  /** `operator[](n)`: advancing `begin()` n times reaches the n-th shown
      child. */
  method At<V>(v: View<V>, n: nat) returns (x: V)
    requires n < |Visible(v)|
    ensures x == Visible(v)[n]
  {
    var pos: nat := Begin(v);
    for k := 0 to n
      invariant pos <= |v.children|
      invariant pos < |v.children| ==> v.pred(v.children[pos])
      invariant VisibleFrom(v, pos) == Visible(v)[k..]
    {
      assert pos < |v.children| by {
        assert VisibleFrom(v, pos) != [];
      }
      assert Visible(v)[k..][1..] == Visible(v)[k + 1..];
      pos := Increment(v, pos);
    }
    assert pos < |v.children| by {
      assert VisibleFrom(v, pos) != [];
    }
    x := v.children[pos];
  }

  // ---- lookups ---------------------------------------------------------------

  /** `find(key)`: the position of the child with the key, or `end()` when
      there is no such child or it is filtered out. */
  function Find<V>(v: View<V>, key: Token): (r: nat)
    ensures r <= |v.children|
    ensures r < |v.children| <==> FindIndex(v, key) < |v.children| && v.pred(v.children[FindIndex(v, key)])
    ensures r < |v.children| ==> r == FindIndex(v, key)
  {
    var inner := FindIndex(v, key);
    var iter := Skip(v, inner);
    if iter == inner then iter else End(v)
  }

  /** `find(value)`: the position of `x` when it is the shown child with
      its key, `end()` otherwise. */
  function FindValue<V(==)>(v: View<V>, x: V): (r: nat)
    ensures r <= |v.children|
    ensures r < |v.children| ==> v.children[r] == x && v.pred(x) && r == FindIndex(v, v.keyOf(x))
  {
    var i := Find(v, v.keyOf(x));
    if i != End(v) && v.children[i] == x then i else End(v)
  }

  /** `has(key)`: whether a child has the key, filtered out or not. */
  function Has<V(!new)>(v: View<V>, key: Token): (r: bool)
    ensures r <==> exists x :: x in v.children && v.keyOf(x) == key
  {
    var i := FindIndex(v, key);
    assert i < |v.children| ==> v.children[i] in v.children;
    i != |v.children|
  }

  /** `has(value)`: whether a child has the key of `x`. */
  function HasValue<V(!new)>(v: View<V>, x: V): (r: bool)
    ensures r <==> exists y :: y in v.children && v.keyOf(y) == v.keyOf(x)
  {
    Has(v, v.keyOf(x))
  }

  /** `count(key)`: one when `has(key)`, zero otherwise. */
  function Count<V(!new)>(v: View<V>, key: Token): (r: nat)
    ensures r <= 1
    ensures r == 1 <==> exists x :: x in v.children && v.keyOf(x) == key
  {
    if Has(v, key) then 1 else 0
  }

  /** `get(key, fallback)`: the first child with the key, filtered out or
      not, or the fallback; `get(key)` passes a default value. */
  function Get<V(!new)>(v: View<V>, key: Token, fallback: V): (r: V)
    ensures !Has(v, key) ==> r == fallback
    ensures Has(v, key) ==> r in v.children && v.keyOf(r) == key
    ensures Has(v, key) ==> forall k :: 0 <= k < |v.children| && v.keyOf(v.children[k]) == key ==>
      r == v.children[FindIndex(v, key)] && FindIndex(v, key) <= k
  {
    var i := FindIndex(v, key);
    if i == |v.children| then fallback else v.children[i]
  }

  /** With unique keys, `find` succeeds exactly for the keys of the shown
      children, and then points at the child `get` returns. */
  lemma FindIffShown<V(!new)>(v: View<V>, key: Token, fallback: V)
    requires forall i, j :: 0 <= i < j < |v.children| ==> v.keyOf(v.children[i]) != v.keyOf(v.children[j])
    ensures Find(v, key) < |v.children| <==> exists x :: x in Visible(v) && v.keyOf(x) == key
    ensures Find(v, key) < |v.children| ==> v.children[Find(v, key)] == Get(v, key, fallback) && Has(v, key)
  {
    var i := FindIndex(v, key);
    if i < |v.children| && v.pred(v.children[i]) {
      VisibleFromSpec(v, 0, v.children[i]);
    }
    forall x | x in Visible(v) && v.keyOf(x) == key
      ensures Find(v, key) < |v.children|
    {
      VisibleFromSpec(v, 0, x);
      var k :| 0 <= k < |v.children| && v.children[k] == x;
      assert i <= k;
      assert i == k;
    }
  }

  /** `has`, `count` and `get` see a filtered-out child that `find`
      hides: when the first child with the key fails the predicate, the
      key is present, counted once and mapped to that child, while `find`
      returns `end()`. */
  lemma HasSeesFilteredChild<V(!new)>(v: View<V>, key: Token, fallback: V)
    requires FindIndex(v, key) < |v.children| && !v.pred(v.children[FindIndex(v, key)])
    ensures Has(v, key) && Count(v, key) == 1
    ensures Get(v, key, fallback) == v.children[FindIndex(v, key)]
    ensures Find(v, key) == End(v)
  {
    assert v.children[FindIndex(v, key)] in v.children;
  }

  // ---- equality --------------------------------------------------------------

  /** `operator==`: views are equal when they look at the same children
      field of the same spec in the same layer. */
  predicate Equal<V>(a: View<V>, b: View<V>) {
    a.layer == b.layer && a.parent == b.parent && a.childrenKey == b.childrenKey
  }

  /** Equality is an equivalence that ignores the predicate: two views of
      one field with different filters compare equal. */
  lemma EqualIgnoresFilter<V>(a: View<V>, b: View<V>, c: View<V>, p: V -> bool)
    ensures Equal(a, a)
    ensures Equal(a, b) <==> Equal(b, a)
    ensures Equal(a, b) && Equal(b, c) ==> Equal(a, c)
    ensures Equal(a, a.(pred := p))
  {
  }
}

=== FILE: copy_utils.dfy ===
/** The helpers of the spec copier (copyUtils.cpp): the merge that visits
    the union of two sorted field lists, the pairing of source and
    destination children into copy requests (plus removal requests for
    destination children that are not kept), the fix-up of internal
    sub-root references, the argument checks of `SdfCopySpec`, and the
    inertness of a newly created prim.

    Field names are compared with an arbitrary but fixed strict total
    order on tokens; the model uses the character order of `Strings.Less`. */
module CopyUtils {
  import opened Wrappers
  import opened Seqs
  import opened Paths
  import Strings

  type Token = string

  predicate Less(a: Token, b: Token) {
    Strings.Less(a, b)
  }

  /** Sorted by the comparator, hence free of duplicates. */
  predicate Sorted(s: seq<Token>) {
    forall i, j :: 0 <= i < j < |s| ==> Less(s[i], s[j])
  }

  // ---- _ForEachField --------------------------------------------------------

  /** One call of the callback: the field and which lists hold it. */
  datatype Visit = Visit(field: Token, inSrc: bool, inDst: bool)

  function VisitedFields(vs: seq<Visit>): (fs: seq<Token>)
    ensures |fs| == |vs| && forall k :: 0 <= k < |vs| ==> fs[k] == vs[k].field
  {
    if vs == [] then [] else [vs[0].field] + VisitedFields(vs[1..])
  }

  /** The visits for the rest of one list once the other is used up. */
  function OnlyIn(s: seq<Token>, inSrc: bool): (vs: seq<Visit>)
    ensures |vs| == |s| && forall k :: 0 <= k < |s| ==> vs[k] == Visit(s[k], inSrc, !inSrc)
  {
    if s == [] then [] else [Visit(s[0], inSrc, !inSrc)] + OnlyIn(s[1..], inSrc)
  }

  /** The visits of a merge of two sorted lists, one head at a time. */
  function Merge(a: seq<Token>, b: seq<Token>): seq<Visit>
    decreases |a| + |b|
  {
    if a == [] then OnlyIn(b, false)
    else if b == [] then OnlyIn(a, true)
    else if a[0] == b[0] then [Visit(a[0], true, true)] + Merge(a[1..], b[1..])
    else if Less(a[0], b[0]) then [Visit(a[0], true, false)] + Merge(a[1..], b)
    else [Visit(b[0], false, true)] + Merge(a, b[1..])
  }

  /** The same merge resumed at position `i` of `a` and `j` of `b`. */
  function MergeFrom(a: seq<Token>, b: seq<Token>, i: nat, j: nat): seq<Visit>
    requires i <= |a| && j <= |b|
    decreases |a| - i + |b| - j
  {
    if i == |a| then OnlyIn(b[j..], false)
    else if j == |b| then OnlyIn(a[i..], true)
    else if a[i] == b[j] then [Visit(a[i], true, true)] + MergeFrom(a, b, i + 1, j + 1)
    else if Less(a[i], b[j]) then [Visit(a[i], true, false)] + MergeFrom(a, b, i + 1, j)
    else [Visit(b[j], false, true)] + MergeFrom(a, b, i, j + 1)
  }

  lemma {:induction false} MergeFromIsMerge(a: seq<Token>, b: seq<Token>, i: nat, j: nat)
    requires i <= |a| && j <= |b|
    ensures MergeFrom(a, b, i, j) == Merge(a[i..], b[j..])
    decreases |a| - i + |b| - j
  {
    if i < |a| && j < |b| {
      assert a[i..][1..] == a[i + 1..] && b[j..][1..] == b[j + 1..];
      if a[i] == b[j] {
        MergeFromIsMerge(a, b, i + 1, j + 1);
      } else if Less(a[i], b[j]) {
        MergeFromIsMerge(a, b, i + 1, j);
      } else {
        MergeFromIsMerge(a, b, i, j + 1);
      }
    }
  }

  /** Every token of `s` is above `x`. */
  predicate Above(x: Token, s: seq<Token>) {
    forall k :: 0 <= k < |s| ==> Less(x, s[k])
  }

  lemma AboveNotIn(x: Token, s: seq<Token>)
    requires Above(x, s)
    ensures x !in s
  {
    Strings.LessIrreflexive(x);
  }

  /** Below the head of a sorted list means below all of it. */
  lemma BelowHead(x: Token, s: seq<Token>)
    requires Sorted(s) && s != [] && Less(x, s[0])
    ensures Above(x, s)
  {
    forall k | 0 < k < |s|
      ensures Less(x, s[k])
    {
      Strings.LessTransitive(x, s[0], s[k]);
    }
  }

  lemma SortedTail(s: seq<Token>)
    requires Sorted(s) && s != []
    ensures Sorted(s[1..]) && Above(s[0], s[1..])
  {
  }

  lemma SortedCons(x: Token, s: seq<Token>)
    requires Sorted(s) && Above(x, s)
    ensures Sorted([x] + s)
  {
  }

  /** What a merge of sorted lists visits: each field of either list once,
      in ascending order, with flags saying which lists hold it. */
  ghost predicate MergeOk(a: seq<Token>, b: seq<Token>, vs: seq<Visit>) {
    Sorted(VisitedFields(vs))
    && (forall f :: f in VisitedFields(vs) <==> f in a || f in b)
    && forall k :: 0 <= k < |vs| ==> (vs[k].inSrc <==> vs[k].field in a) && (vs[k].inDst <==> vs[k].field in b)
  }

  lemma {:induction false} MergeSpec(a: seq<Token>, b: seq<Token>)
    requires Sorted(a) && Sorted(b)
    ensures MergeOk(a, b, Merge(a, b))
    decreases |a| + |b|
  {
    if a == [] {
      OnlyInSpec(b, false);
    } else if b == [] {
      OnlyInSpec(a, true);
    } else if a[0] == b[0] {
      SortedTail(a);
      SortedTail(b);
      MergeSpec(a[1..], b[1..]);
      MergeHead(a, b, a[0], true, true, a[1..], b[1..], Merge(a[1..], b[1..]));
    } else if Less(a[0], b[0]) {
      SortedTail(a);
      BelowHead(a[0], b);
      MergeSpec(a[1..], b);
      MergeHead(a, b, a[0], true, false, a[1..], b, Merge(a[1..], b));
    } else {
      Strings.LessTrichotomous(a[0], b[0]);
      SortedTail(b);
      BelowHead(b[0], a);
      MergeSpec(a, b[1..]);
      MergeHead(a, b, b[0], false, true, a, b[1..], Merge(a, b[1..]));
    }
  }

  lemma VisitedFieldsCons(v: Visit, rest: seq<Visit>)
    ensures VisitedFields([v] + rest) == [v.field] + VisitedFields(rest)
  {
  }

  /** A token below both lists is below every field their merge visits. */
  lemma AboveMerged(x: Token, a': seq<Token>, b': seq<Token>, rest: seq<Visit>)
    requires MergeOk(a', b', rest)
    requires Above(x, a') && Above(x, b')
    ensures Above(x, VisitedFields(rest))
  {
    var fs := VisitedFields(rest);
    forall k | 0 <= k < |fs|
      ensures Less(x, fs[k])
    {
      assert fs[k] in fs;
    }
  }

  /** One step of the merge: the head visited first, below the rest of
      both lists. */
  lemma MergeHead(a: seq<Token>, b: seq<Token>, x: Token, inA: bool, inB: bool,
                  a': seq<Token>, b': seq<Token>, rest: seq<Visit>)
    requires MergeOk(a', b', rest)
    requires Above(x, a') && Above(x, b')
    requires forall f :: f in a <==> (inA && f == x) || f in a'
    requires forall f :: f in b <==> (inB && f == x) || f in b'
    requires inA || inB
    ensures MergeOk(a, b, [Visit(x, inA, inB)] + rest)
  {
    var vs := [Visit(x, inA, inB)] + rest;
    var fs := VisitedFields(rest);
    VisitedFieldsCons(Visit(x, inA, inB), rest);
    AboveMerged(x, a', b', rest);
    SortedCons(x, fs);
    AboveNotIn(x, fs);
    AboveNotIn(x, a');
    AboveNotIn(x, b');
    forall k | 1 <= k < |vs|
      ensures vs[k] == rest[k - 1] && vs[k].field != x
    {
      assert fs[k - 1] in fs;
    }
  }

  /** The visits of a list left on its own. */
  lemma OnlyInSpec(s: seq<Token>, inSrc: bool)
    ensures VisitedFields(OnlyIn(s, inSrc)) == s
  {
  }

  lemma OnlyInSnoc(s: seq<Token>, x: Token, inSrc: bool)
    ensures OnlyIn(s + [x], inSrc) == OnlyIn(s, inSrc) + [Visit(x, inSrc, !inSrc)]
  {
  }

  /** One step of the merge resumed with the source head first. */
  lemma MergeFromSrcStep(a: seq<Token>, b: seq<Token>, i: nat, j: nat)
    requires i < |a| && j < |b| && Less(a[i], b[j])
    ensures MergeFrom(a, b, i, j) == [Visit(a[i], true, false)] + MergeFrom(a, b, i + 1, j)
  {
    Strings.LessIrreflexive(a[i]);
  }

  /** One step of the merge resumed with the destination head first. */
  lemma MergeFromDstStep(a: seq<Token>, b: seq<Token>, i: nat, j: nat)
    requires i < |a| && j < |b| && Less(b[j], a[i])
    ensures MergeFrom(a, b, i, j) == [Visit(b[j], false, true)] + MergeFrom(a, b, i, j + 1)
  {
    Strings.LessIrreflexive(b[j]);
    Strings.LessAsymmetric(b[j], a[i]);
  }

  /** The last loop of `_ForEachField`: the rest of the list that is left,
      flagged as being in that list only. */
  method VisitRest(rest: seq<Token>, inSrc: bool) returns (calls: seq<Visit>)
    ensures calls == OnlyIn(rest, inSrc)
  {
    calls := [];
    for k := 0 to |rest|
      invariant calls == OnlyIn(rest[..k], inSrc)
    {
      assert rest[..k + 1] == rest[..k] + [rest[k]];
      OnlyInSnoc(rest[..k], rest[k], inSrc);
      calls := calls + [Visit(rest[k], inSrc, !inSrc)];
    }
    assert rest[..|rest|] == rest;
  }

  /** One step of the merge resumed at equal heads. */
  lemma MergeFromEqualStep(a: seq<Token>, b: seq<Token>, i: nat, j: nat)
    requires i < |a| && j < |b| && a[i] == b[j]
    ensures MergeFrom(a, b, i, j) == [Visit(a[i], true, true)] + MergeFrom(a, b, i + 1, j + 1)
  {
  }

  /** Visiting one more source field below the destination's head keeps
      the run a prefix of the merge. */
  lemma SrcRunStep(a: seq<Token>, b: seq<Token>, i0: nat, i: nat, j: nat, run: seq<Visit>)
    requires i0 <= i < |a| && j < |b| && Less(a[i], b[j])
    requires run + MergeFrom(a, b, i, j) == MergeFrom(a, b, i0, j)
    ensures (run + [Visit(a[i], true, false)]) + MergeFrom(a, b, i + 1, j) == MergeFrom(a, b, i0, j)
  {
    MergeFromSrcStep(a, b, i, j);
    AppendAssoc(run, [Visit(a[i], true, false)], MergeFrom(a, b, i + 1, j));
  }

  /** Visiting one more destination field below the source's head keeps
      the run a prefix of the merge. */
  lemma DstRunStep(a: seq<Token>, b: seq<Token>, i: nat, j0: nat, j: nat, run: seq<Visit>)
    requires i < |a| && j0 <= j < |b| && Less(b[j], a[i])
    requires run + MergeFrom(a, b, i, j) == MergeFrom(a, b, i, j0)
    ensures (run + [Visit(b[j], false, true)]) + MergeFrom(a, b, i, j + 1) == MergeFrom(a, b, i, j0)
  {
    MergeFromDstStep(a, b, i, j);
    AppendAssoc(run, [Visit(b[j], false, true)], MergeFrom(a, b, i, j + 1));
  }

  /** An inner loop of `_ForEachField`: the run of source fields below the
      current destination field, each visited as in the source only. */
  method VisitSrcRun(srcFields: seq<Token>, dstFields: seq<Token>, i0: nat, j: nat) returns (run: seq<Visit>, i: nat)
    requires i0 < |srcFields| && j < |dstFields| && Less(srcFields[i0], dstFields[j])
    ensures i0 < i <= |srcFields|
    ensures run + MergeFrom(srcFields, dstFields, i, j) == MergeFrom(srcFields, dstFields, i0, j)
  {
    MergeFromSrcStep(srcFields, dstFields, i0, j);
    run, i := [Visit(srcFields[i0], true, false)], i0 + 1;
    while i < |srcFields| && Less(srcFields[i], dstFields[j])
      invariant i0 < i <= |srcFields|
      invariant run + MergeFrom(srcFields, dstFields, i, j) == MergeFrom(srcFields, dstFields, i0, j)
    {
      SrcRunStep(srcFields, dstFields, i0, i, j, run);
      run := run + [Visit(srcFields[i], true, false)];
      i := i + 1;
    }
  }

  /** The other inner loop: the run of destination fields below the
      current source field, each visited as in the destination only. */
  method VisitDstRun(srcFields: seq<Token>, dstFields: seq<Token>, i: nat, j0: nat) returns (run: seq<Visit>, j: nat)
    requires i < |srcFields| && j0 < |dstFields| && Less(dstFields[j0], srcFields[i])
    ensures j0 < j <= |dstFields|
    ensures run + MergeFrom(srcFields, dstFields, i, j) == MergeFrom(srcFields, dstFields, i, j0)
  {
    MergeFromDstStep(srcFields, dstFields, i, j0);
    run, j := [Visit(dstFields[j0], false, true)], j0 + 1;
    while j < |dstFields| && Less(dstFields[j], srcFields[i])
      invariant j0 < j <= |dstFields|
      invariant run + MergeFrom(srcFields, dstFields, i, j) == MergeFrom(srcFields, dstFields, i, j0)
    {
      DstRunStep(srcFields, dstFields, i, j0, j, run);
      run := run + [Visit(dstFields[j], false, true)];
      j := j + 1;
    }
  }

  /** `_ForEachField`: the C++ merge loop, with its inner runs
      over the fields of one list below the other's head, then the rest of
      whichever list is left. */
  method ForEachField(srcFields: seq<Token>, dstFields: seq<Token>) returns (calls: seq<Visit>)
    requires Sorted(srcFields) && Sorted(dstFields)
    ensures calls == Merge(srcFields, dstFields)
    ensures MergeOk(srcFields, dstFields, calls)
  {
    calls := [];
    var i, j := 0, 0;
    while i < |srcFields| && j < |dstFields|
      invariant i <= |srcFields| && j <= |dstFields|
      invariant calls + MergeFrom(srcFields, dstFields, i, j) == MergeFrom(srcFields, dstFields, 0, 0)
      decreases |srcFields| - i + |dstFields| - j
    {
      var run, i', j';
      if srcFields[i] == dstFields[j] {
        MergeFromEqualStep(srcFields, dstFields, i, j);
        run, i', j' := [Visit(srcFields[i], true, true)], i + 1, j + 1;
      } else if Less(srcFields[i], dstFields[j]) {
        run, i' := VisitSrcRun(srcFields, dstFields, i, j);
        j' := j;
      } else {
        Strings.LessTrichotomous(srcFields[i], dstFields[j]);
        run, j' := VisitDstRun(srcFields, dstFields, i, j);
        i' := i;
      }
      AppendAssoc(calls, run, MergeFrom(srcFields, dstFields, i', j'));
      calls, i, j := calls + run, i', j';
    }
    var inSrc := i < |srcFields|;
    var rest := VisitRest(if inSrc then srcFields[i..] else dstFields[j..], inSrc);
    calls := calls + rest;
    MergeFromIsMerge(srcFields, dstFields, 0, 0);
    assert srcFields[0..] == srcFields && dstFields[0..] == dstFields;
    MergeSpec(srcFields, dstFields);
  }

  // ---- _ProcessChildren -----------------------------------------------------

  /** A children field's value: absent, a list of child names (an empty
      name is an empty entry), or a value of the wrong type. */
  datatype ChildrenValue = NoValue | Children(names: seq<Token>) | WrongType

  function ChildNames(v: ChildrenValue): seq<Token> {
    if v.Children? then v.names else []
  }

  /** An entry of the copy stack: copy `src` to `dst`, or remove the spec
      at `dst` when `src` is the empty path. */
  datatype CopyRequest = CopyRequest(src: MaybePath, dst: Path)

  /** The request copying child `s` of `srcPath` to child `d` of `dstPath`;
      `childPath` is the child policy's `GetChildPath`. */
  function PairRequest(childPath: (Path, Token) -> Path, srcPath: Path, dstPath: Path, s: Token, d: Token): CopyRequest {
    CopyRequest(PathOf(childPath(srcPath, s)), childPath(dstPath, d))
  }

  /** The pairing loop: the i-th source child goes to the i-th destination
      child, skipping pairs with an empty entry. */
  function PairChildren(childPath: (Path, Token) -> Path, srcPath: Path, dstPath: Path, s: seq<Token>, d: seq<Token>)
    : (r: seq<CopyRequest>)
    requires |s| <= |d|
    ensures |r| <= |s|
    ensures forall q :: q in r ==>
      exists i :: 0 <= i < |s| && s[i] != "" && d[i] != "" && q == PairRequest(childPath, srcPath, dstPath, s[i], d[i])
    ensures forall i :: 0 <= i < |s| && s[i] != "" && d[i] != "" ==>
      PairRequest(childPath, srcPath, dstPath, s[i], d[i]) in r
    decreases |s|
  {
    if s == [] then []
    else
      var rest := PairChildren(childPath, srcPath, dstPath, s[1..], d[1..]);
      assert forall q :: q in rest ==>
        exists i :: 0 <= i < |s| && s[i] != "" && d[i] != "" && q == PairRequest(childPath, srcPath, dstPath, s[i], d[i]) by {
        forall q | q in rest
          ensures exists i :: 0 <= i < |s| && s[i] != "" && d[i] != "" && q == PairRequest(childPath, srcPath, dstPath, s[i], d[i])
        {
          var i :| 0 <= i < |s[1..]| && s[1..][i] != "" && d[1..][i] != ""
            && q == PairRequest(childPath, srcPath, dstPath, s[1..][i], d[1..][i]);
          assert s[i + 1] == s[1..][i] && d[i + 1] == d[1..][i];
        }
      }
      assert forall i :: 1 <= i < |s| ==> s[i] == s[1..][i - 1] && d[i] == d[1..][i - 1];
      (if s[0] == "" || d[0] == "" then [] else [PairRequest(childPath, srcPath, dstPath, s[0], d[0])]) + rest
  }

  /** The removal loop: each old destination child missing from the new
      destination list is scheduled for removal. */
  function ScheduleRemovals(childPath: (Path, Token) -> Path, dstPath: Path, oldChildren: seq<Token>, d: seq<Token>)
    : (r: seq<CopyRequest>)
    ensures forall q :: q in r ==>
      q.src == EmptyPath && exists o :: o in oldChildren && o !in d && q.dst == childPath(dstPath, o)
    ensures forall o :: o in oldChildren && o !in d ==> CopyRequest(EmptyPath, childPath(dstPath, o)) in r
    decreases |oldChildren|
  {
    if oldChildren == [] then []
    else
      var rest := ScheduleRemovals(childPath, dstPath, oldChildren[1..], d);
      assert forall o :: o in oldChildren <==> o == oldChildren[0] || o in oldChildren[1..];
      (if oldChildren[0] in d then [] else [CopyRequest(EmptyPath, childPath(dstPath, oldChildren[0]))]) + rest
  }

  /** `_ProcessChildren`: nothing when a children value has the wrong type;
      otherwise the pairs, followed (when the destination had children and
      its old value is a list) by the removals. The two lists must have the
      same length; the pairing reads the destination at every source
      index. */
  function ProcessChildren(childPath: (Path, Token) -> Path,
                           srcValue: ChildrenValue, dstValue: ChildrenValue,
                           srcPath: Path, dstPath: Path,
                           childrenInDst: bool, oldDstValue: ChildrenValue): (r: seq<CopyRequest>)
    requires |ChildNames(srcValue)| <= |ChildNames(dstValue)|
    ensures srcValue.WrongType? || dstValue.WrongType? ==> r == []
    ensures forall q :: q in r && q.src.PathOf? ==>
      var s, d := ChildNames(srcValue), ChildNames(dstValue);
      exists i :: 0 <= i < |s| && s[i] != "" && d[i] != "" && q == PairRequest(childPath, srcPath, dstPath, s[i], d[i])
    ensures forall q :: q in r && q.src == EmptyPath ==>
      childrenInDst && oldDstValue.Children?
      && exists o :: o in oldDstValue.names && o !in ChildNames(dstValue) && q.dst == childPath(dstPath, o)
    ensures !srcValue.WrongType? && !dstValue.WrongType? ==>
      var s, d := ChildNames(srcValue), ChildNames(dstValue);
      forall i :: 0 <= i < |s| && s[i] != "" && d[i] != "" ==> PairRequest(childPath, srcPath, dstPath, s[i], d[i]) in r
    ensures !srcValue.WrongType? && !dstValue.WrongType? && childrenInDst && oldDstValue.Children? ==>
      forall o :: o in oldDstValue.names && o !in ChildNames(dstValue) ==>
        CopyRequest(EmptyPath, childPath(dstPath, o)) in r
  {
    if srcValue.WrongType? || dstValue.WrongType? then []
    else
      var s, d := ChildNames(srcValue), ChildNames(dstValue);
      var pairs := PairChildren(childPath, srcPath, dstPath, s, d);
      if !childrenInDst || !oldDstValue.Children? then pairs
      else pairs + ScheduleRemovals(childPath, dstPath, oldDstValue.names, d)
  }

  // ---- _FixInternalSubrootPaths ---------------------------------------------

  /** A reference or payload: an asset path (empty for an internal one), a
      prim path, and the fields the fix-up never reads. */
  datatype Reference = Reference(assetPath: string, primPath: MaybePath, rest: int)

  /** `_FixInternalSubrootPaths`: only internal references to a sub-root
      prim are retargeted, by replacing the copied prefix. */
  function FixInternalSubrootPaths(ref: Reference, srcPrefix: Path, dstPrefix: Path): (r: Reference)
    ensures r.assetPath == ref.assetPath && r.rest == ref.rest
    ensures r.primPath.PathOf? <==> ref.primPath.PathOf?
  {
    if ref.assetPath != "" || ref.primPath == EmptyPath || IsRootPrimPath(ref.primPath.path) then ref
    else ref.(primPath := PathOf(ReplacePrefix(ref.primPath.path, srcPrefix, dstPrefix)))
  }

  /** External references, empty prim paths, root-prim targets and targets
      outside the copied subtree are left alone; an internal sub-root target
      inside it moves to the same place under the destination. */
  lemma FixInternalSubrootPathsSpec(ref: Reference, srcPrefix: Path, dstPrefix: Path)
    ensures ref.assetPath != "" || ref.primPath == EmptyPath ==> FixInternalSubrootPaths(ref, srcPrefix, dstPrefix) == ref
    ensures ref.primPath.PathOf? && IsRootPrimPath(ref.primPath.path) ==> FixInternalSubrootPaths(ref, srcPrefix, dstPrefix) == ref
    ensures ref.primPath.PathOf? && !HasPrefix(ref.primPath.path, srcPrefix) ==> FixInternalSubrootPaths(ref, srcPrefix, dstPrefix) == ref
    ensures ref.assetPath == "" && ref.primPath.PathOf? && !IsRootPrimPath(ref.primPath.path) && HasPrefix(ref.primPath.path, srcPrefix) ==>
      var p := FixInternalSubrootPaths(ref, srcPrefix, dstPrefix).primPath.path;
      HasPrefix(p, dstPrefix) && p[|dstPrefix|..] == ref.primPath.path[|srcPrefix|..]
    ensures FixInternalSubrootPaths(ref, srcPrefix, srcPrefix) == ref
  {
    if ref.primPath.PathOf? {
      var p := ref.primPath.path;
      assert HasPrefix(p, srcPrefix) ==> srcPrefix + p[|srcPrefix|..] == p;
    }
  }

  // ---- SdfCopySpec argument checks -------------------------------------------

  /** The kind tests `SdfCopySpec` compares between its two paths. */
  datatype PathKind = PathKind(
    rootOrPrim: bool, primVariantSelection: bool, property: bool,
    target: bool, mapper: bool, mapperArg: bool, expression: bool)

  /** A path argument: the path (possibly empty) and its kind. */
  datatype PathArg = PathArg(path: MaybePath, kind: PathKind)

  predicate CompatibleKinds(a: PathKind, b: PathKind) {
    (a.rootOrPrim || a.primVariantSelection) == (b.rootOrPrim || b.primVariantSelection)
    && a.property == b.property && a.target == b.target && a.mapper == b.mapper
    && a.mapperArg == b.mapperArg && a.expression == b.expression
  }

  /** How `SdfCopySpec` proceeds: one of its four refusals (each a coding
      error, returning false before any data is read), a copy through a
      temporary layer when source and destination overlap in one layer, or
      a direct copy. */
  datatype CopyStart =
    | InvalidLayer | EmptyPathArgument | IncompatiblePaths | MissingTargetSpec
    | CopyThroughTemporary | CopyDirectly

  predicate Refused(v: CopyStart) {
    v.InvalidLayer? || v.EmptyPathArgument? || v.IncompatiblePaths? || v.MissingTargetSpec?
  }

  /** The checks in their order. Layers are identified by number, `None`
      being an invalid handle; `dstHasSpec` says whether the destination
      layer has a spec at the destination path. */
  function StartCopy(srcLayer: Option<nat>, dstLayer: Option<nat>, src: PathArg, dst: PathArg, dstHasSpec: bool)
    : (v: CopyStart)
    ensures v == InvalidLayer <==> srcLayer.None? || dstLayer.None?
    ensures !Refused(v) ==>
      src.path.PathOf? && dst.path.PathOf? && CompatibleKinds(src.kind, dst.kind)
      && (dst.kind.target ==> dstHasSpec)
    ensures v == CopyThroughTemporary ==>
      srcLayer == dstLayer
      && (HasPrefix(src.path.path, dst.path.path) || HasPrefix(dst.path.path, src.path.path))
  {
    if srcLayer.None? || dstLayer.None? then InvalidLayer
    else if src.path == EmptyPath || dst.path == EmptyPath then EmptyPathArgument
    else if !CompatibleKinds(src.kind, dst.kind) then IncompatiblePaths
    else if dst.kind.target && !dstHasSpec then MissingTargetSpec
    else if srcLayer == dstLayer
         && (HasPrefix(src.path.path, dst.path.path) || HasPrefix(dst.path.path, src.path.path))
    then CopyThroughTemporary
    else CopyDirectly
  }

  /** A copy between valid layers and non-empty paths is refused exactly
      for incompatible kinds or a missing target spec; the kind check does
      not depend on the direction of the copy. */
  lemma StartCopyRefusals(srcLayer: nat, dstLayer: nat, src: PathArg, dst: PathArg, dstHasSpec: bool)
    requires src.path.PathOf? && dst.path.PathOf?
    ensures Refused(StartCopy(Some(srcLayer), Some(dstLayer), src, dst, dstHasSpec))
      <==> !CompatibleKinds(src.kind, dst.kind) || (dst.kind.target && !dstHasSpec)
    ensures CompatibleKinds(src.kind, dst.kind) <==> CompatibleKinds(dst.kind, src.kind)
    ensures CompatibleKinds(src.kind, src.kind)
  {
  }

  // ---- _DoAddNewPrimSpec ------------------------------------------------------

  datatype Specifier = SpecifierDef | SpecifierOver | SpecifierClass

  /** A value to copy, as far as the inertness test reads it. */
  datatype CopyValue = EmptyValue | TokenValue(token: Token) | SpecifierValue(specifier: Specifier) | OtherValue

  datatype FieldValuePair = FieldValuePair(field: Token, value: CopyValue)

  const TypeNameField: Token := "typeName"
  const SpecifierField: Token := "specifier"

  /** The last non-empty value listed for `field`, if any. */
  function LastValue(data: seq<FieldValuePair>, field: Token): (v: Option<CopyValue>)
    ensures v.Some? ==> v.value != EmptyValue
    ensures v.Some? <==> exists k :: 0 <= k < |data| && data[k].field == field && data[k].value != EmptyValue
    decreases |data|
  {
    if data == [] then None
    else
      var last := data[|data| - 1];
      var before := LastValue(data[..|data| - 1], field);
      assert forall k :: 0 <= k < |data| - 1 ==> data[..|data| - 1][k] == data[k];
      if last.field == field && last.value != EmptyValue then Some(last.value) else before
  }

  /** `Get<TfToken>`: the empty token for a value of another type. */
  function AsToken(v: CopyValue): Token {
    if v.TokenValue? then v.token else ""
  }

  /** `Get<SdfSpecifier>`: the default specifier for a value of another
      type. */
  function AsSpecifier(v: CopyValue): Specifier {
    if v.SpecifierValue? then v.specifier else SpecifierDef
  }

  /** `_DoAddNewPrimSpec`'s scan: the new prim is inert when the copied
      specifier (over by default) is over and the copied type name is
      empty; later entries override earlier ones and empty values are
      skipped. */
  method NewPrimIsInert(data: seq<FieldValuePair>) returns (inert: bool)
    ensures inert <==>
      (match LastValue(data, SpecifierField) case None => true case Some(v) => AsSpecifier(v) == SpecifierOver)
      && (match LastValue(data, TypeNameField) case None => true case Some(v) => AsToken(v) == "")
  {
    var typeName: Token := "";
    var specifier := SpecifierOver;
    for k := 0 to |data|
      invariant typeName == match LastValue(data[..k], TypeNameField) case None => "" case Some(v) => AsToken(v)
      invariant specifier == match LastValue(data[..k], SpecifierField) case None => SpecifierOver case Some(v) => AsSpecifier(v)
    {
      assert data[..k + 1][..k] == data[..k];
      if data[k].value == EmptyValue {
        continue;
      }
      if data[k].field == TypeNameField {
        typeName := AsToken(data[k].value);
      } else if data[k].field == SpecifierField {
        specifier := AsSpecifier(data[k].value);
      }
    }
    assert data[..|data|] == data;
    inert := specifier == SpecifierOver && typeName == "";
  }
}

=== FILE: file_version.dfy ===
/** Text-format file versions `major.minor[.patch]`: the packed integer,
    the compatibility rules, and conversion from and to dotted decimal text
    (fileVersion.h, fileVersion.cpp). */
module FileVersion {
  import Strings


  type uint8 = x: int | 0 <= x < 256

  datatype Version = Version(maj: uint8, min: uint8, pat: uint8)

  /** The default-constructed version 0.0.0, also the failure value of
      `FromString`. */
  const Zero: Version := Version(0, 0, 0)

  /** `AsInt`: major in bits 16..23, minor in bits 8..15, patch in bits 0..7.
      The three fields occupy disjoint bits, so the bitwise or is a sum. */
  function AsInt(v: Version): (r: nat)
  {
    v.maj * 0x1_0000 + v.min * 0x100 + v.pat
  }

  /** Equal packed integers mean equal versions: the encoding loses
      nothing. */
  lemma AsIntInjective(a: Version, b: Version)
    ensures AsInt(a) == AsInt(b) <==> a == b
  {
    LessIsLexicographic(a, b);
    LessIsLexicographic(b, a);
  }

  /** `IsValid` and the bool conversion. */
  predicate IsValid(v: Version) {
    AsInt(v) != 0
  }

  lemma ValidIffSomeFieldNonZero(v: Version)
    ensures IsValid(v) <==> (v.maj != 0 || v.min != 0 || v.pat != 0)
  {
  }

  /** `CanRead`: same major version and a minor version no newer. The patch
      level is irrelevant. */
  predicate CanRead(self: Version, fileVer: Version) {
    fileVer.maj == self.maj && fileVer.min <= self.min
  }

  /** `CanWrite`: same major version and an older minor version, or the
      same minor version and a patch level no newer. */
  predicate CanWrite(self: Version, fileVer: Version) {
    fileVer.maj == self.maj
      && (fileVer.min < self.min || (fileVer.min == self.min && fileVer.pat <= self.pat))
  }

  /** Whatever a version can write it can also read; the converse fails on
      a newer patch level. */
  lemma CanWriteImpliesCanRead(self: Version, fileVer: Version)
    ensures CanWrite(self, fileVer) ==> CanRead(self, fileVer)
    ensures CanRead(self, fileVer) && fileVer.min == self.min && fileVer.pat > self.pat
      ==> !CanWrite(self, fileVer)
  {
  }

  /** A version that can write `fileVer` is at least `fileVer`. */
  lemma CanWriteImpliesNotOlder(self: Version, fileVer: Version)
    requires CanWrite(self, fileVer)
    ensures LessEq(fileVer, self)
  {
    LessIsLexicographic(fileVer, self);
    AsIntInjective(fileVer, self);
  }

  // The six relational operators all compare `AsInt`.
  predicate Less(a: Version, b: Version) { AsInt(a) < AsInt(b) }
  predicate LessEq(a: Version, b: Version) { AsInt(a) <= AsInt(b) }
  predicate Greater(a: Version, b: Version) { AsInt(a) > AsInt(b) }
  predicate GreaterEq(a: Version, b: Version) { AsInt(a) >= AsInt(b) }
  predicate Equal(a: Version, b: Version) { AsInt(a) == AsInt(b) }
  predicate NotEqual(a: Version, b: Version) { AsInt(a) != AsInt(b) }

  /** Anything newer than some version is valid. */
  lemma NewerIsValid(a: Version, b: Version)
    requires Less(a, b)
    ensures IsValid(b)
  {
  }

  /** The packed comparison is the lexicographic order on
      (major, minor, patch). */
  lemma LessIsLexicographic(a: Version, b: Version)
    ensures Less(a, b) <==>
      (a.maj < b.maj || (a.maj == b.maj && (a.min < b.min || (a.min == b.min && a.pat < b.pat))))
  {
    if a.maj < b.maj {
      assert AsInt(a) < (a.maj + 1) * 0x1_0000 <= AsInt(b);
    } else if a.maj > b.maj {
      assert AsInt(b) < (b.maj + 1) * 0x1_0000 <= AsInt(a);
    } else if a.min < b.min {
      assert AsInt(a) < a.maj * 0x1_0000 + (a.min + 1) * 0x100 <= AsInt(b);
    } else if a.min > b.min {
      assert AsInt(b) < b.maj * 0x1_0000 + (b.min + 1) * 0x100 <= AsInt(a);
    }
  }

  /** Equality of versions as the operators see it is field equality, and
      the operators form one total order. */
  lemma RelationalOperatorsConsistent(a: Version, b: Version)
    ensures Equal(a, b) <==> a == b
    ensures NotEqual(a, b) <==> a != b
    ensures LessEq(a, b) <==> Less(a, b) || a == b
    ensures Greater(a, b) <==> Less(b, a)
    ensures GreaterEq(a, b) <==> !Less(a, b)
    ensures Less(a, b) || a == b || Less(b, a)
  {
    AsIntInjective(a, b);
  }

  // ---------------------------------------------------------------------
  // Decimal text.

  predicate IsDigit(c: char) {
    '0' <= c <= '9'
  }

  predicate AllDigits(s: string) {
    forall i :: 0 <= i < |s| ==> IsDigit(s[i])
  }

  function DigitChar(d: nat): (c: char)
    requires d < 10
    ensures IsDigit(c) && DigitValue(c) == d
  {
    ('0' as int + d) as char
  }

  function DigitValue(c: char): nat
    requires IsDigit(c)
  {
    c as int - '0' as int
  }

  /** Decimal text without leading zeros, as printf's `%d` writes it. */
  function Decimal(n: nat): (s: string)
    ensures |s| >= 1 && AllDigits(s)
    decreases n
  {
    if n < 10 then [DigitChar(n)] else Decimal(n / 10) + [DigitChar(n % 10)]
  }

  /** Value of a run of decimal digits, most significant first; leading
      zeros are allowed, as std::from_chars allows them. */
  function DigitsValue(s: string): nat
    requires AllDigits(s)
    decreases |s|
  {
    if |s| == 0 then 0 else DigitsValue(s[..|s| - 1]) * 10 + DigitValue(s[|s| - 1])
  }

  /** Reading back printed digits gives the number. */
  lemma {:induction false} DecimalRoundTrip(n: nat)
    ensures DigitsValue(Decimal(n)) == n
    decreases n
  {
    if n >= 10 {
      var s := Decimal(n);
      assert s[..|s| - 1] == Decimal(n / 10);
      DecimalRoundTrip(n / 10);
    }
  }

  /** Number of consecutive digits starting at index `i`. */
  function DigitRun(s: string, i: nat): (k: nat)
    requires i <= |s|
    ensures i + k <= |s|
    ensures forall j :: i <= j < i + k ==> IsDigit(s[j])
    ensures i + k == |s| || !IsDigit(s[i + k])
    decreases |s| - i
  {
    if i < |s| && IsDigit(s[i]) then 1 + DigitRun(s, i + 1) else 0
  }

  /** What std::from_chars reports when it reads an unsigned 8-bit decimal
      at index `i`: success flag, value (0 when it failed, the variable's
      initial value) and the index it stopped at. On overflow it stops after
      all the digits; with no digit it stops at `i`. */
  datatype Parsed = Parsed(ok: bool, value: uint8, next: nat)

  function FromChars(s: string, i: nat): (r: Parsed)
    requires i <= |s|
    ensures i <= r.next <= |s|
    ensures r.next == |s| || !IsDigit(s[r.next])
    ensures r.ok ==> r.next > i
  {
    var k := DigitRun(s, i);
    if k == 0 then Parsed(false, 0, i)
    else
      var v := DigitsValue(s[i..i + k]);
      if v < 256 then Parsed(true, v, i + k) else Parsed(false, 0, i + k)
  }

  /** What may follow the last number: white space or the end of the C
      string (`strchr(" \t\n", c)` also finds the terminating NUL). */
  predicate EndsNumber(c: char) {
    c == ' ' || c == '\t' || c == '\n' || c == '\0'
  }

  /** The character at `i` of a C string: its terminating NUL past the end. */
  function CharAt(s: string, i: nat): char {
    if i < |s| then s[i] else '\0'
  }

  /** `FromString`: at least a major and a minor number, an optional patch
      number, each field a decimal that fits 8 bits, separated by '.', and
      after the last number only a space, a tab, a newline or the end of the
      string. Anything else gives 0.0.0. The C++ parser reads all numbers first
      and then checks the character after the last one before checking for a
      missing field; both checks fail with 0.0.0, so here each stage fails as
      soon as its own field is missing. */
  function FromString(str: string): (v: Version)
  {
    ParseMajor(Strings.CString(str))
  }

  function ParseMajor(s: string): Version {
    var r1 := FromChars(s, 0);
    if r1.ok && CharAt(s, r1.next) == '.' then ParseMinor(s, r1.value, r1.next + 1)
    else Zero
  }

  function ParseMinor(s: string, maj: uint8, i: nat): Version
    requires i <= |s|
  {
    var r2 := FromChars(s, i);
    if !r2.ok then Zero
    else if CharAt(s, r2.next) == '.' then ParsePatch(s, maj, r2.value, r2.next + 1)
    else if EndsNumber(CharAt(s, r2.next)) then Version(maj, r2.value, 0)
    else Zero
  }

  /** A '.' after the minor number makes the patch number required. */
  function ParsePatch(s: string, maj: uint8, min: uint8, i: nat): Version
    requires i <= |s|
  {
    var r3 := FromChars(s, i);
    if r3.ok && EndsNumber(CharAt(s, r3.next)) then Version(maj, min, r3.value) else Zero
  }

  /** `AsString`: the patch number is left out when it is zero. */
  function AsString(v: Version): string {
    Decimal(v.maj) + "." + Decimal(v.min) + (if v.pat == 0 then "" else "." + Decimal(v.pat))
  }

  /** `AsFullString`: always three numbers. */
  function AsFullString(v: Version): string {
    Decimal(v.maj) + "." + Decimal(v.min) + "." + Decimal(v.pat)
  }

  // ---------------------------------------------------------------------
  // Parsing lemmas.

  lemma {:induction false} RunOfDigits(s: string, i: nat, k: nat)
    requires i + k <= |s|
    requires forall j :: i <= j < i + k ==> IsDigit(s[j])
    requires i + k == |s| || !IsDigit(s[i + k])
    ensures DigitRun(s, i) == k
    decreases k
  {
    if k > 0 {
      RunOfDigits(s, i + 1, k - 1);
    }
  }

  /** A run of digits worth at most 255, followed by a non-digit or the end,
      is read whole. */
  lemma ReadDigits(s: string, i: nat, d: string)
    requires AllDigits(d) && |d| >= 1 && DigitsValue(d) < 256
    requires i + |d| <= |s| && s[i..i + |d|] == d
    requires i + |d| == |s| || !IsDigit(s[i + |d|])
    ensures FromChars(s, i) == Parsed(true, DigitsValue(d), i + |d|)
  {
    forall j | i <= j < i + |d| ensures IsDigit(s[j]) {
      assert s[j] == d[j - i];
    }
    RunOfDigits(s, i, |d|);
  }

  /** A run of digits whose value does not fit 8 bits is not read. */
  lemma ReadOverflow(s: string, i: nat, d: string)
    requires AllDigits(d) && |d| >= 1 && DigitsValue(d) >= 256
    requires i + |d| <= |s| && s[i..i + |d|] == d
    requires i + |d| == |s| || !IsDigit(s[i + |d|])
    ensures !FromChars(s, i).ok
  {
    forall j | i <= j < i + |d| ensures IsDigit(s[j]) {
      assert s[j] == d[j - i];
    }
    RunOfDigits(s, i, |d|);
  }

  /** A field of printed text is the decimal of its value. */
  lemma PrintedField(n: uint8)
    ensures AllDigits(Decimal(n)) && |Decimal(n)| >= 1 && DigitsValue(Decimal(n)) == n
    ensures '\0' !in Decimal(n) && '.' !in Decimal(n)
  {
    DecimalRoundTrip(n);
    var d := Decimal(n);
    forall i | 0 <= i < |d| ensures d[i] != '\0' && d[i] != '.' {
      assert IsDigit(d[i]);
    }
  }

  /** Index facts about text laid out as `da "." db rest`. */
  lemma Layout(s: string, da: string, db: string, rest: string)
    requires s == da + "." + db + rest
    ensures |s| == |da| + 1 + |db| + |rest|
    ensures s[0..|da|] == da && s[|da|] == '.'
    ensures s[|da| + 1..|da| + 1 + |db|] == db
    ensures s[|da| + 1 + |db|..] == rest
  {
  }

  /** How `FromString`'s first two reads go on `da "." db rest` when both
      fields fit 8 bits and `rest` does not start with a digit. */
  lemma ReadMajorMinor(s: string, da: string, db: string, rest: string)
    requires AllDigits(da) && |da| >= 1 && DigitsValue(da) < 256
    requires AllDigits(db) && |db| >= 1 && DigitsValue(db) < 256
    requires s == da + "." + db + rest
    requires rest == [] || !IsDigit(rest[0])
    ensures FromChars(s, 0) == Parsed(true, DigitsValue(da), |da|)
    ensures CharAt(s, |da|) == '.'
    ensures FromChars(s, |da| + 1) == Parsed(true, DigitsValue(db), |da| + 1 + |db|)
    ensures CharAt(s, |da| + 1 + |db|) == CharAt(rest, 0)
  {
    Layout(s, da, db, rest);
    var i := |da| + 1 + |db|;
    assert s[|da|] !in "0123456789";
    ReadDigits(s, 0, da);
    if rest != [] {
      assert s[i] == rest[0];
    }
    ReadDigits(s, |da| + 1, db);
  }

  /** Decimal text of two fields that fit 8 bits, `da "." db mid tail`,
      after the C-string cut: both fields are read, and what follows the
      minor number is `mid` and the cut `tail`. The cut text `s` is returned
      so that callers reason about the reads alone. */
  lemma TwoFieldText(da: string, db: string, mid: string, tail: string) returns (s: string, i: nat)
    requires AllDigits(da) && |da| >= 1 && DigitsValue(da) < 256 && '\0' !in da
    requires AllDigits(db) && |db| >= 1 && DigitsValue(db) < 256 && '\0' !in db
    requires '\0' !in mid
    requires mid != [] ==> !IsDigit(mid[0])
    requires mid == [] ==> tail == [] || !IsDigit(tail[0])
    ensures Strings.CString(da + "." + db + mid + tail) == s
    ensures |da| < |s| && CharAt(s, |da|) == '.'
    ensures FromChars(s, 0) == Parsed(true, DigitsValue(da), |da|)
    ensures FromChars(s, |da| + 1) == Parsed(true, DigitsValue(db), i)
    ensures i <= |s| && s[i..] == mid + Strings.CString(tail)
  {
    var rest := mid + Strings.CString(tail);
    s := TwoFieldCut(da, db, mid, tail);
    ReadMajorMinor(s, da, db, rest);
    Layout(s, da, db, rest);
    i := |da| + 1 + |db|;
  }

  /** The C-string cut of `da "." db mid tail` only cuts the tail. */
  lemma TwoFieldCut(da: string, db: string, mid: string, tail: string) returns (s: string)
    requires '\0' !in da && '\0' !in db && '\0' !in mid
    requires mid != [] ==> !IsDigit(mid[0])
    requires mid == [] ==> tail == [] || !IsDigit(tail[0])
    ensures Strings.CString(da + "." + db + mid + tail) == s
    ensures s == da + "." + db + (mid + Strings.CString(tail))
    ensures var rest := mid + Strings.CString(tail); rest == [] || !IsDigit(rest[0])
  {
    var head := da + "." + db + mid;
    assert '\0' !in head;
    Strings.CStringAppend(head, tail);
    s := head + Strings.CString(tail);
    Associative(da + "." + db, mid, Strings.CString(tail));
    if mid == [] && Strings.CString(tail) != [] {
      assert Strings.CString(tail)[0] == tail[0];
    }
  }

  /** `TwoFieldText` for printed fields. */
  lemma PrintedTwoFields(a: uint8, b: uint8, mid: string, tail: string) returns (s: string, m: nat, i: nat)
    requires '\0' !in mid
    requires mid != [] ==> !IsDigit(mid[0])
    requires mid == [] ==> tail == [] || !IsDigit(tail[0])
    ensures Strings.CString(Decimal(a) + "." + Decimal(b) + mid + tail) == s
    ensures m < |s| && CharAt(s, m) == '.'
    ensures FromChars(s, 0) == Parsed(true, a, m)
    ensures FromChars(s, m + 1) == Parsed(true, b, i)
    ensures i <= |s| && s[i..] == mid + Strings.CString(tail)
  {
    PrintedField(a);
    PrintedField(b);
    s, i := TwoFieldText(Decimal(a), Decimal(b), mid, tail);
    m := |Decimal(a)|;
  }

  lemma Associative(x: string, y: string, z: string)
    ensures x + y + z == x + (y + z)
  {
  }

  /** Dropping the leading '.' of `"." x y`. */
  lemma DotSlice(x: string, y: string)
    ensures ("." + x + y)[0] == '.' && ("." + x + y)[1..] == x + y
  {
    assert ("." + x + y)[1..] == ("." + (x + y))[1..];
  }

  lemma DotRest(y: string)
    ensures ("." + y)[0] == '.' && ("." + y)[1..] == y
  {
  }

  /** Appending the empty string changes nothing. */
  lemma AppendEmpty(x: string)
    ensures x + "" == x
  {
  }

  lemma DropOne(s: string, k: nat, rest: string)
    requires k < |s| && s[k..] == rest
    ensures s[k] == rest[0] && s[k + 1..] == rest[1..]
  {
    assert s[k + 1..] == s[k..][1..];
  }

  /** `ParseMajor` once both reads have succeeded. */
  lemma MajorMinorStep(s: string, m: nat, i: nat, a: uint8, b: uint8)
    requires m < |s| && CharAt(s, m) == '.'
    requires FromChars(s, 0) == Parsed(true, a, m)
    requires FromChars(s, m + 1) == Parsed(true, b, i)
    ensures CharAt(s, i) == '.' ==> i < |s| && ParseMajor(s) == ParsePatch(s, a, b, i + 1)
    ensures CharAt(s, i) != '.' && EndsNumber(CharAt(s, i)) ==> ParseMajor(s) == Version(a, b, 0)
    ensures CharAt(s, i) != '.' && !EndsNumber(CharAt(s, i)) ==> ParseMajor(s) == Zero
  {
  }

  /** The patch field: a decimal of at most 255 followed by white space or
      the end is read and accepted. */
  lemma PatchRead(s: string, j: nat, dp: string, ct: string, a: uint8, b: uint8)
    requires AllDigits(dp) && |dp| >= 1 && DigitsValue(dp) < 256
    requires j <= |s| && s[j..] == dp + ct
    requires ct == [] || (EndsNumber(ct[0]) && !IsDigit(ct[0]))
    ensures ParsePatch(s, a, b, j) == Version(a, b, DigitsValue(dp))
  {
    assert s[j..j + |dp|] == (dp + ct)[..|dp|] == dp;
    if ct != [] {
      assert s[j + |dp|] == s[j..][|dp|] == ct[0];
    }
    ReadDigits(s, j, dp);
  }

  /** No digit where the patch number should start. */
  lemma PatchMissing(s: string, j: nat, a: uint8, b: uint8)
    requires j <= |s|
    requires s[j..] == [] || !IsDigit(s[j..][0])
    ensures ParsePatch(s, a, b, j) == Zero
  {
    if j < |s| {
      assert s[j] == s[j..][0];
    }
    assert DigitRun(s, j) == 0;
  }

  /** The first character of the cut tail, when there is one, is the
      tail's. */
  lemma CutStart(tail: string)
    requires tail == [] || EndsNumber(tail[0])
    ensures Strings.CString(tail) == [] || (EndsNumber(Strings.CString(tail)[0]) && Strings.CString(tail)[0] != '\0')
  {
  }

  /** Printing then parsing gives the version back, also when the text is
      followed by a space, tab, newline or NUL and anything after it. */
  lemma AsStringRoundTrip(v: Version, tail: string)
    requires tail == [] || EndsNumber(tail[0])
    ensures FromString(AsString(v) + tail) == v
  {
    if v.pat == 0 {
      TwoFieldRoundTrip(v, tail);
    } else {
      AsFullStringRoundTrip(v, tail);
      Associative(Decimal(v.maj) + "." + Decimal(v.min), ".", Decimal(v.pat));
    }
  }

  lemma TwoFieldRoundTrip(v: Version, tail: string)
    requires tail == [] || EndsNumber(tail[0])
    requires v.pat == 0
    ensures FromString(AsString(v) + tail) == v
  {
    var s, m, i := PrintedTwoFields(v.maj, v.min, "", tail);
    assert ParseMajor(s) == v by {
      CutStart(tail);
      var ct := Strings.CString(tail);
      if ct != [] {
        assert "" + ct == ct;
        DropOne(s, i, ct);
      }
      MajorMinorStep(s, m, i, v.maj, v.min);
    }
    AppendEmpty(Decimal(v.maj) + "." + Decimal(v.min));
  }

  /** The three-field form round-trips too. */
  lemma AsFullStringRoundTrip(v: Version, tail: string)
    requires tail == [] || EndsNumber(tail[0])
    ensures FromString(AsFullString(v) + tail) == v
  {
    var dp := Decimal(v.pat);
    FullTextParses(v, tail);
    assert AsFullString(v) + tail == Decimal(v.maj) + "." + Decimal(v.min) + ("." + dp) + tail by {
      Associative(Decimal(v.maj) + "." + Decimal(v.min), ".", dp);
    }
  }

  lemma FullTextParses(v: Version, tail: string)
    requires tail == [] || EndsNumber(tail[0])
    ensures ParseMajor(Strings.CString(Decimal(v.maj) + "." + Decimal(v.min) + ("." + Decimal(v.pat)) + tail)) == v
  {
    var dp := Decimal(v.pat);
    PrintedField(v.pat);
    assert '\0' !in "." + dp && !IsDigit(("." + dp)[0]);
    var s, m, i := PrintedTwoFields(v.maj, v.min, "." + dp, tail);
    var ct := Strings.CString(tail);
    assert ParseMajor(s) == ParsePatch(s, v.maj, v.min, i + 1) by {
      DotSlice(dp, ct);
      DropOne(s, i, "." + dp + ct);
      assert CharAt(s, i) == '.';
      MajorMinorStep(s, m, i, v.maj, v.min);
    }
    assert ParsePatch(s, v.maj, v.min, i + 1) == v by {
      CutStart(tail);
      DotSlice(dp, ct);
      DropOne(s, i, "." + dp + ct);
      PatchRead(s, i + 1, dp, ct, v.maj, v.min);
    }
  }

  /** Without a '.' there is no minor number, so parsing fails. */
  lemma MissingMinorRejected(str: string)
    requires '.' !in Strings.CString(str)
    ensures FromString(str) == Zero
  {
  }

  /** A '.' after the minor number demands a patch number ("1.0." and
      "1.0.xyz" fail). */
  lemma MissingPatchRejected(a: uint8, b: uint8, tail: string)
    requires tail == [] || !IsDigit(tail[0])
    ensures FromString(Decimal(a) + "." + Decimal(b) + "." + tail) == Zero
  {
    var s, m, i := PrintedTwoFields(a, b, ".", tail);
    assert ParseMajor(s) == Zero by {
      var ct := Strings.CString(tail);
      DropOne(s, i, "." + ct);
      MajorMinorStep(s, m, i, a, b);
      DotRest(ct);
      if ct != [] {
        assert ct[0] == tail[0];
      }
      PatchMissing(s, i + 1, a, b);
    }
  }

  /** Any other character after the minor number fails ("1.0a",
      "1.0_stuff"). */
  lemma TrailingJunkRejected(a: uint8, b: uint8, c: char, rest: string)
    requires !EndsNumber(c) && c != '.' && !IsDigit(c)
    ensures FromString(Decimal(a) + "." + Decimal(b) + [c] + rest) == Zero
  {
    var s, m, i := PrintedTwoFields(a, b, [c], rest);
    assert ParseMajor(s) == Zero by {
      DropOne(s, i, [c] + Strings.CString(rest));
      MajorMinorStep(s, m, i, a, b);
    }
  }

  /** A minor number that does not fit 8 bits fails ("3.1416"). */
  lemma FieldOverflowRejected(a: uint8, b: nat, tail: string)
    requires b >= 256
    requires tail == [] || !IsDigit(tail[0])
    ensures FromString(Decimal(a) + "." + Decimal(b) + tail) == Zero
  {
    var da, db := Decimal(a), Decimal(b);
    PrintedField(a);
    DecimalRoundTrip(b);
    var head := da + "." + db;
    var ct := Strings.CString(tail);
    var s := head + ct;
    assert Strings.CString(head + tail) == s by {
      forall i | 0 <= i < |db| ensures db[i] != '\0' {
        assert IsDigit(db[i]);
      }
      assert '\0' !in head;
      Strings.CStringAppend(head, tail);
    }
    MinorOverflowParse(da, db, ct);
  }

  /** `da "." db rest` with a minor field too large for 8 bits parses to
      the zero version. */
  lemma MinorOverflowParse(da: string, db: string, rest: string)
    requires AllDigits(da) && |da| >= 1 && DigitsValue(da) < 256
    requires AllDigits(db) && |db| >= 1 && DigitsValue(db) >= 256
    requires rest == [] || !IsDigit(rest[0])
    ensures ParseMajor(da + "." + db + rest) == Zero
  {
    var s := da + "." + db + rest;
    Layout(s, da, db, rest);
    ReadDigits(s, 0, da);
    if rest != [] {
      assert s[|da| + 1 + |db|] == rest[0];
    }
    ReadOverflow(s, |da| + 1, db);
  }
}

=== FILE: list_editor.dfy ===
/** The list editor base (listEditor.h): a list op seen through the spec
    that owns it.  The editor is expired once its owner is gone; whether
    the field only allows reordering is fixed when the editor is made. */
module ListEditors {
  import opened Wrappers
  import opened Seqs
  import opened ListOps
  import ListOpApply

  /** What the editor needs of its owning spec: whether it may be edited. */
  datatype Owner = Owner(editable: bool)

  datatype ListEditor<T> = ListEditor(owner: Option<Owner>, orderedOnly: bool, op: ListOp<T>)

  predicate IsExpired<T>(e: ListEditor<T>) {
    e.owner.None?
  }

  predicate IsValid<T>(e: ListEditor<T>) {
    !IsExpired(e)
  }

  /** `HasKeys`: an explicit editor always has keys (an empty explicit list
      still says "nothing"), an ordered-only editor has them when it orders
      something, any other editor when one of its five edit lists is
      non-empty. */
  predicate HasKeys<T>(e: ListEditor<T>) {
    if e.op.isExplicit then true
    else if e.orderedOnly then e.op.orderedItems != []
    else (e.op.addedItems != [] || e.op.prependedItems != [] || e.op.appendedItems != []
          || e.op.deletedItems != [] || e.op.orderedItems != [])
  }

  /** An editor of a full (not ordered-only) field without keys names no
      item, so applying it leaves every list as it was. */
  lemma NoKeysNoItems<T>(e: ListEditor<T>, vec: seq<T>)
    requires !HasKeys(e) && !e.orderedOnly
    ensures forall x :: !HasItem(e.op, x)
    ensures ListOpApply.Apply(e.op, vec, None) == vec
  {
  }

  /** For a well-formed op of a full field, having keys is having a
      non-empty list, whichever list that is; an explicit editor has keys
      even when its list is empty. */
  lemma HasKeysIffSomeList<T>(e: ListEditor<T>)
    requires WellFormed(e.op) && !e.orderedOnly
    ensures HasKeys(e) <==> e.op.isExplicit || exists t :: GetItems(e.op, t) != []
  {
    if !e.op.isExplicit && exists t :: GetItems(e.op, t) != [] {
      var t :| GetItems(e.op, t) != [];
      assert t != Explicit;
    }
    if HasKeys(e) && !e.op.isExplicit {
      assert GetItems(e.op, Added) != [] || GetItems(e.op, Prepended) != []
        || GetItems(e.op, Appended) != [] || GetItems(e.op, Deleted) != []
        || GetItems(e.op, Ordered) != [];
    }
  }

  /** `Find` on one list: the index of the first occurrence, or -1 where
      `SdfListOp::Find` returns `size_t(-1)`. */
  function Find<T(==)>(s: seq<T>, x: T): (r: int)
    ensures r == -1 <==> x !in s
    ensures r != -1 ==> 0 <= r < |s| && s[r] == x && x !in s[..r]
  {
    if x in s then IndexOf(s, x) else -1
  }

  /** `Count` on one list: the number of occurrences of `x`. */
  function Count<T(==)>(s: seq<T>, x: T): (n: nat)
    ensures n == multiset(s)[x]
  {
    if s == [] then 0
    else
      assert s == [s[0]] + s[1..];
      (if s[0] == x then 1 else 0) + Count(s[1..], x)
  }

  /** The editor's `Find` and `Count` look for the value as the field's type
      policy canonicalises it. */
  function FindIn<T(==)>(e: ListEditor<T>, t: ListOpType, canon: T -> T, x: T): (r: int)
    ensures r == -1 <==> canon(x) !in GetItems(e.op, t)
    ensures r != -1 ==> 0 <= r < |GetItems(e.op, t)| && GetItems(e.op, t)[r] == canon(x)
  {
    Find(GetItems(e.op, t), canon(x))
  }

  function CountIn<T(==)>(e: ListEditor<T>, t: ListOpType, canon: T -> T, x: T): (n: nat)
    ensures n == 0 <==> canon(x) !in GetItems(e.op, t)
  {
    Count(GetItems(e.op, t), canon(x))
  }

  /** A list without duplicates holds an item at most once, and `Find`
      reports it exactly when `Count` is one. */
  lemma {:induction false} CountUnique<T>(s: seq<T>, x: T)
    requires Unique(s)
    ensures Count(s, x) <= 1
    ensures Count(s, x) == 1 <==> Find(s, x) != -1
    decreases |s|
  {
    if s != [] {
      UniqueCons(s[0], s[1..]);
      assert s == [s[0]] + s[1..];
      CountUnique(s[1..], x);
      if s[0] == x {
        assert Count(s[1..], x) == 0;
      }
    }
  }

  datatype Allowed = Allowed | Denied(whyNot: string)

  /** `PermissionToEdit`: an expired editor and one whose owner may not be
      edited are refused, with the reason the C++ editor gives. */
  function PermissionToEdit<T>(e: ListEditor<T>): (r: Allowed)
    ensures r.Allowed? <==> IsValid(e) && e.owner.value.editable
    ensures IsExpired(e) ==> r == Denied("List editor is expired")
    ensures IsValid(e) && !e.owner.value.editable ==> r == Denied("Permission denied")
  {
    match e.owner
    case None => Denied("List editor is expired")
    case Some(o) => if !o.editable then Denied("Permission denied") else Allowed
  }

  // ------------------------------------------- validating an edit

  /** The length of the common prefix of two lists. */
  function CommonPrefix<T(==)>(a: seq<T>, b: seq<T>): (k: nat)
    ensures k <= |a| && k <= |b| && a[..k] == b[..k]
    ensures k < |a| && k < |b| ==> a[k] != b[k]
  {
    if a == [] || b == [] || a[0] != b[0] then 0
    else
      var k := CommonPrefix(a[1..], b[1..]);
      assert a[..k + 1] == [a[0]] + a[1..][..k];
      assert b[..k + 1] == [b[0]] + b[1..][..k];
      k + 1
  }

  lemma PrefixEqual<T>(a: seq<T>, b: seq<T>, k: nat)
    requires k <= |a| && k <= |b| && a[..k] == b[..k]
    ensures forall i :: 0 <= i < k ==> a[i] == b[i]
  {
    forall i | 0 <= i < k ensures a[i] == b[i] {
      assert a[..k][i] == b[..k][i];
    }
  }

  /** No new value past the common prefix repeats an earlier new value. */
  predicate TailDistinct<T(==)>(oldValues: seq<T>, newValues: seq<T>) {
    forall i, j :: CommonPrefix(oldValues, newValues) <= i < |newValues| && 0 <= j < i
      ==> newValues[i] != newValues[j]
  }

  /** Every new value past the common prefix is one the field definition
      accepts; without a definition nothing is checked. */
  predicate TailValid<T(==)>(oldValues: seq<T>, newValues: seq<T>, fieldDef: Option<T -> bool>) {
    fieldDef.None?
    || forall i :: CommonPrefix(oldValues, newValues) <= i < |newValues| ==> fieldDef.value(newValues[i])
  }

  /** `_ValidateEdit`: skips the common prefix of the old and new values,
      rejects a duplicate among the rest, then asks the field definition,
      if there is one, to accept each of the rest. */
  method ValidateEdit<T(==)>(oldValues: seq<T>, newValues: seq<T>, fieldDef: Option<T -> bool>)
    returns (ok: bool)
    ensures ok <==> TailDistinct(oldValues, newValues) && TailValid(oldValues, newValues, fieldDef)
  {
    var tail := 0;
    while tail < |oldValues| && tail < |newValues| && oldValues[tail] == newValues[tail]
      invariant tail <= |oldValues| && tail <= |newValues|
      invariant oldValues[..tail] == newValues[..tail]
    {
      assert oldValues[..tail + 1] == oldValues[..tail] + [oldValues[tail]];
      assert newValues[..tail + 1] == newValues[..tail] + [newValues[tail]];
      tail := tail + 1;
    }
    assert tail == CommonPrefix(oldValues, newValues) by {
      PrefixEqual(oldValues, newValues, tail);
      PrefixEqual(oldValues, newValues, CommonPrefix(oldValues, newValues));
    }
    for i := tail to |newValues|
      invariant forall a, b :: tail <= a < i && 0 <= b < a ==> newValues[a] != newValues[b]
    {
      for j := 0 to i
        invariant forall b :: 0 <= b < j ==> newValues[i] != newValues[b]
      {
        if newValues[i] == newValues[j] {
          return false;
        }
      }
    }
    if fieldDef.Some? {
      for i := tail to |newValues|
        invariant forall a :: tail <= a < i ==> fieldDef.value(newValues[a])
      {
        if !fieldDef.value(newValues[i]) {
          return false;
        }
      }
    }
    return true;
  }

  /** The shortcut over the common prefix is sound for the lists the C++ editor
      expects: old values without duplicates and an accepted edit give new
      values without duplicates. */
  lemma AcceptedEditUnique<T>(oldValues: seq<T>, newValues: seq<T>)
    requires Unique(oldValues) && TailDistinct(oldValues, newValues)
    ensures Unique(newValues)
  {
    var k := CommonPrefix(oldValues, newValues);
    forall i, j | 0 <= i < j < |newValues| ensures newValues[i] != newValues[j] {
      if j < k {
        assert oldValues[..k][i] == newValues[..k][i];
        assert oldValues[..k][j] == newValues[..k][j];
      }
    }
  }

  /** New values without duplicates never fail the duplicate check. */
  lemma UniqueEditDistinct<T>(oldValues: seq<T>, newValues: seq<T>)
    requires Unique(newValues)
    ensures TailDistinct(oldValues, newValues)
  {
  }

  // ------------------------------------------- printing

  /** Item texts joined by ", ". */
  function Join(parts: seq<string>): string {
    if parts == [] then ""
    else if |parts| == 1 then parts[0]
    else parts[0] + ", " + Join(parts[1..])
  }

  lemma JoinCons(p: string, rest: seq<string>)
    requires rest != []
    ensures Join([p] + rest) == p + (", " + Join(rest))
  {
    assert ([p] + rest)[1..] == rest;
  }

  lemma {:induction false} JoinSnoc(parts: seq<string>, p: string)
    requires parts != []
    ensures Join(parts + [p]) == Join(parts) + ", " + p
    decreases |parts|
  {
    if |parts| == 1 {
      assert (parts + [p])[1..] == [p];
    } else {
      assert (parts + [p])[1..] == parts[1..] + [p];
      JoinSnoc(parts[1..], p);
    }
  }

  function Shown<T>(v: seq<T>, show: T -> string): (r: seq<string>)
    ensures |r| == |v| && forall i :: 0 <= i < |v| ==> r[i] == show(v[i])
  {
    if v == [] then [] else [show(v[0])] + Shown(v[1..], show)
  }

  /** A list as the printer shows it: its items between brackets, ", "
      between neighbours. */
  function ListText<T>(v: seq<T>, show: T -> string): string {
    "[" + Join(Shown(v, show)) + "]"
  }

  /** The printer's `_Write` loop: ", " before every item but the first. */
  method WriteList<T>(v: seq<T>, show: T -> string) returns (out: string)
    ensures out == ListText(v, show)
  {
    out := "[";
    for i := 0 to |v|
      invariant out == "[" + Join(Shown(v[..i], show))
    {
      assert Shown(v[..i + 1], show) == Shown(v[..i], show) + [show(v[i])];
      if i != 0 {
        out := out + ", ";
        JoinSnoc(Shown(v[..i], show), show(v[i]));
      } else {
        assert Shown(v[..1], show) == [show(v[0])];
      }
      out := out + show(v[i]);
    }
    assert v[..|v|] == v;
    out := out + "]";
  }

  /** `operator<<` as the C++ code writes it: after the added and prepended
      lists the ", " separator is missing. */
  function PrintAsWritten<T>(e: ListEditor<T>, show: T -> string): (r: string)
    ensures !IsValid(e) ==> r == ""
    ensures IsValid(e) && e.op.isExplicit ==> r == ListText(e.op.explicitItems, show)
  {
    if !IsValid(e) then ""
    else if e.op.isExplicit then ListText(e.op.explicitItems, show)
    else
      var edits :=
        if e.orderedOnly then ""
        else ("'added': " + ListText(e.op.addedItems, show)
              + "'prepended': " + ListText(e.op.prependedItems, show)
              + "'appended': " + ListText(e.op.appendedItems, show)
              + ", 'deleted': " + ListText(e.op.deletedItems, show) + ", ");
      "{ " + edits + "'ordered': " + ListText(e.op.orderedItems, show) + " }"
  }

  /** The labelled lists a non-explicit editor shows. */
  function Entries<T>(e: ListEditor<T>, show: T -> string): seq<string> {
    var ordered := ["'ordered': " + ListText(e.op.orderedItems, show)];
    if e.orderedOnly then ordered
    else ["'added': " + ListText(e.op.addedItems, show),
          "'prepended': " + ListText(e.op.prependedItems, show),
          "'appended': " + ListText(e.op.appendedItems, show),
          "'deleted': " + ListText(e.op.deletedItems, show)] + ordered
  }

  /** `operator<<` with every labelled list separated by ", ". */
  function Print<T>(e: ListEditor<T>, show: T -> string): (r: string)
    ensures !IsValid(e) ==> r == ""
    ensures IsValid(e) && e.op.isExplicit ==> r == ListText(e.op.explicitItems, show)
    ensures IsValid(e) && !e.op.isExplicit ==> r == "{ " + Join(Entries(e, show)) + " }"
  {
    if !IsValid(e) then ""
    else if e.op.isExplicit then ListText(e.op.explicitItems, show)
    else
      var ordered := "'ordered': " + ListText(e.op.orderedItems, show);
      var a := "'added': " + ListText(e.op.addedItems, show);
      var p := "'prepended': " + ListText(e.op.prependedItems, show);
      var ap := "'appended': " + ListText(e.op.appendedItems, show);
      var d := "'deleted': " + ListText(e.op.deletedItems, show);
      var lists :=
        if e.orderedOnly then ordered
        else a + (", " + (p + (", " + (ap + (", " + (d + (", " + ordered)))))));
      assert Join(Entries(e, show)) == lists by {
        if !e.orderedOnly {
          JoinCons(d, [ordered]);
          JoinCons(ap, [d, ordered]);
          JoinCons(p, [ap, d, ordered]);
          JoinCons(a, [p, ap, d, ordered]);
          assert Entries(e, show) == [a] + [p, ap, d, ordered];
          assert [p] + [ap, d, ordered] == [p, ap, d, ordered];
          assert [ap] + [d, ordered] == [ap, d, ordered];
          assert [d] + [ordered] == [d, ordered];
        }
      }
      "{ " + lists + " }"
  }

  /** A full, non-explicit editor with empty lists, printed as the C++
      code does: the added list's closing bracket runs straight into the next
      label, where the corrected printer puts ", ". */
  lemma PrintMissesSeparators<T>(show: T -> string)
    ensures var e := ListEditor(Some(Owner(true)), false, Empty<T>());
      var w, c := PrintAsWritten(e, show), Print(e, show);
      |w| > 13 && w[12] == ']' && w[13] == '\''
      && |c| > 13 && c[12] == ']' && c[13] == ','
  {
    AsWrittenJoinsLabels(show);
    CorrectedSeparatesLabels(show);
  }

  lemma AsWrittenJoinsLabels<T>(show: T -> string)
    ensures var w := PrintAsWritten(ListEditor(Some(Owner(true)), false, Empty<T>()), show);
      |w| > 13 && w[12] == ']' && w[13] == '\''
  {
    var e := ListEditor(Some(Owner(true)), false, Empty<T>());
    var empty := ListText<T>([], show);
    assert empty == "[]";
    var edits := "'added': " + empty + "'prepended': " + empty + "'appended': " + empty
      + ", 'deleted': " + empty + ", ";
    assert PrintAsWritten(e, show) == "{ " + edits + "'ordered': " + empty + " }";
    AddedRunsOn(empty, edits, "'ordered': " + empty + " }");
  }

  /** Where an empty added list's text ends in the unseparated layout. */
  lemma AddedRunsOn(l: string, edits: string, tail: string)
    requires l == "[]"
    requires edits == "'added': " + l + "'prepended': " + l + "'appended': " + l + ", 'deleted': " + l + ", "
    ensures var w := "{ " + edits + tail; |w| > 13 && w[12] == ']' && w[13] == '\''
  {
    var head := "'added': " + l + "'prepended': ";
    assert head[10] == ']' && head[11] == '\'';
    assert edits[10] == ']' && edits[11] == '\'';
  }

  lemma CorrectedSeparatesLabels<T>(show: T -> string)
    ensures var c := Print(ListEditor(Some(Owner(true)), false, Empty<T>()), show);
      |c| > 13 && c[12] == ']' && c[13] == ','
  {
    var e := ListEditor(Some(Owner(true)), false, Empty<T>());
    var empty := ListText<T>([], show);
    assert empty == "[]";
    var c := Print(e, show);
    var p := "'prepended': " + empty;
    var ap := "'appended': " + empty;
    var d := "'deleted': " + empty;
    var ordered := "'ordered': " + empty;
    assert c == "{ " + (("'added': " + empty) + (", " + (p + (", " + (ap + (", " + (d + (", " + ordered)))))))) + " }";
  }
}

=== FILE: list_editor_proxy.dfy ===
/** The list editor proxy (listEditorProxy.h): the user-facing handle on a
    list editor.  A proxy may hold no editor at all; every edit goes
    through `_Validate`, which refuses a missing or expired editor, and
    then rewrites one of the editor's six lists through the list op's
    range replacement.  The field's type policy enters as its
    canonicalisation `canon`: the searches look for `canon(x)`, as the
    editor's `Find` does, while the writes store `x` as given. */
module ListEditorProxies {
  import opened Wrappers
  import opened Seqs
  import opened ListOps
  import ListOpApply
  import opened ListEditors

  datatype Proxy<T> = NoEditor | Proxy(editor: ListEditor<T>)

  /** `_Validate`: there is an editor and it has not expired. */
  predicate Validate<T>(p: Proxy<T>) {
    p.Proxy? && IsValid(p.editor)
  }

  predicate IsExpired<T>(p: Proxy<T>) {
    p.Proxy? && ListEditors.IsExpired(p.editor)
  }

  predicate IsExplicit<T>(p: Proxy<T>) {
    if Validate(p) then p.editor.op.isExplicit else true
  }

  predicate IsOrderedOnly<T>(p: Proxy<T>) {
    if Validate(p) then p.editor.orderedOnly else false
  }

  predicate ProxyHasKeys<T>(p: Proxy<T>) {
    if Validate(p) then HasKeys(p.editor) else true
  }

  /** `GetAppliedItems`: the editor's ops applied to an empty list. */
  function GetAppliedItems<T(==)>(p: Proxy<T>): seq<T> {
    if Validate(p) then ListOpApply.Apply(p.editor.op, [], None) else []
  }

  /** A proxy without an editor answers like an explicit, unordered editor
      with keys, applies to nothing, names nothing and ignores every edit. */
  lemma NoEditorDefaults<T>(canon: T -> T, x: T)
    ensures var p := NoEditor;
      !IsExpired(p) && IsExplicit(p) && ProxyHasKeys(p) && !IsOrderedOnly(p)
      && GetAppliedItems(p) == [] && !ContainsItemEdit(p, canon, x, false)
      && Add(p, canon, x) == p && Prepend(p, canon, x) == p && Append(p, canon, x) == p
      && Remove(p, canon, x) == p && Erase(p, canon, x) == p && RemoveItemEdits(p, canon, x) == p
  {
  }

  /** The applied items of an explicit editor are its explicit items, each
      once. */
  lemma AppliedItemsExplicit<T>(p: Proxy<T>)
    requires Validate(p) && p.editor.op.isExplicit
    ensures GetAppliedItems(p) == DedupFirst(p.editor.op.explicitItems)
  {
    ListOpApply.ApplyExplicit(p.editor.op, []);
  }

  // ------------------------------------------- the list proxy's edits

  /** One range replacement on list `t`; a refused replacement leaves the
      editor as it was. */
  function Edit<T(==)>(e: ListEditor<T>, t: ListOpType, index: nat, n: nat, elems: seq<T>): ListEditor<T> {
    var (op, ok) := ReplaceOperations(e.op, t, index, n, elems);
    if ok then e.(op := op) else e
  }

  /** Removing `x` from list `t`: the first item equal to its canonical
      form, when there is one. */
  function RemoveValue<T(==)>(e: ListEditor<T>, t: ListOpType, canon: T -> T, x: T): ListEditor<T> {
    var i := FindIn(e, t, canon, x);
    if i != -1 then Edit(e, t, i, 1, []) else e
  }

  /** Removing `x` from each list of `ts` in turn. */
  function RemoveFromLists<T(==)>(e: ListEditor<T>, ts: seq<ListOpType>, canon: T -> T, x: T): ListEditor<T>
    decreases |ts|
  {
    if ts == [] then e else RemoveFromLists(RemoveValue(e, ts[0], canon, x), ts[1..], canon, x)
  }

  function PushBack<T(==)>(e: ListEditor<T>, t: ListOpType, x: T): ListEditor<T> {
    Edit(e, t, |GetItems(e.op, t)|, 0, [x])
  }

  /** `_AddIfMissing`: push `x` unless its canonical form is in the list. */
  function AddIfMissing<T(==)>(e: ListEditor<T>, t: ListOpType, canon: T -> T, x: T): ListEditor<T> {
    if FindIn(e, t, canon, x) == -1 then PushBack(e, t, x) else e
  }

  /** `_AddOrReplace`: push `x` unless its canonical form is in the list;
      if it is, write `x` over the item found unless the two are equal. */
  function AddOrReplace<T(==)>(e: ListEditor<T>, t: ListOpType, canon: T -> T, x: T): ListEditor<T> {
    var i := FindIn(e, t, canon, x);
    if i == -1 then PushBack(e, t, x)
    else if x != GetItems(e.op, t)[i] then Edit(e, t, i, 1, [x])
    else e
  }

  /** `_Prepend`: unless the canonical form of `x` is already first, erase
      it where it is and insert `x` at the front. */
  function PrependValue<T(==)>(e: ListEditor<T>, t: ListOpType, canon: T -> T, x: T): ListEditor<T> {
    if FindIn(e, t, canon, x) == 0 then e
    else Edit(RemoveValue(e, t, canon, x), t, 0, 0, [x])
  }

  /** `_Append`: unless the canonical form of `x` is already last, erase it
      where it is and push `x` at the back. */
  function AppendValue<T(==)>(e: ListEditor<T>, t: ListOpType, canon: T -> T, x: T): ListEditor<T> {
    var s := GetItems(e.op, t);
    if s == [] || FindIn(e, t, canon, x) != |s| - 1 then PushBack(RemoveValue(e, t, canon, x), t, x)
    else e
  }

  // ------------------------------------------- the proxy operations

  function Add<T(==)>(p: Proxy<T>, canon: T -> T, x: T): Proxy<T> {
    if !Validate(p) || p.editor.orderedOnly then p
    else if p.editor.op.isExplicit then Proxy(AddOrReplace(p.editor, Explicit, canon, x))
    else Proxy(AddOrReplace(RemoveValue(p.editor, Deleted, canon, x), Added, canon, x))
  }

  function Prepend<T(==)>(p: Proxy<T>, canon: T -> T, x: T): Proxy<T> {
    if !Validate(p) || p.editor.orderedOnly then p
    else if p.editor.op.isExplicit then Proxy(PrependValue(p.editor, Explicit, canon, x))
    else Proxy(PrependValue(RemoveValue(p.editor, Deleted, canon, x), Prepended, canon, x))
  }

  function Append<T(==)>(p: Proxy<T>, canon: T -> T, x: T): Proxy<T> {
    if !Validate(p) || p.editor.orderedOnly then p
    else if p.editor.op.isExplicit then Proxy(AppendValue(p.editor, Explicit, canon, x))
    else Proxy(AppendValue(RemoveValue(p.editor, Deleted, canon, x), Appended, canon, x))
  }

  /** `Remove`: an explicit editor drops the value; any other editor of a
      full field drops it from its added, prepended and appended lists and
      records it as deleted. */
  function Remove<T(==)>(p: Proxy<T>, canon: T -> T, x: T): Proxy<T> {
    if !Validate(p) then p
    else if p.editor.op.isExplicit then Proxy(RemoveValue(p.editor, Explicit, canon, x))
    else if p.editor.orderedOnly then p
    else
      Proxy(AddIfMissing(RemoveFromLists(p.editor, [Added, Prepended, Appended], canon, x), Deleted, canon, x))
  }

  /** `Erase`: like `Remove` but never records a deletion, and nothing at
      all on an ordered-only editor. */
  function Erase<T(==)>(p: Proxy<T>, canon: T -> T, x: T): Proxy<T> {
    if !Validate(p) || p.editor.orderedOnly then p
    else if p.editor.op.isExplicit then Proxy(RemoveValue(p.editor, Explicit, canon, x))
    else Proxy(RemoveFromLists(p.editor, [Added, Prepended, Appended], canon, x))
  }

  /** `ContainsItemEdit`: whether some list holds the canonical form of
      `x`; with `onlyAddOrExplicit` the deleted and ordered lists are not
      consulted. */
  predicate ContainsItemEdit<T(==)>(p: Proxy<T>, canon: T -> T, x: T, onlyAddOrExplicit: bool) {
    Validate(p)
    && var e := p.editor;
    (FindIn(e, Explicit, canon, x) != -1 || FindIn(e, Added, canon, x) != -1
     || FindIn(e, Prepended, canon, x) != -1 || FindIn(e, Appended, canon, x) != -1
     || (!onlyAddOrExplicit && (FindIn(e, Deleted, canon, x) != -1 || FindIn(e, Ordered, canon, x) != -1)))
  }

  /** The six lists in the order `RemoveItemEdits` visits them. */
  function AllLists(): seq<ListOpType> {
    [Explicit, Added, Prepended, Appended, Deleted, Ordered]
  }

  /** `RemoveItemEdits`: `x` removed from all six lists. */
  function RemoveItemEdits<T(==)>(p: Proxy<T>, canon: T -> T, x: T): Proxy<T> {
    if !Validate(p) then p
    else Proxy(RemoveFromLists(p.editor, AllLists(), canon, x))
  }

  // ------------------------------------------- what the edits do

  /** The shape edits keep: only the lists of the op's mode hold items, and
      no list holds an item twice. */
  predicate Tidy<T(==)>(op: ListOp<T>) {
    (op.isExplicit ==> forall t :: t != Explicit ==> GetItems(op, t) == [])
    && (!op.isExplicit ==> op.explicitItems == [])
    && forall t :: Unique(GetItems(op, t))
  }

  predicate ProxyTidy<T(==)>(p: Proxy<T>) {
    p.Proxy? ==> Tidy(p.editor.op)
  }

  /** The lists a tidy op may edit without changing its mode. */
  predicate OwnList<T>(op: ListOp<T>, t: ListOpType) {
    op.isExplicit == (t == Explicit)
  }

  /** The searches look for the canonical form of `x` but the writes store
      `x` as given.  A list that holds `x` itself while `x` is not its own
      canonical form is one a search for `x` misses; these are the lists
      where that does not happen. */
  predicate FindableIn<T(==)>(op: ListOp<T>, t: ListOpType, canon: T -> T, x: T) {
    canon(x) == x || x !in GetItems(op, t)
  }

  /** Every stored item is its own canonical form, as in a field whose
      values are canonicalised before they are stored. */
  predicate Settled<T(==)>(op: ListOp<T>, canon: T -> T) {
    forall t, y :: y in GetItems(op, t) ==> canon(y) == y
  }

  predicate ProxySettled<T(==)>(p: Proxy<T>, canon: T -> T) {
    p.Proxy? ==> Settled(p.editor.op, canon)
  }

  /** Two ops with the same mode and the same six lists are the same op. */
  lemma ListOpEq<T>(a: ListOp<T>, b: ListOp<T>)
    requires a.isExplicit == b.isExplicit && forall t :: GetItems(a, t) == GetItems(b, t)
    ensures a == b
  {
    assert GetItems(a, Explicit) == GetItems(b, Explicit);
    assert GetItems(a, Added) == GetItems(b, Added);
    assert GetItems(a, Prepended) == GetItems(b, Prepended);
    assert GetItems(a, Appended) == GetItems(b, Appended);
    assert GetItems(a, Deleted) == GetItems(b, Deleted);
    assert GetItems(a, Ordered) == GetItems(b, Ordered);
  }

  /** Storing a duplicate-free list into a list of the op's own mode keeps
      the op tidy. */
  lemma WithItemsTidy<T>(op: ListOp<T>, t: ListOpType, s: seq<T>)
    requires Tidy(op) && OwnList(op, t) && Unique(s)
    ensures Tidy(WithItems(op, t, s))
  {
  }

  /** A replacement inside list `t` of the op's mode that leaves no
      duplicate stores exactly the replaced list. */
  lemma EditStores<T>(e: ListEditor<T>, t: ListOpType, index: nat, n: nat, elems: seq<T>)
    requires OwnList(e.op, t)
    requires index + n <= |GetItems(e.op, t)|
    requires var s := GetItems(e.op, t); Unique(s[..index] + elems + s[index + n..])
    ensures var s := GetItems(e.op, t);
      Edit(e, t, index, n, elems) == e.(op := WithItems(e.op, t, s[..index] + elems + s[index + n..]))
  {
    var s := GetItems(e.op, t);
    var s' := s[..index] + elems + s[index + n..];
    var r := ReplaceOperations(e.op, t, index, n, elems);
    CanonicalSpec(t, s');
    ListOpEq(r.0, WithItems(e.op, t, s'));
  }

  /** Dropping the first occurrence from a list without duplicates drops
      the item altogether. */
  lemma DropFirst<T>(s: seq<T>, x: T)
    requires Unique(s) && x in s
    ensures var i := Find(s, x);
      s[..i] + s[i + 1..] == Without(s, {x}) && Unique(Without(s, {x}))
  {
    WithoutAt(s, Find(s, x));
    WithoutUnique(s, {x});
  }

  /** Writing a value the list does not hold over one of its items keeps
      the list free of duplicates. */
  lemma ReplaceUnique<T>(s: seq<T>, i: nat, x: T)
    requires i < |s| && Unique(s) && x !in s
    ensures s[..i] + [x] + s[i + 1..] == s[i := x] && Unique(s[i := x])
  {
    var s' := s[i := x];
    forall a, b | 0 <= a < b < |s'| ensures s'[a] != s'[b] {
      if a == i {
        assert s[b] in s;
      } else if b == i {
        assert s[a] in s;
      }
    }
  }

  /** Removing a value whose canonical form is in the list: the list loses
      that form and stays free of duplicates. */
  lemma RemoveValueHit<T>(e: ListEditor<T>, t: ListOpType, canon: T -> T, x: T)
    requires Tidy(e.op) && canon(x) in GetItems(e.op, t)
    ensures var s := GetItems(e.op, t);
      RemoveValue(e, t, canon, x) == e.(op := WithItems(e.op, t, Without(s, {canon(x)})))
      && Tidy(RemoveValue(e, t, canon, x).op)
  {
    var s, c := GetItems(e.op, t), canon(x);
    DropFirst(s, c);
    var i := Find(s, c);
    assert OwnList(e.op, t);
    assert s[..i] + [] + s[i + 1..] == s[..i] + s[i + 1..];
    EditStores(e, t, i, 1, []);
    WithItemsTidy(e.op, t, Without(s, {c}));
  }

  lemma RemoveValueSpec<T>(e: ListEditor<T>, t: ListOpType, canon: T -> T, x: T)
    requires Tidy(e.op)
    ensures var s := GetItems(e.op, t);
      RemoveValue(e, t, canon, x) == e.(op := WithItems(e.op, t, Without(s, {canon(x)})))
      && Tidy(RemoveValue(e, t, canon, x).op)
  {
    var s, c := GetItems(e.op, t), canon(x);
    if c in s {
      RemoveValueHit(e, t, canon, x);
    } else {
      WithoutNone(s, {c});
      WithItemsSame(e.op, t);
    }
  }

  lemma PushBackSpec<T>(e: ListEditor<T>, t: ListOpType, x: T)
    requires Tidy(e.op) && OwnList(e.op, t) && x !in GetItems(e.op, t)
    ensures var s := GetItems(e.op, t);
      PushBack(e, t, x) == e.(op := WithItems(e.op, t, s + [x]))
      && Tidy(PushBack(e, t, x).op)
  {
    var s := GetItems(e.op, t);
    UniqueAppend(s, [x]);
    assert s[..|s|] + [x] + s[|s|..] == s + [x];
    EditStores(e, t, |s|, 0, [x]);
    WithItemsTidy(e.op, t, s + [x]);
  }

  lemma AddIfMissingSpec<T>(e: ListEditor<T>, t: ListOpType, canon: T -> T, x: T)
    requires Tidy(e.op) && OwnList(e.op, t) && FindableIn(e.op, t, canon, x)
    ensures var s := GetItems(e.op, t);
      AddIfMissing(e, t, canon, x) == e.(op := WithItems(e.op, t, if canon(x) in s then s else s + [x]))
      && Tidy(AddIfMissing(e, t, canon, x).op)
  {
    var s := GetItems(e.op, t);
    if canon(x) in s {
      ListOpEq(WithItems(e.op, t, s), e.op);
    } else {
      PushBackSpec(e, t, x);
    }
  }

  /** Adding writes `x` over the item its canonical form was found as, or
      pushes it at the back; a value equal to the item found leaves the
      list as it was. */
  lemma AddOrReplaceSpec<T>(e: ListEditor<T>, t: ListOpType, canon: T -> T, x: T)
    requires Tidy(e.op) && OwnList(e.op, t) && FindableIn(e.op, t, canon, x)
    ensures var s, c := GetItems(e.op, t), canon(x);
      AddOrReplace(e, t, canon, x)
        == e.(op := WithItems(e.op, t, if c in s then s[Find(s, c) := x] else s + [x]))
      && Tidy(AddOrReplace(e, t, canon, x).op)
    ensures canon(x) == x ==> AddOrReplace(e, t, canon, x) == AddIfMissing(e, t, canon, x)
  {
    var s, c := GetItems(e.op, t), canon(x);
    if c in s {
      var i := Find(s, c);
      if x != c {
        ReplaceUnique(s, i, x);
        EditStores(e, t, i, 1, [x]);
        WithItemsTidy(e.op, t, s[i := x]);
      } else {
        assert s[i := x] == s;
        WithItemsSame(e.op, t);
      }
    } else {
      PushBackSpec(e, t, x);
    }
  }

  lemma WithItemsTwice<T>(op: ListOp<T>, t: ListOpType, a: seq<T>, b: seq<T>)
    ensures WithItems(WithItems(op, t, a), t, b) == WithItems(op, t, b)
  {
    ListOpEq(WithItems(WithItems(op, t, a), t, b), WithItems(op, t, b));
  }

  lemma WithItemsSame<T>(op: ListOp<T>, t: ListOpType)
    ensures WithItems(op, t, GetItems(op, t)) == op
  {
    ListOpEq(WithItems(op, t, GetItems(op, t)), op);
  }

  /** After removing `c`, what is left is tidy and holds no `c`, and holds
      `x` only if the list did. */
  lemma RemovedShape<T>(s: seq<T>, c: T, x: T)
    requires Unique(s)
    ensures Unique(Without(s, {c})) && c !in Without(s, {c})
    ensures x in Without(s, {c}) ==> x in s && x != c
  {
    WithoutUnique(s, {c});
    WithoutMembers(s, {c}, c);
    WithoutMembers(s, {c}, x);
  }

  /** A value already first stays put: the list is it followed by the
      rest without it. */
  lemma AlreadyFirst<T>(s: seq<T>, x: T)
    requires Unique(s) && x in s && Find(s, x) == 0
    ensures [x] + Without(s, {x}) == s
  {
    assert s == [x] + s[1..];
    DropFirst(s, x);
  }

  lemma AlreadyLast<T>(s: seq<T>, x: T)
    requires Unique(s) && s != [] && Find(s, x) == |s| - 1
    ensures Without(s, {x}) + [x] == s
  {
    var front := s[..|s| - 1];
    assert front + [x] == s;
    WithoutAppend(front, [x], {x});
    WithoutNone(front, {x});
    WithoutSingle(x, {x});
    assert front + [] == front;
  }

  /** Prepending when the canonical form is not first: it is erased and
      `x` goes to the front. */
  lemma PrependMoves<T>(e: ListEditor<T>, t: ListOpType, canon: T -> T, x: T)
    requires Tidy(e.op) && OwnList(e.op, t) && FindableIn(e.op, t, canon, x)
    requires Find(GetItems(e.op, t), canon(x)) != 0
    ensures var s, c := GetItems(e.op, t), canon(x);
      PrependValue(e, t, canon, x) == e.(op := WithItems(e.op, t, [x] + Without(s, {c})))
      && Tidy(PrependValue(e, t, canon, x).op)
  {
    var s, c := GetItems(e.op, t), canon(x);
    var w := Without(s, {c});
    RemovedShape(s, c, x);
    UniqueCons(x, w);
    RemoveValueSpec(e, t, canon, x);
    var e1 := RemoveValue(e, t, canon, x);
    assert [] + [x] + w[0..] == [x] + w;
    EditStores(e1, t, 0, 0, [x]);
    WithItemsTwice(e.op, t, w, [x] + w);
    WithItemsTidy(e.op, t, [x] + w);
  }

  /** Prepending puts `x` first, followed by the rest of the list without
      its canonical form, unless that form is first already; a canonical
      `x` ends up first and once in either case. */
  lemma PrependValueSpec<T>(e: ListEditor<T>, t: ListOpType, canon: T -> T, x: T)
    requires Tidy(e.op) && OwnList(e.op, t) && FindableIn(e.op, t, canon, x)
    ensures var s, c := GetItems(e.op, t), canon(x);
      PrependValue(e, t, canon, x)
        == e.(op := WithItems(e.op, t, if Find(s, c) == 0 then s else [x] + Without(s, {c})))
      && Tidy(PrependValue(e, t, canon, x).op)
    ensures var s := GetItems(e.op, t);
      canon(x) == x ==> GetItems(PrependValue(e, t, canon, x).op, t) == [x] + Without(s, {x})
  {
    var s, c := GetItems(e.op, t), canon(x);
    if Find(s, c) == 0 {
      WithItemsSame(e.op, t);
      if c == x {
        AlreadyFirst(s, x);
      }
    } else {
      PrependMoves(e, t, canon, x);
    }
  }

  /** Appending when the canonical form is not last: it is erased and `x`
      goes to the back. */
  lemma AppendMoves<T>(e: ListEditor<T>, t: ListOpType, canon: T -> T, x: T)
    requires Tidy(e.op) && OwnList(e.op, t) && FindableIn(e.op, t, canon, x)
    requires var s := GetItems(e.op, t); s == [] || Find(s, canon(x)) != |s| - 1
    ensures var s, c := GetItems(e.op, t), canon(x);
      AppendValue(e, t, canon, x) == e.(op := WithItems(e.op, t, Without(s, {c}) + [x]))
      && Tidy(AppendValue(e, t, canon, x).op)
  {
    var s, c := GetItems(e.op, t), canon(x);
    var w := Without(s, {c});
    RemovedShape(s, c, x);
    UniqueAppend(w, [x]);
    RemoveValueSpec(e, t, canon, x);
    var e1 := RemoveValue(e, t, canon, x);
    PushBackSpec(e1, t, x);
    WithItemsTwice(e.op, t, w, w + [x]);
    WithItemsTidy(e.op, t, w + [x]);
  }

  /** Appending puts `x` last, after the rest of the list without its
      canonical form, unless that form is last already; a canonical `x`
      ends up last and once in either case. */
  lemma AppendValueSpec<T>(e: ListEditor<T>, t: ListOpType, canon: T -> T, x: T)
    requires Tidy(e.op) && OwnList(e.op, t) && FindableIn(e.op, t, canon, x)
    ensures var s, c := GetItems(e.op, t), canon(x);
      AppendValue(e, t, canon, x)
        == e.(op := WithItems(e.op, t, if s != [] && Find(s, c) == |s| - 1 then s else Without(s, {c}) + [x]))
      && Tidy(AppendValue(e, t, canon, x).op)
    ensures var s := GetItems(e.op, t);
      canon(x) == x ==> GetItems(AppendValue(e, t, canon, x).op, t) == Without(s, {x}) + [x]
  {
    var s, c := GetItems(e.op, t), canon(x);
    if s != [] && Find(s, c) == |s| - 1 {
      WithItemsSame(e.op, t);
      if c == x {
        AlreadyLast(s, x);
      }
    } else {
      AppendMoves(e, t, canon, x);
    }
  }

  /** Removing `x` from the lists `ts` names: those lists lose its
      canonical form, the others keep what they had. */
  lemma {:induction false} RemoveFromListsSpec<T>(e: ListEditor<T>, ts: seq<ListOpType>, canon: T -> T, x: T)
    requires Tidy(e.op)
    ensures var r, c := RemoveFromLists(e, ts, canon, x), canon(x);
      r.owner == e.owner && r.orderedOnly == e.orderedOnly && Tidy(r.op)
      && r.op.isExplicit == e.op.isExplicit
      && forall u :: GetItems(r.op, u) == if u in ts then Without(GetItems(e.op, u), {c}) else GetItems(e.op, u)
    decreases |ts|
  {
    if ts != [] {
      var c := canon(x);
      RemoveValueSpec(e, ts[0], canon, x);
      var e1 := RemoveValue(e, ts[0], canon, x);
      RemoveFromListsSpec(e1, ts[1..], canon, x);
      forall u ensures Without(Without(GetItems(e.op, u), {c}), {c}) == Without(GetItems(e.op, u), {c}) {
        WithoutWithout(GetItems(e.op, u), {c}, {c});
        assert {c} + {c} == {c};
      }
      assert forall u :: u in ts <==> u == ts[0] || u in ts[1..];
    }
  }

  // ------------------------------------------- the promised effects

  /** A non-explicit edit that first drops the canonical form from the
      deleted list and then rewrites list `t` leaves every other list as it
      was. */
  lemma AfterDeleted<T>(e: ListEditor<T>, e1: ListEditor<T>, r: ListEditor<T>, t: ListOpType, c: T, items: seq<T>)
    requires t != Deleted
    requires e1 == e.(op := WithItems(e.op, Deleted, Without(e.op.deletedItems, {c})))
    requires r == e1.(op := WithItems(e1.op, t, items))
    ensures GetItems(e1.op, t) == GetItems(e.op, t)
    ensures r.owner == e.owner && r.orderedOnly == e.orderedOnly
    ensures GetItems(r.op, t) == items && r.op.deletedItems == Without(e.op.deletedItems, {c})
    ensures forall u :: u != t && u != Deleted ==> GetItems(r.op, u) == GetItems(e.op, u)
  {
  }

  /** `Add`: an explicit editor gains the value at the end of its list,
      or writes it over the item its canonical form was found as; any other
      full editor forgets a deletion of it and does the same to its added
      list.  Ordered-only editors, and proxies that do not validate, are
      left alone. */
  lemma AddSpec<T>(p: Proxy<T>, canon: T -> T, x: T)
    requires ProxyTidy(p)
    requires p.Proxy? ==> FindableIn(p.editor.op, Explicit, canon, x) && FindableIn(p.editor.op, Added, canon, x)
    ensures !Validate(p) || p.editor.orderedOnly ==> Add(p, canon, x) == p
    ensures Validate(p) && !p.editor.orderedOnly ==>
      var e, r, c := p.editor, Add(p, canon, x).editor, canon(x);
      var op := e.op;
      var t := if op.isExplicit then Explicit else Added;
      var s := GetItems(op, t);
      r.owner == e.owner && r.orderedOnly == e.orderedOnly && Tidy(r.op)
      && GetItems(r.op, t) == (if c in s then s[Find(s, c) := x] else s + [x])
      && (!op.isExplicit ==> r.op.deletedItems == Without(op.deletedItems, {c}))
      && forall u :: u != t && (op.isExplicit || u != Deleted) ==> GetItems(r.op, u) == GetItems(op, u)
  {
    if Validate(p) && !p.editor.orderedOnly {
      var e := p.editor;
      if e.op.isExplicit {
        AddOrReplaceSpec(e, Explicit, canon, x);
      } else {
        RemoveValueSpec(e, Deleted, canon, x);
        var e1 := RemoveValue(e, Deleted, canon, x);
        AddOrReplaceSpec(e1, Added, canon, x);
        AfterDeleted(e, e1, AddOrReplace(e1, Added, canon, x), Added, canon(x), GetItems(AddOrReplace(e1, Added, canon, x).op, Added));
      }
    }
  }

  /** `Prepend` puts the value first in its target list, with the rest in
      order and its canonical form dropped, unless that form is first
      already; a non-explicit editor also forgets a deletion of it. */
  lemma PrependSpec<T>(p: Proxy<T>, canon: T -> T, x: T)
    requires ProxyTidy(p)
    requires p.Proxy? ==> FindableIn(p.editor.op, Explicit, canon, x) && FindableIn(p.editor.op, Prepended, canon, x)
    ensures !Validate(p) || p.editor.orderedOnly ==> Prepend(p, canon, x) == p
    ensures Validate(p) && !p.editor.orderedOnly ==>
      var e, r, c := p.editor, Prepend(p, canon, x).editor, canon(x);
      var op := e.op;
      var t := if op.isExplicit then Explicit else Prepended;
      var s := GetItems(op, t);
      r.owner == e.owner && r.orderedOnly == e.orderedOnly && Tidy(r.op)
      && GetItems(r.op, t) == (if Find(s, c) == 0 then s else [x] + Without(s, {c}))
      && (c == x ==> GetItems(r.op, t) == [x] + Without(s, {x}))
      && (!op.isExplicit ==> r.op.deletedItems == Without(op.deletedItems, {c}))
      && forall u :: u != t && (op.isExplicit || u != Deleted) ==> GetItems(r.op, u) == GetItems(op, u)
  {
    if Validate(p) && !p.editor.orderedOnly {
      var e := p.editor;
      if e.op.isExplicit {
        PrependValueSpec(e, Explicit, canon, x);
      } else {
        RemoveValueSpec(e, Deleted, canon, x);
        var e1 := RemoveValue(e, Deleted, canon, x);
        PrependValueSpec(e1, Prepended, canon, x);
        AfterDeleted(e, e1, PrependValue(e1, Prepended, canon, x), Prepended, canon(x), GetItems(PrependValue(e1, Prepended, canon, x).op, Prepended));
      }
    }
  }

  /** `Append` puts the value last in its target list, after the rest in
      order with its canonical form dropped, unless that form is last
      already; a non-explicit editor also forgets a deletion of it. */
  lemma AppendSpec<T>(p: Proxy<T>, canon: T -> T, x: T)
    requires ProxyTidy(p)
    requires p.Proxy? ==> FindableIn(p.editor.op, Explicit, canon, x) && FindableIn(p.editor.op, Appended, canon, x)
    ensures !Validate(p) || p.editor.orderedOnly ==> Append(p, canon, x) == p
    ensures Validate(p) && !p.editor.orderedOnly ==>
      var e, r, c := p.editor, Append(p, canon, x).editor, canon(x);
      var op := e.op;
      var t := if op.isExplicit then Explicit else Appended;
      var s := GetItems(op, t);
      r.owner == e.owner && r.orderedOnly == e.orderedOnly && Tidy(r.op)
      && GetItems(r.op, t) == (if s != [] && Find(s, c) == |s| - 1 then s else Without(s, {c}) + [x])
      && (c == x ==> GetItems(r.op, t) == Without(s, {x}) + [x])
      && (!op.isExplicit ==> r.op.deletedItems == Without(op.deletedItems, {c}))
      && forall u :: u != t && (op.isExplicit || u != Deleted) ==> GetItems(r.op, u) == GetItems(op, u)
  {
    if Validate(p) && !p.editor.orderedOnly {
      var e := p.editor;
      if e.op.isExplicit {
        AppendValueSpec(e, Explicit, canon, x);
      } else {
        RemoveValueSpec(e, Deleted, canon, x);
        var e1 := RemoveValue(e, Deleted, canon, x);
        AppendValueSpec(e1, Appended, canon, x);
        AfterDeleted(e, e1, AppendValue(e1, Appended, canon, x), Appended, canon(x), GetItems(AppendValue(e1, Appended, canon, x).op, Appended));
      }
    }
  }

  lemma EditLists()
    ensures Added in [Added, Prepended, Appended] && Prepended in [Added, Prepended, Appended]
    ensures Appended in [Added, Prepended, Appended]
    ensures Explicit !in [Added, Prepended, Appended] && Deleted !in [Added, Prepended, Appended]
    ensures Ordered !in [Added, Prepended, Appended]
  {
  }

  /** Dropping `x` from the added, prepended and appended lists, as
      `Remove` and `Erase` do. */
  lemma DropEditsSpec<T>(e: ListEditor<T>, canon: T -> T, x: T)
    requires Tidy(e.op)
    ensures var r, c := RemoveFromLists(e, [Added, Prepended, Appended], canon, x), canon(x);
      r.owner == e.owner && r.orderedOnly == e.orderedOnly && Tidy(r.op)
      && r.op.isExplicit == e.op.isExplicit
      && r.op.addedItems == Without(e.op.addedItems, {c})
      && r.op.prependedItems == Without(e.op.prependedItems, {c})
      && r.op.appendedItems == Without(e.op.appendedItems, {c})
      && r.op.explicitItems == e.op.explicitItems
      && r.op.deletedItems == e.op.deletedItems
      && r.op.orderedItems == e.op.orderedItems
  {
    var ts, c := [Added, Prepended, Appended], canon(x);
    RemoveFromListsSpec(e, ts, canon, x);
    EditLists();
    var r := RemoveFromLists(e, ts, canon, x);
    assert GetItems(r.op, Added) == Without(e.op.addedItems, {c});
    assert GetItems(r.op, Prepended) == Without(e.op.prependedItems, {c});
    assert GetItems(r.op, Appended) == Without(e.op.appendedItems, {c});
    assert GetItems(r.op, Explicit) == e.op.explicitItems;
    assert GetItems(r.op, Deleted) == e.op.deletedItems;
    assert GetItems(r.op, Ordered) == e.op.orderedItems;
  }

  /** `Remove` on an explicit editor drops the value's canonical form; an
      ordered-only non-explicit editor, or a proxy that does not validate,
      is left alone. */
  lemma RemoveSpec<T>(p: Proxy<T>, canon: T -> T, x: T)
    requires ProxyTidy(p)
    ensures !Validate(p) || (!p.editor.op.isExplicit && p.editor.orderedOnly) ==> Remove(p, canon, x) == p
    ensures Validate(p) && p.editor.op.isExplicit ==>
      Remove(p, canon, x).editor
        == p.editor.(op := WithItems(p.editor.op, Explicit, Without(p.editor.op.explicitItems, {canon(x)})))
  {
    if Validate(p) && p.editor.op.isExplicit {
      RemoveValueSpec(p.editor, Explicit, canon, x);
    }
  }

  /** `Remove` on a full non-explicit editor drops the value's canonical
      form from the added, prepended and appended lists and records the
      value as deleted unless that form is recorded already. */
  lemma RemoveRecordsDeletion<T>(p: Proxy<T>, canon: T -> T, x: T)
    requires ProxyTidy(p) && Validate(p) && !p.editor.op.isExplicit && !p.editor.orderedOnly
    requires FindableIn(p.editor.op, Deleted, canon, x)
    ensures var op, r, c := p.editor.op, Remove(p, canon, x).editor.op, canon(x);
      Tidy(r) && !r.isExplicit
      && (c in r.deletedItems || x in r.deletedItems)
      && r.deletedItems == (if c in op.deletedItems then op.deletedItems else op.deletedItems + [x])
      && r.addedItems == Without(op.addedItems, {c})
      && r.prependedItems == Without(op.prependedItems, {c})
      && r.appendedItems == Without(op.appendedItems, {c})
      && r.orderedItems == op.orderedItems
  {
    var e := p.editor;
    DropEditsSpec(e, canon, x);
    var e1 := RemoveFromLists(e, [Added, Prepended, Appended], canon, x);
    AddIfMissingSpec(e1, Deleted, canon, x);
  }

  /** `Erase`: like `Remove`, but the deleted list is never touched. */
  lemma EraseSpec<T>(p: Proxy<T>, canon: T -> T, x: T)
    requires ProxyTidy(p)
    ensures !Validate(p) || p.editor.orderedOnly ==> Erase(p, canon, x) == p
    ensures Validate(p) && p.editor.op.isExplicit && !p.editor.orderedOnly ==>
      Erase(p, canon, x) == Remove(p, canon, x)
    ensures Validate(p) && !p.editor.op.isExplicit && !p.editor.orderedOnly ==>
      var op, r, c := p.editor.op, Erase(p, canon, x).editor.op, canon(x);
      Tidy(r) && !r.isExplicit && r.deletedItems == op.deletedItems
      && r.addedItems == Without(op.addedItems, {c})
      && r.prependedItems == Without(op.prependedItems, {c})
      && r.appendedItems == Without(op.appendedItems, {c})
      && r.orderedItems == op.orderedItems
  {
    if Validate(p) && !p.editor.orderedOnly && !p.editor.op.isExplicit {
      DropEditsSpec(p.editor, canon, x);
    }
  }

  /** `ContainsItemEdit` without the flag asks whether any list holds the
      canonical form of `x`; for a tidy op that is `HasItem` of that form. */
  lemma ContainsItemEditSpec<T>(p: Proxy<T>, canon: T -> T, x: T)
    requires ProxyTidy(p)
    ensures ContainsItemEdit(p, canon, x, false) <==> Validate(p) && exists t :: canon(x) in GetItems(p.editor.op, t)
    ensures ContainsItemEdit(p, canon, x, false) <==> Validate(p) && HasItem(p.editor.op, canon(x))
    ensures var c := canon(x);
      ContainsItemEdit(p, canon, x, true) <==>
      Validate(p) && (c in p.editor.op.explicitItems || c in p.editor.op.addedItems
                      || c in p.editor.op.prependedItems || c in p.editor.op.appendedItems)
  {
    if p.NoEditor? {
      return;
    }
    var op, c := p.editor.op, canon(x);
    var named := c in op.explicitItems || c in op.addedItems || c in op.prependedItems
      || c in op.appendedItems || c in op.deletedItems || c in op.orderedItems;
    assert ContainsItemEdit(p, canon, x, false) <==> Validate(p) && named;
    if named {
      if c in op.explicitItems {
        assert c in GetItems(op, Explicit);
      } else if c in op.addedItems {
        assert c in GetItems(op, Added);
      } else if c in op.prependedItems {
        assert c in GetItems(op, Prepended);
      } else if c in op.appendedItems {
        assert c in GetItems(op, Appended);
      } else if c in op.deletedItems {
        assert c in GetItems(op, Deleted);
      } else {
        assert c in GetItems(op, Ordered);
      }
    }
    if exists t :: c in GetItems(op, t) {
      var t :| c in GetItems(op, t);
      assert named;
    }
  }

  lemma InAllLists(t: ListOpType)
    ensures t in AllLists()
  {
    match t
    case Explicit => assert AllLists()[0] == t;
    case Added => assert AllLists()[1] == t;
    case Prepended => assert AllLists()[2] == t;
    case Appended => assert AllLists()[3] == t;
    case Deleted => assert AllLists()[4] == t;
    case Ordered => assert AllLists()[5] == t;
  }

  lemma RemoveFromAllSpec<T>(e: ListEditor<T>, canon: T -> T, x: T)
    requires Tidy(e.op)
    ensures var r, c := RemoveFromLists(e, AllLists(), canon, x).op, canon(x);
      Tidy(r) && r.isExplicit == e.op.isExplicit
      && (forall t :: GetItems(r, t) == Without(GetItems(e.op, t), {c}))
      && forall t :: c !in GetItems(r, t)
  {
    var all, c := AllLists(), canon(x);
    RemoveFromListsSpec(e, all, canon, x);
    var r := RemoveFromLists(e, all, canon, x).op;
    forall t ensures GetItems(r, t) == Without(GetItems(e.op, t), {c}) {
      InAllLists(t);
    }
    forall t ensures c !in GetItems(r, t) {
      WithoutMembers(GetItems(e.op, t), {c}, c);
    }
  }

  /** `RemoveItemEdits` leaves the canonical form of `x` in no list and
      every other item where it was. */
  lemma RemoveItemEditsSpec<T>(p: Proxy<T>, canon: T -> T, x: T)
    requires ProxyTidy(p)
    ensures !Validate(p) ==> RemoveItemEdits(p, canon, x) == p
    ensures Validate(p) ==>
      var op, r := p.editor.op, RemoveItemEdits(p, canon, x).editor.op;
      Tidy(r) && r.isExplicit == op.isExplicit
      && (forall t :: GetItems(r, t) == Without(GetItems(op, t), {canon(x)}))
      && !ContainsItemEdit(RemoveItemEdits(p, canon, x), canon, x, false)
  {
    if Validate(p) {
      RemoveFromAllSpec(p.editor, canon, x);
      ContainsItemEditSpec(RemoveItemEdits(p, canon, x), canon, x);
    }
  }

  // ------------------------------------------- canonical values stay canonical

  lemma SettledWith<T>(op: ListOp<T>, t: ListOpType, s: seq<T>, canon: T -> T)
    requires Settled(op, canon) && forall y :: y in s ==> canon(y) == y
    ensures Settled(WithItems(op, t, s), canon)
  {
  }

  lemma WithoutSettled<T>(s: seq<T>, c: T, canon: T -> T)
    requires forall y :: y in s ==> canon(y) == y
    ensures forall y :: y in Without(s, {c}) ==> canon(y) == y
  {
    forall y | y in Without(s, {c}) ensures canon(y) == y {
      WithoutMembers(s, {c}, y);
    }
  }

  lemma RemoveValueSettled<T>(e: ListEditor<T>, t: ListOpType, canon: T -> T, x: T)
    requires Tidy(e.op) && Settled(e.op, canon)
    ensures Settled(RemoveValue(e, t, canon, x).op, canon)
  {
    var s := GetItems(e.op, t);
    RemoveValueSpec(e, t, canon, x);
    WithoutSettled(s, canon(x), canon);
    SettledWith(e.op, t, Without(s, {canon(x)}), canon);
  }

  /** Writing a canonical value into a settled list keeps it settled. */
  lemma AddOrReplaceSettled<T>(e: ListEditor<T>, t: ListOpType, canon: T -> T, x: T)
    requires Tidy(e.op) && OwnList(e.op, t) && Settled(e.op, canon) && canon(x) == x
    ensures Settled(AddOrReplace(e, t, canon, x).op, canon)
    ensures Settled(AddIfMissing(e, t, canon, x).op, canon)
  {
    var s := GetItems(e.op, t);
    AddOrReplaceSpec(e, t, canon, x);
    if x in s {
      assert s[Find(s, x) := x] == s;
      WithItemsSame(e.op, t);
    } else {
      SettledWith(e.op, t, s + [x], canon);
    }
  }

  lemma PrependValueSettled<T>(e: ListEditor<T>, t: ListOpType, canon: T -> T, x: T)
    requires Tidy(e.op) && OwnList(e.op, t) && Settled(e.op, canon) && canon(x) == x
    ensures Settled(PrependValue(e, t, canon, x).op, canon)
  {
    var s := GetItems(e.op, t);
    PrependValueSpec(e, t, canon, x);
    WithoutSettled(s, x, canon);
    SettledWith(e.op, t, [x] + Without(s, {x}), canon);
  }

  lemma AppendValueSettled<T>(e: ListEditor<T>, t: ListOpType, canon: T -> T, x: T)
    requires Tidy(e.op) && OwnList(e.op, t) && Settled(e.op, canon) && canon(x) == x
    ensures Settled(AppendValue(e, t, canon, x).op, canon)
  {
    var s := GetItems(e.op, t);
    AppendValueSpec(e, t, canon, x);
    WithoutSettled(s, x, canon);
    SettledWith(e.op, t, Without(s, {x}) + [x], canon);
  }

  lemma {:induction false} RemoveFromListsSettled<T>(e: ListEditor<T>, ts: seq<ListOpType>, canon: T -> T, x: T)
    requires Tidy(e.op) && Settled(e.op, canon)
    ensures Settled(RemoveFromLists(e, ts, canon, x).op, canon)
    decreases |ts|
  {
    if ts != [] {
      RemoveValueSpec(e, ts[0], canon, x);
      RemoveValueSettled(e, ts[0], canon, x);
      RemoveFromListsSettled(RemoveValue(e, ts[0], canon, x), ts[1..], canon, x);
    }
  }

  /** In a field that stores only canonical values, no list holds a value
      a search would miss, so the effects above hold for every value; and
      every edit with a canonical value keeps the field that way. */
  lemma EditsKeepSettled<T>(p: Proxy<T>, canon: T -> T, x: T)
    requires ProxyTidy(p) && ProxySettled(p, canon) && canon(x) == x
    ensures p.Proxy? ==> forall t, y :: FindableIn(p.editor.op, t, canon, y)
    ensures ProxySettled(Add(p, canon, x), canon) && ProxySettled(Prepend(p, canon, x), canon)
    ensures ProxySettled(Append(p, canon, x), canon) && ProxySettled(Remove(p, canon, x), canon)
    ensures ProxySettled(Erase(p, canon, x), canon) && ProxySettled(RemoveItemEdits(p, canon, x), canon)
  {
    if Validate(p) {
      var e := p.editor;
      var adds := [Added, Prepended, Appended];
      RemoveFromListsSettled(e, adds, canon, x);
      RemoveFromListsSettled(e, AllLists(), canon, x);
      if e.op.isExplicit {
        AddOrReplaceSettled(e, Explicit, canon, x);
        PrependValueSettled(e, Explicit, canon, x);
        AppendValueSettled(e, Explicit, canon, x);
        RemoveValueSettled(e, Explicit, canon, x);
      } else {
        RemoveValueSpec(e, Deleted, canon, x);
        RemoveValueSettled(e, Deleted, canon, x);
        var e1 := RemoveValue(e, Deleted, canon, x);
        AddOrReplaceSettled(e1, Added, canon, x);
        PrependValueSettled(e1, Prepended, canon, x);
        AppendValueSettled(e1, Appended, canon, x);
        DropEditsSpec(e, canon, x);
        AddOrReplaceSettled(RemoveFromLists(e, adds, canon, x), Deleted, canon, x);
      }
    }
  }
}

=== FILE: list_op.dfy ===
/** List operations (listOp.cpp): six item lists and a mode flag.  An
    explicit op replaces a list outright; a non-explicit op deletes, adds,
    prepends, appends and reorders items of the list it is applied to.
    This file holds the value, its setters and the edits that rewrite the
    lists themselves; applying and composing ops is in `ListOpApply`. */
module ListOps {
  import opened Wrappers
  import opened Seqs

  datatype ListOpType = Explicit | Added | Prepended | Appended | Deleted | Ordered

  datatype ListOp<T> = ListOp(isExplicit: bool, explicitItems: seq<T>, addedItems: seq<T>,
                              prependedItems: seq<T>, appendedItems: seq<T>, deletedItems: seq<T>,
                              orderedItems: seq<T>)

  /** The default op: non-explicit, every list empty. */
  function Empty<T>(): ListOp<T> {
    ListOp(false, [], [], [], [], [], [])
  }

  function GetItems<T>(op: ListOp<T>, t: ListOpType): seq<T> {
    match t
    case Explicit => op.explicitItems
    case Added => op.addedItems
    case Prepended => op.prependedItems
    case Appended => op.appendedItems
    case Deleted => op.deletedItems
    case Ordered => op.orderedItems
  }

  /** `op` with list `t` replaced by `items` and nothing else touched. */
  function WithItems<T>(op: ListOp<T>, t: ListOpType, items: seq<T>): (r: ListOp<T>)
    ensures GetItems(r, t) == items && r.isExplicit == op.isExplicit
    ensures forall u :: u != t ==> GetItems(r, u) == GetItems(op, u)
  {
    match t
    case Explicit => op.(explicitItems := items)
    case Added => op.(addedItems := items)
    case Prepended => op.(prependedItems := items)
    case Appended => op.(appendedItems := items)
    case Deleted => op.(deletedItems := items)
    case Ordered => op.(orderedItems := items)
  }

  predicate AllEmpty<T>(op: ListOp<T>) {
    forall t :: GetItems(op, t) == []
  }

  /** `_SetExplicit`: changing the mode empties every list; keeping it
      changes nothing. */
  function SetMode<T>(op: ListOp<T>, isExplicit: bool): (r: ListOp<T>)
    ensures r.isExplicit == isExplicit
    ensures isExplicit == op.isExplicit ==> r == op
    ensures isExplicit != op.isExplicit ==> AllEmpty(r)
  {
    if isExplicit != op.isExplicit then ListOp(isExplicit, [], [], [], [], [], []) else op
  }

  /** `Clear` and `ClearAndMakeExplicit`: empty in either mode, whatever the
      op held. */
  function Clear<T>(op: ListOp<T>): (r: ListOp<T>)
    ensures !r.isExplicit && AllEmpty(r) && r == Empty()
  {
    SetMode(op.(isExplicit := true), false)
  }

  function ClearAndMakeExplicit<T>(op: ListOp<T>): (r: ListOp<T>)
    ensures r.isExplicit && AllEmpty(r)
  {
    SetMode(op.(isExplicit := false), true)
  }

  /** The de-duplication each setter applies: appended items keep their
      last occurrence, explicit, prepended and deleted items their first,
      added and ordered items are stored as given. */
  function Canonical<T(==)>(t: ListOpType, items: seq<T>): seq<T> {
    match t
    case Appended => DedupLast(items)
    case Explicit | Prepended | Deleted => DedupFirst(items)
    case Added | Ordered => items
  }

  predicate Deduplicated(t: ListOpType) {
    t != Added && t != Ordered
  }

  /** A stored list is free of duplicates when its setter de-duplicates,
      holds the items given, and equals them exactly when nothing had to
      be removed. */
  lemma CanonicalSpec<T>(t: ListOpType, items: seq<T>)
    ensures Deduplicated(t) ==> Unique(Canonical(t, items))
    ensures forall x :: x in Canonical(t, items) <==> x in items
    ensures Canonical(t, items) == items <==> !Deduplicated(t) || Unique(items)
  {
    DedupSpec(items);
    if Unique(items) {
      DedupOfUnique(items);
    }
  }

  /** The duplicate test of `_MakeUnique`: compares every pair.  The
      source's faster paths (a sortedness check, a hash set for long lists)
      answer the same question. */
  method HasNoDuplicates<T(==)>(items: seq<T>) returns (ok: bool)
    ensures ok <==> Unique(items)
  {
    ok := true;
    for i := 0 to |items|
      invariant ok <==> forall a, b :: 0 <= a < b < i ==> items[a] != items[b]
    {
      for j := 0 to i
        invariant ok <==> (forall a, b :: 0 <= a < b < i ==> items[a] != items[b])
                          && (forall a :: 0 <= a < j ==> items[a] != items[i])
      {
        if items[j] == items[i] {
          ok := false;
        }
      }
    }
  }

  /** The forward pass of `_MakeUnique`: keeps an item when it has not been
      seen yet. */
  method KeepFirst<T(==)>(items: seq<T>) returns (r: seq<T>)
    ensures r == DedupFirst(items)
  {
    var seen: set<T> := {};
    r := [];
    for k := 0 to |items|
      invariant seen == Elems(items[..k])
      invariant r == DedupFirst(items[..k])
    {
      assert items[..k + 1] == items[..k] + [items[k]];
      DedupFirstSnoc(items[..k], items[k]);
      if items[k] !in seen {
        seen := seen + {items[k]};
        r := r + [items[k]];
      }
    }
    assert items[..|items|] == items;
  }

  /** The reverse pass of `_MakeUnique`: scans from the back keeping unseen
      items, then reverses what it kept. */
  method KeepLast<T(==)>(items: seq<T>) returns (r: seq<T>)
    ensures r == DedupLast(items)
  {
    var seen: set<T> := {};
    var back: seq<T> := [];
    var k := |items|;
    while k > 0
      invariant 0 <= k <= |items|
      invariant seen == Elems(items[k..])
      invariant back == Reverse(DedupLast(items[k..]))
    {
      k := k - 1;
      assert items[k..] == [items[k]] + items[k + 1..];
      assert items[k..][1..] == items[k + 1..];
      if items[k] !in seen {
        seen := seen + {items[k]};
        ReverseAppend([items[k]], DedupLast(items[k + 1..]));
        ReverseSingle(items[k]);
        back := back + [items[k]];
      }
    }
    assert items[0..] == items;
    ReverseTwice(DedupLast(items));
    r := Reverse(back);
  }

  /** `_MakeUnique`: reports whether `items` was already free of duplicates
      and removes them otherwise, keeping each item's first occurrence or,
      when `reverse`, its last. */
  method MakeUnique<T(==)>(items: seq<T>, reverse: bool) returns (ok: bool, r: seq<T>)
    ensures ok <==> Unique(items)
    ensures r == (if reverse then DedupLast(items) else DedupFirst(items))
    ensures ok <==> r == items
  {
    ok := HasNoDuplicates(items);
    if ok {
      DedupOfUnique(items);
      return ok, items;
    }
    if reverse {
      r := KeepLast(items);
    } else {
      r := KeepFirst(items);
    }
    DedupSpec(items);
  }

  lemma {:induction false} ReverseTwice<T>(s: seq<T>)
    ensures Reverse(Reverse(s)) == s
    decreases |s|
  {
    if s != [] {
      ReverseAppend(Reverse(s[1..]), [s[0]]);
      ReverseSingle(s[0]);
      ReverseTwice(s[1..]);
      assert s == [s[0]] + s[1..];
    }
  }

  /** `SetItems` (and the six typed setters it dispatches to): switches to
      the list's mode, stores the list with duplicates removed, and reports
      whether nothing had to be removed. */
  function SetItems<T(==)>(op: ListOp<T>, t: ListOpType, items: seq<T>): (r: (ListOp<T>, bool))
    ensures r.0.isExplicit <==> t == Explicit
    ensures Deduplicated(t) ==> Unique(GetItems(r.0, t))
    ensures r.1 <==> GetItems(r.0, t) == items
    ensures r.1 <==> !Deduplicated(t) || Unique(items)
    ensures (t == Explicit) == op.isExplicit ==> forall u :: u != t ==> GetItems(r.0, u) == GetItems(op, u)
    ensures (t == Explicit) != op.isExplicit ==> forall u :: u != t ==> GetItems(r.0, u) == []
  {
    var o := SetMode(op, t == Explicit);
    var stored := Canonical(t, items);
    CanonicalSpec(t, items);
    (WithItems(o, t, stored), stored == items)
  }

  /** `CreateExplicit`. */
  function CreateExplicit<T(==)>(items: seq<T>): (r: ListOp<T>)
    ensures r.isExplicit && r.explicitItems == DedupFirst(items)
    ensures forall t :: t != Explicit ==> GetItems(r, t) == []
  {
    SetItems(Empty(), Explicit, items).0
  }

  /** `Create`: a non-explicit op from prepended, appended and deleted items. */
  function Create<T(==)>(prepended: seq<T>, appended: seq<T>, deleted: seq<T>): (r: ListOp<T>)
    ensures !r.isExplicit
    ensures r.prependedItems == DedupFirst(prepended) && r.appendedItems == DedupLast(appended)
    ensures r.deletedItems == DedupFirst(deleted)
    ensures r.explicitItems == [] && r.addedItems == [] && r.orderedItems == []
  {
    var a := SetItems(Empty(), Prepended, prepended).0;
    var b := SetItems(a, Appended, appended).0;
    SetItems(b, Deleted, deleted).0
  }

  /** The shape every op built through the setters has: only the lists of
      its own mode hold items, and the de-duplicated lists hold no
      duplicates. */
  predicate WellFormed<T(==)>(op: ListOp<T>) {
    (op.isExplicit ==> forall t :: t != Explicit ==> GetItems(op, t) == [])
    && (!op.isExplicit ==> op.explicitItems == [])
    && forall t :: Deduplicated(t) ==> Unique(GetItems(op, t))
  }

  lemma SetItemsWellFormed<T>(op: ListOp<T>, t: ListOpType, items: seq<T>)
    requires WellFormed(op)
    ensures WellFormed(SetItems(op, t, items).0)
  {
    var r := SetItems(op, t, items).0;
    forall u | Deduplicated(u) ensures Unique(GetItems(r, u)) {
      if u != t && (t == Explicit) != op.isExplicit {
        assert GetItems(r, u) == [];
      }
    }
  }

  /** `HasItem`: an explicit op looks only at its explicit items, any other
      op at its five edit lists. */
  predicate HasItem<T(==)>(op: ListOp<T>, x: T) {
    if op.isExplicit then x in op.explicitItems
    else (x in op.addedItems || x in op.prependedItems || x in op.appendedItems
          || x in op.deletedItems || x in op.orderedItems)
  }

  /** `ReplaceOperations`: replaces `n` items of list `t` starting at
      `index` by `newItems` and stores the list through its setter.  It
      refuses, changing nothing, a request that would need a mode switch
      unless it only inserts, and a range past the end of the list.  The
      source overwrites in place when the lengths agree and erases and
      inserts otherwise; both give the same list. */
  function ReplaceOperations<T(==)>(op: ListOp<T>, t: ListOpType, index: nat, n: nat, newItems: seq<T>)
    : (r: (ListOp<T>, bool))
    ensures var modeSwitch := op.isExplicit != (t == Explicit);
      var items := GetItems(op, t);
      !r.1 <==> (modeSwitch && (n > 0 || newItems == [])) || index + n > |items|
    ensures !r.1 ==> r.0 == op
    ensures r.1 ==> var items := GetItems(op, t);
      index + n <= |items|
      && GetItems(r.0, t) == Canonical(t, items[..index] + newItems + items[index + n..])
      && (r.0.isExplicit <==> t == Explicit)
    ensures r.1 && op.isExplicit == (t == Explicit) ==>
      forall u :: u != t ==> GetItems(r.0, u) == GetItems(op, u)
  {
    var needsModeSwitch := (op.isExplicit && t != Explicit) || (!op.isExplicit && t == Explicit);
    if needsModeSwitch && (n > 0 || newItems == []) then (op, false)
    else
      var items := GetItems(op, t);
      if index > |items| then (op, false)
      else if index + n > |items| then (op, false)
      else (SetItems(op, t, items[..index] + newItems + items[index + n..]).0, true)
  }

  /** Items mapped through a callback that may drop them. */
  function MapSome<T>(f: T -> Option<T>, items: seq<T>): seq<T> {
    if items == [] then []
    else (match f(items[0]) case Some(y) => [y] case None => []) + MapSome(f, items[1..])
  }

  lemma {:induction false} MapSomeSnoc<T>(f: T -> Option<T>, items: seq<T>, x: T)
    ensures MapSome(f, items + [x]) == MapSome(f, items) + (match f(x) case Some(y) => [y] case None => [])
    decreases |items|
  {
    if items == [] {
      assert [] + [x] == [x];
      assert [x][1..] == [];
    } else {
      assert (items + [x])[0] == items[0];
      assert (items + [x])[1..] == items[1..] + [x];
      MapSomeSnoc(f, items[1..], x);
    }
  }

  /** One step of the modify pass: the next mapped item joins the output
      unless it is dropped or already there. */
  lemma ModifyStep<T>(f: T -> Option<T>, items: seq<T>, k: nat)
    requires k < |items|
    ensures var before := DedupFirst(MapSome(f, items[..k]));
      DedupFirst(MapSome(f, items[..k + 1]))
        == before + (match f(items[k]) case Some(y) => if y in before then [] else [y] case None => [])
  {
    var before := MapSome(f, items[..k]);
    assert items[..k + 1] == items[..k] + [items[k]];
    MapSomeSnoc(f, items[..k], items[k]);
    DedupSpec(before);
    match f(items[k])
    case Some(y) => DedupFirstSnoc(before, y);
    case None => assert before + [] == before;
  }

  /** Growing by at most one item, a prefix matches the longer sequence
      only if it matched before and grew by that item. */
  lemma SnocEquals<T>(a: seq<T>, e: seq<T>, items: seq<T>, k: nat)
    requires |e| <= 1 && |a| <= k < |items|
    ensures a + e == items[..k + 1] <==> a == items[..k] && e == [items[k]]
  {
    var b, x := items[..k], items[k];
    assert items[..k + 1] == b + [x];
    if a + e == b + [x] {
      assert a == (a + e)[..|a|] && b == (b + [x])[..|b|];
      assert e[0] == (a + e)[|a|];
    }
  }

  /** `_ModifyCallbackHelper`: every item goes through the callback; an item
      mapped to nothing, or to an item already produced, is dropped.  The
      flag reports that the list changed, and the list is the mapped,
      de-duplicated one. */
  method ModifyList<T(==)>(f: T -> Option<T>, items: seq<T>) returns (r: seq<T>, changed: bool)
    ensures r == DedupFirst(MapSome(f, items))
    ensures changed <==> r != items
  {
    var modified: seq<T> := [];
    changed := false;
    for k := 0 to |items|
      invariant modified == DedupFirst(MapSome(f, items[..k]))
      invariant |modified| <= k
      invariant changed <==> modified != items[..k]
    {
      var m := f(items[k]);
      ModifyStep(f, items, k);
      if m.Some? && m.value in modified {
        m := None;
      }
      var e: seq<T> := if m.Some? then [m.value] else [];
      SnocEquals(modified, e, items, k);
      if m.None? {
        changed := true;
      } else if m.value != items[k] {
        changed := true;
      }
      modified := modified + e;
    }
    assert items[..|items|] == items;
    r := if changed then modified else items;
  }

  /** `ModifyOperations`: the callback rewrites all six lists; the result
      reports whether any of them changed.  Without a callback nothing
      happens. */
  method ModifyOperations<T(==)>(op: ListOp<T>, cb: Option<T -> Option<T>>) returns (r: ListOp<T>, changed: bool)
    ensures cb.None? ==> r == op && !changed
    ensures cb.Some? ==> forall t :: GetItems(r, t) == DedupFirst(MapSome(cb.value, GetItems(op, t)))
    ensures r.isExplicit == op.isExplicit
    ensures changed <==> r != op
  {
    if cb.None? {
      return op, false;
    }
    var f := cb.value;
    var e, c1 := ModifyList(f, op.explicitItems);
    var a, c2 := ModifyList(f, op.addedItems);
    var p, c3 := ModifyList(f, op.prependedItems);
    var ap, c4 := ModifyList(f, op.appendedItems);
    var d, c5 := ModifyList(f, op.deletedItems);
    var o, c6 := ModifyList(f, op.orderedItems);
    r := ListOp(op.isExplicit, e, a, p, ap, d, o);
    changed := c1 || c2 || c3 || c4 || c5 || c6;
    forall t ensures GetItems(r, t) == DedupFirst(MapSome(f, GetItems(op, t))) {
      match t
      case Explicit =>
      case Added =>
      case Prepended =>
      case Appended =>
      case Deleted =>
      case Ordered =>
    }
  }
}

=== FILE: list_op_apply.dfy ===
/** Applying list ops to a list and composing them (listOp.cpp).

    `SdfListOp` copies the list into a linked list and keeps a map from each
    item to the node of its last occurrence.  Here that list is a sequence
    of cells: a cell is `tracked` when the map points at it.  Earlier
    duplicates of an item stay in the list untracked; the edits only ever
    find, move or remove the tracked cell of an item, which is
    `Cell(x, true)`. */
module ListOpApply {
  import opened Wrappers
  import opened Seqs
  import opened ListOps

  datatype Cell<T> = Cell(item: T, tracked: bool)

  function Items<T>(cs: seq<Cell<T>>): (r: seq<T>)
    ensures |r| == |cs|
  {
    seq(|cs|, i requires 0 <= i < |cs| => cs[i].item)
  }

  /** Cells for a list of distinct items: every one tracked. */
  function Tag<T>(xs: seq<T>): (r: seq<Cell<T>>)
    ensures |r| == |xs|
  {
    seq(|xs|, i requires 0 <= i < |xs| => Cell(xs[i], true))
  }

  /** The list and map an `_ApplyList` holds once built from a vector:
      the map ends up pointing at each item's last occurrence. */
  function Track<T(==)>(vec: seq<T>): (r: seq<Cell<T>>)
    ensures |r| == |vec|
  {
    seq(|vec|, i requires 0 <= i < |vec| => Cell(vec[i], vec[i] !in vec[i + 1..]))
  }

  lemma ItemsAppend<T>(a: seq<Cell<T>>, b: seq<Cell<T>>)
    ensures Items(a + b) == Items(a) + Items(b)
  {
  }

  lemma TagAppend<T>(a: seq<T>, b: seq<T>)
    ensures Tag(a + b) == Tag(a) + Tag(b)
  {
  }

  lemma ItemsTag<T>(xs: seq<T>)
    ensures Items(Tag(xs)) == xs
  {
  }

  lemma ItemsTrack<T>(vec: seq<T>)
    ensures Items(Track(vec)) == vec
  {
  }

  /** A list without duplicates is tracked in full. */
  lemma TrackUnique<T>(vec: seq<T>)
    requires Unique(vec)
    ensures Track(vec) == Tag(vec)
  {
  }

  /** An item is in the cells' items exactly when some cell holds it; the
      tracked cell of `x` in particular holds `x`. */
  lemma InItems<T>(cs: seq<Cell<T>>, x: T)
    ensures x in Items(cs) <==> exists i :: 0 <= i < |cs| && cs[i].item == x
    ensures Cell(x, true) in cs ==> x in Items(cs)
  {
    if Cell(x, true) in cs {
      var i :| 0 <= i < |cs| && cs[i] == Cell(x, true);
      assert Items(cs)[i] == x;
    }
    if exists i :: 0 <= i < |cs| && cs[i].item == x {
      var i :| 0 <= i < |cs| && cs[i].item == x;
      assert Items(cs)[i] == x;
    }
  }

  /** Dropping one cell keeps every other item's membership. */
  lemma ItemsWithoutCell<T>(cs: seq<Cell<T>>, c: Cell<T>, y: T)
    requires y != c.item
    ensures y in Items(Without(cs, {c})) <==> y in Items(cs)
  {
    InItems(cs, y);
    InItems(Without(cs, {c}), y);
    if y in Items(cs) {
      var i :| 0 <= i < |cs| && cs[i].item == y;
      assert cs[i] in cs;
      WithoutMembers(cs, {c}, cs[i]);
      var w := Without(cs, {c});
      var k :| 0 <= k < |w| && w[k] == cs[i];
    }
    if y in Items(Without(cs, {c})) {
      var w := Without(cs, {c});
      var k :| 0 <= k < |w| && w[k].item == y;
      assert w[k] in w;
      WithoutMembers(cs, {c}, w[k]);
      var i :| 0 <= i < |cs| && cs[i] == w[k];
    }
  }

  /** Removing tracked cells from fully tracked cells is removing items. */
  lemma {:induction false} TagWithout<T>(xs: seq<T>, ys: seq<T>)
    ensures Without(Tag(xs), set y | y in ys :: Cell(y, true)) == Tag(Without(xs, Elems(ys)))
    decreases |xs|
  {
    var cells := set y | y in ys :: Cell(y, true);
    if xs != [] {
      assert Tag(xs) == [Cell(xs[0], true)] + Tag(xs[1..]);
      assert Tag(xs)[1..] == Tag(xs[1..]);
      TagWithout(xs[1..], ys);
      assert Cell(xs[0], true) in cells <==> xs[0] in Elems(ys);
      if xs[0] !in Elems(ys) {
        TagAppend([xs[0]], Without(xs[1..], Elems(ys)));
      }
    }
  }

  lemma TagWithoutOne<T>(xs: seq<T>, y: T)
    ensures Without(Tag(xs), {Cell(y, true)}) == Tag(Without(xs, {y}))
  {
    TagWithout(xs, [y]);
    assert (set z | z in [y] :: Cell(z, true)) == {Cell(y, true)};
    assert Elems([y]) == {y};
  }

  // ---------------------------------------------------------------- edits

  /** `_InsertIfUnique`: appends `x` unless the map already knows it. */
  function InsertIfUnique<T(==)>(cs: seq<Cell<T>>, x: T): seq<Cell<T>> {
    if Cell(x, true) in cs then cs else cs + [Cell(x, true)]
  }

  /** `_RemoveIfPresent`: removes the tracked cell of `x`, if any. */
  function RemoveIfPresent<T(==)>(cs: seq<Cell<T>>, x: T): seq<Cell<T>> {
    Without(cs, {Cell(x, true)})
  }

  /** `_InsertOrMove` at the front: `x` becomes the first cell, inserted
      or moved there. */
  function InsertOrMoveFront<T(==)>(cs: seq<Cell<T>>, x: T): seq<Cell<T>> {
    [Cell(x, true)] + Without(cs, {Cell(x, true)})
  }

  /** `_InsertOrMove` at the end. */
  function InsertOrMoveBack<T(==)>(cs: seq<Cell<T>>, x: T): seq<Cell<T>> {
    Without(cs, {Cell(x, true)}) + [Cell(x, true)]
  }

  /** `_AddKeys`: each item in turn, inserted if new. */
  function AddKeys<T(==)>(cs: seq<Cell<T>>, items: seq<T>): seq<Cell<T>>
    decreases |items|
  {
    if items == [] then cs else AddKeys(InsertIfUnique(cs, items[0]), items[1..])
  }

  /** `_DeleteKeys`. */
  function DeleteKeys<T(==)>(cs: seq<Cell<T>>, items: seq<T>): seq<Cell<T>>
    decreases |items|
  {
    if items == [] then cs else DeleteKeys(RemoveIfPresent(cs, items[0]), items[1..])
  }

  /** `_PrependKeys`: walks the items from the back, moving each to the
      front, so the first item ends up first. */
  function PrependKeys<T(==)>(cs: seq<Cell<T>>, items: seq<T>): seq<Cell<T>>
    decreases |items|
  {
    if items == [] then cs else InsertOrMoveFront(PrependKeys(cs, items[1..]), items[0])
  }

  /** `_AppendKeys`: walks the items from the front, moving each to the end. */
  function AppendKeys<T(==)>(cs: seq<Cell<T>>, items: seq<T>): seq<Cell<T>>
    decreases |items|
  {
    if items == [] then cs else AppendKeys(InsertOrMoveBack(cs, items[0]), items[1..])
  }

  /** The first position from `from` on whose item is one of the ordered
      items, or the end. */
  function NextOrdered<T(==)>(cs: seq<Cell<T>>, from: nat, os: set<T>): (e: nat)
    requires from <= |cs|
    ensures from <= e <= |cs|
    ensures forall k :: from <= k < e ==> cs[k].item !in os
    ensures e < |cs| ==> cs[e].item in os
    decreases |cs| - from
  {
    if from == |cs| || cs[from].item in os then from else NextOrdered(cs, from + 1, os)
  }

  /** The splicing loop of `_ReorderKeysHelper`.  For each ordered item in
      turn whose tracked cell is still in `scratch`, the run from that cell
      up to the next cell holding an ordered item moves to the end of
      `result`; what is left of `scratch` finally goes in front.  (The
      tracked cell of an ordered item can only be in `scratch`: every run
      moved holds exactly one ordered item, its first cell.) */
  function ReorderLoop<T(==)>(scratch: seq<Cell<T>>, result: seq<Cell<T>>, uo: seq<T>, os: set<T>)
    : seq<Cell<T>>
    decreases |uo|
  {
    if uo == [] then scratch + result
    else
      var c := Cell(uo[0], true);
      if c in scratch then
        var j := IndexOf(scratch, c);
        var e := NextOrdered(scratch, j + 1, os);
        ReorderLoop(scratch[..j] + scratch[e..], result + scratch[j..e], uo[1..], os)
      else ReorderLoop(scratch, result, uo[1..], os)
  }

  /** `_ReorderKeysHelper`: orders by the first occurrences of the order
      items; an empty order changes nothing. */
  function Reorder<T(==)>(cs: seq<Cell<T>>, order: seq<T>): seq<Cell<T>> {
    var uo := DedupFirst(order);
    if uo == [] then cs else ReorderLoop(cs, [], uo, Elems(uo))
  }

  /** The optional callback `ApplyOperations` passes every item through,
      told which list the item comes from; an item mapped to nothing is
      skipped. */
  type ApplyCallback<!T> = Option<(ListOpType, T) -> Option<T>>

  function Mapped<T(==)>(cb: ApplyCallback<T>, t: ListOpType, items: seq<T>): seq<T> {
    match cb
    case None => items
    case Some(f) => MapSome(x => f(t, x), items)
  }

  /** `ApplyOperations` on a vector.  An explicit op yields its explicit
      items, each once; any other op deletes, adds, prepends, appends and
      reorders, in that order. */
  function Apply<T(==)>(op: ListOp<T>, vec: seq<T>, cb: ApplyCallback<T>): seq<T> {
    if op.isExplicit then Items(AddKeys([], Mapped(cb, Explicit, op.explicitItems)))
    else if cb.None? && op.deletedItems == [] && op.addedItems == [] && op.prependedItems == []
      && op.appendedItems == [] && op.orderedItems == [] then vec
    else
      var c0 := Track(vec);
      var c1 := DeleteKeys(c0, Mapped(cb, Deleted, op.deletedItems));
      var c2 := AddKeys(c1, Mapped(cb, Added, op.addedItems));
      var c3 := PrependKeys(c2, Mapped(cb, Prepended, op.prependedItems));
      var c4 := AppendKeys(c3, Mapped(cb, Appended, op.appendedItems));
      Items(Reorder(c4, Mapped(cb, Ordered, op.orderedItems)))
  }

  /** `SdfApplyListOrdering`: reorders `v` by `order` when both are
      non-empty. */
  function ApplyListOrdering<T(==)>(v: seq<T>, order: seq<T>): seq<T> {
    if order != [] && v != [] then Items(Reorder(Track(v), order)) else v
  }

  // ------------------------------------------- edits on distinct items

  /** Appending each item not yet present, as `_AddKeys` does and as the
      composition of deletes does with `del`. */
  function AppendNew<T(==)>(xs: seq<T>, items: seq<T>): seq<T>
    decreases |items|
  {
    if items == [] then xs
    else AppendNew(xs + (if items[0] in xs then [] else [items[0]]), items[1..])
  }

  /** Removing each item in turn, as a run of erase-remove passes does. */
  function RemoveEach<T(==)>(xs: seq<T>, items: seq<T>): seq<T>
    decreases |items|
  {
    if items == [] then xs else RemoveEach(Without(xs, {items[0]}), items[1..])
  }

  lemma ElemsCons<T>(items: seq<T>)
    requires items != []
    ensures Elems(items) == {items[0]} + Elems(items[1..])
  {
    assert items == [items[0]] + items[1..];
  }

  /** The new items arrive in first-occurrence order behind the old ones. */
  lemma {:induction false} AppendNewSpec<T>(xs: seq<T>, items: seq<T>)
    ensures AppendNew(xs, items) == xs + Without(DedupFirst(items), Elems(xs))
    decreases |items|
  {
    if items != [] {
      var x, rest := items[0], items[1..];
      var e: seq<T> := if x in xs then [] else [x];
      AppendNewSpec(xs + e, rest);
      var d := DedupFirst(rest);
      assert Without(DedupFirst(items), Elems(xs)) == e + Without(d, {x} + Elems(xs)) by {
        WithoutAppend([x], Without(d, {x}), Elems(xs));
        WithoutSingle(x, Elems(xs));
        WithoutWithout(d, {x}, Elems(xs));
      }
      assert Elems(xs + e) == {x} + Elems(xs) || x in xs;
      if x in xs {
        assert {x} + Elems(xs) == Elems(xs);
      } else {
        assert Elems(xs + e) == {x} + Elems(xs);
      }
    }
  }

  lemma {:induction false} RemoveEachSpec<T>(xs: seq<T>, items: seq<T>)
    ensures RemoveEach(xs, items) == Without(xs, Elems(items))
    decreases |items|
  {
    if items != [] {
      RemoveEachSpec(Without(xs, {items[0]}), items[1..]);
      WithoutWithout(xs, {items[0]}, Elems(items[1..]));
      ElemsCons(items);
    } else {
      WithoutNone(xs, Elems(items));
    }
  }

  lemma {:induction false} AddKeysTag<T>(xs: seq<T>, items: seq<T>)
    ensures AddKeys(Tag(xs), items) == Tag(AppendNew(xs, items))
    decreases |items|
  {
    if items != [] {
      var x := items[0];
      var e: seq<T> := if x in xs then [] else [x];
      assert InsertIfUnique(Tag(xs), x) == Tag(xs + e) by {
        ItemsTag(xs);
        InItems(Tag(xs), x);
        TagAppend(xs, e);
      }
      AddKeysTag(xs + e, items[1..]);
    }
  }

  lemma {:induction false} DeleteKeysTag<T>(xs: seq<T>, items: seq<T>)
    ensures DeleteKeys(Tag(xs), items) == Tag(Without(xs, Elems(items)))
    decreases |items|
  {
    if items != [] {
      TagWithoutOne(xs, items[0]);
      DeleteKeysTag(Without(xs, {items[0]}), items[1..]);
      WithoutWithout(xs, {items[0]}, Elems(items[1..]));
      ElemsCons(items);
    } else {
      WithoutNone(xs, Elems(items));
    }
  }

  /** Prepending puts the items first, each once where it first occurs,
      and takes them out of where they were. */
  lemma {:induction false} PrependKeysTag<T>(xs: seq<T>, items: seq<T>)
    ensures PrependKeys(Tag(xs), items) == Tag(DedupFirst(items) + Without(xs, Elems(items)))
    decreases |items|
  {
    if items != [] {
      var x, rest := items[0], items[1..];
      var d := DedupFirst(rest);
      var w := Without(xs, Elems(rest));
      PrependKeysTag(xs, rest);
      assert PrependKeys(Tag(xs), items) == [Cell(x, true)] + Tag(Without(d + w, {x})) by {
        TagWithoutOne(d + w, x);
      }
      assert Without(d + w, {x}) == Without(d, {x}) + Without(xs, Elems(items)) by {
        WithoutAppend(d, w, {x});
        WithoutWithout(xs, Elems(rest), {x});
        ElemsCons(items);
        assert Elems(rest) + {x} == Elems(items);
      }
      TagAppend([x], Without(d, {x}) + Without(xs, Elems(items)));
      assert [x] + (Without(d, {x}) + Without(xs, Elems(items)))
          == DedupFirst(items) + Without(xs, Elems(items));
    } else {
      WithoutNone(xs, Elems(items));
    }
  }

  lemma DedupLastCons<T>(w: seq<T>, items: seq<T>)
    requires items != []
    ensures (w + Without([items[0]], Elems(items[1..]))) + DedupLast(items[1..]) == w + DedupLast(items)
  {
    var x, rest := items[0], items[1..];
    var d := DedupLast(rest);
    var e := Without([x], Elems(rest));
    assert e == if x in rest then [] else [x] by {
      WithoutSingle(x, Elems(rest));
    }
    assert DedupLast(items) == e + d;
    AppendAssoc(w, e, d);
  }

  /** Appending puts the items last, each once where it last occurs. */
  lemma {:induction false} AppendKeysTag<T>(xs: seq<T>, items: seq<T>)
    ensures AppendKeys(Tag(xs), items) == Tag(Without(xs, Elems(items)) + DedupLast(items))
    decreases |items|
  {
    if items != [] {
      var x, rest := items[0], items[1..];
      var moved := Without(xs, {x}) + [x];
      var wx := Without(xs, Elems(items));
      assert AppendKeys(Tag(xs), items) == Tag(Without(moved, Elems(rest)) + DedupLast(rest)) by {
        assert InsertOrMoveBack(Tag(xs), x) == Tag(moved) by {
          TagWithoutOne(xs, x);
          TagAppend(Without(xs, {x}), [x]);
        }
        AppendKeysTag(moved, rest);
      }
      assert Without(moved, Elems(rest)) + DedupLast(rest) == wx + DedupLast(items) by {
        assert Without(moved, Elems(rest)) == wx + Without([x], Elems(rest)) by {
          WithoutAppend(Without(xs, {x}), [x], Elems(rest));
          WithoutWithout(xs, {x}, Elems(rest));
          ElemsCons(items);
        }
        DedupLastCons(wx, items);
      }
    } else {
      WithoutNone(xs, Elems(items));
    }
  }

  // ------------------------------------------- membership, any input

  /** Inserting or moving `x` leaves exactly the old items and `x`. */
  lemma InsertMembers<T>(cs: seq<Cell<T>>, x: T, y: T)
    ensures y in Items(InsertIfUnique(cs, x)) <==> y in Items(cs) || y == x
    ensures y in Items(InsertOrMoveFront(cs, x)) <==> y in Items(cs) || y == x
    ensures y in Items(InsertOrMoveBack(cs, x)) <==> y in Items(cs) || y == x
  {
    var c := Cell(x, true);
    var w := Without(cs, {c});
    InItems(cs, x);
    ItemsAppend(cs, [c]);
    ItemsAppend([c], w);
    ItemsAppend(w, [c]);
    assert Items([c]) == [x];
    if y != x {
      ItemsWithoutCell(cs, c, y);
    }
  }

  lemma {:induction false} AddKeysMembers<T>(cs: seq<Cell<T>>, items: seq<T>, y: T)
    ensures y in Items(AddKeys(cs, items)) <==> y in Items(cs) || y in items
    decreases |items|
  {
    if items != [] {
      InsertMembers(cs, items[0], y);
      AddKeysMembers(InsertIfUnique(cs, items[0]), items[1..], y);
      assert y in items <==> y == items[0] || y in items[1..];
    }
  }

  lemma {:induction false} PrependKeysMembers<T>(cs: seq<Cell<T>>, items: seq<T>, y: T)
    ensures y in Items(PrependKeys(cs, items)) <==> y in Items(cs) || y in items
    decreases |items|
  {
    if items != [] {
      PrependKeysMembers(cs, items[1..], y);
      InsertMembers(PrependKeys(cs, items[1..]), items[0], y);
      assert y in items <==> y == items[0] || y in items[1..];
    }
  }

  lemma {:induction false} AppendKeysMembers<T>(cs: seq<Cell<T>>, items: seq<T>, y: T)
    ensures y in Items(AppendKeys(cs, items)) <==> y in Items(cs) || y in items
    decreases |items|
  {
    if items != [] {
      InsertMembers(cs, items[0], y);
      AppendKeysMembers(InsertOrMoveBack(cs, items[0]), items[1..], y);
      assert y in items <==> y == items[0] || y in items[1..];
    }
  }

  /** Deleting other items never touches `y`, even among duplicates. */
  lemma {:induction false} DeleteKeysOthers<T>(cs: seq<Cell<T>>, items: seq<T>, y: T)
    requires y !in items
    ensures y in Items(DeleteKeys(cs, items)) <==> y in Items(cs)
    decreases |items|
  {
    if items != [] {
      ItemsWithoutCell(cs, Cell(items[0], true), y);
      DeleteKeysOthers(RemoveIfPresent(cs, items[0]), items[1..], y);
    }
  }

  lemma MultisetShuffle<T>(a: seq<T>, m: seq<T>, b: seq<T>, r: seq<T>)
    ensures multiset(a + b) + multiset(r + m) == multiset(a + m + b) + multiset(r)
  {
  }

  /** Moving the run `m` from between `a` and `b` to the end of `result`
      keeps the cells' items. */
  lemma SpliceItems<T>(a: seq<Cell<T>>, m: seq<Cell<T>>, b: seq<Cell<T>>, result: seq<Cell<T>>)
    ensures multiset(Items(a + b)) + multiset(Items(result + m))
         == multiset(Items(a + m + b)) + multiset(Items(result))
  {
    ItemsAppend(a, b);
    ItemsAppend(result, m);
    ItemsAppend(a + m, b);
    ItemsAppend(a, m);
    MultisetShuffle(Items(a), Items(m), Items(b), Items(result));
  }

  /** The splicing loop only moves cells around. */
  lemma {:induction false} ReorderLoopPermutes<T>(scratch: seq<Cell<T>>, result: seq<Cell<T>>, uo: seq<T>, os: set<T>)
    ensures multiset(Items(ReorderLoop(scratch, result, uo, os)))
         == multiset(Items(scratch)) + multiset(Items(result))
    decreases |uo|
  {
    if uo == [] {
      ItemsAppend(scratch, result);
    } else {
      var c := Cell(uo[0], true);
      if c in scratch {
        var j := IndexOf(scratch, c);
        var e := NextOrdered(scratch, j + 1, os);
        var a, m, b := scratch[..j], scratch[j..e], scratch[e..];
        assert ReorderLoop(scratch, result, uo, os) == ReorderLoop(a + b, result + m, uo[1..], os);
        ReorderLoopPermutes(a + b, result + m, uo[1..], os);
        assert scratch == a + m + b;
        SpliceItems(a, m, b, result);
      } else {
        ReorderLoopPermutes(scratch, result, uo[1..], os);
      }
    }
  }

  /** `_ReorderKeysHelper` is a permutation of the list. */
  lemma ReorderPermutes<T>(cs: seq<Cell<T>>, order: seq<T>)
    ensures multiset(Items(Reorder(cs, order))) == multiset(Items(cs))
    ensures forall y :: y in Items(Reorder(cs, order)) <==> y in Items(cs)
  {
    var uo := DedupFirst(order);
    if uo != [] {
      ReorderLoopPermutes(cs, [], uo, Elems(uo));
    }
    assert forall y :: y in Items(Reorder(cs, order)) <==> y in multiset(Items(Reorder(cs, order)));
  }

  // ------------------------------------------- reordering distinct items

  lemma TagSplice<T>(xs: seq<T>, ys: seq<T>, j: nat, e: nat)
    requires j <= e <= |xs|
    ensures Tag(xs)[..j] + Tag(xs)[e..] == Tag(xs[..j] + xs[e..])
    ensures Tag(ys) + Tag(xs)[j..e] == Tag(ys + xs[j..e])
  {
  }

  /** Cutting a run out of a list of distinct items leaves distinct items:
      everything but the run. */
  lemma SpliceUnique<T>(xs: seq<T>, j: nat, e: nat)
    requires Unique(xs) && j <= e <= |xs|
    ensures Unique(xs[..j] + xs[e..])
    ensures forall x :: x in xs[..j] + xs[e..] <==> x in xs && x !in xs[j..e]
  {
    var a, m, b := xs[..j], xs[j..e], xs[e..];
    assert xs == (a + m) + b;
    UniqueAppend(a + m, b);
    UniqueAppend(a, m);
    UniqueAppend(a, b);
  }

  /** A run that starts at an ordered item and stops before the next one
      holds exactly one ordered item. */
  lemma RunHoldsOne<T>(xs: seq<T>, j: nat, e: nat, os: set<T>)
    requires j < e <= |xs| && xs[j] in os
    requires forall k :: j + 1 <= k < e ==> xs[k] !in os
    ensures forall x :: x in xs[j..e] && x in os ==> x == xs[j]
    ensures Keep(xs[j..e], os) == [xs[j]]
  {
    var m := xs[j..e];
    assert forall k :: 1 <= k < |m| ==> m[k] !in os;
    KeepNone(m[1..], os);
    assert m == [xs[j]] + m[1..];
  }

  /** The invariant of the splicing loop on distinct, fully tracked items:
      the ordered items already moved sit in `result` in order, and the
      ones still to come are the rest of `uo` that the list holds. */
  lemma {:induction false} ReorderLoopKeep<T>(xs: seq<T>, ys: seq<T>, uo: seq<T>, os: set<T>)
    requires Unique(xs) && Unique(uo)
    requires forall x :: x in uo ==> x in os
    requires forall x :: x in xs && x in os ==> x in uo
    ensures Keep(Items(ReorderLoop(Tag(xs), Tag(ys), uo, os)), os) == Keep(ys, os) + Keep(uo, Elems(xs))
    decreases |uo|
  {
    if uo == [] {
      TagAppend(xs, ys);
      ItemsTag(xs + ys);
      KeepAppend(xs, ys, os);
      KeepNone(xs, os);
    } else {
      var u, rest := uo[0], uo[1..];
      var c := Cell(u, true);
      UniqueCons(u, rest);
      assert uo == [u] + rest;
      ItemsTag(xs);
      InItems(Tag(xs), u);
      assert c in Tag(xs) <==> u in xs;
      if u in xs {
        var j := IndexOf(Tag(xs), c);
        var e := NextOrdered(Tag(xs), j + 1, os);
        var m := xs[j..e];
        var xs' := xs[..j] + xs[e..];
        assert xs[j] == u && u in os;
        assert forall k :: j + 1 <= k < e ==> xs[k] !in os by {
          assert forall k :: j + 1 <= k < e ==> Tag(xs)[k].item == xs[k];
        }
        RunHoldsOne(xs, j, e, os);
        assert Keep(Items(ReorderLoop(Tag(xs), Tag(ys), uo, os)), os)
            == Keep(ys + m, os) + Keep(rest, Elems(xs')) by {
          TagSplice(xs, ys, j, e);
          SpliceUnique(xs, j, e);
          ReorderLoopKeep(xs', ys + m, rest, os);
        }
        assert Keep(ys + m, os) == Keep(ys, os) + [u] by {
          KeepAppend(ys, m, os);
        }
        assert Keep(rest, Elems(xs')) == Keep(rest, Elems(xs)) by {
          SpliceUnique(xs, j, e);
          KeepCongruent(rest, Elems(xs'), Elems(xs));
        }
        AppendAssoc(Keep(ys, os), [u], Keep(rest, Elems(xs)));
      } else {
        ReorderLoopKeep(xs, ys, rest, os);
      }
    }
  }

  /** On distinct items, `_ReorderKeysHelper` leaves the ordered items the
      list holds in the order of their first occurrence in `order`. */
  lemma ReorderKeepsOrder<T>(xs: seq<T>, order: seq<T>)
    requires Unique(xs)
    ensures Keep(Items(Reorder(Tag(xs), order)), Elems(order)) == Keep(DedupFirst(order), Elems(xs))
  {
    var uo := DedupFirst(order);
    DedupSpec(order);
    assert Elems(uo) == Elems(order);
    ItemsTag(xs);
    if uo == [] {
      assert order == [];
      KeepNone(xs, Elems(order));
    } else {
      ReorderLoopKeep(xs, [], uo, Elems(uo));
    }
  }

  // ------------------------------------------- applying an op

  /** An explicit op yields its explicit items, each once, whatever the
      list was. */
  lemma ApplyExplicit<T>(op: ListOp<T>, vec: seq<T>)
    requires op.isExplicit
    ensures Apply(op, vec, None) == DedupFirst(op.explicitItems)
    ensures forall x :: x in Apply(op, vec, None) <==> HasItem(op, x)
  {
    var e := op.explicitItems;
    assert Tag<T>([]) == [];
    AddKeysTag([], e);
    assert AppendNew([], e) == DedupFirst(e) by {
      AppendNewSpec([], e);
      WithoutNone(DedupFirst(e), Elems<T>([]));
    }
    ItemsTag(DedupFirst(e));
    DedupSpec(e);
  }

  /** An item no list of a non-explicit op mentions is present afterwards
      exactly when it was before, duplicates in the list or not. */
  lemma ApplyUntouched<T>(op: ListOp<T>, vec: seq<T>, x: T)
    requires !op.isExplicit && !HasItem(op, x)
    ensures x in Apply(op, vec, None) <==> x in vec
  {
    var c0 := Track(vec);
    var c1 := DeleteKeys(c0, op.deletedItems);
    var c2 := AddKeys(c1, op.addedItems);
    var c3 := PrependKeys(c2, op.prependedItems);
    var c4 := AppendKeys(c3, op.appendedItems);
    ItemsTrack(vec);
    DeleteKeysOthers(c0, op.deletedItems, x);
    AddKeysMembers(c1, op.addedItems, x);
    PrependKeysMembers(c2, op.prependedItems, x);
    AppendKeysMembers(c3, op.appendedItems, x);
    ReorderPermutes(c4, op.orderedItems);
  }

  /** On a list of distinct items, a non-explicit op keeps what it does not
      delete and brings in everything it adds, prepends or appends; a
      deleted item that is also added back is present. */
  lemma ApplyMembers<T>(op: ListOp<T>, vec: seq<T>, x: T)
    requires !op.isExplicit && Unique(vec)
    ensures x in Apply(op, vec, None)
        <==> (x in vec && x !in op.deletedItems) || x in op.addedItems
             || x in op.prependedItems || x in op.appendedItems
  {
    var w := Without(vec, Elems(op.deletedItems));
    var c1 := DeleteKeys(Track(vec), op.deletedItems);
    var c2 := AddKeys(c1, op.addedItems);
    var c3 := PrependKeys(c2, op.prependedItems);
    var c4 := AppendKeys(c3, op.appendedItems);
    assert x in Items(c1) <==> x in vec && x !in op.deletedItems by {
      TrackUnique(vec);
      DeleteKeysTag(vec, op.deletedItems);
      ItemsTag(w);
      WithoutMembers(vec, Elems(op.deletedItems), x);
    }
    AddKeysMembers(c1, op.addedItems, x);
    PrependKeysMembers(c2, op.prependedItems, x);
    AppendKeysMembers(c3, op.appendedItems, x);
    ReorderPermutes(c4, op.orderedItems);
  }

  /** The op shapes composition works with: non-explicit, no added and no
      ordered items. */
  predicate Simple<T>(op: ListOp<T>) {
    !op.isExplicit && op.addedItems == [] && op.orderedItems == []
  }

  /** The list a simple op makes of distinct items: the prepended items
      not also appended, then the untouched rest of the list, then the
      appended items. */
  function SimpleResult<T(==)>(op: ListOp<T>, l: seq<T>): seq<T> {
    Without(op.prependedItems, Elems(op.appendedItems)) + Without(l, Touched(op)) + op.appendedItems
  }

  lemma SimpleResultUnique<T>(op: ListOp<T>, l: seq<T>)
    requires WellFormed(op) && Unique(l)
    ensures Unique(SimpleResult(op, l))
  {
    var p, a, d := op.prependedItems, op.appendedItems, op.deletedItems;
    assert Deduplicated(Prepended) && Deduplicated(Appended);
    assert Unique(p) && Unique(a);
    var s := Touched(op);
    var wp, wl := Without(p, Elems(a)), Without(l, s);
    WithoutUnique(p, Elems(a));
    WithoutUnique(l, s);
    forall x | x in wp ensures x !in wl && x !in a {
      WithoutMembers(p, Elems(a), x);
      WithoutMembers(l, s, x);
    }
    forall x | x in wl ensures x !in a {
      WithoutMembers(l, s, x);
    }
    UniqueAppend(wp, wl);
    assert forall x :: x in wp + wl ==> x !in a;
    UniqueAppend(wp + wl, a);
  }

  /** What `ApplyOperations` makes of a list of distinct items under a
      well-formed simple op. */
  lemma ApplySimple<T>(op: ListOp<T>, l: seq<T>)
    requires WellFormed(op) && Simple(op) && Unique(l)
    ensures Apply(op, l, None) == SimpleResult(op, l)
    ensures Unique(Apply(op, l, None))
  {
    var p, a, d := op.prependedItems, op.appendedItems, op.deletedItems;
    assert Deduplicated(Prepended) && Deduplicated(Appended);
    assert Unique(p) && Unique(a);
    var w1 := Without(l, Elems(d));
    var w2 := Without(w1, Elems(p));
    var c4 := AppendKeys(PrependKeys(DeleteKeys(Track(l), d), p), a);
    assert c4 == Tag(Without(p + w2, Elems(a)) + a) by {
      TrackUnique(l);
      DeleteKeysTag(l, d);
      PrependKeysTag(w1, p);
      DedupOfUnique(p);
      AppendKeysTag(p + w2, a);
      DedupOfUnique(a);
    }
    assert Without(p + w2, Elems(a)) == Without(p, Elems(a)) + Without(l, Elems(d) + Elems(p) + Elems(a)) by {
      WithoutAppend(p, w2, Elems(a));
      WithoutWithout(l, Elems(d), Elems(p));
      WithoutWithout(l, Elems(d) + Elems(p), Elems(a));
    }
    if d == [] && p == [] && a == [] {
      WithoutNone(l, Elems(d) + Elems(p) + Elems(a));
    } else {
      assert Apply(op, l, None) == Items(Reorder(c4, []));
      ItemsTag(Without(p + w2, Elems(a)) + a);
    }
    SimpleResultUnique(op, l);
  }

  // ------------------------------------------- composing ops

  /** The deleted, prepended and appended lists `ApplyOperations(inner)`
      builds for two simple ops. */
  datatype Edits<T> = Edits(del: seq<T>, pre: seq<T>, app: seq<T>)

  /** The three passes of `SdfListOp::ApplyOperations`, each over one list of `outer`.
      Inside a pass the three lists are edited independently, so each pass
      is written list by list. */
  function ComposeEdits<T(==)>(outer: ListOp<T>, inner: ListOp<T>): Edits<T> {
    var d2, p2, a2 := outer.deletedItems, outer.prependedItems, outer.appendedItems;
    // deletes: drop from prepends and appends, add to deletes if new
    var del1 := AppendNew(inner.deletedItems, d2);
    var pre1 := RemoveEach(inner.prependedItems, d2);
    var app1 := RemoveEach(inner.appendedItems, d2);
    // prepends: drop from all three, then put in front of the prepends
    var del2 := RemoveEach(del1, p2);
    var pre2 := p2 + RemoveEach(pre1, p2);
    var app2 := RemoveEach(app1, p2);
    // appends: drop from all three, then put behind the appends
    Edits(RemoveEach(del2, a2), RemoveEach(pre2, a2), RemoveEach(app2, a2) + a2)
  }

  function FromEdits<T(==)>(e: Edits<T>): ListOp<T> {
    var r1 := SetItems(Empty(), Deleted, e.del).0;
    var r2 := SetItems(r1, Prepended, e.pre).0;
    SetItems(r2, Appended, e.app).0
  }

  /** `ApplyOperations(inner)`: the single op with the effect of applying
      `inner` and then `outer`, when one exists.  An explicit outer op wins
      outright; an outer op with added or ordered items, or an inner one
      that has them, has no single equivalent. */
  function Compose<T(==)>(outer: ListOp<T>, inner: ListOp<T>): Option<ListOp<T>> {
    if outer.isExplicit then Some(outer)
    else if outer.addedItems == [] && outer.orderedItems == [] then
      if inner.isExplicit then Some(CreateExplicit(Apply(outer, inner.explicitItems, None)))
      else if inner.addedItems == [] && inner.orderedItems == [] then Some(FromEdits(ComposeEdits(outer, inner)))
      else None
    else None
  }

  /** Where each item ends up in the composition: an outer prepend or
      append wins over everything before it, an outer delete removes the
      item from the inner prepends and appends. */
  lemma ComposeEditsSpec<T>(outer: ListOp<T>, inner: ListOp<T>)
    ensures var e := ComposeEdits(outer, inner);
      var s2 := Elems(outer.deletedItems) + Elems(outer.prependedItems) + Elems(outer.appendedItems);
      && e.pre == Without(outer.prependedItems, Elems(outer.appendedItems)) + Without(inner.prependedItems, s2)
      && e.app == Without(inner.appendedItems, s2) + outer.appendedItems
      && forall x :: x in e.del <==> (x in inner.deletedItems || x in outer.deletedItems)
                                     && x !in outer.prependedItems && x !in outer.appendedItems
  {
    var d1, p1, a1 := inner.deletedItems, inner.prependedItems, inner.appendedItems;
    var d2, p2, a2 := outer.deletedItems, outer.prependedItems, outer.appendedItems;
    var e := ComposeEdits(outer, inner);
    var s2 := Elems(d2) + Elems(p2) + Elems(a2);
    RemoveEachSpec(p1, d2);
    RemoveEachSpec(a1, d2);
    assert e.pre == Without(p2, Elems(a2)) + Without(p1, s2) by {
      var q := Without(p1, Elems(d2));
      RemoveEachSpec(q, p2);
      RemoveEachSpec(p2 + Without(q, Elems(p2)), a2);
      WithoutAppend(p2, Without(q, Elems(p2)), Elems(a2));
      WithoutWithout(p1, Elems(d2), Elems(p2));
      WithoutWithout(p1, Elems(d2) + Elems(p2), Elems(a2));
    }
    assert e.app == Without(a1, s2) + a2 by {
      var q := Without(a1, Elems(d2));
      RemoveEachSpec(q, p2);
      RemoveEachSpec(Without(q, Elems(p2)), a2);
      WithoutWithout(a1, Elems(d2), Elems(p2));
      WithoutWithout(a1, Elems(d2) + Elems(p2), Elems(a2));
    }
    forall x ensures x in e.del <==> (x in d1 || x in d2) && x !in p2 && x !in a2 {
      var del1 := AppendNew(d1, d2);
      AppendNewSpec(d1, d2);
      DedupSpec(d2);
      WithoutMembers(DedupFirst(d2), Elems(d1), x);
      RemoveEachSpec(del1, p2);
      RemoveEachSpec(Without(del1, Elems(p2)), a2);
      WithoutMembers(del1, Elems(p2), x);
      WithoutMembers(Without(del1, Elems(p2)), Elems(a2), x);
    }
  }

  /** The composition of two well-formed simple ops is a well-formed simple
      op that stores the edit lists as built (the deletes only up to
      duplicates). */
  lemma ComposedOp<T>(outer: ListOp<T>, inner: ListOp<T>)
    requires WellFormed(outer) && WellFormed(inner)
    ensures var e := ComposeEdits(outer, inner);
      var c := FromEdits(e);
      && WellFormed(c) && Simple(c)
      && c.prependedItems == e.pre && c.appendedItems == e.app && c.deletedItems == DedupFirst(e.del)
  {
    var e := ComposeEdits(outer, inner);
    var p1, a1 := inner.prependedItems, inner.appendedItems;
    var p2, a2 := outer.prependedItems, outer.appendedItems;
    var s2 := Elems(outer.deletedItems) + Elems(p2) + Elems(a2);
    assert Deduplicated(Prepended) && Deduplicated(Appended);
    assert Unique(p1) && Unique(a1) && Unique(p2) && Unique(a2);
    ComposeEditsSpec(outer, inner);
    assert Unique(e.pre) by {
      var w2, w1 := Without(p2, Elems(a2)), Without(p1, s2);
      WithoutUnique(p2, Elems(a2));
      WithoutUnique(p1, s2);
      forall x | x in w2 ensures x !in w1 {
        WithoutMembers(p2, Elems(a2), x);
        WithoutMembers(p1, s2, x);
      }
      UniqueAppend(w2, w1);
    }
    assert Unique(e.app) by {
      var w1 := Without(a1, s2);
      WithoutUnique(a1, s2);
      forall x | x in w1 ensures x !in a2 {
        WithoutMembers(a1, s2, x);
      }
      UniqueAppend(w1, a2);
    }
    DedupOfUnique(e.pre);
    DedupOfUnique(e.app);
    var r1 := SetItems(Empty(), Deleted, e.del).0;
    var r2 := SetItems(r1, Prepended, e.pre).0;
    var c := SetItems(r2, Appended, e.app).0;
    assert WellFormed(c) by {
      SetItemsWellFormed(Empty(), Deleted, e.del);
      SetItemsWellFormed(r1, Prepended, e.pre);
      SetItemsWellFormed(r2, Appended, e.app);
    }
    assert GetItems(c, Added) == [] && GetItems(c, Ordered) == [];
    assert GetItems(c, Deleted) == DedupFirst(e.del);
  }

  /** The composition mentions exactly the items one of the two ops
      mentions. */
  lemma ComposeCovers<T>(outer: ListOp<T>, inner: ListOp<T>, x: T)
    ensures var e := ComposeEdits(outer, inner);
      x in Elems(DedupFirst(e.del)) + Elems(e.pre) + Elems(e.app) <==> x in Touched(inner) + Touched(outer)
  {
    var e := ComposeEdits(outer, inner);
    var s2 := Touched(outer);
    ComposeEditsSpec(outer, inner);
    DedupSpec(e.del);
    WithoutMembers(outer.prependedItems, Elems(outer.appendedItems), x);
    WithoutMembers(inner.prependedItems, s2, x);
    WithoutMembers(inner.appendedItems, s2, x);
  }

  lemma Regroup<T>(a: seq<T>, b: seq<T>, c: seq<T>, d: seq<T>, e: seq<T>)
    ensures ((a + b) + c) + (d + e) == (a + ((b + c) + d)) + e
  {
  }

  /** The items a simple op deletes, prepends or appends. */
  function Touched<T(==)>(op: ListOp<T>): set<T> {
    Elems(op.deletedItems) + Elems(op.prependedItems) + Elems(op.appendedItems)
  }

  /** The composed op applied to `l`, in five pieces. */
  lemma ComposeLeft<T>(outer: ListOp<T>, inner: ListOp<T>, l: seq<T>)
    requires WellFormed(outer) && WellFormed(inner) && Simple(outer) && Simple(inner) && Unique(l)
    ensures var s2 := Touched(outer);
      Apply(FromEdits(ComposeEdits(outer, inner)), l, None)
      == ((Without(outer.prependedItems, Elems(outer.appendedItems))
           + Without(inner.prependedItems, Elems(inner.appendedItems) + s2))
          + Without(l, Touched(inner) + s2))
         + (Without(inner.appendedItems, s2) + outer.appendedItems)
  {
    var e := ComposeEdits(outer, inner);
    var c := FromEdits(e);
    var p1, a1 := inner.prependedItems, inner.appendedItems;
    var p2, a2 := outer.prependedItems, outer.appendedItems;
    var s2 := Touched(outer);
    var wp2 := Without(p2, Elems(a2));
    ComposedOp(outer, inner);
    ComposeEditsSpec(outer, inner);
    ApplySimple(c, l);
    assert Without(e.pre, Elems(e.app)) == wp2 + Without(p1, Elems(a1) + s2) by {
      WithoutAppend(wp2, Without(p1, s2), Elems(e.app));
      forall x | x in wp2 ensures x !in Elems(e.app) {
        WithoutMembers(p2, Elems(a2), x);
        WithoutMembers(a1, s2, x);
      }
      WithoutNone(wp2, Elems(e.app));
      WithoutWithout(p1, s2, Elems(e.app));
      forall x | x in p1 ensures x in s2 + Elems(e.app) <==> x in Elems(a1) + s2 {
        WithoutMembers(a1, s2, x);
      }
      WithoutCongruent(p1, s2 + Elems(e.app), Elems(a1) + s2);
    }
    assert Without(l, Touched(c)) == Without(l, Touched(inner) + s2) by {
      var sc := Elems(DedupFirst(e.del)) + Elems(e.pre) + Elems(e.app);
      assert Touched(c) == sc;
      forall x | x in l ensures x in sc <==> x in Touched(inner) + s2 {
        ComposeCovers(outer, inner, x);
      }
      WithoutCongruent(l, sc, Touched(inner) + s2);
    }
  }

  /** The two ops applied in turn to `l`, in the same five pieces. */
  lemma ComposeRight<T>(outer: ListOp<T>, inner: ListOp<T>, l: seq<T>)
    requires WellFormed(outer) && WellFormed(inner) && Simple(outer) && Simple(inner) && Unique(l)
    ensures var s2 := Touched(outer);
      Apply(outer, Apply(inner, l, None), None)
      == (Without(outer.prependedItems, Elems(outer.appendedItems))
          + ((Without(inner.prependedItems, Elems(inner.appendedItems) + s2)
              + Without(l, Touched(inner) + s2))
             + Without(inner.appendedItems, s2)))
         + outer.appendedItems
  {
    var p1, a1 := inner.prependedItems, inner.appendedItems;
    var s1, s2 := Touched(inner), Touched(outer);
    var m := SimpleResult(inner, l);
    ApplySimple(inner, l);
    ApplySimple(outer, m);
    WithoutAppend(Without(p1, Elems(a1)) + Without(l, s1), a1, s2);
    WithoutAppend(Without(p1, Elems(a1)), Without(l, s1), s2);
    WithoutWithout(p1, Elems(a1), s2);
    WithoutWithout(l, s1, s2);
  }

  /** The composition law for two simple ops. */
  lemma ComposeSimpleLaw<T>(outer: ListOp<T>, inner: ListOp<T>, l: seq<T>)
    requires WellFormed(outer) && WellFormed(inner) && Simple(outer) && Simple(inner) && Unique(l)
    ensures Apply(FromEdits(ComposeEdits(outer, inner)), l, None) == Apply(outer, Apply(inner, l, None), None)
  {
    var s2 := Touched(outer);
    ComposeLeft(outer, inner, l);
    ComposeRight(outer, inner, l);
    Regroup(Without(outer.prependedItems, Elems(outer.appendedItems)),
            Without(inner.prependedItems, Elems(inner.appendedItems) + s2),
            Without(l, Touched(inner) + s2),
            Without(inner.appendedItems, s2), outer.appendedItems);
  }

  /** `ApplyOperations(inner)` is sound: whenever it yields an op, that op
      is well formed and applying it to a list of distinct items is
      applying `inner` and then `outer`. */
  lemma ComposeLaw<T>(outer: ListOp<T>, inner: ListOp<T>, l: seq<T>)
    requires WellFormed(outer) && WellFormed(inner) && Unique(l)
    requires Compose(outer, inner).Some?
    ensures WellFormed(Compose(outer, inner).value)
    ensures Apply(Compose(outer, inner).value, l, None) == Apply(outer, Apply(inner, l, None), None)
  {
    var c := Compose(outer, inner).value;
    if outer.isExplicit {
      ApplyExplicit(outer, l);
      ApplyExplicit(outer, Apply(inner, l, None));
    } else if inner.isExplicit {
      var e := inner.explicitItems;
      assert Deduplicated(Explicit);
      assert Unique(e);
      var x := Apply(outer, e, None);
      ApplySimple(outer, e);
      assert c == CreateExplicit(x);
      SetItemsWellFormed(Empty(), Explicit, x);
      ApplyExplicit(c, l);
      ApplyExplicit(inner, l);
      DedupOfUnique(e);
      DedupOfUnique(x);
    } else {
      ComposedOp(outer, inner);
      ComposeSimpleLaw(outer, inner, l);
    }
  }

  // ------------------------------------------- ordering and list merging

  /** `SdfApplyListOrdering` only permutes the list. */
  lemma ApplyListOrderingPermutes<T>(v: seq<T>, order: seq<T>)
    ensures multiset(ApplyListOrdering(v, order)) == multiset(v)
  {
    ItemsTrack(v);
    ReorderPermutes(Track(v), order);
  }

  /** On distinct items, `SdfApplyListOrdering` puts the ordered items the
      list holds in the order `order` gives them. */
  lemma ApplyListOrderingOrders<T>(v: seq<T>, order: seq<T>)
    requires Unique(v)
    ensures Keep(ApplyListOrdering(v, order), Elems(order)) == Keep(DedupFirst(order), Elems(v))
  {
    if order != [] && v != [] {
      TrackUnique(v);
      ReorderKeepsOrder(v, order);
    } else if order == [] {
      KeepNone(v, Elems(order));
    } else {
      DedupSpec(order);
      KeepNone(DedupFirst(order), Elems(v));
    }
  }

  /** An op holding only ordered items reorders the vector as
      `SdfApplyListOrdering` does. */
  lemma ApplyOrderedOnly<T>(order: seq<T>, v: seq<T>)
    requires order != []
    ensures Apply(ListOp(false, [], [], [], [], [], order), v, None) == Items(Reorder(Track(v), order))
  {
  }

  /** One round of the splicing loop, given the position of the ordered
      item's cell and the end of its run. */
  lemma ReorderLoopStep<T>(scratch: seq<Cell<T>>, result: seq<Cell<T>>, uo: seq<T>, os: set<T>, j: nat, e: nat)
    requires uo != [] && j < e <= |scratch|
    requires scratch[j] == Cell(uo[0], true) && Cell(uo[0], true) !in scratch[..j]
    requires forall k :: j < k < e ==> scratch[k].item !in os
    requires e < |scratch| ==> scratch[e].item in os
    ensures ReorderLoop(scratch, result, uo, os)
         == ReorderLoop(scratch[..j] + scratch[e..], result + scratch[j..e], uo[1..], os)
  {
    var c := Cell(uo[0], true);
    var i := IndexOf(scratch, c);
    assert forall k :: 0 <= k < j ==> scratch[k] != c by {
      forall k | 0 <= k < j ensures scratch[k] != c {
        assert scratch[..j][k] == scratch[k];
      }
    }
    assert forall k :: 0 <= k < i ==> scratch[k] != c by {
      forall k | 0 <= k < i ensures scratch[k] != c {
        assert scratch[..i][k] == scratch[k];
      }
    }
    assert i == j;
    assert NextOrdered(scratch, j + 1, os) == e;
  }

  /** The same round, with the scratch list cut into what precedes the
      ordered item's cell, the run that follows it and the rest. */
  lemma ReorderLoopRun<T>(pre: seq<Cell<T>>, x: T, run: seq<Cell<T>>, post: seq<Cell<T>>,
                          result: seq<Cell<T>>, uo: seq<T>, os: set<T>)
    requires uo != [] && uo[0] == x && Cell(x, true) !in pre
    requires forall k :: 0 <= k < |run| ==> run[k].item !in os
    requires post != [] ==> post[0].item in os
    ensures ReorderLoop(pre + [Cell(x, true)] + run + post, result, uo, os)
         == ReorderLoop(pre + post, result + ([Cell(x, true)] + run), uo[1..], os)
  {
    var scratch := pre + [Cell(x, true)] + run + post;
    var j, e := |pre|, |pre| + 1 + |run|;
    assert scratch[..j] == pre && scratch[e..] == post && scratch[j..e] == [Cell(x, true)] + run;
    forall k | j < k < e ensures scratch[k].item !in os {
      assert scratch[k] == run[k - j - 1];
    }
    ReorderLoopStep(scratch, result, uo, os, j, e);
  }

  /** Pairwise distinctness of six items, spelled out. */
  lemma SixDistinct<T>(a: T, b: T, c: T, d: T, e: T, f: T)
    requires Unique([a, b, c, d, e, f])
    ensures a != b && a != c && a != d && a != e && a != f && b != c && b != d && b != e && b != f
    ensures c != d && c != e && c != f && d != e && d != f && e != f
  {
    var u := [a, b, c, d, e, f];
    assert u[0] == a && u[1] == b && u[2] == c && u[3] == d && u[4] == e && u[5] == f;
  }

  /** The three rounds of the splicing loop on the worked example below. */
  lemma ExampleRound1<T>(a: T, b: T, c: T, d: T, e: T, f: T)
    requires Unique([a, b, c, d, e, f])
    ensures ReorderLoop([Cell(a, true), Cell(c, true), Cell(e, true)] + [Cell(b, true)] + [Cell(f, true)] + [Cell(d, true)],
                        [], [b, c, d], {b, c, d})
         == ReorderLoop([Cell(a, true)] + [Cell(c, true)] + [Cell(e, true)] + [Cell(d, true)],
                        [Cell(b, true), Cell(f, true)], [c, d], {b, c, d})
  {
    SixDistinct(a, b, c, d, e, f);
    var A, C, E, D := Cell(a, true), Cell(c, true), Cell(e, true), Cell(d, true);
    ReorderLoopRun([A, C, E], b, [Cell(f, true)], [D], [], [b, c, d], {b, c, d});
    assert [A, C, E] + [D] == [A] + [C] + [E] + [D];
    assert [] + ([Cell(b, true)] + [Cell(f, true)]) == [Cell(b, true), Cell(f, true)];
    assert [b, c, d][1..] == [c, d];
  }

  lemma ExampleRound2<T>(a: T, b: T, c: T, d: T, e: T, f: T)
    requires Unique([a, b, c, d, e, f])
    ensures ReorderLoop([Cell(a, true)] + [Cell(c, true)] + [Cell(e, true)] + [Cell(d, true)],
                        [Cell(b, true), Cell(f, true)], [c, d], {b, c, d})
         == ReorderLoop([Cell(a, true)] + [Cell(d, true)] + [] + [],
                        [Cell(b, true), Cell(f, true), Cell(c, true), Cell(e, true)], [d], {b, c, d})
  {
    SixDistinct(a, b, c, d, e, f);
    var A, C, E, D := Cell(a, true), Cell(c, true), Cell(e, true), Cell(d, true);
    var r := [Cell(b, true), Cell(f, true)];
    ReorderLoopRun([A], c, [E], [D], r, [c, d], {b, c, d});
    assert [A] + [D] == [A] + [D] + [] + [];
    assert r + ([C] + [E]) == [Cell(b, true), Cell(f, true), C, E];
    assert [c, d][1..] == [d];
  }

  lemma ExampleRound3<T>(a: T, b: T, c: T, d: T, e: T, f: T)
    requires Unique([a, b, c, d, e, f])
    ensures ReorderLoop([Cell(a, true)] + [Cell(d, true)] + [] + [],
                        [Cell(b, true), Cell(f, true), Cell(c, true), Cell(e, true)], [d], {b, c, d})
         == [Cell(a, true), Cell(b, true), Cell(f, true), Cell(c, true), Cell(e, true), Cell(d, true)]
  {
    SixDistinct(a, b, c, d, e, f);
    var r := [Cell(b, true), Cell(f, true), Cell(c, true), Cell(e, true)];
    ReorderLoopRun([Cell(a, true)], d, [], [], r, [d], {b, c, d});
    assert [d][1..] == [];
    assert ([Cell(a, true)] + []) + (r + ([Cell(d, true)] + [])) == [Cell(a, true)] + r + [Cell(d, true)];
  }

  lemma ExampleReorder<T>(a: T, b: T, c: T, d: T, e: T, f: T)
    requires Unique([a, b, c, d, e, f])
    ensures Reorder(Track([a, c, e, b, f, d]), [b, c, d])
         == [Cell(a, true), Cell(b, true), Cell(f, true), Cell(c, true), Cell(e, true), Cell(d, true)]
  {
    var order, v := [b, c, d], [a, c, e, b, f, d];
    SixDistinct(a, b, c, d, e, f);
    assert Unique(v) && Unique(order);
    TrackUnique(v);
    var t := [Cell(a, true), Cell(c, true), Cell(e, true)] + [Cell(b, true)] + [Cell(f, true)] + [Cell(d, true)];
    assert Tag(v) == t;
    DedupOfUnique(order);
    assert Elems(order) == {b, c, d};
    ExampleRound1(a, b, c, d, e, f);
    ExampleRound2(a, b, c, d, e, f);
    ExampleRound3(a, b, c, d, e, f);
  }

  /** The worked example of ordered items, for any six distinct items
      `a`..`f`: ordering `[a, c, e, b, f, d]` by `[b, c, d]` carries `f`
      along behind `b` and `e` behind `c`. */
  lemma OrderedItemsExample<T>(a: T, b: T, c: T, d: T, e: T, f: T)
    requires Unique([a, b, c, d, e, f])
    ensures Apply(ListOp(false, [], [], [], [], [], [b, c, d]), [a, c, e, b, f, d], None) == [a, b, f, c, e, d]
  {
    ApplyOrderedOnly([b, c, d], [a, c, e, b, f, d]);
    ExampleReorder(a, b, c, d, e, f);
    assert Items([Cell(a, true), Cell(b, true), Cell(f, true), Cell(c, true), Cell(e, true), Cell(d, true)])
        == [a, b, f, c, e, d];
  }

  /** `ComposeOperations`: folds list `t` of the stronger op into the same
      list of the weaker one.  Explicit items replace the weaker op's;
      prepends go in front, appends behind, added and deleted items are
      merged in as new, ordered items are merged in and then impose their
      order. */
  function ComposeOperations<T(==)>(weaker: ListOp<T>, stronger: ListOp<T>, t: ListOpType): ListOp<T> {
    if t == Explicit then SetItems(weaker, Explicit, stronger.explicitItems).0
    else
      var cs := Track(GetItems(weaker, t));
      var items := GetItems(stronger, t);
      var merged := match t
        case Ordered => Reorder(AddKeys(cs, items), items)
        case Prepended => PrependKeys(cs, items)
        case Appended => AppendKeys(cs, items)
        case _ => AddKeys(cs, items);
      SetItems(weaker, t, Items(merged)).0
  }

  /** Composing one list keeps the items of both and touches no other
      list unless the mode changes. */
  lemma ComposeOperationsMembers<T>(weaker: ListOp<T>, stronger: ListOp<T>, t: ListOpType, x: T)
    ensures var r := ComposeOperations(weaker, stronger, t);
      && (t == Explicit ==> GetItems(r, t) == DedupFirst(stronger.explicitItems))
      && (t != Explicit ==> (x in GetItems(r, t) <==> x in GetItems(weaker, t) || x in GetItems(stronger, t)))
      && ((t == Explicit) == weaker.isExplicit ==> forall u :: u != t ==> GetItems(r, u) == GetItems(weaker, u))
  {
    if t != Explicit {
      var cs := Track(GetItems(weaker, t));
      var items := GetItems(stronger, t);
      ItemsTrack(GetItems(weaker, t));
      var merged := match t
        case Ordered => Reorder(AddKeys(cs, items), items)
        case Prepended => PrependKeys(cs, items)
        case Appended => AppendKeys(cs, items)
        case _ => AddKeys(cs, items);
      assert x in Items(merged) <==> x in GetItems(weaker, t) || x in items by {
        AddKeysMembers(cs, items, x);
        PrependKeysMembers(cs, items, x);
        AppendKeysMembers(cs, items, x);
        ReorderPermutes(AddKeys(cs, items), items);
      }
      CanonicalSpec(t, Items(merged));
    }
  }

  /** On a weaker list without duplicates, composing prepends puts the
      stronger op's first, composing appends puts them last, and composing
      added or deleted items appends the new ones. */
  lemma ComposeOperationsPlaces<T>(weaker: ListOp<T>, stronger: ListOp<T>, t: ListOpType)
    requires Unique(GetItems(weaker, t)) && t != Explicit && t != Ordered
    ensures var w, s := GetItems(weaker, t), GetItems(stronger, t);
      GetItems(ComposeOperations(weaker, stronger, t), t)
      == match t
         case Prepended => DedupFirst(s) + Without(w, Elems(s))
         case Appended => Without(w, Elems(s)) + DedupLast(s)
         case _ => w + Without(DedupFirst(s), Elems(w))
  {
    var w, s := GetItems(weaker, t), GetItems(stronger, t);
    TrackUnique(w);
    DedupSpec(s);
    var expected := match t
      case Prepended => DedupFirst(s) + Without(w, Elems(s))
      case Appended => Without(w, Elems(s)) + DedupLast(s)
      case _ => w + Without(DedupFirst(s), Elems(w));
    assert Items(match t
        case Prepended => PrependKeys(Tag(w), s)
        case Appended => AppendKeys(Tag(w), s)
        case _ => AddKeys(Tag(w), s)) == expected by {
      match t {
        case Prepended => PrependKeysTag(w, s);
        case Appended => AppendKeysTag(w, s);
        case _ => AddKeysTag(w, s); AppendNewSpec(w, s);
      }
      ItemsTag(expected);
    }
    assert Unique(expected) by {
      var ws, sw := Without(w, Elems(s)), Without(DedupFirst(s), Elems(w));
      WithoutUnique(w, Elems(s));
      WithoutUnique(DedupFirst(s), Elems(w));
      forall x | x in ws ensures x !in DedupFirst(s) && x !in DedupLast(s) {
        WithoutMembers(w, Elems(s), x);
      }
      forall x | x in sw ensures x !in w {
        WithoutMembers(DedupFirst(s), Elems(w), x);
      }
      match t {
        case Prepended => UniqueAppend(DedupFirst(s), ws);
        case Appended => UniqueAppend(ws, DedupLast(s));
        case _ => UniqueAppend(w, sw);
      }
    }
    CanonicalSpec(t, expected);
  }
}

=== FILE: map_editor.dfy ===
/** The map editor that edits a map-valued field of a spec through a
    private copy (mapEditor.cpp): it loads the field once, edits its copy,
    and writes the whole map back after every edit that changed it. The
    map types it serves (dictionaries, variant selections, relocates) are
    all modelled as the store's dictionary value. */
module MapEditors {
  import opened Wrappers
  import opened Seqs
  import opened Paths
  import opened SpecData

  type Map = map<Token, Value>

  /** An editor: the owning spec's path, the edited field, and the copy. */
  datatype MapEditor = MapEditor(owner: Path, field: Token, data: Map)

  /** What the constructor loads: the field's map when the field holds
      one, and an empty map otherwise (an empty field, or a value of
      another type, which is a coding error). */
  function Load(d: Data, owner: Path, field: Token): Map {
    var v := Get(d, owner, field);
    if v != Empty && v.Dict? then v.dict else map[]
  }

  /** The constructor. */
  function Open(d: Data, owner: Path, field: Token): (e: MapEditor)
    ensures e.owner == owner && e.field == field
    ensures Get(d, owner, field).Dict? ==> e.data == Get(d, owner, field).dict
    ensures !Get(d, owner, field).Dict? ==> e.data == map[]
  {
    MapEditor(owner, field, Load(d, owner, field))
  }

  /** `_UpdateDataInSpec`: an empty map clears the field, any other map is
      stored in it. */
  function WriteBack(e: MapEditor, d: Data): (r: Data)
    ensures forall q :: q != e.owner ==> (q in r <==> q in d) && (q in r ==> r[q] == d[q])
    ensures (e.owner in r <==> e.owner in d)
  {
    if e.data == map[] then Erase(d, e.owner, e.field) else Set(d, e.owner, e.field, Dict(e.data))
  }

  /** The editor's copy matches its field. */
  predicate InSync(e: MapEditor, d: Data) {
    e.owner in d ==> Load(d, e.owner, e.field) == e.data
  }

  /** After a write-back the field reads as the copy (cleared when the copy
      is empty), every other field reads as before, and the editor is in
      step with the store. */
  lemma WriteBackSpec(e: MapEditor, d: Data, q: Path, g: Token)
    requires WellFormed(d)
    ensures var r := WriteBack(e, d);
      InSync(e, r)
      && (e.owner in d ==> Get(r, e.owner, e.field) == if e.data == map[] then Empty else Dict(e.data))
      && ((q, g) != (e.owner, e.field) ==> Get(r, q, g) == Get(d, q, g))
  {
    var v := if e.data == map[] then Empty else Dict(e.data);
    SetGet(d, e.owner, e.field, v, q, g);
    SetGet(d, e.owner, e.field, v, e.owner, e.field);
  }

  /** `Copy`: replaces the copy and writes back. */
  function Copy(e: MapEditor, d: Data, other: Map): (r: (MapEditor, Data))
    ensures r.0.data == other && r.0.owner == e.owner && r.0.field == e.field
  {
    var e' := e.(data := other);
    (e', WriteBack(e', d))
  }

  /** `Set`: sets one entry and writes back. */
  function SetEntry(e: MapEditor, d: Data, key: Token, v: Value): (r: (MapEditor, Data))
    ensures r.0.data == e.data[key := v] && r.0.owner == e.owner && r.0.field == e.field
  {
    var e' := e.(data := e.data[key := v]);
    (e', WriteBack(e', d))
  }

  /** `Insert`: adds an entry only for a new key, reporting whether it did;
      only then is the map written back. */
  function Insert(e: MapEditor, d: Data, key: Token, v: Value): (r: (MapEditor, Data, bool))
    ensures r.2 <==> key !in e.data
    ensures !r.2 ==> r.0 == e && r.1 == d
    ensures r.2 ==> r.0.data == e.data[key := v] && r.0.owner == e.owner && r.0.field == e.field
    ensures key in r.0.data && r.0.data[key] == (if key in e.data then e.data[key] else v)
  {
    if key in e.data then (e, d, false)
    else
      var e' := e.(data := e.data[key := v]);
      (e', WriteBack(e', d), true)
  }

  /** `Erase`: removes an entry, reporting whether there was one; only then
      is the map written back. */
  function EraseEntry(e: MapEditor, d: Data, key: Token): (r: (MapEditor, Data, bool))
    ensures r.2 <==> key in e.data
    ensures !r.2 ==> r.0 == e && r.1 == d
    ensures r.0.data == e.data - {key} && r.0.owner == e.owner && r.0.field == e.field
  {
    if key !in e.data then (e, d, false)
    else
      var e' := e.(data := e.data - {key});
      (e', WriteBack(e', d), true)
  }

  /** `Copy` leaves the editor in step with its field. */
  lemma CopyKeepsInSync(e: MapEditor, d: Data, other: Map)
    requires WellFormed(d)
    ensures var r := Copy(e, d, other); InSync(r.0, r.1)
  {
    WriteBackInSync(e.(data := other), d);
  }

  /** `Set` leaves the editor in step with its field. */
  lemma SetEntryKeepsInSync(e: MapEditor, d: Data, key: Token, v: Value)
    requires WellFormed(d)
    ensures var r := SetEntry(e, d, key, v); InSync(r.0, r.1)
  {
    WriteBackInSync(e.(data := e.data[key := v]), d);
  }

  /** `Insert` leaves the editor in step with its field, whether or not it
      wrote back. */
  lemma InsertKeepsInSync(e: MapEditor, d: Data, key: Token, v: Value)
    requires WellFormed(d) && InSync(e, d)
    ensures var r := Insert(e, d, key, v); InSync(r.0, r.1)
  {
    if key !in e.data {
      WriteBackInSync(e.(data := e.data[key := v]), d);
    }
  }

  /** `Erase` leaves the editor in step with its field, whether or not it
      wrote back; erasing the last entry clears the field. */
  lemma EraseKeepsInSync(e: MapEditor, d: Data, key: Token)
    requires WellFormed(d) && InSync(e, d)
    ensures var r := EraseEntry(e, d, key); InSync(r.0, r.1)
    ensures e.data.Keys == {key} && e.owner in d ==>
      var r := EraseEntry(e, d, key); !Has(r.1, e.owner, e.field)
  {
    if key in e.data {
      WriteBackInSync(e.(data := e.data - {key}), d);
      if e.data.Keys == {key} && e.owner in d {
        EraseLastEntry(e, d, key);
      }
    }
  }

  lemma WriteBackInSync(e: MapEditor, d: Data)
    requires WellFormed(d)
    ensures InSync(e, WriteBack(e, d))
  {
    WriteBackSpec(e, d, e.owner, e.field);
  }

  lemma EraseLastEntry(e: MapEditor, d: Data, key: Token)
    requires WellFormed(d) && e.owner in d && e.data.Keys == {key}
    ensures !Has(WriteBack(e.(data := e.data - {key}), d), e.owner, e.field)
  {
    assert e.data - {key} == map[];
    SetList(d, e.owner, e.field, Empty);
    WithoutMembers(List(d, e.owner), {e.field}, e.field);
  }

  /** Opening an editor on a field it has just written back loads the same
      map. */
  lemma ReopenLoadsCopy(e: MapEditor, d: Data)
    requires WellFormed(d) && e.owner in d
    ensures Open(WriteBack(e, d), e.owner, e.field) == e
  {
    WriteBackSpec(e, d, e.owner, e.field);
  }
}

=== FILE: parser_helpers.dfy ===
/** The value helpers of the text parser (parserHelpers.h,
    parserHelpers.cpp): the variant a lexer token is stored in, its
    conversions to the C++ types of attribute values, the bounds-checked
    reading of scalar tuples and shaped arrays, the bool spellings, and the
    stripping of string and asset-path delimiters.

    Floating-point values are kept symbolic: a finite double is a `real`,
    and half/float rounding is not modelled. */
module ParserHelpers {
  import opened Wrappers
  import Strings
  import AssetPaths

  // ---------------------------------------------------------------------
  // Bool spellings.

  /** `::tolower` in the C locale. */
  function LowerChar(c: char): (d: char)
    ensures 'A' <= c <= 'Z' ==> d as int == c as int + 32
    ensures !('A' <= c <= 'Z') ==> d == c
  {
    if 'A' <= c <= 'Z' then (c as int + 32) as char else c
  }

  function Lower(s: string): (t: string)
    ensures |t| == |s| && forall i :: 0 <= i < |s| ==> t[i] == LowerChar(s[i])
  {
    if |s| == 0 then [] else [LowerChar(s[0])] + Lower(s[1..])
  }

  lemma {:induction false} LowerIdempotent(s: string)
    ensures Lower(Lower(s)) == Lower(s)
  {
    assert forall i :: 0 <= i < |s| ==> LowerChar(LowerChar(s[i])) == LowerChar(s[i]);
  }

  predicate SpellsTrue(s: string) {
    s == "true" || s == "yes" || s == "1"
  }

  predicate SpellsFalse(s: string) {
    s == "false" || s == "no" || s == "0"
  }

  datatype BoolParse = BoolParse(value: bool, ok: bool)

  /** `Sdf_BoolFromString`: lower-case the text and compare it, as a C
      string, against the six spellings; anything else is true with `ok`
      false. */
  function BoolFromString(str: string): (r: BoolParse)
    ensures var key := Strings.CString(Lower(str));
      && (r.ok <==> SpellsTrue(key) || SpellsFalse(key))
      && (r.ok ==> (r.value <==> SpellsTrue(key)))
    ensures !r.ok ==> r.value
  {
    var key := Strings.CString(Lower(str));
    if key == "false" then BoolParse(false, true)
    else if key == "true" then BoolParse(true, true)
    else if key == "no" then BoolParse(false, true)
    else if key == "yes" then BoolParse(true, true)
    else if key == "0" then BoolParse(false, true)
    else if key == "1" then BoolParse(true, true)
    else BoolParse(true, false)
  }

  /** Case does not matter. */
  lemma BoolFromStringIgnoresCase(str: string)
    ensures BoolFromString(Lower(str)) == BoolFromString(str)
  {
    LowerIdempotent(str);
  }

  /** The words the writer prints read back as their value. */
  lemma BoolFromStringRoundTrip(b: bool)
    ensures BoolFromString(if b then "true" else "false") == BoolParse(b, true)
  {
    var s := if b then "true" else "false";
    assert Lower(s) == s;
    Strings.CStringAppend(s, []);
    assert s + [] == s;
  }

  /** The comparison sees the text only up to its first NUL, so anything
      after a NUL is ignored. */
  lemma BoolFromStringStopsAtNul(word: string, junk: string)
    requires '\0' !in word
    ensures BoolFromString(word + "\0" + junk) == BoolFromString(word)
  {
    var s := word + "\0" + junk;
    assert Lower(s) == Lower(word) + ("\0" + Lower(junk)) by {
      assert forall i :: 0 <= i < |s| ==> Lower(s)[i] == (Lower(word) + ("\0" + Lower(junk)))[i];
    }
    assert '\0' !in Lower(word) by {
      assert forall i :: 0 <= i < |word| ==> Lower(word)[i] == LowerChar(word[i]);
    }
    Strings.CStringAppend(Lower(word), "\0" + Lower(junk));
    Strings.CStringAppend(Lower(word), []);
    assert Lower(word) + [] == Lower(word);
  }

  // ---------------------------------------------------------------------
  // The parser value.

  /** A double: finite, an infinity, or NaN. */
  datatype Double = Finite(x: real) | Infinity(negative: bool) | NaN

  /** The variant a token is stored in: an unsigned or a signed 64-bit
      integer, a double, a string, a token or an asset path. */
  datatype Value =
    | UInt64(u: nat)
    | Int64(i: int)
    | Float(d: Double)
    | Str(s: string)
    | Token(t: string)
    | Asset(a: AssetPaths.AssetPath)

  /** The integral C++ types attribute values use: unsigned char, int,
      unsigned int, int64_t and uint64_t. */
  datatype IntKind = UChar | Int32 | UInt32 | I64 | U64

  function MinOf(k: IntKind): int {
    match k
    case UChar => 0
    case Int32 => -0x8000_0000
    case UInt32 => 0
    case I64 => -0x8000_0000_0000_0000
    case U64 => 0
  }

  function MaxOf(k: IntKind): int {
    match k
    case UChar => 0xff
    case Int32 => 0x7fff_ffff
    case UInt32 => 0xffff_ffff
    case I64 => 0x7fff_ffff_ffff_ffff
    case U64 => 0xffff_ffff_ffff_ffff
  }

  predicate Signed(k: IntKind) {
    k == Int32 || k == I64
  }

  predicate InRange(k: IntKind, n: int) {
    MinOf(k) <= n <= MaxOf(k)
  }

  /** The `Value` constructor from an integral: signed types are held as
      int64, unsigned ones as uint64. */
  function FromIntegral(k: IntKind, n: int): (v: Value)
    requires InRange(k, n)
    ensures Signed(k) <==> v.Int64?
    ensures v.Int64? ==> v.i == n
    ensures v.UInt64? ==> v.u == n
  {
    if Signed(k) then Int64(n) else UInt64(n)
  }

  /** C++ conversion of a finite double to an integer: toward zero. */
  function Truncate(x: real): int {
    if x >= 0.0 then x.Floor else -((-x).Floor)
  }

  /** `Get<Int>`: integers convert when in range; finite doubles are
      truncated and then range-checked; everything else throws, shown as
      `None`. */
  function GetInt(k: IntKind, v: Value): (r: Option<int>)
    ensures r.Some? ==> InRange(k, r.value)
    ensures v.UInt64? ==> r == (if InRange(k, v.u) then Some(v.u) else None)
    ensures v.Int64? ==> r == (if InRange(k, v.i) then Some(v.i) else None)
    ensures v.Float? && !v.d.Finite? ==> r == None
    ensures v.Str? || v.Token? || v.Asset? ==> r == None
  {
    match v
    case UInt64(u) => if InRange(k, u) then Some(u) else None
    case Int64(i) => if InRange(k, i) then Some(i) else None
    case Float(d) =>
      if d.Finite? && InRange(k, Truncate(d.x)) then Some(Truncate(d.x)) else None
    case _ => None
  }

  /** Storing an integral and getting it back as the same type is the
      identity. */
  lemma IntegralRoundTrip(k: IntKind, n: int)
    requires InRange(k, n)
    ensures GetInt(k, FromIntegral(k, n)) == Some(n)
  {
  }

  /** `Get<bool>`: numbers are true when non-zero (NaN and the infinities
      included), strings and tokens go through `BoolFromString` and throw
      when unparsed, asset paths throw. */
  function GetBool(v: Value): (r: Option<bool>)
    ensures v.UInt64? ==> r == Some(v.u != 0)
    ensures v.Int64? ==> r == Some(v.i != 0)
    ensures v.Float? ==> r == Some(!(v.d.Finite? && v.d.x == 0.0))
    ensures v.Str? ==> r == (if BoolFromString(v.s).ok then Some(BoolFromString(v.s).value) else None)
    ensures v.Token? ==> r == (if BoolFromString(v.t).ok then Some(BoolFromString(v.t).value) else None)
    ensures v.Asset? ==> r == None
  {
    match v
    case UInt64(u) => Some(u != 0)
    case Int64(i) => Some(i != 0)
    case Float(d) => Some(!(d.Finite? && d.x == 0.0))
    case Str(s) => var p := BoolFromString(s); if p.ok then Some(p.value) else None
    case Token(t) => var p := BoolFromString(t); if p.ok then Some(p.value) else None
    case Asset(_) => None
  }

  /** `Get<double>` (and float and half, whose rounding is not modelled):
      numbers convert, strings and tokens only for "inf", "-inf" and "nan". */
  function GetFloating(v: Value): (r: Option<Double>)
    ensures v.UInt64? ==> r == Some(Finite(v.u as real))
    ensures v.Int64? ==> r == Some(Finite(v.i as real))
    ensures v.Float? ==> r == Some(v.d)
    ensures v.Asset? ==> r == None
    ensures v.Str? ==> (r.Some? <==> v.s == "inf" || v.s == "-inf" || v.s == "nan")
    ensures v.Token? ==> (r.Some? <==> v.t == "inf" || v.t == "-inf" || v.t == "nan")
  {
    match v
    case UInt64(u) => Some(Finite(u as real))
    case Int64(i) => Some(Finite(i as real))
    case Float(d) => Some(d)
    case Str(s) => SpecialDouble(s)
    case Token(t) => SpecialDouble(t)
    case Asset(_) => None
  }

  function SpecialDouble(s: string): Option<Double> {
    if s == "inf" then Some(Infinity(false))
    else if s == "-inf" then Some(Infinity(true))
    else if s == "nan" then Some(NaN)
    else None
  }

  /** `Get<std::string>`: only a held string; a token does not convert. */
  function GetString(v: Value): (r: Option<string>)
    ensures r.Some? <==> v.Str?
    ensures r.Some? ==> r.value == v.s
  {
    if v.Str? then Some(v.s) else None
  }

  /** `Get<SdfAssetPath>`: a string becomes the asset path it spells, or
      the empty asset path when it holds a control character; an asset
      path is returned as is; anything else throws. */
  function GetAssetPath(v: Value): (r: Option<AssetPaths.AssetPath>)
    ensures r.Some? <==> v.Str? || v.Asset?
    ensures v.Str? ==> r.value.evaluated == [] && r.value.resolved == []
    ensures v.Asset? ==> r == Some(v.a)
  {
    match v
    case Str(s) => Some(AssetPaths.FromAuthored(s))
    case Asset(a) => Some(a)
    case _ => None
  }

  /** A string converts to the asset path it spells exactly when it holds
      no control character, and to the empty asset path otherwise. */
  lemma GetAssetPathOfText(s: string)
    ensures GetAssetPath(Str(s)).value.authored == s <==> AssetPaths.ValidText(s)
    ensures !AssetPaths.ValidText(s) ==> GetAssetPath(Str(s)).value == AssetPaths.Empty
  {
  }

  // ---------------------------------------------------------------------
  // Scalar tuples.

  /** The component type of a value type. */
  datatype Component =
    | BoolC | IntC(kind: IntKind) | HalfC | FloatC | DoubleC | TimeCodeC
    | StringC | TokenC | AssetC | PathExpressionC

  /** What a component reads as. */
  datatype Scalar = B(b: bool) | I(n: int) | D(d: Double) | S(s: string) | A(a: AssetPaths.AssetPath)

  /** A value type: one component, a vector of 2 to 4, a square double
      matrix of side 2 to 4, a quaternion (real part first), or the opaque
      type, which cannot be authored. */
  datatype ScalarType =
    | Single(c: Component)
    | Vec(c: Component, dim: nat)
    | Matrix(side: nat)
    | Quat(c: Component)
    | Opaque

  /** How many parser values one scalar consumes: 1, 2-4, 4, 9 or 16. */
  function Arity(t: ScalarType): nat {
    match t
    case Single(_) => 1
    case Vec(_, dim) => dim
    case Matrix(side) => side * side
    case Quat(_) => 4
    case Opaque => 0
  }

  function ComponentOf(t: ScalarType): Component {
    match t
    case Single(c) => c
    case Vec(c, _) => c
    case Matrix(_) => DoubleC
    case Quat(c) => c
    case Opaque => DoubleC
  }

  /** One component read from one parser value. Tokens, strings and path
      expressions need a held string. */
  function GetComponent(c: Component, v: Value): Option<Scalar> {
    match c
    case BoolC => if GetBool(v).Some? then Some(B(GetBool(v).value)) else None
    case IntC(k) => if GetInt(k, v).Some? then Some(I(GetInt(k, v).value)) else None
    case AssetC => if GetAssetPath(v).Some? then Some(A(GetAssetPath(v).value)) else None
    case StringC => if v.Str? then Some(S(v.s)) else None
    case TokenC => if v.Str? then Some(S(v.s)) else None
    case PathExpressionC => if v.Str? then Some(S(v.s)) else None
    case _ => if GetFloating(v).Some? then Some(D(GetFloating(v).value)) else None
  }

  /** The outcome of reading: the values and the index after them, or the
      index reached when a conversion threw. */
  datatype Read<T> = Ok(values: T, next: nat) | Failed(next: nat)

  /** Read `n` components from `index` on, stopping at the first one that
      does not convert; the index has already moved past that one. */
  function ReadComponents(c: Component, n: nat, vars: seq<Value>, index: nat): (r: Read<seq<Scalar>>)
    requires index + n <= |vars|
    ensures r.Ok? ==> r.next == index + n && |r.values| == n
    ensures r.Ok? ==> forall k :: 0 <= k < n ==> GetComponent(c, vars[index + k]) == Some(r.values[k])
    ensures r.Failed? ==> index < r.next <= index + n && GetComponent(c, vars[r.next - 1]).None?
    ensures r.Failed? ==> forall k :: index <= k < r.next - 1 ==> GetComponent(c, vars[k]).Some?
    ensures r.Ok? <==> forall k :: index <= k < index + n ==> GetComponent(c, vars[k]).Some?
    decreases n
  {
    if n == 0 then Ok([], index)
    else
      match GetComponent(c, vars[index])
      case None => Failed(index + 1)
      case Some(x) =>
        var rest := ReadComponents(c, n - 1, vars, index + 1);
        if rest.Failed? then rest else Ok([x] + rest.values, rest.next)
  }

  /** `MakeScalarValueImpl`: the opaque type always fails; otherwise fail
      without moving when fewer than `Arity(t)` values remain, and read the
      components in order. */
  function MakeScalarValueImpl(t: ScalarType, vars: seq<Value>, index: nat): (r: Read<seq<Scalar>>)
    ensures r.Ok? ==> !t.Opaque? && index + Arity(t) <= |vars| && r.next == index + Arity(t) && |r.values| == Arity(t)
    ensures r.Ok? ==> forall k :: 0 <= k < Arity(t) ==> GetComponent(ComponentOf(t), vars[index + k]) == Some(r.values[k])
    ensures (t.Opaque? || index + Arity(t) > |vars|) ==> r == Failed(index)
    ensures r.Failed? ==> index <= r.next <= index + Arity(t)
    ensures r.Failed? && r.next > index ==>
      (index + Arity(t) <= |vars| && GetComponent(ComponentOf(t), vars[r.next - 1]).None?)
  {
    if t.Opaque? || index + Arity(t) > |vars| then Failed(index)
    else ReadComponents(ComponentOf(t), Arity(t), vars, index)
  }

  /** `MakeScalarValueTemplate`: the value, or the error's sub-part number
      `(index - origIndex) - 1`, which is -1 for a failed bounds check. */
  datatype Made<T> = Made(value: T, next: nat) | Error(message: int, next: nat)

  function MakeScalarValue(t: ScalarType, vars: seq<Value>, index: nat): (r: Made<seq<Scalar>>)
    ensures r.Made? <==> MakeScalarValueImpl(t, vars, index).Ok?
    ensures r.next == MakeScalarValueImpl(t, vars, index).next
    ensures r.Error? ==> r.message == r.next - index - 1 && -1 <= r.message < Arity(t)
    ensures r.Error? && r.message >= 0 ==> GetComponent(ComponentOf(t), vars[index + r.message]).None?
  {
    var m := MakeScalarValueImpl(t, vars, index);
    if m.Ok? then Made(m.values, m.next) else Error(m.next - index - 1, m.next)
  }

  /** Reading a tuple that is all there and all convertible always
      succeeds and consumes exactly its arity. */
  lemma TupleReadSucceeds(t: ScalarType, vars: seq<Value>, index: nat)
    requires !t.Opaque? && index + Arity(t) <= |vars|
    requires forall k :: index <= k < index + Arity(t) ==> GetComponent(ComponentOf(t), vars[k]).Some?
    ensures MakeScalarValue(t, vars, index).Made?
    ensures MakeScalarValue(t, vars, index).next == index + Arity(t)
  {
  }

  // ---------------------------------------------------------------------
  // Shaped values.

  const UIntModulus: nat := 0x1_0000_0000

  /** The element count as `MakeShapedValueTemplate` computes it: the product of the shape
      in a 32-bit unsigned int, which wraps. */
  function ShapeSize(shape: seq<nat>): (n: nat)
    ensures n < UIntModulus
  {
    ShapeSizeFrom(1, shape)
  }

  function ShapeSizeFrom(acc: nat, shape: seq<nat>): (n: nat)
    requires acc < UIntModulus
    ensures n < UIntModulus
    decreases |shape|
  {
    if |shape| == 0 then acc else ShapeSizeFrom((acc * shape[0]) % UIntModulus, shape[1..])
  }

  function Product(shape: seq<nat>): nat {
    if |shape| == 0 then 1 else shape[0] * Product(shape[1..])
  }

  /** When the true product fits 32 bits, the wrapped count is the product;
      larger shapes wrap around. */
  lemma {:induction false} ShapeSizeIsProduct(acc: nat, shape: seq<nat>)
    requires acc < UIntModulus && acc * Product(shape) < UIntModulus
    ensures ShapeSizeFrom(acc, shape) == acc * Product(shape)
    decreases |shape|
  {
    if |shape| > 0 {
      var x, p := acc * shape[0], Product(shape[1..]);
      assert Product(shape) == shape[0] * p;
      MulAssoc(acc, shape[0], p);
      assert acc * Product(shape) == x * p;
      if p == 0 {
        assert (x % UIntModulus) * p == 0;
        ShapeSizeIsProduct(x % UIntModulus, shape[1..]);
      } else {
        MulGrows(x, p);
        assert x % UIntModulus == x;
        ShapeSizeIsProduct(x, shape[1..]);
      }
    }
  }

  lemma MulAssoc(a: nat, b: nat, c: nat)
    ensures a * (b * c) == (a * b) * c
  {
  }

  lemma MulGrows(x: nat, p: nat)
    requires p > 0
    ensures x <= x * p
  {
  }

  /** Read `count` scalars one after another; on failure report the element
      index and the index reached. */
  datatype ShapedRead = Elements(items: seq<seq<Scalar>>, next: nat) | ElementFailed(element: nat, next: nat)

  function ReadElements(t: ScalarType, count: nat, vars: seq<Value>, index: nat): (r: ShapedRead)
    ensures r.Elements? ==> |r.items| == count && r.next == index + count * Arity(t)
    ensures r.Elements? ==> forall e :: 0 <= e < count ==>
      MakeScalarValueImpl(t, vars, index + e * Arity(t)) == Ok(r.items[e], index + (e + 1) * Arity(t))
    ensures r.ElementFailed? ==> r.element < count && r.next >= index
    decreases count
  {
    if count == 0 then Elements([], index)
    else
      var m := MakeScalarValueImpl(t, vars, index);
      if m.Failed? then ElementFailed(0, m.next)
      else
        var rest := ReadElements(t, count - 1, vars, m.next);
        match rest
        case ElementFailed(e, n) => ElementFailed(e + 1, n)
        case Elements(items, n) =>
          MulSucc(count - 1, Arity(t));
          ReadElementsCons(t, count, vars, index, m.values, items);
          Elements([m.values] + items, n)
  }

  /** A failed read names the first element that fails to convert: the
      elements before it read in full, and the read of the next one, from
      where they end, fails where `r.next` says. */
  lemma {:induction false} ReadElementsFailure(t: ScalarType, count: nat, vars: seq<Value>, index: nat)
    ensures var r := ReadElements(t, count, vars, index);
      r.ElementFailed? ==>
        var before := ReadElements(t, r.element, vars, index);
        before.Elements? && MakeScalarValueImpl(t, vars, before.next) == Failed(r.next)
    decreases count
  {
    var m := MakeScalarValueImpl(t, vars, index);
    if count > 0 && m.Ok? {
      ReadElementsFailure(t, count - 1, vars, m.next);
      FailureAfterRead(t, count, vars, index);
    } else if count > 0 {
      assert ReadElements(t, count, vars, index) == ElementFailed(0, m.next);
    }
  }

  /** The inductive step of `ReadElementsFailure`. */
  lemma FailureAfterRead(t: ScalarType, count: nat, vars: seq<Value>, index: nat)
    requires count > 0 && MakeScalarValueImpl(t, vars, index).Ok?
    requires var rest := ReadElements(t, count - 1, vars, MakeScalarValueImpl(t, vars, index).next);
      rest.ElementFailed? ==>
        var before := ReadElements(t, rest.element, vars, MakeScalarValueImpl(t, vars, index).next);
        before.Elements? && MakeScalarValueImpl(t, vars, before.next) == Failed(rest.next)
    ensures var r := ReadElements(t, count, vars, index);
      r.ElementFailed? ==>
        var before := ReadElements(t, r.element, vars, index);
        before.Elements? && MakeScalarValueImpl(t, vars, before.next) == Failed(r.next)
  {
    var m := MakeScalarValueImpl(t, vars, index);
    var rest := ReadElements(t, count - 1, vars, m.next);
    ReadElementsStep(t, count, vars, index);
    if rest.ElementFailed? {
      ReadElementsStep(t, rest.element + 1, vars, index);
    }
  }

  /** One step of `ReadElements` after a successful first read. */
  lemma ReadElementsStep(t: ScalarType, count: nat, vars: seq<Value>, index: nat)
    requires count > 0 && MakeScalarValueImpl(t, vars, index).Ok?
    ensures var m := MakeScalarValueImpl(t, vars, index);
      var rest := ReadElements(t, count - 1, vars, m.next);
      ReadElements(t, count, vars, index)
        == if rest.Elements? then Elements([m.values] + rest.items, rest.next) else ElementFailed(rest.element + 1, rest.next)
  {
  }

  lemma MulSucc(k: nat, a: nat)
    ensures (k + 1) * a == k * a + a
  {
  }

  /** The element read first, followed by the `count - 1` read from where
      it ended, are the `count` elements read from `index`. */
  lemma ReadElementsCons(t: ScalarType, count: nat, vars: seq<Value>, index: nat, first: seq<Scalar>, items: seq<seq<Scalar>>)
    requires count > 0 && |items| == count - 1
    requires MakeScalarValueImpl(t, vars, index) == Ok(first, index + Arity(t))
    requires forall e :: 0 <= e < count - 1 ==>
      MakeScalarValueImpl(t, vars, index + Arity(t) + e * Arity(t)) == Ok(items[e], index + Arity(t) + (e + 1) * Arity(t))
    ensures forall e :: 0 <= e < count ==>
      MakeScalarValueImpl(t, vars, index + e * Arity(t)) == Ok(([first] + items)[e], index + (e + 1) * Arity(t))
  {
    var a := Arity(t);
    var f := (i: nat) => MakeScalarValueImpl(t, vars, i);
    ShiftedReads(f, count, index, a, first, items);
  }

  /** The index arithmetic of `ReadElementsCons`, for any reader `f`. */
  lemma ShiftedReads<V>(f: nat -> Read<V>, count: nat, index: nat, a: nat, first: V, items: seq<V>)
    requires count > 0 && |items| == count - 1
    requires f(index) == Ok(first, index + a)
    requires forall e :: 0 <= e < count - 1 ==> f(index + a + e * a) == Ok(items[e], index + a + (e + 1) * a)
    ensures forall e :: 0 <= e < count ==> f(index + e * a) == Ok(([first] + items)[e], index + (e + 1) * a)
  {
    forall e | 0 <= e < count
      ensures f(index + e * a) == Ok(([first] + items)[e], index + (e + 1) * a)
    {
      if e > 0 {
        var k := e - 1;
        MulSucc(k, a);
        MulSucc(e, a);
        assert f(index + a + k * a) == Ok(items[k], index + a + (k + 1) * a);
      }
    }
  }

  /** `MakeShapedValueTemplate`: an empty shape is an empty array and reads
      nothing; otherwise read `ShapeSize(shape)` scalars, failing with the
      element number and the sub-part counted from the array's start. */
  datatype Shaped = Array(items: seq<seq<Scalar>>, next: nat) | ShapedError(element: nat, subPart: int, next: nat)

  function MakeShapedValue(t: ScalarType, shape: seq<nat>, vars: seq<Value>, index: nat): (r: Shaped)
    ensures shape == [] ==> r == Array([], index)
    ensures r.Array? && shape != [] ==> |r.items| == ShapeSize(shape) && r.next == index + ShapeSize(shape) * Arity(t)
    ensures r.ShapedError? ==> r.element < ShapeSize(shape) && r.subPart == r.next - index - 1
    ensures r.ShapedError? ==>
      var before := ReadElements(t, r.element, vars, index);
      before.Elements? && MakeScalarValueImpl(t, vars, before.next) == Failed(r.next)
  {
    if shape == [] then Array([], index)
    else
      ReadElementsFailure(t, ShapeSize(shape), vars, index);
      match ReadElements(t, ShapeSize(shape), vars, index)
      case Elements(items, n) => Array(items, n)
      case ElementFailed(e, n) => ShapedError(e, n - index - 1, n)
  }

  /** A one-dimensional shape of `n` reads `n` elements when enough
      convertible values follow. */
  lemma FlatShapeSize(n: nat)
    requires n < UIntModulus
    ensures ShapeSize([n]) == n
  {
    ShapeSizeIsProduct(1, [n]);
  }

  // ---------------------------------------------------------------------
  // Value factories.

  /** A factory entry: the type name, whether it builds arrays, and the
      scalar type it reads. The "None" entry has an empty name. */
  datatype ValueFactory = ValueFactory(typeName: string, isShaped: bool, scalar: ScalarType)

  const NoneFactory := ValueFactory("", false, Opaque)

  /** `_MakeFactoryMap::add`: a scalar factory under the scalar name and a
      shaped one under the array name. */
  function AddFactories(m: map<string, ValueFactory>, scalarName: string, arrayName: string, t: ScalarType): (r: map<string, ValueFactory>)
    requires scalarName != arrayName
    ensures r.Keys == m.Keys + {scalarName, arrayName}
    ensures r[scalarName] == ValueFactory(scalarName, false, t)
    ensures r[arrayName] == ValueFactory(arrayName, true, t)
    ensures forall k :: k in m && k != scalarName && k != arrayName ==> r[k] == m[k]
  {
    m[scalarName := ValueFactory(scalarName, false, t)][arrayName := ValueFactory(arrayName, true, t)]
  }

  datatype Lookup = Lookup(factory: ValueFactory, found: bool)

  /** `GetValueFactoryForMenvaName`: the registered factory, or the "None"
      factory with `found` false. */
  function GetValueFactory(m: map<string, ValueFactory>, name: string): (r: Lookup)
    ensures r.found <==> name in m
    ensures r.found ==> r.factory == m[name]
    ensures !r.found ==> r.factory == (if "None" in m then m["None"] else NoneFactory)
  {
    if name in m then Lookup(m[name], true)
    else Lookup(if "None" in m then m["None"] else NoneFactory, false)
  }

  // ---------------------------------------------------------------------
  // Quoted strings and asset paths.

  /** What `TfEscapeStringReplaceChar` makes of the text after a backslash:
      the characters it writes and how many it consumes (at least one). The
      escape grammar itself is not modelled. */
  datatype Escape = Escape(out: string, width: nat)

  /** Copy up to the next backslash, decode the escape, repeat. */
  function Unescape(s: string, decode: string -> Escape): (r: string)
    ensures '\\' !in s ==> r == s
    decreases |s|
  {
    if |s| == 0 then []
    else if s[0] != '\\' then [s[0]] + Unescape(s[1..], decode)
    else
      var e := decode(s[1..]);
      var used := 1 + (if e.width == 0 then 1 else e.width);
      e.out + (if used >= |s| then [] else Unescape(s[used..], decode))
  }

  datatype Quoted = Quoted(text: string, numLines: Option<nat>)

  /** `Sdf_EvalQuotedString`: nothing when the token is no longer than its
      two delimiters (and the line count is then not written); otherwise the
      unescaped inner text and the number of newlines in it. */
  function EvalQuotedString(x: string, trim: nat, decode: string -> Escape): (r: Quoted)
    ensures |x| <= 2 * trim ==> r == Quoted([], None)
    ensures |x| > 2 * trim ==> r.numLines == Some(Strings.Count(r.text, '\n'))
    ensures |x| > 2 * trim && '\\' !in x[trim..|x| - trim] ==> r.text == x[trim..|x| - trim]
  {
    if |x| <= 2 * trim then Quoted([], None)
    else
      var text := Unescape(x[trim..|x| - trim], decode);
      Quoted(text, Some(Strings.Count(text, '\n')))
  }

  /** A quoted string written with delimiters around escape-free text reads
      back as that text. */
  lemma QuotedRoundTrip(body: string, delimiter: string, decode: string -> Escape)
    requires '\\' !in body
    ensures EvalQuotedString(delimiter + body + delimiter, |delimiter|, decode).text == body
  {
    var x := delimiter + body + delimiter;
    assert x[|delimiter|..|x| - |delimiter|] == body;
  }

  /** `TfStringReplace`: replace every occurrence of `from`, scanning left to
      right without overlaps. */
  function Replace(s: string, from: string, to: string): (r: string)
    requires from != []
    decreases |s|
  {
    if |s| < |from| then s
    else if s[..|from|] == from then to + Replace(s[|from|..], from, to)
    else [s[0]] + Replace(s[1..], from, to)
  }

  /** `Sdf_EvalAssetPath`: strip one delimiter ("@") or three ("@@@") from
      each side, unescape "\@@@" in the triple form, and return the path of
      the asset path made from the result, which is empty when the text
      holds a control character. The token always carries its delimiters. */
  function EvalAssetPath(x: string, tripleDelimited: bool): (r: string)
    requires |x| >= (if tripleDelimited then 6 else 2)
    ensures var inner := if tripleDelimited then Replace(x[3..|x| - 3], "\\@@@", "@@@") else x[1..|x| - 1];
      (r == inner <==> AssetPaths.ValidText(inner)) && (!AssetPaths.ValidText(inner) ==> r == [])
    ensures AssetPaths.ValidText(r)
  {
    var d := if tripleDelimited then 3 else 1;
    var inner := x[d..|x| - d];
    var ret := if tripleDelimited then Replace(inner, "\\@@@", "@@@") else inner;
    AssetPaths.GetAssetPath(AssetPaths.FromAuthored(ret))
  }

  /** Escaping "@@@" as "\@@@" before wrapping a path in "@@@" delimiters
      is undone by `EvalAssetPath`, for valid paths without backslashes. */
  lemma AssetPathRoundTrip(p: string)
    requires '\\' !in p && AssetPaths.ValidText(p)
    ensures EvalAssetPath("@@@" + Replace(p, "@@@", "\\@@@") + "@@@", true) == p
  {
    var e := Replace(p, "@@@", "\\@@@");
    var x := "@@@" + e + "@@@";
    assert x[3..|x| - 3] == e;
    UnescapeEscaped(p);
  }

  /** A tab inside the delimiters makes the asset path empty. */
  lemma ControlCharacterEmpties()
    ensures EvalAssetPath("@a\tb@", false) == []
  {
    assert AssetPaths.IsControl("@a\tb@"[1..4][1]);
  }

  lemma {:induction false} UnescapeEscaped(p: string)
    requires '\\' !in p
    ensures Replace(Replace(p, "@@@", "\\@@@"), "\\@@@", "@@@") == p
    decreases |p|
  {
    var e := Replace(p, "@@@", "\\@@@");
    if |p| < 3 {
      assert e == p;
      assert |e| < 4;
    } else if p[..3] == "@@@" {
      var rest := Replace(p[3..], "@@@", "\\@@@");
      assert e == "\\@@@" + rest;
      assert e[..4] == "\\@@@";
      assert e[4..] == rest;
      UnescapeEscaped(p[3..]);
      assert p == "@@@" + p[3..];
    } else {
      var rest := Replace(p[1..], "@@@", "\\@@@");
      assert e == [p[0]] + rest;
      assert p[0] != '\\';
      UnescapeEscaped(p[1..]);
      if |e| >= 4 {
        assert e[..4] != "\\@@@" by { assert e[0] == p[0]; }
        assert e[1..] == rest;
      }
      assert p == [p[0]] + p[1..];
    }
  }
}

=== FILE: path_expression_eval.dfy ===
/** The path-expression evaluator (pathExpressionEval.cpp).

    A path expression combines path patterns with set operations. The
    evaluator compiles it into a flat op program that evaluates every
    pattern against a path and combines the truth values with short-circuit
    And/Or/Not. Each pattern is compiled into a matcher: a prefix path,
    then name components grouped into segments separated by stretch (`//`)
    components. Every result carries a constancy flag: a constant result
    holds for every descendant path as well, which lets a traversal prune a
    whole subtree.

    Glob matching and the predicate functions are parameters
    (`glob(text, name)`, `runPred(index, path)`); so is the pattern callback
    of the op program, which returns the result of its k-th pattern. */
module PathExpressionEval {
  import opened Wrappers
  import opened Paths
  import Seqs

  // ---------------------------------------------------------------------
  // Predicate results.

  /** `SdfPredicateFunctionResult`: a truth value, and whether it is
      constant over the descendants of the path it was computed for. */
  datatype FnResult = FnResult(value: bool, constant: bool)

  function MakeConstant(b: bool): FnResult {
    FnResult(b, true)
  }

  function MakeVarying(b: bool): FnResult {
    FnResult(b, false)
  }

  /** `SetAndPropagateConstancy`: takes the other result's value, and stays
      constant only if both results are. */
  function Propagate(r: FnResult, other: FnResult): FnResult {
    FnResult(other.value, r.constant && other.constant)
  }

  /** `operator!`: negation keeps the constancy. */
  function Negate(r: FnResult): FnResult {
    FnResult(!r.value, r.constant)
  }

  // ---------------------------------------------------------------------
  // The op program and `_EvalExpr`.

  datatype EvalOp = EvalPattern | Not | And | Or | Open | Close

  /** `n` copies of a skip flag. */
  function Flags(b: bool, n: nat): (s: seq<bool>)
    ensures |s| == n && forall i :: 0 <= i < n ==> s[i] == b
  {
    if n == 0 then [] else Flags(b, n - 1) + [b]
  }

  /** The `shortCircuit` helper: from the deciding And/Or, skips ops until
      the Close that brings the nesting back to where it started (`d` is
      the nesting relative to that level). Returns the ops after that Close
      and how many patterns were skipped on the way. */
  function SkipFrom(ops: seq<EvalOp>, d: int): (r: (seq<EvalOp>, nat))
    ensures |r.0| <= |ops| && (ops != [] ==> |r.0| < |ops|)
    decreases |ops|
  {
    if ops == [] then ([], 0)
    else match ops[0]
      case EvalPattern =>
        var rest := SkipFrom(ops[1..], d);
        (rest.0, rest.1 + 1)
      case Open => SkipFrom(ops[1..], d + 1)
      case Close => if d - 1 == 0 then (ops[1..], 0) else SkipFrom(ops[1..], d - 1)
      case _ => SkipFrom(ops[1..], d)
  }

  /** `_EvalExpr` from some op on, with the result so far. `pattern(k)` is
      what the pattern callback returns on its k-th call, and `pi` counts
      the calls made so far. Returns the final result and the skip flag of
      every pattern call made. */
  function Exec(ops: seq<EvalOp>, r: FnResult, pattern: nat -> FnResult, pi: nat): (FnResult, seq<bool>)
    decreases |ops|
  {
    if ops == [] then (r, [])
    else match ops[0]
      case EvalPattern =>
        var rest := Exec(ops[1..], Propagate(r, pattern(pi)), pattern, pi + 1);
        (rest.0, [false] + rest.1)
      case Not => Exec(ops[1..], Negate(r), pattern, pi)
      case And | Or =>
        if r.value == (ops[0] == Or) then
          var skipped := SkipFrom(ops, 0);
          var rest := Exec(skipped.0, r, pattern, pi + skipped.1);
          (rest.0, Flags(true, skipped.1) + rest.1)
        else Exec(ops[1..], r, pattern, pi)
      case Open => Exec(ops[1..], r, pattern, pi)
      case Close => Exec(ops[1..], r, pattern, pi)
  }

  /** `_EvalExpr`: runs the program from a constant false result. */
  function EvalExpr(ops: seq<EvalOp>, pattern: nat -> FnResult): (FnResult, seq<bool>) {
    Exec(ops, MakeConstant(false), pattern, 0)
  }

  /** An empty program evaluates to constant false without calling back. */
  lemma EvalExprEmpty(pattern: nat -> FnResult)
    ensures EvalExpr([], pattern) == (MakeConstant(false), [])
  {
  }

  // ---------------------------------------------------------------------
  // Path expressions and `Sdf_MakePathExpressionEvalImpl`.

  /** A name component of a pattern: a stretch `//`, or a name given as
      literal or glob text, with the index of its predicate (-1 for none). */
  datatype PatternComponent =
    | Stretch
    | Name(text: string, isLiteral: bool, predicateIndex: int)

  /** `SdfPathPattern`: a prefix path (which may be relative), name
      components, and whether it must name a property. */
  datatype PathPattern = PathPattern(prefix: Path, absolute: bool, components: seq<PatternComponent>, isProperty: bool)

  datatype SetOp = Union | ImpliedUnion | Intersection | Difference

  /** `SdfPathExpression`: patterns and references to other expressions
      combined by complement and the binary set operations. */
  datatype PathExpr =
    | Pattern(pattern: PathPattern)
    | ExpressionRef(name: string)
    | Complement(e: PathExpr)
    | Binary(op: SetOp, l: PathExpr, r: PathExpr)

  /** `IsComplete`: no references, and every pattern is absolute. */
  predicate IsComplete(e: PathExpr) {
    match e
    case Pattern(p) => p.absolute
    case ExpressionRef(_) => false
    case Complement(x) => IsComplete(x)
    case Binary(_, l, r) => IsComplete(l) && IsComplete(r)
  }

  /** Whether a binary operation's lhs decides it when true (a union) rather
      than when false (an intersection or difference). */
  predicate DecidesOnTrue(op: SetOp) {
    op == Union || op == ImpliedUnion
  }

  /** The number of patterns in an expression. */
  function Leaves(e: PathExpr): nat {
    match e
    case Pattern(_) => 1
    case ExpressionRef(_) => 0
    case Complement(x) => Leaves(x)
    case Binary(_, l, r) => Leaves(l) + Leaves(r)
  }

  /** The patterns of an expression in walk order. */
  function Patterns(e: PathExpr): (ps: seq<PathPattern>)
    ensures |ps| == Leaves(e)
  {
    match e
    case Pattern(p) => [p]
    case ExpressionRef(_) => []
    case Complement(x) => Patterns(x)
    case Binary(_, l, r) => Patterns(l) + Patterns(r)
  }

  /** The ops the walk emits: a pattern becomes `EvalPattern`, a complement
      a postfix `Not`, and a binary operation is infix with its rhs in
      parentheses, `A - B` getting a `Not` after `B`. */
  function Ops(e: PathExpr): seq<EvalOp>
    decreases e, 0
  {
    match e
    case Pattern(_) => [EvalPattern]
    case ExpressionRef(_) => []
    case Complement(x) => Ops(x) + [Not]
    case Binary(op, l, r) => Ops(l) + RhsOps(op, r)
  }

  /** What follows a binary operation's rhs. */
  function RhsTail(op: SetOp): seq<EvalOp> {
    if op == Difference then [Not, Close] else [Close]
  }

  /** A compiled evaluator: the op program and its patterns in call order. */
  datatype Program = Program(ops: seq<EvalOp>, patterns: seq<PathPattern>)

  /** `Sdf_MakePathExpressionEvalImpl`: refuses an incomplete expression. */
  function MakeEvalImpl(e: PathExpr): (r: Option<Program>)
    ensures r.None? <==> !IsComplete(e)
    ensures r.Some? ==> |r.value.patterns| == Leaves(e)
  {
    if !IsComplete(e) then None else Some(Program(Ops(e), Patterns(e)))
  }

  /** What an expression means: set membership, with the k-th pattern's
      verdict `pattern(k).value`. Patterns are numbered from `pi`. */
  predicate Holds(e: PathExpr, pattern: nat -> FnResult, pi: nat) {
    match e
    case Pattern(_) => pattern(pi).value
    case ExpressionRef(_) => false
    case Complement(x) => !Holds(x, pattern, pi)
    case Binary(op, l, r) =>
      var a := Holds(l, pattern, pi);
      var b := Holds(r, pattern, pi + Leaves(l));
      match op
      case Union => a || b
      case ImpliedUnion => a || b
      case Intersection => a && b
      case Difference => a && !b
  }

  /** Reference evaluation on the expression tree: `c` is the constancy of
      the result so far. */
  function Eval(e: PathExpr, c: bool, pattern: nat -> FnResult, pi: nat): (out: (FnResult, seq<bool>))
    ensures |out.1| == Leaves(e)
    decreases e, 0
  {
    match e
    case Pattern(_) => (FnResult(pattern(pi).value, c && pattern(pi).constant), [false])
    case ExpressionRef(_) => (FnResult(false, c), [])
    case Complement(x) =>
      var rx := Eval(x, c, pattern, pi);
      (Negate(rx.0), rx.1)
    case Binary(op, l, r) =>
      var rl := Eval(l, c, pattern, pi);
      var rr := EvalRhs(op, r, rl.0, pattern, pi + Leaves(l));
      (rr.0, rl.1 + rr.1)
  }

  /** The rhs of a binary operation after its lhs gave `rl`: when `rl`
      already decides the operation every pattern of the rhs is skipped and
      the lhs result stands. */
  function EvalRhs(op: SetOp, r: PathExpr, rl: FnResult, pattern: nat -> FnResult, pi: nat): (out: (FnResult, seq<bool>))
    ensures |out.1| == Leaves(r)
    decreases r, 1
  {
    if rl.value == DecidesOnTrue(op) then (rl, Flags(true, Leaves(r)))
    else
      var rr := Eval(r, rl.constant, pattern, pi);
      (if op == Difference then Negate(rr.0) else rr.0, rr.1)
  }

  /** Evaluating a tree's program and then the ops after it. */
  function Then(out: (FnResult, seq<bool>), tail: seq<EvalOp>, pattern: nat -> FnResult, pi: nat): (FnResult, seq<bool>) {
    var rest := Exec(tail, out.0, pattern, pi + |out.1|);
    (rest.0, out.1 + rest.1)
  }

  /** The op that starts a binary operation's rhs. */
  function LogicOp(op: SetOp): EvalOp {
    if DecidesOnTrue(op) then Or else And
  }

  /** A binary operation's ops after its lhs. */
  function RhsOps(op: SetOp, r: PathExpr): seq<EvalOp>
    decreases r, 1
  {
    [LogicOp(op)] + ([Open] + (Ops(r) + RhsTail(op)))
  }

  /** How a binary operation's ops continue into the ops after it. */
  lemma RhsOpsTail(op: SetOp, r: PathExpr, tail: seq<EvalOp>)
    ensures RhsOps(op, r) + tail == [LogicOp(op)] + ([Open] + (Ops(r) + (RhsTail(op) + tail)))
  {
    calc {
      RhsOps(op, r) + tail;
      { Seqs.AppendAssoc([LogicOp(op)], [Open] + (Ops(r) + RhsTail(op)), tail); }
      [LogicOp(op)] + (([Open] + (Ops(r) + RhsTail(op))) + tail);
      { Seqs.AppendAssoc([Open], Ops(r) + RhsTail(op), tail); }
      [LogicOp(op)] + ([Open] + ((Ops(r) + RhsTail(op)) + tail));
      { Seqs.AppendAssoc(Ops(r), RhsTail(op), tail); }
      [LogicOp(op)] + ([Open] + (Ops(r) + (RhsTail(op) + tail)));
    }
  }

  lemma SkipPattern(tail: seq<EvalOp>, d: int)
    ensures SkipFrom([EvalPattern] + tail, d) == (SkipFrom(tail, d).0, SkipFrom(tail, d).1 + 1)
  {
    assert ([EvalPattern] + tail)[0] == EvalPattern && ([EvalPattern] + tail)[1..] == tail;
  }

  lemma SkipOpen(tail: seq<EvalOp>, d: int)
    ensures SkipFrom([Open] + tail, d) == SkipFrom(tail, d + 1)
  {
    assert ([Open] + tail)[0] == Open && ([Open] + tail)[1..] == tail;
  }

  lemma SkipClose(tail: seq<EvalOp>, d: int)
    ensures SkipFrom([Close] + tail, d) == if d - 1 == 0 then (tail, 0) else SkipFrom(tail, d - 1)
  {
    assert ([Close] + tail)[0] == Close && ([Close] + tail)[1..] == tail;
  }

  lemma SkipLogic(x: EvalOp, tail: seq<EvalOp>, d: int)
    requires x == Not || x == And || x == Or
    ensures SkipFrom([x] + tail, d) == SkipFrom(tail, d)
  {
    assert ([x] + tail)[0] == x && ([x] + tail)[1..] == tail;
  }

  lemma ExecPattern(tail: seq<EvalOp>, r: FnResult, pattern: nat -> FnResult, pi: nat)
    ensures Exec([EvalPattern] + tail, r, pattern, pi) ==
      Then((Propagate(r, pattern(pi)), [false]), tail, pattern, pi)
  {
    assert ([EvalPattern] + tail)[0] == EvalPattern && ([EvalPattern] + tail)[1..] == tail;
  }

  lemma ExecNot(tail: seq<EvalOp>, r: FnResult, pattern: nat -> FnResult, pi: nat)
    ensures Exec([Not] + tail, r, pattern, pi) == Exec(tail, Negate(r), pattern, pi)
  {
    assert ([Not] + tail)[0] == Not && ([Not] + tail)[1..] == tail;
  }

  lemma ExecParen(x: EvalOp, tail: seq<EvalOp>, r: FnResult, pattern: nat -> FnResult, pi: nat)
    requires x == Open || x == Close
    ensures Exec([x] + tail, r, pattern, pi) == Exec(tail, r, pattern, pi)
  {
    assert ([x] + tail)[0] == x && ([x] + tail)[1..] == tail;
  }

  /** A compiled tree is balanced: skipping over it inside parentheses
      skips exactly its patterns. */
  lemma {:induction false} SkipOps(e: PathExpr, tail: seq<EvalOp>, d: int)
    requires d >= 1
    ensures SkipFrom(Ops(e) + tail, d) == (SkipFrom(tail, d).0, SkipFrom(tail, d).1 + Leaves(e))
    decreases e, 0
  {
    match e
    case Pattern(_) =>
      SkipPattern(tail, d);
    case ExpressionRef(_) =>
      assert Ops(e) + tail == tail;
    case Complement(x) =>
      Seqs.AppendAssoc(Ops(x), [Not], tail);
      SkipOps(x, [Not] + tail, d);
      SkipLogic(Not, tail, d);
    case Binary(op, l, r) =>
      Seqs.AppendAssoc(Ops(l), RhsOps(op, r), tail);
      SkipOps(l, RhsOps(op, r) + tail, d);
      SkipRhs(op, r, tail, d);
  }

  /** Skipping from a binary operation's logic op at nesting `d`: the
      parentheses around its rhs are balanced, so the skip ends after them
      when `d` is the starting level and continues otherwise. */
  lemma {:induction false} SkipRhs(op: SetOp, r: PathExpr, tail: seq<EvalOp>, d: int)
    requires d >= 0
    ensures SkipFrom(RhsOps(op, r) + tail, d) ==
      if d == 0 then (tail, Leaves(r))
      else (SkipFrom(tail, d).0, SkipFrom(tail, d).1 + Leaves(r))
    decreases r, 1
  {
    var rt := RhsTail(op) + tail;
    var inner := Ops(r) + rt;
    RhsOpsTail(op, r, tail);
    SkipLogic(LogicOp(op), [Open] + inner, d);
    SkipOpen(inner, d);
    SkipOps(r, rt, d + 1);
    SkipAfterRhs(op, tail, d);
  }

  lemma SkipAfterRhs(op: SetOp, tail: seq<EvalOp>, d: int)
    requires d >= 0
    ensures SkipFrom(RhsTail(op) + tail, d + 1) == if d == 0 then (tail, 0) else SkipFrom(tail, d)
  {
    SkipClose(tail, d + 1);
    if op == Difference {
      assert RhsTail(op) + tail == [Not] + ([Close] + tail);
      SkipLogic(Not, [Close] + tail, d + 1);
    } else {
      assert RhsTail(op) + tail == [Close] + tail;
    }
  }

  /** The op program runs exactly like the tree evaluation, whatever ops
      follow it and whatever value the result so far holds. */
  lemma {:induction false} ExecOps(e: PathExpr, tail: seq<EvalOp>, r: FnResult, pattern: nat -> FnResult, pi: nat)
    requires IsComplete(e)
    ensures Exec(Ops(e) + tail, r, pattern, pi) == Then(Eval(e, r.constant, pattern, pi), tail, pattern, pi)
    decreases e, 1
  {
    match e
    case Pattern(_) =>
      ExecPattern(tail, r, pattern, pi);
    case Complement(x) =>
      Seqs.AppendAssoc(Ops(x), [Not], tail);
      ExecOps(x, [Not] + tail, r, pattern, pi);
      var rx := Eval(x, r.constant, pattern, pi);
      ExecNot(tail, rx.0, pattern, pi + |rx.1|);
    case Binary(op, l, rhs) =>
      ExecBinary(op, l, rhs, tail, r, pattern, pi);
  }

  lemma {:induction false} ExecBinary(op: SetOp, l: PathExpr, rhs: PathExpr, tail: seq<EvalOp>, r: FnResult, pattern: nat -> FnResult, pi: nat)
    requires IsComplete(l) && IsComplete(rhs)
    ensures Exec(Ops(Binary(op, l, rhs)) + tail, r, pattern, pi) ==
      Then(Eval(Binary(op, l, rhs), r.constant, pattern, pi), tail, pattern, pi)
    decreases Binary(op, l, rhs), 0
  {
    var lo := Eval(l, r.constant, pattern, pi);
    var ro := EvalRhs(op, rhs, lo.0, pattern, pi + |lo.1|);
    var ex := Exec(tail, ro.0, pattern, pi + |lo.1| + |ro.1|);
    calc {
      Exec(Ops(Binary(op, l, rhs)) + tail, r, pattern, pi);
      { Seqs.AppendAssoc(Ops(l), RhsOps(op, rhs), tail); }
      Exec(Ops(l) + (RhsOps(op, rhs) + tail), r, pattern, pi);
      { ExecOps(l, RhsOps(op, rhs) + tail, r, pattern, pi); }
      Then(lo, RhsOps(op, rhs) + tail, pattern, pi);
      { ExecRhs(op, rhs, tail, lo.0, pattern, pi + |lo.1|); }
      (ex.0, lo.1 + (ro.1 + ex.1));
      { Seqs.AppendAssoc(lo.1, ro.1, ex.1); }
      (ex.0, (lo.1 + ro.1) + ex.1);
      { assert Eval(Binary(op, l, rhs), r.constant, pattern, pi) == (ro.0, lo.1 + ro.1);
        assert pi + |lo.1 + ro.1| == pi + |lo.1| + |ro.1|; }
      Then(Eval(Binary(op, l, rhs), r.constant, pattern, pi), tail, pattern, pi);
    }
  }

  /** Running a binary operation's ops after its lhs gave `rl`. */
  lemma {:induction false} ExecRhs(op: SetOp, rhs: PathExpr, tail: seq<EvalOp>, rl: FnResult, pattern: nat -> FnResult, pi: nat)
    requires IsComplete(rhs)
    ensures Exec(RhsOps(op, rhs) + tail, rl, pattern, pi) == Then(EvalRhs(op, rhs, rl, pattern, pi), tail, pattern, pi)
    decreases rhs, 3
  {
    if rl.value == DecidesOnTrue(op) {
      ExecDecided(op, rhs, tail, rl, pattern, pi);
    } else {
      ExecUndecided(op, rhs, tail, rl, pattern, pi);
    }
  }

  /** An lhs that decides the operation short-circuits past its rhs. */
  lemma ExecDecided(op: SetOp, rhs: PathExpr, tail: seq<EvalOp>, rl: FnResult, pattern: nat -> FnResult, pi: nat)
    requires rl.value == DecidesOnTrue(op)
    ensures Exec(RhsOps(op, rhs) + tail, rl, pattern, pi) ==
      (Exec(tail, rl, pattern, pi + Leaves(rhs)).0, Flags(true, Leaves(rhs)) + Exec(tail, rl, pattern, pi + Leaves(rhs)).1)
  {
    var y := RhsOps(op, rhs) + tail;
    RhsOpsTail(op, rhs, tail);
    assert y[0] == LogicOp(op);
    SkipRhs(op, rhs, tail, 0);
  }

  /** Otherwise the rhs runs in parentheses after it. */
  lemma {:induction false} ExecUndecided(op: SetOp, rhs: PathExpr, tail: seq<EvalOp>, rl: FnResult, pattern: nat -> FnResult, pi: nat)
    requires IsComplete(rhs) && rl.value != DecidesOnTrue(op)
    ensures var rr := Eval(rhs, rl.constant, pattern, pi);
      Exec(RhsOps(op, rhs) + tail, rl, pattern, pi) ==
        Then((if op == Difference then Negate(rr.0) else rr.0, rr.1), tail, pattern, pi)
    decreases rhs, 2
  {
    var rt := RhsTail(op) + tail;
    var inner := Ops(rhs) + rt;
    var y := RhsOps(op, rhs) + tail;
    RhsOpsTail(op, rhs, tail);
    assert y[0] == LogicOp(op) && y[1..] == [Open] + inner;
    ExecParen(Open, inner, rl, pattern, pi);
    ExecOps(rhs, rt, rl, pattern, pi);
    var rr := Eval(rhs, rl.constant, pattern, pi);
    ExecAfterRhs(op, tail, rr.0, pattern, pi + |rr.1|);
  }

  lemma ExecAfterRhs(op: SetOp, tail: seq<EvalOp>, rr: FnResult, pattern: nat -> FnResult, pi: nat)
    ensures Exec(RhsTail(op) + tail, rr, pattern, pi) ==
      Exec(tail, if op == Difference then Negate(rr) else rr, pattern, pi)
  {
    if op == Difference {
      assert RhsTail(op) + tail == [Not] + ([Close] + tail);
      ExecNot([Close] + tail, rr, pattern, pi);
      ExecParen(Close, tail, Negate(rr), pattern, pi);
    } else {
      assert RhsTail(op) + tail == [Close] + tail;
      ExecParen(Close, tail, rr, pattern, pi);
    }
  }

  /** The reference evaluation computes what the expression means; the
      short-circuit never changes the verdict. */
  lemma {:induction false} EvalHolds(e: PathExpr, c: bool, pattern: nat -> FnResult, pi: nat)
    ensures Eval(e, c, pattern, pi).0.value == Holds(e, pattern, pi)
    decreases e
  {
    match e
    case Pattern(_) =>
    case ExpressionRef(_) =>
    case Complement(x) =>
      EvalHolds(x, c, pattern, pi);
    case Binary(op, l, r) =>
      EvalHolds(l, c, pattern, pi);
      EvalHolds(r, Eval(l, c, pattern, pi).0.constant, pattern, pi + Leaves(l));
  }

  /** Every pattern evaluated (not skipped) among calls `pi`, `pi + 1`, ...
      gave a constant result. */
  predicate EvaluatedConstant(skips: seq<bool>, pattern: nat -> FnResult, pi: nat) {
    forall k :: 0 <= k < |skips| && !skips[k] ==> pattern(pi + k).constant
  }

  lemma EvaluatedConstantAppend(a: seq<bool>, b: seq<bool>, pattern: nat -> FnResult, pi: nat)
    ensures EvaluatedConstant(a + b, pattern, pi) <==>
      EvaluatedConstant(a, pattern, pi) && EvaluatedConstant(b, pattern, pi + |a|)
  {
    if EvaluatedConstant(a, pattern, pi) && EvaluatedConstant(b, pattern, pi + |a|) {
      forall k | 0 <= k < |a + b| && !(a + b)[k]
        ensures pattern(pi + k).constant
      {
        if k >= |a| {
          assert (a + b)[k] == b[k - |a|];
          assert pi + k == (pi + |a|) + (k - |a|);
        } else {
          assert (a + b)[k] == a[k];
        }
      }
    }
    if EvaluatedConstant(a + b, pattern, pi) {
      forall k | 0 <= k < |b| && !b[k]
        ensures pattern(pi + |a| + k).constant
      {
        assert (a + b)[|a| + k] == b[k];
      }
      forall k | 0 <= k < |a| && !a[k]
        ensures pattern(pi + k).constant
      {
        assert (a + b)[k] == a[k];
      }
    }
  }

  /** A result is constant exactly when the result it started from was and
      every pattern actually evaluated gave a constant result: skipped
      patterns do not affect constancy. */
  lemma {:induction false} EvalConstancy(e: PathExpr, c: bool, pattern: nat -> FnResult, pi: nat)
    ensures var out := Eval(e, c, pattern, pi);
      out.0.constant <==> c && EvaluatedConstant(out.1, pattern, pi)
    decreases e
  {
    match e
    case Pattern(_) =>
      assert EvaluatedConstant([false], pattern, pi) == pattern(pi).constant by {
        assert [false][0] == false && pi + 0 == pi;
      }
    case ExpressionRef(_) =>
    case Complement(x) =>
      EvalConstancy(x, c, pattern, pi);
    case Binary(op, l, r) =>
      var lo := Eval(l, c, pattern, pi);
      var ro := EvalRhs(op, r, lo.0, pattern, pi + Leaves(l));
      EvalConstancy(l, c, pattern, pi);
      EvaluatedConstantAppend(lo.1, ro.1, pattern, pi);
      if lo.0.value != DecidesOnTrue(op) {
        EvalConstancy(r, lo.0.constant, pattern, pi + Leaves(l));
      }
  }

  /** `_EvalExpr` on a compiled expression: the verdict is what the
      expression means, every pattern is called exactly once (evaluated or
      skipped), and the result is constant exactly when every evaluated
      pattern's result was. */
  lemma EvalExprSpec(e: PathExpr, pattern: nat -> FnResult)
    requires IsComplete(e)
    ensures var out := EvalExpr(Ops(e), pattern);
      out == Eval(e, true, pattern, 0)
      && out.0.value == Holds(e, pattern, 0)
      && |out.1| == Leaves(e)
      && (out.0.constant <==> EvaluatedConstant(out.1, pattern, 0))
  {
    ExecOps(e, [], MakeConstant(false), pattern, 0);
    assert Ops(e) + [] == Ops(e);
    assert Eval(e, true, pattern, 0).1 + [] == Eval(e, true, pattern, 0).1;
    EvalHolds(e, true, pattern, 0);
    EvalConstancy(e, true, pattern, 0);
  }

  /** An And whose lhs is false, or an Or whose lhs is true, skips its rhs:
      every rhs pattern is called with skip set, and the result is the
      lhs's. */
  lemma ShortCircuit(op: SetOp, l: PathExpr, r: PathExpr, pattern: nat -> FnResult)
    requires IsComplete(l) && IsComplete(r)
    requires Holds(l, pattern, 0) == DecidesOnTrue(op)
    ensures var out := EvalExpr(Ops(Binary(op, l, r)), pattern);
      |out.1| == Leaves(l) + Leaves(r)
      && (forall k :: Leaves(l) <= k < |out.1| ==> out.1[k])
      && out.0 == Eval(l, true, pattern, 0).0
  {
    EvalExprSpec(Binary(op, l, r), pattern);
    EvalHolds(l, true, pattern, 0);
    var lo := Eval(l, true, pattern, 0);
    var out := EvalExpr(Ops(Binary(op, l, r)), pattern);
    assert out.1 == lo.1 + Flags(true, Leaves(r));
    forall k | Leaves(l) <= k < |out.1|
      ensures out.1[k]
    {
      assert out.1[k] == Flags(true, Leaves(r))[k - Leaves(l)];
    }
  }

  /** Compiling `A - B` gives the program of `A And (Not B)`. */
  lemma DifferenceIsAndNot(a: PathExpr, b: PathExpr)
    ensures Ops(Binary(Difference, a, b)) == Ops(a) + [And, Open] + Ops(b) + [Not, Close]
    ensures Ops(Binary(Difference, a, b)) == Ops(Binary(Intersection, a, Complement(b)))
  {
    assert LogicOp(Difference) == And == LogicOp(Intersection);
    calc {
      Ops(Complement(b)) + RhsTail(Intersection);
      (Ops(b) + [Not]) + [Close];
      { Seqs.AppendAssoc(Ops(b), [Not], [Close]); }
      Ops(b) + ([Not] + [Close]);
      { assert [Not] + [Close] == [Not, Close]; }
      Ops(b) + RhsTail(Difference);
    }
    calc {
      Ops(a) + [And, Open] + Ops(b) + [Not, Close];
      { assert [And, Open] == [And] + [Open]; }
      Ops(a) + ([And] + [Open]) + Ops(b) + [Not, Close];
      { Seqs.AppendAssoc(Ops(a), [And] + [Open], Ops(b));
        Seqs.AppendAssoc(Ops(a), ([And] + [Open]) + Ops(b), [Not, Close]); }
      Ops(a) + ((([And] + [Open]) + Ops(b)) + [Not, Close]);
      { Seqs.AppendAssoc([And], [Open], Ops(b));
        Seqs.AppendAssoc([And], [Open] + Ops(b), [Not, Close]);
        Seqs.AppendAssoc([Open], Ops(b), [Not, Close]); }
      Ops(a) + ([And] + ([Open] + (Ops(b) + [Not, Close])));
    }
  }

  // ---------------------------------------------------------------------
  // Compiled patterns: `_Init`.

  datatype ComponentKind = ExplicitName(name: string) | Regex(glob: string)

  /** A compiled name component, with its linked predicate (-1 for none). */
  datatype Component = Component(kind: ComponentKind, predicateIndex: int)

  /** The half-open range of components between two stretches. */
  datatype Segment = Segment(begin: nat, end: nat)

  function Size(s: Segment): int {
    s.end - s.begin
  }

  datatype MatchObjType = MatchPrimOrProp | MatchPrimOnly | MatchPropOnly

  /** `_PatternImplBase`: the compiled matcher of one pattern. */
  datatype PatternImpl = PatternImpl(
    prefix: Path,
    components: seq<Component>,
    segments: seq<Segment>,
    stretchBegin: bool,
    stretchEnd: bool,
    matchObjType: MatchObjType)

  /** How `_Init` compiles a name component: literal or empty text is an
      explicit name, other text a whole-name glob; a predicate is linked
      through `link`. */
  function CompileComponent(c: PatternComponent, link: int -> nat): (r: Component)
    requires c.Name?
    ensures (r.kind == ExplicitName(c.text) && (c.isLiteral || c.text == ""))
      || (r.kind == Regex(c.text) && !c.isLiteral && c.text != "")
    ensures r.predicateIndex == -1 <==> c.predicateIndex == -1
    ensures IsBarePredicate(r) <==> c.text == "" && c.predicateIndex != -1
  {
    Component(
      if c.isLiteral || c.text == "" then ExplicitName(c.text) else Regex(c.text),
      if c.predicateIndex != -1 then link(c.predicateIndex) else -1)
  }

  /** The name components in order, each compiled, stretches dropped. */
  function CompileComponents(cs: seq<PatternComponent>, link: int -> nat): seq<Component> {
    if cs == [] then []
    else
      CompileComponents(cs[..|cs| - 1], link)
      + if cs[|cs| - 1].Stretch? then [] else [CompileComponent(cs[|cs| - 1], link)]
  }

  /** Segments that cover components `[0, n)` in order, each one starting
      where the previous one ends. */
  predicate Partition(segs: seq<Segment>, n: nat) {
    (segs == [] ==> n == 0)
    && (segs != [] ==> segs[0].begin == 0 && segs[|segs| - 1].end == n)
    && (forall k :: 0 <= k < |segs| ==> segs[k].begin <= segs[k].end)
    && (forall k :: 0 <= k < |segs| - 1 ==> segs[k].end == segs[k + 1].begin)
  }

  predicate NoAdjacentStretches(cs: seq<PatternComponent>) {
    forall i :: 0 <= i < |cs| - 1 ==> cs[i].Name? || cs[i + 1].Name?
  }

  /** The last compiled component is a name with empty text (a bare
      predicate such as `//{test}`). */
  predicate EndsInEmptyName(comps: seq<Component>) {
    |comps| > 0 && comps[|comps| - 1].kind == ExplicitName("")
  }

  /** What `_Init` has built after some of the pattern's components. */
  datatype Builder = Builder(comps: seq<Component>, segs: seq<Segment>, stretchBegin: bool, stretchEnd: bool)

  /** `closeAndAppendSegment`: the components since the last segment's end
      form the next segment. */
  function CloseSegment(b: Builder): Builder {
    b.(segs := b.segs + [Segment(if b.segs == [] then 0 else b.segs[|b.segs| - 1].end, |b.comps|)])
  }

  /** One turn of `_Init`'s loop, for component `i`. */
  function InitStep(pc: seq<PatternComponent>, i: nat, link: int -> nat, b: Builder): Builder
    requires i < |pc|
  {
    if pc[i].Stretch? then
      var b := if i + 1 == |pc| then b.(stretchEnd := true) else b;
      if b.comps == [] then b.(stretchBegin := true) else CloseSegment(b)
    else b.(comps := b.comps + [CompileComponent(pc[i], link)])
  }

  /** Segments so far: in order, contiguous, within the components. */
  predicate SegmentsSoFar(segs: seq<Segment>, n: nat) {
    (segs != [] ==> segs[0].begin == 0 && segs[|segs| - 1].end <= n)
    && (forall k :: 0 <= k < |segs| ==> segs[k].begin <= segs[k].end)
    && (forall k :: 0 <= k < |segs| - 1 ==> segs[k].end == segs[k + 1].begin)
  }

  predicate NonEmptySegments(segs: seq<Segment>) {
    forall k :: 0 <= k < |segs| ==> segs[k].begin < segs[k].end
  }

  /** `_Init`'s loop invariant after components `[0, i)`. */
  predicate Built(pc: seq<PatternComponent>, i: nat, link: int -> nat, b: Builder)
    requires i <= |pc|
  {
    b.comps == CompileComponents(pc[..i], link)
    && SegmentsSoFar(b.segs, |b.comps|)
    && (b.comps == [] ==> b.segs == [])
    && (i > 0 && pc[0].Name? ==> b.comps != [])
    && (i > 0 && pc[i - 1].Name? ==> b.comps != [] && (b.segs == [] || b.segs[|b.segs| - 1].end < |b.comps|))
    && (i > 0 && pc[i - 1].Stretch? && b.comps != [] ==> b.segs != [] && b.segs[|b.segs| - 1].end == |b.comps|)
    && (NoAdjacentStretches(pc) ==> NonEmptySegments(b.segs))
    && (b.stretchBegin <==> i > 0 && pc[0].Stretch?)
    && (b.stretchEnd <==> i == |pc| && i > 0 && pc[i - 1].Stretch?)
  }

  lemma CloseSegmentShape(b: Builder)
    requires SegmentsSoFar(b.segs, |b.comps|)
    ensures SegmentsSoFar(CloseSegment(b).segs, |b.comps|)
    ensures CloseSegment(b).segs[|CloseSegment(b).segs| - 1].end == |b.comps|
    ensures (NonEmptySegments(b.segs) && (b.segs == [] ==> |b.comps| > 0)
      && (b.segs != [] ==> b.segs[|b.segs| - 1].end < |b.comps|)) ==> NonEmptySegments(CloseSegment(b).segs)
  {
  }

  lemma InitStepBuilt(pc: seq<PatternComponent>, i: nat, link: int -> nat, b: Builder)
    requires i < |pc| && Built(pc, i, link, b)
    ensures Built(pc, i + 1, link, InitStep(pc, i, link, b))
  {
    assert pc[..i + 1][..i] == pc[..i];
    if pc[i].Stretch? {
      InitStretchBuilt(pc, i, link, b);
    }
  }

  lemma InitStretchBuilt(pc: seq<PatternComponent>, i: nat, link: int -> nat, b: Builder)
    requires i < |pc| && pc[i].Stretch? && Built(pc, i, link, b)
    ensures Built(pc, i + 1, link, InitStep(pc, i, link, b))
  {
    assert pc[..i + 1][..i] == pc[..i];
    assert CompileComponents(pc[..i + 1], link) == b.comps;
    var b1 := if i + 1 == |pc| then b.(stretchEnd := true) else b;
    if b.comps != [] {
      CloseSegmentShape(b1);
      if NoAdjacentStretches(pc) {
        assert i > 0 && pc[i - 1].Name?;
      }
    }
  }

  /** `_Init`: compiles a pattern into its matcher. */
  method Init(pattern: PathPattern, link: int -> nat) returns (impl: PatternImpl)
    ensures impl.prefix == pattern.prefix
    ensures impl.components == CompileComponents(pattern.components, link)
    ensures Partition(impl.segments, |impl.components|)
    ensures impl.segments == [] <==> impl.components == []
    ensures NoAdjacentStretches(pattern.components) ==> NonEmptySegments(impl.segments)
    ensures impl.stretchBegin <==> |pattern.components| > 0 && pattern.components[0].Stretch?
    ensures impl.stretchEnd <==>
      |pattern.components| > 0 && pattern.components[|pattern.components| - 1].Stretch?
    ensures impl.matchObjType ==
      if pattern.isProperty then MatchPropOnly
      else if impl.stretchEnd || EndsInEmptyName(impl.components) then MatchPrimOrProp
      else MatchPrimOnly
  {
    var pc := pattern.components;
    var b := Builder([], [], false, false);
    var i := 0;
    while i < |pc|
      invariant 0 <= i <= |pc| && Built(pc, i, link, b)
    {
      InitStepBuilt(pc, i, link, b);
      b := InitStep(pc, i, link, b);
      i := i + 1;
    }
    assert pc[..i] == pc;
    impl := FinishInit(pattern, link, b);
  }

  /** The end of `_Init`: patterns that do not end in a stretch close their
      final segment, and the object type follows from the pattern's shape. */
  function FinishInit(pattern: PathPattern, link: int -> nat, b: Builder): (impl: PatternImpl)
    requires Built(pattern.components, |pattern.components|, link, b)
    ensures impl.prefix == pattern.prefix
    ensures impl.components == b.comps
    ensures Partition(impl.segments, |impl.components|)
    ensures impl.segments == [] <==> impl.components == []
    ensures NoAdjacentStretches(pattern.components) ==> NonEmptySegments(impl.segments)
    ensures impl.stretchBegin <==> |pattern.components| > 0 && pattern.components[0].Stretch?
    ensures impl.stretchEnd <==>
      |pattern.components| > 0 && pattern.components[|pattern.components| - 1].Stretch?
    ensures impl.matchObjType ==
      if pattern.isProperty then MatchPropOnly
      else if impl.stretchEnd || EndsInEmptyName(impl.components) then MatchPrimOrProp
      else MatchPrimOnly
  {
    var pc := pattern.components;
    assert pc[..|pc|] == pc;
    var b' := if !b.stretchEnd && b.comps != [] then CloseSegment(b) else b;
    assert !b.stretchEnd && b.comps != [] ==> SegmentsSoFar(b'.segs, |b.comps|) by {
      if !b.stretchEnd && b.comps != [] {
        CloseSegmentShape(b);
      }
    }
    var objType :=
      if pattern.isProperty then MatchPropOnly
      else if b'.stretchEnd || EndsInEmptyName(b'.comps) then MatchPrimOrProp
      else MatchPrimOnly;
    PatternImpl(pattern.prefix, b'.comps, b'.segs, b'.stretchBegin, b'.stretchEnd, objType)
  }

  /** Every component index lies in some segment. */
  lemma {:induction false} PartitionCovers(segs: seq<Segment>, n: nat, j: nat)
    requires Partition(segs, n) && j < n
    ensures exists k :: 0 <= k < |segs| && segs[k].begin <= j < segs[k].end
    decreases |segs|
  {
    var m := |segs|;
    if j < segs[m - 1].begin {
      var front := segs[..m - 1];
      assert Partition(front, segs[m - 1].begin) by {
        if m >= 2 {
          assert segs[m - 2].end == segs[m - 1].begin;
        }
      }
      PartitionCovers(front, segs[m - 1].begin, j);
      var k :| 0 <= k < |front| && front[k].begin <= j < front[k].end;
      assert segs[k] == front[k];
    } else {
      assert segs[m - 1].begin <= j < segs[m - 1].end;
    }
  }

  // ---------------------------------------------------------------------
  // Matching segments: `_CheckExactMatch`, `_CheckMatch`.

  /** `GetName`: a path's last element name. */
  function ElemName(p: Path): string {
    if p == [] then "" else p[|p| - 1].name
  }

  /** Whether a component's name part accepts a path element name: an
      explicit name with empty text accepts every name. */
  predicate NameMatches(kind: ComponentKind, name: string, glob: (string, string) -> bool) {
    match kind
    case ExplicitName(n) => n == "" || n == name
    case Regex(g) => glob(g, name)
  }

  /** Whether a component accepts a path: its name, then its predicate. */
  predicate Accepts(c: Component, p: Path, runPred: (int, Path) -> FnResult, glob: (string, string) -> bool) {
    NameMatches(c.kind, ElemName(p), glob) && (c.predicateIndex != -1 ==> runPred(c.predicateIndex, p).value)
  }

  /** Component `j` of a segment accepts the path `j` after `pos`. */
  predicate AcceptsAt(comps: seq<Component>, seg: Segment, prefixes: seq<Path>, pos: nat, j: nat,
                      runPred: (int, Path) -> FnResult, glob: (string, string) -> bool)
    requires seg.begin <= seg.end <= |comps| && pos + Size(seg) <= |prefixes| && j < Size(seg)
  {
    Accepts(comps[seg.begin + j], prefixes[pos + j], runPred, glob)
  }

  /** A segment matches the paths starting at `pos`: there are enough of
      them, and each component accepts its path. */
  predicate SegmentMatchesAt(comps: seq<Component>, seg: Segment, prefixes: seq<Path>, pos: nat,
                             runPred: (int, Path) -> FnResult, glob: (string, string) -> bool)
    requires seg.begin <= seg.end <= |comps|
  {
    pos + Size(seg) <= |prefixes|
    && forall j: nat :: j < Size(seg) ==> AcceptsAt(comps, seg, prefixes, pos, j, runPred, glob)
  }

  /** Component `j` of a segment has a predicate, and `r` is what it gives
      for the path `j` after `pos`. */
  predicate PredicateGivesAt(comps: seq<Component>, seg: Segment, prefixes: seq<Path>, pos: nat, j: nat,
                             runPred: (int, Path) -> FnResult, r: FnResult)
    requires seg.begin <= seg.end <= |comps| && pos + Size(seg) <= |prefixes| && j < Size(seg)
  {
    comps[seg.begin + j].predicateIndex != -1 && r == runPred(comps[seg.begin + j].predicateIndex, prefixes[pos + j])
  }

  /** `_CheckExactMatch`'s loop from component `j` of the segment on. A
      name mismatch gives varying false; a failing predicate gives the
      predicate's own result, whose constancy is valid to propagate. */
  function CheckFrom(comps: seq<Component>, seg: Segment, prefixes: seq<Path>, pos: nat, j: nat,
                     runPred: (int, Path) -> FnResult, glob: (string, string) -> bool): (r: FnResult)
    requires seg.begin <= seg.end <= |comps| && pos + Size(seg) <= |prefixes| && j <= Size(seg)
    ensures r.value <==> forall j': nat :: j <= j' < Size(seg) ==> AcceptsAt(comps, seg, prefixes, pos, j', runPred, glob)
    ensures r.value ==> r == MakeVarying(true)
    ensures !r.value ==> (r == MakeVarying(false) ||
      exists j': nat :: j <= j' < Size(seg) && PredicateGivesAt(comps, seg, prefixes, pos, j', runPred, r))
    decreases Size(seg) - j
  {
    if j == Size(seg) then MakeVarying(true)
    else
      var c := comps[seg.begin + j];
      var p := prefixes[pos + j];
      if !NameMatches(c.kind, ElemName(p), glob) then
        assert !AcceptsAt(comps, seg, prefixes, pos, j, runPred, glob);
        MakeVarying(false)
      else if c.predicateIndex != -1 && !runPred(c.predicateIndex, p).value then
        assert !AcceptsAt(comps, seg, prefixes, pos, j, runPred, glob);
        assert PredicateGivesAt(comps, seg, prefixes, pos, j, runPred, runPred(c.predicateIndex, p));
        runPred(c.predicateIndex, p)
      else
        assert AcceptsAt(comps, seg, prefixes, pos, j, runPred, glob);
        CheckFrom(comps, seg, prefixes, pos, j + 1, runPred, glob)
  }

  /** `_CheckExactMatch`: whether the segment matches exactly at `pos`,
      with the cursor after the match (unmoved on failure). */
  function CheckExactMatch(comps: seq<Component>, seg: Segment, prefixes: seq<Path>, pos: nat,
                           runPred: (int, Path) -> FnResult, glob: (string, string) -> bool): (r: (FnResult, nat))
    requires seg.begin <= seg.end <= |comps| && pos <= |prefixes|
    ensures r.0.value <==> SegmentMatchesAt(comps, seg, prefixes, pos, runPred, glob)
    ensures r.0.value ==> r == (MakeVarying(true), pos + Size(seg))
    ensures !r.0.value ==> r.1 == pos
    ensures pos + Size(seg) > |prefixes| ==> r == (MakeVarying(false), pos)
  {
    if Size(seg) > |prefixes| - pos then (MakeVarying(false), pos)
    else
      var res := CheckFrom(comps, seg, prefixes, pos, 0, runPred, glob);
      if res.value then (res, pos + Size(seg)) else (res, pos)
  }

  /** `_IsBarePredicate`: an empty name with a predicate, which may match
      the element before the cursor. */
  predicate IsBarePredicate(c: Component) {
    c.kind == ExplicitName("") && c.predicateIndex != -1
  }

  /** `_SegmentMinMatchElts`: the fewest path elements a segment needs after
      the previous segment's match; one fewer than its size when it starts
      with a bare predicate, which may match the previous segment's last
      element. */
  function MinMatchElts(comps: seq<Component>, seg: Segment): int
    requires seg.begin < |comps|
  {
    Size(seg) - if IsBarePredicate(comps[seg.begin]) then 1 else 0
  }

  /** The segment matches just before the cursor position `end`. */
  predicate FoundBefore(comps: seq<Component>, seg: Segment, prefixes: seq<Path>, end: nat,
                        runPred: (int, Path) -> FnResult, glob: (string, string) -> bool)
    requires seg.begin <= seg.end <= |comps|
  {
    Size(seg) <= end <= |prefixes| && SegmentMatchesAt(comps, seg, prefixes, end - Size(seg), runPred, glob)
  }

  /** The segment matches at the cursor, or one element before it when it
      starts with a bare predicate. */
  predicate MatchesNear(comps: seq<Component>, seg: Segment, prefixes: seq<Path>, pos: nat,
                        runPred: (int, Path) -> FnResult, glob: (string, string) -> bool)
    requires seg.begin < seg.end <= |comps|
  {
    SegmentMatchesAt(comps, seg, prefixes, pos, runPred, glob)
    || (pos > 0 && IsBarePredicate(comps[seg.begin]) && SegmentMatchesAt(comps, seg, prefixes, pos - 1, runPred, glob))
  }

  /** `_CheckMatch`: a segment starting with a bare predicate is first
      tried one element before the cursor, then at the cursor. */
  function CheckMatch(comps: seq<Component>, seg: Segment, prefixes: seq<Path>, pos: nat,
                      runPred: (int, Path) -> FnResult, glob: (string, string) -> bool): (r: (FnResult, nat))
    requires seg.begin < seg.end <= |comps| && pos <= |prefixes|
    ensures r.0.value <==> MatchesNear(comps, seg, prefixes, pos, runPred, glob)
    ensures r.0.value ==> (FoundBefore(comps, seg, prefixes, r.1, runPred, glob)
      && (r.1 - Size(seg) == pos || (r.1 - Size(seg) == pos - 1 && IsBarePredicate(comps[seg.begin]))))
    ensures !r.0.value ==> r.1 == pos
    ensures r.0.value && r.1 - Size(seg) == pos && pos > 0 && IsBarePredicate(comps[seg.begin]) ==>
      !SegmentMatchesAt(comps, seg, prefixes, pos - 1, runPred, glob)
  {
    if pos != 0 && IsBarePredicate(comps[seg.begin]) then
      var early := CheckExactMatch(comps, seg, prefixes, pos - 1, runPred, glob);
      if early.0.value then early else CheckExactMatch(comps, seg, prefixes, pos, runPred, glob)
    else CheckExactMatch(comps, seg, prefixes, pos, runPred, glob)
  }

  /** Where a search from cursor `pos` starts: one element before it when
      the segment starts with a bare predicate and there is an element
      there. */
  function SearchStart(comps: seq<Component>, seg: Segment, pos: nat): nat
    requires seg.begin < |comps|
  {
    if pos > 0 && IsBarePredicate(comps[seg.begin]) then pos - 1 else pos
  }

  /** `searchMatch`'s loop: tries the cursor at `b`, `b + 1`, ..., `last`
      and stops at the first match; the result of the last try otherwise.
      A hit is the earliest place the segment matches from where the
      search starts. */
  function SearchFrom(comps: seq<Component>, seg: Segment, prefixes: seq<Path>, b: nat, last: nat,
                      runPred: (int, Path) -> FnResult, glob: (string, string) -> bool): (r: (FnResult, nat))
    requires seg.begin < seg.end <= |comps| && b <= last <= |prefixes|
    ensures r.0.value ==> (FoundBefore(comps, seg, prefixes, r.1, runPred, glob)
      && r.1 - Size(seg) >= SearchStart(comps, seg, b))
    ensures r.0.value ==> forall w: nat :: SearchStart(comps, seg, b) <= w < r.1 - Size(seg) ==>
      !SegmentMatchesAt(comps, seg, prefixes, w, runPred, glob)
    ensures r.0.value <==> exists q :: b <= q <= last && MatchesNear(comps, seg, prefixes, q, runPred, glob)
    decreases last - b
  {
    var here := CheckMatch(comps, seg, prefixes, b, runPred, glob);
    if here.0.value then
      SearchHit(comps, seg, prefixes, b, last, runPred, glob);
      here
    else if b == last then here
    else
      var rest := SearchFrom(comps, seg, prefixes, b + 1, last, runPred, glob);
      SearchPastMiss(comps, seg, prefixes, b, last, rest, runPred, glob);
      rest
  }

  /** A search that hits at cursor `b` stops there, at the earliest place
      the segment matches from where the search starts. */
  lemma SearchHit(comps: seq<Component>, seg: Segment, prefixes: seq<Path>, b: nat, last: nat,
                  runPred: (int, Path) -> FnResult, glob: (string, string) -> bool)
    requires seg.begin < seg.end <= |comps| && b <= last <= |prefixes|
    requires CheckMatch(comps, seg, prefixes, b, runPred, glob).0.value
    ensures var r := CheckMatch(comps, seg, prefixes, b, runPred, glob);
      FoundBefore(comps, seg, prefixes, r.1, runPred, glob) && r.1 - Size(seg) >= SearchStart(comps, seg, b)
      && (forall w: nat :: SearchStart(comps, seg, b) <= w < r.1 - Size(seg) ==>
            !SegmentMatchesAt(comps, seg, prefixes, w, runPred, glob))
      && exists q :: b <= q <= last && MatchesNear(comps, seg, prefixes, q, runPred, glob)
  {
    var r := CheckMatch(comps, seg, prefixes, b, runPred, glob);
    assert MatchesNear(comps, seg, prefixes, b, runPred, glob);
    forall w: nat | SearchStart(comps, seg, b) <= w < r.1 - Size(seg)
      ensures !SegmentMatchesAt(comps, seg, prefixes, w, runPred, glob)
    {
      assert w == b - 1 && r.1 - Size(seg) == b;
    }
  }

  /** A search that misses at cursor `b` and goes on from `b + 1` finds
      what a search from `b` would. */
  lemma SearchPastMiss(comps: seq<Component>, seg: Segment, prefixes: seq<Path>, b: nat, last: nat,
                       r: (FnResult, nat), runPred: (int, Path) -> FnResult, glob: (string, string) -> bool)
    requires seg.begin < seg.end <= |comps| && b < last <= |prefixes|
    requires !CheckMatch(comps, seg, prefixes, b, runPred, glob).0.value
    requires r.0.value ==> (FoundBefore(comps, seg, prefixes, r.1, runPred, glob)
      && r.1 - Size(seg) >= SearchStart(comps, seg, b + 1))
    requires r.0.value ==> forall w: nat :: SearchStart(comps, seg, b + 1) <= w < r.1 - Size(seg) ==>
      !SegmentMatchesAt(comps, seg, prefixes, w, runPred, glob)
    requires r.0.value <==> exists q :: b + 1 <= q <= last && MatchesNear(comps, seg, prefixes, q, runPred, glob)
    ensures r.0.value ==> (FoundBefore(comps, seg, prefixes, r.1, runPred, glob)
      && r.1 - Size(seg) >= SearchStart(comps, seg, b))
    ensures r.0.value ==> forall w: nat :: SearchStart(comps, seg, b) <= w < r.1 - Size(seg) ==>
      !SegmentMatchesAt(comps, seg, prefixes, w, runPred, glob)
    ensures r.0.value <==> exists q :: b <= q <= last && MatchesNear(comps, seg, prefixes, q, runPred, glob)
  {
    assert !MatchesNear(comps, seg, prefixes, b, runPred, glob);
    if r.0.value {
      var q :| b + 1 <= q <= last && MatchesNear(comps, seg, prefixes, q, runPred, glob);
      assert b <= q <= last;
      forall w: nat | SearchStart(comps, seg, b) <= w < SearchStart(comps, seg, b + 1)
        ensures !SegmentMatchesAt(comps, seg, prefixes, w, runPred, glob)
      {
        assert w == b || (w == b - 1 && b > 0 && IsBarePredicate(comps[seg.begin]));
      }
    } else {
      forall q | b <= q <= last
        ensures !MatchesNear(comps, seg, prefixes, q, runPred, glob)
      {
        if q != b {
          assert b + 1 <= q <= last;
        }
      }
    }
  }

  /** `searchMatch` as written (pathExpressionEval.cpp:448-474): it gives
      up when fewer elements than the segment's size remain after the
      cursor, although a segment starting with a bare predicate may match
      one element before the cursor. */
  function SearchMatchAsWritten(comps: seq<Component>, seg: Segment, prefixes: seq<Path>, pos: nat,
                                runPred: (int, Path) -> FnResult, glob: (string, string) -> bool): (r: (FnResult, nat))
    requires seg.begin < seg.end <= |comps| && pos <= |prefixes|
    ensures r.0.value ==> FoundBefore(comps, seg, prefixes, r.1, runPred, glob)
    ensures r.0.value <==> (pos + Size(seg) <= |prefixes| &&
      exists q :: pos <= q <= |prefixes| - Size(seg) && MatchesNear(comps, seg, prefixes, q, runPred, glob))
  {
    if Size(seg) > |prefixes| - pos then (MakeVarying(false), pos)
    else SearchFrom(comps, seg, prefixes, pos, |prefixes| - Size(seg), runPred, glob)
  }

  /** `searchMatch`, bounded by `_SegmentMinMatchElts` as the final
      segment's check is: it finds the earliest place the segment matches
      from where the search starts, and fails only when there is none. */
  function SearchMatch(comps: seq<Component>, seg: Segment, prefixes: seq<Path>, pos: nat,
                       runPred: (int, Path) -> FnResult, glob: (string, string) -> bool): (r: (FnResult, nat))
    requires seg.begin < seg.end <= |comps| && pos <= |prefixes|
    ensures r.0.value <==>
      exists w: nat :: SearchStart(comps, seg, pos) <= w && SegmentMatchesAt(comps, seg, prefixes, w, runPred, glob)
    ensures r.0.value ==> (FoundBefore(comps, seg, prefixes, r.1, runPred, glob)
      && r.1 - Size(seg) >= SearchStart(comps, seg, pos))
    ensures r.0.value ==> forall w: nat :: SearchStart(comps, seg, pos) <= w < r.1 - Size(seg) ==>
      !SegmentMatchesAt(comps, seg, prefixes, w, runPred, glob)
  {
    var m := MinMatchElts(comps, seg);
    SearchWindow(comps, seg, prefixes, pos, runPred, glob);
    if m > |prefixes| - pos then (MakeVarying(false), pos)
    else SearchFrom(comps, seg, prefixes, pos, |prefixes| - m, runPred, glob)
  }

  /** The positions the bounded search tries near are exactly the places
      the segment can match from where the search starts. */
  lemma SearchWindow(comps: seq<Component>, seg: Segment, prefixes: seq<Path>, pos: nat,
                     runPred: (int, Path) -> FnResult, glob: (string, string) -> bool)
    requires seg.begin < seg.end <= |comps| && pos <= |prefixes|
    ensures (exists w: nat :: SearchStart(comps, seg, pos) <= w
               && SegmentMatchesAt(comps, seg, prefixes, w, runPred, glob)) <==>
      (MinMatchElts(comps, seg) <= |prefixes| - pos
       && exists q :: pos <= q <= |prefixes| - MinMatchElts(comps, seg)
            && MatchesNear(comps, seg, prefixes, q, runPred, glob))
  {
    var start := SearchStart(comps, seg, pos);
    var m := MinMatchElts(comps, seg);
    if w: nat :| start <= w && SegmentMatchesAt(comps, seg, prefixes, w, runPred, glob) {
      var q := if w >= pos then w else pos;
      assert pos <= q <= |prefixes| - m;
      assert MatchesNear(comps, seg, prefixes, q, runPred, glob);
    }
    if q :| pos <= q <= |prefixes| - m && MatchesNear(comps, seg, prefixes, q, runPred, glob) {
      if !SegmentMatchesAt(comps, seg, prefixes, q, runPred, glob) {
        assert SegmentMatchesAt(comps, seg, prefixes, q - 1, runPred, glob);
      }
    }
  }

  // ---------------------------------------------------------------------
  // `_Match`: matching a path from scratch.

  /** `IsPrimPropertyPath`: a property of a prim (not of the root). */
  predicate IsPrimPropertyPath(p: Path) {
    ValidPath(p) && |p| >= 2 && IsPropertyPath(p)
  }

  /** The paths the matcher supports: the root, prims, and prim
      properties. */
  predicate Supported(p: Path) {
    ValidPath(p) && (IsRootOrPrimPath(p) || IsPrimPropertyPath(p))
  }

  /** Whether the pattern's object type admits the path. */
  predicate ObjTypeAllows(t: MatchObjType, p: Path) {
    (t == MatchPropOnly ==> IsPrimPropertyPath(p)) && (t == MatchPrimOnly ==> !IsPrimPropertyPath(p))
  }

  /** A matcher as `_Init` builds it (for patterns without two stretches in
      a row): the segments partition the components and none is empty. */
  predicate WellFormed(impl: PatternImpl) {
    Partition(impl.segments, |impl.components|)
    && (impl.segments == [] <==> impl.components == [])
    && NonEmptySegments(impl.segments)
    && (forall k :: 0 <= k < |impl.segments| ==> impl.segments[k].end <= |impl.components|)
  }

  /** The segments of a partition of `[0, n)` lie within it. */
  lemma {:induction false} PartitionWithin(segs: seq<Segment>, n: nat, k: nat)
    requires Partition(segs, n) && k < |segs|
    ensures segs[k].end <= n
    decreases |segs| - k
  {
    if k < |segs| - 1 {
      PartitionWithin(segs, n, k + 1);
    }
  }

  /** A partition into non-empty segments, of no components exactly when
      there are none, is a well-formed matcher. */
  lemma WellFormedPartition(impl: PatternImpl)
    requires Partition(impl.segments, |impl.components|) && NonEmptySegments(impl.segments)
    ensures WellFormed(impl)
  {
    forall k | 0 <= k < |impl.segments|
      ensures impl.segments[k].end <= |impl.components|
    {
      PartitionWithin(impl.segments, |impl.components|, k);
    }
  }

  /** `GetPrefixes(n)`: the `n` longest prefixes of a path other than the
      root, shortest first; all of them when `n` exceeds its length. */
  function Prefixes(p: Path, n: nat): (ps: seq<Path>)
    ensures |ps| == if n <= |p| then n else |p|
    decreases n
  {
    if n == 0 || p == [] then [] else Prefixes(p[..|p| - 1], n - 1) + [p]
  }

  /** Each of the listed prefixes is the path cut after its own depth: the
      list ends with the path itself. */
  lemma {:induction false} PrefixesAt(p: Path, n: nat)
    ensures forall i :: 0 <= i < |Prefixes(p, n)| ==> Prefixes(p, n)[i] == p[..|p| - |Prefixes(p, n)| + 1 + i]
    decreases n
  {
    if n != 0 && p != [] {
      var q := p[..|p| - 1];
      var front := Prefixes(q, n - 1);
      var ps := Prefixes(p, n);
      assert ps == front + [p];
      PrefixesAt(q, n - 1);
      forall i | 0 <= i < |ps|
        ensures ps[i] == p[..|p| - |ps| + 1 + i]
      {
        if i < |front| {
          assert front[i] == q[..|q| - |front| + 1 + i];
        }
      }
    }
  }

  /** The paths `_Match` examines: those below the pattern's prefix, plus
      the prefix itself when a leading stretch is followed by a bare
      predicate. */
  function MatchPrefixes(impl: PatternImpl, path: Path): seq<Path>
    requires impl.components != [] && HasPrefix(path, impl.prefix)
  {
    var extra := if impl.stretchBegin && IsBarePredicate(impl.components[0]) && |impl.prefix| != 0 then 1 else 0;
    var n := |path| - |impl.prefix| + extra;
    if n > 0 then Prefixes(path, n) else []
  }

  /** 1 when segment `k` starts with a bare predicate, which may overlap the
      previous segment's last element. */
  function Overlap(impl: PatternImpl, k: nat): nat
    requires WellFormed(impl) && k < |impl.segments|
  {
    if IsBarePredicate(impl.components[impl.segments[k].begin]) then 1 else 0
  }

  /** Where the segments were found among the examined paths: each at its
      position; the first at the start unless the pattern starts with a
      stretch; the last at the end unless it ends with one; each no earlier
      than the previous one's end (less an overlap). */
  ghost predicate SegmentsMatch(impl: PatternImpl, prefixes: seq<Path>, locs: seq<nat>,
                                runPred: (int, Path) -> FnResult, glob: (string, string) -> bool)
    requires WellFormed(impl)
  {
    var segs := impl.segments;
    |locs| == |segs|
    && (forall k :: 0 <= k < |segs| ==> SegmentMatchesAt(impl.components, segs[k], prefixes, locs[k], runPred, glob))
    && (!impl.stretchBegin && segs != [] ==> locs[0] == 0)
    && (!impl.stretchEnd && segs != [] ==> locs[|segs| - 1] + Size(segs[|segs| - 1]) == |prefixes|)
    && (forall k :: 0 < k < |segs| ==> locs[k - 1] + Size(segs[k - 1]) <= locs[k] + Overlap(impl, k))
  }

  /** `_Match`'s loop invariant after `k` segments, with the cursor at
      `matchLoc`. */
  ghost predicate MatchedSoFar(impl: PatternImpl, prefixes: seq<Path>, locs: seq<nat>, k: nat, matchLoc: nat,
                               runPred: (int, Path) -> FnResult, glob: (string, string) -> bool)
    requires WellFormed(impl) && k <= |impl.segments|
  {
    var segs := impl.segments;
    |locs| == k
    && (forall j :: 0 <= j < k ==> SegmentMatchesAt(impl.components, segs[j], prefixes, locs[j], runPred, glob))
    && (k == 0 ==> matchLoc == 0)
    && (k > 0 ==> matchLoc == locs[k - 1] + Size(segs[k - 1]))
    && (!impl.stretchBegin && k > 0 ==> locs[0] == 0)
    && (forall j :: 0 < j < k ==> locs[j - 1] + Size(segs[j - 1]) <= locs[j] + Overlap(impl, j))
    && (k > 0 && !impl.stretchEnd && segs[k - 1].end == |impl.components| ==> matchLoc == |prefixes|)
  }

  /** One more segment found at `loc`, no earlier than the cursor allows
      and where the pattern's ends demand, extends the invariant. */
  lemma MatchStep(impl: PatternImpl, prefixes: seq<Path>, locs: seq<nat>, k: nat, matchLoc: nat, loc: nat,
                  runPred: (int, Path) -> FnResult, glob: (string, string) -> bool)
    requires WellFormed(impl) && k < |impl.segments|
    requires MatchedSoFar(impl, prefixes, locs, k, matchLoc, runPred, glob)
    requires SegmentMatchesAt(impl.components, impl.segments[k], prefixes, loc, runPred, glob)
    requires k > 0 ==> matchLoc <= loc + Overlap(impl, k)
    requires k == 0 && !impl.stretchBegin ==> loc == 0
    requires !impl.stretchEnd && impl.segments[k].end == |impl.components| ==>
      loc + Size(impl.segments[k]) == |prefixes|
    ensures MatchedSoFar(impl, prefixes, locs + [loc], k + 1, loc + Size(impl.segments[k]), runPred, glob)
  {
    var locs' := locs + [loc];
    assert forall j :: 0 <= j < k ==> locs'[j] == locs[j];
  }

  /** Only the first segment of a well-formed matcher starts at 0. */
  lemma LaterSegmentsStartLater(impl: PatternImpl, k: nat)
    requires WellFormed(impl) && 0 < k < |impl.segments|
    ensures impl.segments[k].begin > 0
  {
    assert impl.segments[k - 1].end == impl.segments[k].begin;
  }

  /** Only the last segment of a well-formed matcher ends at the end of
      the components. */
  lemma OnlyLastEndsAtEnd(impl: PatternImpl, k: nat)
    requires WellFormed(impl) && k < |impl.segments| && impl.segments[k].end == |impl.components|
    ensures k == |impl.segments| - 1
  {
    forall j | 0 <= j < |impl.segments| - 1
      ensures impl.segments[j].end < |impl.components|
    {
      assert impl.segments[j].end == impl.segments[j + 1].begin;
    }
  }

  /** Segment `k` matched at `loc`, no earlier than the cursor allows and
      where the pattern's ends demand. */
  ghost predicate SegmentFound(impl: PatternImpl, prefixes: seq<Path>, k: nat, matchLoc: nat, loc: nat,
                               runPred: (int, Path) -> FnResult, glob: (string, string) -> bool)
    requires WellFormed(impl) && k < |impl.segments|
  {
    SegmentMatchesAt(impl.components, impl.segments[k], prefixes, loc, runPred, glob)
    && loc + Size(impl.segments[k]) <= |prefixes|
    && (k > 0 ==> matchLoc <= loc + Overlap(impl, k))
    && (k == 0 && !impl.stretchBegin ==> loc == 0)
    && (!impl.stretchEnd && impl.segments[k].end == |impl.components| ==>
          loc + Size(impl.segments[k]) == |prefixes|)
  }

  /** One round of `_Match`'s loop: finds segment `k` with the cursor at
      `matchLoc` — at the start for a first segment the pattern anchors
      there, at the end for an anchored last segment, by search otherwise.
      A success reports where the segment matched. */
  method MatchSegment(impl: PatternImpl, prefixes: seq<Path>, k: nat, matchLoc: nat,
                      runPred: (int, Path) -> FnResult, glob: (string, string) -> bool)
    returns (res: FnResult, loc: nat)
    requires WellFormed(impl) && k < |impl.segments| && matchLoc <= |prefixes|
    requires k == 0 ==> matchLoc == 0
    ensures res.value ==> SegmentFound(impl, prefixes, k, matchLoc, loc, runPred, glob)
    ensures forall w: nat :: SegmentFound(impl, prefixes, k, matchLoc, w, runPred, glob) ==> res.value && loc <= w
  {
    var seg := impl.segments[k];
    if k > 0 {
      LaterSegmentsStartLater(impl, k);
    }
    if !impl.stretchBegin && seg.begin == 0 {
      res, loc := MatchFirstSegment(impl, prefixes, runPred, glob);
    } else if !impl.stretchEnd && seg.end == |impl.components| {
      res, loc := MatchLastSegment(impl, prefixes, k, matchLoc, runPred, glob);
    } else {
      res, loc := MatchInteriorSegment(impl, prefixes, k, matchLoc, runPred, glob);
    }
  }

  /** Any other segment is searched for from the cursor on. */
  method MatchInteriorSegment(impl: PatternImpl, prefixes: seq<Path>, k: nat, matchLoc: nat,
                              runPred: (int, Path) -> FnResult, glob: (string, string) -> bool)
    returns (res: FnResult, loc: nat)
    requires WellFormed(impl) && k < |impl.segments| && matchLoc <= |prefixes|
    requires k == 0 ==> impl.stretchBegin && matchLoc == 0
    requires k > 0 ==> impl.segments[k].begin > 0
    requires impl.stretchEnd || impl.segments[k].end != |impl.components|
    ensures res.value ==> SegmentFound(impl, prefixes, k, matchLoc, loc, runPred, glob)
    ensures forall w: nat :: SegmentFound(impl, prefixes, k, matchLoc, w, runPred, glob) ==> res.value && loc <= w
  {
    var seg := impl.segments[k];
    var r := SearchMatch(impl.components, seg, prefixes, matchLoc, runPred, glob);
    forall w: nat | SegmentFound(impl, prefixes, k, matchLoc, w, runPred, glob)
      ensures SearchStart(impl.components, seg, matchLoc) <= w
    {
    }
    if !r.0.value {
      return r.0, 0;
    }
    FoundGivesSegment(impl, prefixes, k, matchLoc, r.1, runPred, glob);
    return r.0, r.1 - Size(seg);
  }

  /** A search hit for an interior segment is a place where it was found. */
  lemma FoundGivesSegment(impl: PatternImpl, prefixes: seq<Path>, k: nat, matchLoc: nat, end: nat,
                          runPred: (int, Path) -> FnResult, glob: (string, string) -> bool)
    requires WellFormed(impl) && k < |impl.segments|
    requires k == 0 ==> impl.stretchBegin
    requires impl.stretchEnd || impl.segments[k].end != |impl.components|
    requires FoundBefore(impl.components, impl.segments[k], prefixes, end, runPred, glob)
    requires end - Size(impl.segments[k]) + Overlap(impl, k) >= matchLoc
    ensures end >= Size(impl.segments[k])
    ensures SegmentFound(impl, prefixes, k, matchLoc, end - Size(impl.segments[k]), runPred, glob)
  {
  }

  /** The first segment, when the pattern does not start with a stretch,
      must match at the start (and, if it is also the last, run to the
      end). */
  method MatchFirstSegment(impl: PatternImpl, prefixes: seq<Path>,
                           runPred: (int, Path) -> FnResult, glob: (string, string) -> bool)
    returns (res: FnResult, loc: nat)
    requires WellFormed(impl) && impl.segments != [] && !impl.stretchBegin
    ensures res.value ==> SegmentFound(impl, prefixes, 0, 0, loc, runPred, glob)
    ensures forall w: nat :: SegmentFound(impl, prefixes, 0, 0, w, runPred, glob) ==> res.value && loc <= w
  {
    var seg := impl.segments[0];
    var r := CheckMatch(impl.components, seg, prefixes, 0, runPred, glob);
    if !r.0.value {
      return r.0, 0;
    }
    if !impl.stretchEnd && seg.end == |impl.components| && r.1 != |prefixes| {
      return MakeVarying(false), 0;
    }
    return r.0, 0;
  }

  /** The last segment, when the pattern does not end with a stretch, must
      match exactly at the end. */
  method MatchLastSegment(impl: PatternImpl, prefixes: seq<Path>, k: nat, matchLoc: nat,
                          runPred: (int, Path) -> FnResult, glob: (string, string) -> bool)
    returns (res: FnResult, loc: nat)
    requires WellFormed(impl) && k < |impl.segments| && matchLoc <= |prefixes|
    requires !impl.stretchEnd && impl.segments[k].end == |impl.components|
    requires k == 0 ==> impl.stretchBegin && matchLoc == 0
    ensures res.value ==> SegmentFound(impl, prefixes, k, matchLoc, loc, runPred, glob)
    ensures forall w: nat :: SegmentFound(impl, prefixes, k, matchLoc, w, runPred, glob) ==> res.value && loc <= w
  {
    var seg := impl.segments[k];
    if |prefixes| - matchLoc < MinMatchElts(impl.components, seg) || |prefixes| < Size(seg) {
      // Too few paths remain; where the paths examined are fewer than the
      // segment's size the cursor would be placed before the first of them.
      return MakeVarying(false), 0;
    }
    var r := CheckExactMatch(impl.components, seg, prefixes, |prefixes| - Size(seg), runPred, glob);
    return r.0, |prefixes| - Size(seg);
  }

  /** `_Match`'s loop over the segments: a success is varying and comes
      with the positions where the segments matched. */
  method MatchSegments(impl: PatternImpl, prefixes: seq<Path>, runPred: (int, Path) -> FnResult,
                       glob: (string, string) -> bool)
    returns (r: FnResult)
    requires WellFormed(impl)
    ensures r.value ==> r == MakeVarying(true)
    ensures r.value <==> exists locs :: SegmentsMatch(impl, prefixes, locs, runPred, glob)
  {
    var matchLoc: nat := 0;
    ghost var locs: seq<nat> := [];
    var k := 0;
    while k < |impl.segments|
      invariant 0 <= k <= |impl.segments| && matchLoc <= |prefixes|
      invariant MatchedSoFar(impl, prefixes, locs, k, matchLoc, runPred, glob)
      invariant CursorNotPast(impl, prefixes, k, matchLoc, runPred, glob)
    {
      var res, loc := MatchSegment(impl, prefixes, k, matchLoc, runPred, glob);
      if !res.value {
        CursorMiss(impl, prefixes, k, matchLoc, runPred, glob);
        return res;
      }
      CursorAdvance(impl, prefixes, k, matchLoc, loc, runPred, glob);
      MatchStep(impl, prefixes, locs, k, matchLoc, loc, runPred, glob);
      locs := locs + [loc];
      matchLoc := loc + Size(impl.segments[k]);
      k := k + 1;
    }
    assert SegmentsMatch(impl, prefixes, locs, runPred, glob);
    return MakeVarying(true);
  }

  /** No match of all the segments ends segment `k - 1` before the cursor
      `matchLoc`: `_Match`'s greedy search never overtakes a match. */
  ghost predicate CursorNotPast(impl: PatternImpl, prefixes: seq<Path>, k: nat, matchLoc: nat,
                                runPred: (int, Path) -> FnResult, glob: (string, string) -> bool)
    requires WellFormed(impl) && k <= |impl.segments|
  {
    forall w :: SegmentsMatch(impl, prefixes, w, runPred, glob) && 0 < k ==>
      matchLoc <= w[k - 1] + Size(impl.segments[k - 1])
  }

  /** Taking the earliest place where segment `k` can be found keeps the
      cursor behind every match of all the segments. */
  lemma CursorAdvance(impl: PatternImpl, prefixes: seq<Path>, k: nat, matchLoc: nat, loc: nat,
                      runPred: (int, Path) -> FnResult, glob: (string, string) -> bool)
    requires WellFormed(impl) && k < |impl.segments| && (k == 0 ==> matchLoc == 0)
    requires CursorNotPast(impl, prefixes, k, matchLoc, runPred, glob)
    requires forall w: nat :: SegmentFound(impl, prefixes, k, matchLoc, w, runPred, glob) ==> loc <= w
    ensures CursorNotPast(impl, prefixes, k + 1, loc + Size(impl.segments[k]), runPred, glob)
  {
    forall w | SegmentsMatch(impl, prefixes, w, runPred, glob)
      ensures loc + Size(impl.segments[k]) <= w[k] + Size(impl.segments[k])
    {
      WitnessFound(impl, prefixes, w, k, matchLoc, runPred, glob);
    }
  }

  /** When segment `k` cannot be found from the cursor, no match of all
      the segments exists. */
  lemma CursorMiss(impl: PatternImpl, prefixes: seq<Path>, k: nat, matchLoc: nat,
                   runPred: (int, Path) -> FnResult, glob: (string, string) -> bool)
    requires WellFormed(impl) && k < |impl.segments| && (k == 0 ==> matchLoc == 0)
    requires CursorNotPast(impl, prefixes, k, matchLoc, runPred, glob)
    requires forall w: nat :: !SegmentFound(impl, prefixes, k, matchLoc, w, runPred, glob)
    ensures forall w :: !SegmentsMatch(impl, prefixes, w, runPred, glob)
  {
    forall w
      ensures !SegmentsMatch(impl, prefixes, w, runPred, glob)
    {
      if SegmentsMatch(impl, prefixes, w, runPred, glob) {
        WitnessFound(impl, prefixes, w, k, matchLoc, runPred, glob);
      }
    }
  }

  /** The `k`th position of a match of all the segments is a place where
      segment `k` can be found, when the cursor is no further than where
      the match puts the previous segment's end. */
  lemma WitnessFound(impl: PatternImpl, prefixes: seq<Path>, locs: seq<nat>, k: nat, matchLoc: nat,
                     runPred: (int, Path) -> FnResult, glob: (string, string) -> bool)
    requires WellFormed(impl) && k < |impl.segments|
    requires SegmentsMatch(impl, prefixes, locs, runPred, glob)
    requires k == 0 ==> matchLoc == 0
    requires k > 0 ==> matchLoc <= locs[k - 1] + Size(impl.segments[k - 1])
    ensures SegmentFound(impl, prefixes, k, matchLoc, locs[k], runPred, glob)
  {
    assert SegmentMatchesAt(impl.components, impl.segments[k], prefixes, locs[k], runPred, glob);
    if !impl.stretchEnd && impl.segments[k].end == |impl.components| {
      OnlyLastEndsAtEnd(impl, k);
    }
  }

  /** Whether a path matches the pattern: a supported path below the
      prefix, of an object type the pattern admits, where the segments are
      found in order among the paths `_Match` examines (any such path, or
      the prefix alone, when there are no components). */
  ghost predicate Matches(impl: PatternImpl, path: Path, runPred: (int, Path) -> FnResult, glob: (string, string) -> bool)
    requires WellFormed(impl)
  {
    Supported(path) && HasPrefix(path, impl.prefix) && ObjTypeAllows(impl.matchObjType, path)
    && if impl.components == [] then impl.stretchBegin || impl.stretchEnd || path == impl.prefix
       else exists locs :: SegmentsMatch(impl, MatchPrefixes(impl, path), locs, runPred, glob)
  }

  /** The pattern `//{a}//{b}`, followed by `//` when `stretchEnd`: two
      one-component segments, each a bare predicate, after a stretch. */
  function BareBetweenStretches(stretchEnd: bool): (impl: PatternImpl)
    ensures WellFormed(impl) && impl.segments == [Segment(0, 1), Segment(1, 2)]
    ensures impl.prefix == [] && |impl.components| == 2 && impl.stretchBegin && impl.stretchEnd == stretchEnd
    ensures forall k :: 0 <= k < 2 ==> IsBarePredicate(impl.components[k]) && impl.components[k].predicateIndex == k
  {
    var impl := PatternImpl([], [Component(ExplicitName(""), 0), Component(ExplicitName(""), 1)],
                            [Segment(0, 1), Segment(1, 2)], true, stretchEnd, MatchPrimOrProp);
    assert Partition(impl.segments, 2) by {
      forall k | 0 <= k < 2 ensures impl.segments[k].begin < impl.segments[k].end { }
    }
    impl
  }

  /** A supported path below the pattern's prefix, of an admitted object
      type, matches once the segments are placed among its examined paths. */
  lemma MatchesAt(impl: PatternImpl, path: Path, locs: seq<nat>,
                  runPred: (int, Path) -> FnResult, glob: (string, string) -> bool)
    requires WellFormed(impl) && impl.components != []
    requires Supported(path) && HasPrefix(path, impl.prefix) && ObjTypeAllows(impl.matchObjType, path)
    requires SegmentsMatch(impl, MatchPrefixes(impl, path), locs, runPred, glob)
    ensures Matches(impl, path, runPred, glob)
  {
  }

  /** A child of the root is a supported prim path. */
  lemma RootChildSupported(name: string)
    ensures Supported([Prim(name)]) && !IsPrimPropertyPath([Prim(name)])
  {
  }

  /** With both predicates true, `//{a}//{b}//` matches `/W`: both segments
      at `/W`, the second overlapping the first. Yet `_Match` as written
      finds `{a}` at `/W`, leaving the cursor after it, and then its
      search for `{b}` gives up, since one path fewer than the segment's
      size remains; the bounded search finds `{b}` at `/W`. */
  lemma SearchAsWrittenMissesOverlap(runPred: (int, Path) -> FnResult, glob: (string, string) -> bool)
    requires runPred(0, [Prim("W")]).value && runPred(1, [Prim("W")]).value
    ensures var impl := BareBetweenStretches(true);
      var prefixes := [[Prim("W")]];
      var first := SearchMatchAsWritten(impl.components, impl.segments[0], prefixes, 0, runPred, glob);
      first.0.value && first.1 == 1
      && !SearchMatchAsWritten(impl.components, impl.segments[1], prefixes, first.1, runPred, glob).0.value
      && SearchMatch(impl.components, impl.segments[1], prefixes, first.1, runPred, glob).0.value
    ensures Matches(BareBetweenStretches(true), [Prim("W")], runPred, glob)
  {
    AsWrittenFindsFirst(true, "W", runPred, glob);
    AsWrittenMissesSecond(true, "W", runPred, glob);
    BoundedFindsSecond(true, "W", runPred, glob);
    BareMatchesChild(true, "W", runPred, glob);
  }

  /** `_Match` as written finds `{a}` of `//{a}//{b}` at a child of the
      root that passes it, leaving the cursor after it. */
  lemma AsWrittenFindsFirst(stretchEnd: bool, name: string,
                            runPred: (int, Path) -> FnResult, glob: (string, string) -> bool)
    requires runPred(0, [Prim(name)]).value
    ensures var impl := BareBetweenStretches(stretchEnd);
      var r := SearchMatchAsWritten(impl.components, impl.segments[0], [[Prim(name)]], 0, runPred, glob);
      r.0.value && r.1 == 1
  {
    BareSegmentAtChild(stretchEnd, name, 0, runPred, glob);
  }

  /** With the cursor after the only path, `_Match` as written gives up
      on `{b}` of `//{a}//{b}`. */
  lemma AsWrittenMissesSecond(stretchEnd: bool, name: string,
                              runPred: (int, Path) -> FnResult, glob: (string, string) -> bool)
    ensures var impl := BareBetweenStretches(stretchEnd);
      !SearchMatchAsWritten(impl.components, impl.segments[1], [[Prim(name)]], 1, runPred, glob).0.value
  {
  }

  /** The bounded search looks back one path for the bare predicate `{b}`
      of `//{a}//{b}` and finds it at a child of the root that passes it. */
  lemma BoundedFindsSecond(stretchEnd: bool, name: string,
                           runPred: (int, Path) -> FnResult, glob: (string, string) -> bool)
    requires runPred(1, [Prim(name)]).value
    ensures var impl := BareBetweenStretches(stretchEnd);
      SearchMatch(impl.components, impl.segments[1], [[Prim(name)]], 1, runPred, glob).0.value
  {
    var impl := BareBetweenStretches(stretchEnd);
    BareSegmentAtChild(stretchEnd, name, 1, runPred, glob);
    assert SearchStart(impl.components, impl.segments[1], 1) == 0;
  }

  /** `//{a}//{b}`, and `//{a}//{b}//`, match a child of the root that
      passes both predicates. */
  lemma BareMatchesChild(stretchEnd: bool, name: string,
                         runPred: (int, Path) -> FnResult, glob: (string, string) -> bool)
    requires runPred(0, [Prim(name)]).value && runPred(1, [Prim(name)]).value
    ensures Matches(BareBetweenStretches(stretchEnd), [Prim(name)], runPred, glob)
  {
    BarePrefixesOfChild(stretchEnd, name);
    BareSegmentsAtChild(stretchEnd, name, runPred, glob);
    RootChildSupported(name);
    MatchesAt(BareBetweenStretches(stretchEnd), [Prim(name)], [0, 0], runPred, glob);
  }

  /** The overlap `_Next`'s loop is written for: `//{capital}//{primPath}`
      matches `/World` when `/World` satisfies both predicates, with both
      segments at `/World`. */
  lemma CapitalPrimPathMatchesWorld(runPred: (int, Path) -> FnResult, glob: (string, string) -> bool)
    requires runPred(0, [Prim("World")]).value && runPred(1, [Prim("World")]).value
    ensures Matches(BareBetweenStretches(false), [Prim("World")], runPred, glob)
  {
    BareMatchesChild(false, "World", runPred, glob);
  }

  /** Both segments of `//{a}//{b}` (and of `//{a}//{b}//`) are found at a
      child of the root that passes both predicates. */
  lemma BareSegmentsAtChild(stretchEnd: bool, name: string,
                            runPred: (int, Path) -> FnResult, glob: (string, string) -> bool)
    requires runPred(0, [Prim(name)]).value && runPred(1, [Prim(name)]).value
    ensures SegmentsMatch(BareBetweenStretches(stretchEnd), [[Prim(name)]], [0, 0], runPred, glob)
  {
    var impl := BareBetweenStretches(stretchEnd);
    var locs: seq<nat> := [0, 0];
    forall k | 0 <= k < 2
      ensures SegmentMatchesAt(impl.components, impl.segments[k], [[Prim(name)]], locs[k], runPred, glob)
    {
      BareSegmentAtChild(stretchEnd, name, k, runPred, glob);
    }
    assert Overlap(impl, 1) == 1;
  }

  /** `_Match` examines only a child of the root itself for `//{a}//{b}`. */
  lemma BarePrefixesOfChild(stretchEnd: bool, name: string)
    ensures MatchPrefixes(BareBetweenStretches(stretchEnd), [Prim(name)]) == [[Prim(name)]]
  {
    assert Prefixes([Prim(name)], 1) == [[Prim(name)]];
  }

  /** Segment `k` of `//{a}//{b}` is found at a child of the root that
      passes its predicate. */
  lemma BareSegmentAtChild(stretchEnd: bool, name: string, k: nat,
                           runPred: (int, Path) -> FnResult, glob: (string, string) -> bool)
    requires k < 2 && runPred(k, [Prim(name)]).value
    ensures var impl := BareBetweenStretches(stretchEnd);
      SegmentMatchesAt(impl.components, impl.segments[k], [[Prim(name)]], 0, runPred, glob)
  {
    var impl := BareBetweenStretches(stretchEnd);
    assert AcceptsAt(impl.components, impl.segments[k], [[Prim(name)]], 0, 0, runPred, glob);
  }

  /** `_Match`: matches a path against the pattern from scratch. */
  method Match(impl: PatternImpl, path: Path, runPred: (int, Path) -> FnResult, glob: (string, string) -> bool)
    returns (r: FnResult)
    requires WellFormed(impl)
    ensures !Supported(path) ==> r == MakeConstant(false)
    ensures Supported(path) && !HasPrefix(path, impl.prefix) ==>
      r == if HasPrefix(impl.prefix, path) then MakeVarying(false) else MakeConstant(false)
    ensures Supported(path) && HasPrefix(path, impl.prefix) ==>
      (impl.matchObjType == MatchPropOnly && !IsPrimPropertyPath(path) ==> r == MakeVarying(false))
      && (impl.matchObjType == MatchPrimOnly && IsPrimPropertyPath(path) ==> r == MakeConstant(false))
    ensures (Supported(path) && HasPrefix(path, impl.prefix) && ObjTypeAllows(impl.matchObjType, path)
             && impl.components == []) ==>
      r == if impl.stretchBegin || impl.stretchEnd then MakeConstant(true)
           else if path == impl.prefix then MakeVarying(true)
           else MakeConstant(false)
    ensures r.value ==> Supported(path) && HasPrefix(path, impl.prefix) && ObjTypeAllows(impl.matchObjType, path)
    ensures r.value && impl.components != [] ==> r.constant == impl.stretchEnd
    ensures r.value <==> Matches(impl, path, runPred, glob)
  {
    if !Supported(path) {
      return MakeConstant(false);
    }
    if !HasPrefix(path, impl.prefix) {
      return if HasPrefix(impl.prefix, path) then MakeVarying(false) else MakeConstant(false);
    }
    var isPrimPropertyPath := IsPrimPropertyPath(path);
    if impl.matchObjType == MatchPropOnly && !isPrimPropertyPath {
      return MakeVarying(false);
    }
    if impl.matchObjType == MatchPrimOnly && isPrimPropertyPath {
      return MakeConstant(false);
    }
    if impl.components == [] {
      if impl.stretchBegin || impl.stretchEnd {
        return MakeConstant(true);
      }
      if path == impl.prefix {
        return MakeVarying(true);
      }
      return MakeConstant(false);
    }
    var prefixes := MatchPrefixes(impl, path);
    if prefixes == [] {
      assert forall locs :: !SegmentsMatch(impl, prefixes, locs, runPred, glob) by {
        assert impl.segments[0].begin < impl.segments[0].end;
      }
      return MakeVarying(false);
    }
    r := MatchSegments(impl, prefixes, runPred, glob);
    if r.value && impl.stretchEnd {
      r := MakeConstant(true);
    }
  }

  // ---------------------------------------------------------------------
  // Incremental search: `_PatternIncrSearchState` and `_Next`.

  /** The state an incremental search carries from a path to its
      descendants: the depth at which each segment matched so far, and the
      depth (or -1) from which on the result is known to be
      `constantValue`. */
  datatype SearchState = SearchState(segmentMatchDepths: seq<int>, constantDepth: int, constantValue: bool)

  /** Depths that never decrease. */
  predicate NonDecreasing(ds: seq<int>) {
    forall i, j :: 0 <= i < j < |ds| ==> ds[i] <= ds[j]
  }

  /** The depths below `n`, in order. */
  function Below(ds: seq<int>, n: int): (r: seq<int>)
    ensures forall x :: x in r <==> x in ds && x < n
  {
    if ds == [] then []
    else if ds[|ds| - 1] < n then Below(ds[..|ds| - 1], n) + [ds[|ds| - 1]]
    else Below(ds[..|ds| - 1], n)
  }

  /** On non-decreasing depths, those below `n` are a prefix: exactly the
      ones `Pop` keeps. */
  lemma {:induction false} BelowOfSorted(ds: seq<int>, m: nat, n: int)
    requires NonDecreasing(ds) && m <= |ds|
    requires forall i :: m <= i < |ds| ==> ds[i] >= n
    requires m > 0 ==> ds[m - 1] < n
    ensures Below(ds, n) == ds[..m]
    decreases |ds|
  {
    if ds != [] {
      var front := ds[..|ds| - 1];
      if m == |ds| {
        assert forall i :: 0 <= i < |front| ==> front[i] < n by {
          forall i | 0 <= i < |front|
            ensures front[i] < n
          {
            assert ds[i] <= ds[m - 1];
          }
        }
        AllBelow(front, n);
        assert ds[..m] == front + [ds[|ds| - 1]];
      } else {
        BelowOfSorted(front, m, n);
        assert front[..m] == ds[..m];
      }
    }
  }

  /** Depths all below `n` are kept whole. */
  lemma {:induction false} AllBelow(ds: seq<int>, n: int)
    requires forall i :: 0 <= i < |ds| ==> ds[i] < n
    ensures Below(ds, n) == ds
    decreases |ds|
  {
    if ds != [] {
      AllBelow(ds[..|ds| - 1], n);
      assert ds[..|ds| - 1] + [ds[|ds| - 1]] == ds;
    }
  }

  /** `Pop`: returning to depth `newDepth` drops the trailing segment
      matches at or below it, and forgets a constant result known from
      that depth or deeper. */
  method Pop(s: SearchState, newDepth: int) returns (r: SearchState)
    ensures r.segmentMatchDepths <= s.segmentMatchDepths
    ensures forall i :: |r.segmentMatchDepths| <= i < |s.segmentMatchDepths| ==> s.segmentMatchDepths[i] >= newDepth
    ensures r.segmentMatchDepths != [] ==> r.segmentMatchDepths[|r.segmentMatchDepths| - 1] < newDepth
    ensures NonDecreasing(s.segmentMatchDepths) ==> r.segmentMatchDepths == Below(s.segmentMatchDepths, newDepth)
    ensures r.constantDepth == if newDepth <= s.constantDepth then -1 else s.constantDepth
    ensures r.constantValue == s.constantValue
  {
    var ds := s.segmentMatchDepths;
    while ds != [] && ds[|ds| - 1] >= newDepth
      invariant ds <= s.segmentMatchDepths
      invariant forall i :: |ds| <= i < |s.segmentMatchDepths| ==> s.segmentMatchDepths[i] >= newDepth
    {
      ds := ds[..|ds| - 1];
    }
    if NonDecreasing(s.segmentMatchDepths) {
      BelowOfSorted(s.segmentMatchDepths, |ds|, newDepth);
    }
    var constantDepth := s.constantDepth;
    if newDepth <= constantDepth {
      constantDepth := -1;
    }
    r := SearchState(ds, constantDepth, s.constantValue);
  }

  /** All the non-root prefixes of a path, shortest first. */
  function AllPrefixes(p: Path): seq<Path> {
    Prefixes(p, |p|)
  }

  /** A shorter prefix list is the tail of the full one. */
  lemma PrefixesTail(path: Path, n: nat)
    ensures Prefixes(path, n) == AllPrefixes(path)[|path| - |Prefixes(path, n)|..]
  {
    var ps, full := Prefixes(path, n), AllPrefixes(path);
    PrefixesAt(path, n);
    PrefixesAt(path, |path|);
    forall i | 0 <= i < |ps|
      ensures ps[i] == full[|path| - |ps| + i]
    {
      var k := |path| - |ps| + 1 + i;
      assert ps[i] == path[..k];
      assert full[k - 1] == path[..k];
    }
  }

  /** The prefixes of a path's prefix of depth `d` are the path's first
      `d` prefixes. */
  lemma AllPrefixesOfPrefix(path: Path, d: nat)
    requires d <= |path|
    ensures |AllPrefixes(path)| == |path|
    ensures AllPrefixes(path[..d]) == AllPrefixes(path)[..d]
  {
    var p := path[..d];
    PrefixesAt(p, d);
    PrefixesAt(path, |path|);
    forall i | 0 <= i < d
      ensures AllPrefixes(p)[i] == AllPrefixes(path)[i]
    {
      assert p[..i + 1] == path[..i + 1];
    }
  }

  /** A segment matches in a tail of a prefix list exactly where it
      matches in the whole list, shifted by the prefixes left out. */
  lemma MatchesInTail(comps: seq<Component>, seg: Segment, full: seq<Path>, off: nat, pos: nat,
                      runPred: (int, Path) -> FnResult, glob: (string, string) -> bool)
    requires seg.begin <= seg.end <= |comps| && off <= |full|
    ensures SegmentMatchesAt(comps, seg, full[off..], pos, runPred, glob) <==>
      SegmentMatchesAt(comps, seg, full, off + pos, runPred, glob)
  {
    var tail, start := full[off..], off + pos;
    if SegmentMatchesAt(comps, seg, tail, pos, runPred, glob) {
      forall j: nat | j < Size(seg)
        ensures AcceptsAt(comps, seg, full, start, j, runPred, glob)
      {
        assert AcceptsAt(comps, seg, tail, pos, j, runPred, glob);
        assert tail[pos + j] == full[start + j];
      }
    }
    if SegmentMatchesAt(comps, seg, full, start, runPred, glob) {
      forall j: nat | j < Size(seg)
        ensures AcceptsAt(comps, seg, tail, pos, j, runPred, glob)
      {
        assert AcceptsAt(comps, seg, full, start, j, runPred, glob);
        assert tail[pos + j] == full[start + j];
      }
    }
  }

  /** A segment matches in the front part of a prefix list exactly where
      it matches in the whole list within that part. */
  lemma MatchesInFront(comps: seq<Component>, seg: Segment, full: seq<Path>, n: nat, pos: nat,
                       runPred: (int, Path) -> FnResult, glob: (string, string) -> bool)
    requires seg.begin <= seg.end <= |comps| && n <= |full|
    ensures SegmentMatchesAt(comps, seg, full[..n], pos, runPred, glob) <==>
      pos + Size(seg) <= n && SegmentMatchesAt(comps, seg, full, pos, runPred, glob)
  {
    if pos + Size(seg) <= n {
      forall j: nat | j < Size(seg)
        ensures AcceptsAt(comps, seg, full[..n], pos, j, runPred, glob) <==>
          AcceptsAt(comps, seg, full, pos, j, runPred, glob)
      {
        assert full[..n][pos + j] == full[pos + j];
      }
    }
  }

  /** A match found in a tail of a prefix list is one in the whole list,
      shifted by the prefixes left out. */
  lemma FoundInTail(comps: seq<Component>, seg: Segment, full: seq<Path>, off: nat, end: nat,
                    runPred: (int, Path) -> FnResult, glob: (string, string) -> bool)
    requires seg.begin <= seg.end <= |comps| && off <= |full|
    requires FoundBefore(comps, seg, full[off..], end, runPred, glob)
    ensures FoundBefore(comps, seg, full, off + end, runPred, glob)
  {
    MatchesInTail(comps, seg, full, off, end - Size(seg), runPred, glob);
  }

  /** The depth at which the segment before segment `k` ended: the
      prefix's own depth for the first. */
  function Prev(impl: PatternImpl, es: seq<int>, k: nat): int
    requires k <= |es|
  {
    if k > 0 then es[k - 1] else |impl.prefix|
  }

  /** Segment `k` can end at depth `e` among a path's prefixes `all` (the
      paths `all[e - size]` to `all[e - 1]` pass its components) after the
      previous segment ended at depth `prev`: it starts no earlier than
      there, less an overlap, and right after the pattern's prefix when it
      is a first segment the pattern anchors there. */
  ghost predicate ValidEnd(impl: PatternImpl, all: seq<Path>, k: nat, prev: int, e: int,
                           runPred: (int, Path) -> FnResult, glob: (string, string) -> bool)
    requires WellFormed(impl) && k < |impl.segments|
  {
    var seg := impl.segments[k];
    0 <= e && FoundBefore(impl.components, seg, all, e, runPred, glob)
    && e - Size(seg) + Overlap(impl, k) >= prev
    && (k == 0 && !impl.stretchBegin ==> e - Size(seg) == |impl.prefix|)
  }

  /** The depths from index `from` on lie at depth `n` or one above it,
      each a valid end of its segment after the previous one. */
  ghost predicate DepthsAt(impl: PatternImpl, all: seq<Path>, n: int, ds: seq<int>, from: nat,
                           runPred: (int, Path) -> FnResult, glob: (string, string) -> bool)
    requires WellFormed(impl) && |ds| <= |impl.segments|
  {
    from <= |ds|
    && forall i :: from <= i < |ds| ==>
         n - 1 <= ds[i] <= n && ValidEnd(impl, all, i, Prev(impl, ds, i), ds[i], runPred, glob)
  }

  /** The depths from index `from` on were pushed for `path`: each at the
      path's own depth or one above it, a valid end of its segment after
      the previous one. */
  ghost predicate NewDepths(impl: PatternImpl, path: Path, ds: seq<int>, from: nat,
                            runPred: (int, Path) -> FnResult, glob: (string, string) -> bool)
    requires WellFormed(impl) && |ds| <= |impl.segments|
  {
    DepthsAt(impl, AllPrefixes(path), |path|, ds, from, runPred, glob)
  }

  /** Depths within the path. */
  predicate DepthsWithin(ds: seq<int>, path: Path) {
    forall i :: 0 <= i < |ds| ==> 0 <= ds[i] <= |path|
  }

  /** The depths `_Next` resumes from: a complete match is reopened to
      look for a rematch of the final segment. */
  function Resume(impl: PatternImpl, ds: seq<int>): (r: seq<int>)
    requires |ds| <= |impl.segments|
    ensures r <= ds && (|r| < |impl.segments| || impl.segments == [])
    ensures |ds| < |impl.segments| ==> r == ds
  {
    if impl.segments != [] && |ds| == |impl.segments| then ds[..|ds| - 1] else ds
  }

  /** What `_Next` reports once its segment loop stops: a complete match
      is constant when the pattern ends with a stretch, true when the last
      segment ended at the path itself, and constant false otherwise; an
      incomplete one is varying false. */
  function Finish(impl: PatternImpl, ds: seq<int>, path: Path, cv: bool): (r: (FnResult, SearchState))
    requires |ds| <= |impl.segments| && DepthsWithin(ds, path)
    ensures r.1.segmentMatchDepths == ds
    ensures r.0.constant ==> r.1.constantDepth != -1 && r.1.constantValue == r.0.value
    ensures !r.0.constant ==> r.1.constantDepth == -1
    ensures r.0.value <==> ds != [] && |ds| == |impl.segments| && (impl.stretchEnd || ds[|ds| - 1] == |path|)
    ensures r.0.value ==> (r.0.constant <==> impl.stretchEnd)
  {
    if ds != [] && |ds| == |impl.segments| then
      var last := ds[|ds| - 1];
      if impl.stretchEnd then (MakeConstant(true), SearchState(ds, last, true))
      else if last == |path| then (MakeVarying(true), SearchState(ds, -1, cv))
      else (MakeConstant(false), SearchState(ds, last, false))
    else (MakeVarying(false), SearchState(ds, -1, cv))
  }

  /** A segment found at the end of the path's last `|ps|` prefixes, at
      cursor `end`, after the previous segment's end: the depth it ends at
      is a valid end, at the path or one above it. */
  lemma EndFound(impl: PatternImpl, path: Path, ds: seq<int>, n: nat, ps: seq<Path>, end: nat,
                 runPred: (int, Path) -> FnResult, glob: (string, string) -> bool)
    requires WellFormed(impl) && |ds| < |impl.segments|
    requires var prev := Prev(impl, ds, |ds|);
      0 <= prev <= |path| && MinMatchElts(impl.components, impl.segments[|ds|]) <= |path| - prev <= n
      && n <= |path| - prev + Overlap(impl, |ds|)
    requires |ds| == 0 && !impl.stretchBegin ==> n == |path| - |impl.prefix| <= Size(impl.segments[0])
    requires ps == Prefixes(path, n)
    requires FoundBefore(impl.components, impl.segments[|ds|], ps, end, runPred, glob)
    requires end == |ps| || (end + 1 == |ps| && IsBarePredicate(impl.components[impl.segments[|ds|].begin]))
    ensures var d := if end == |ps| then |path| else |path| - 1;
      ValidEnd(impl, AllPrefixes(path), |ds|, Prev(impl, ds, |ds|), d, runPred, glob)
  {
    var d := if end == |ps| then |path| else |path| - 1;
    assert |ps| <= |path| && d == |path| - |ps| + end;
    PrefixesTail(path, n);
    FoundInTail(impl.components, impl.segments[|ds|], AllPrefixes(path), |path| - |ps|, end, runPred, glob);
  }

  /** A depth for the next segment, at the path or one above it, that is
      a valid end of the segment after the previous one, extends
      `NewDepths`. */
  lemma AppendDepth(impl: PatternImpl, path: Path, ds: seq<int>, from: nat, d: int,
                    runPred: (int, Path) -> FnResult, glob: (string, string) -> bool)
    requires WellFormed(impl) && |ds| < |impl.segments| && DepthsWithin(ds, path)
    requires NewDepths(impl, path, ds, from, runPred, glob)
    requires |path| - 1 <= d <= |path|
    requires ValidEnd(impl, AllPrefixes(path), |ds|, Prev(impl, ds, |ds|), d, runPred, glob)
    ensures NewDepths(impl, path, ds + [d], from, runPred, glob) && DepthsWithin(ds + [d], path)
  {
    var ds' := ds + [d];
    forall i | 0 <= i < |ds'|
      ensures 0 <= ds'[i] <= |path|
    {
      if i < |ds| {
        assert ds'[i] == ds[i];
      }
    }
    forall i | from <= i < |ds'|
      ensures |path| - 1 <= ds'[i] <= |path|
      ensures ValidEnd(impl, AllPrefixes(path), i, Prev(impl, ds', i), ds'[i], runPred, glob)
    {
      if i > 0 {
        assert ds'[i - 1] == ds[i - 1];
      }
      if i < |ds| {
        assert ds'[i] == ds[i];
      } else {
        assert ds'[i] == d;
      }
    }
  }

  /** A segment matches at the end of a tail of a sequence of paths
      exactly when it matches at the end of the whole. */
  lemma EndOfTail(comps: seq<Component>, seg: Segment, tail: seq<Path>, all: seq<Path>, off: nat,
                  runPred: (int, Path) -> FnResult, glob: (string, string) -> bool)
    requires seg.begin <= seg.end <= |comps| && off + Size(seg) <= |all| && tail == all[off..]
    ensures SegmentMatchesAt(comps, seg, tail, |tail| - Size(seg), runPred, glob) <==>
      SegmentMatchesAt(comps, seg, all, |all| - Size(seg), runPred, glob)
  {
    MatchesInTail(comps, seg, all, off, |all| - off - Size(seg), runPred, glob);
  }

  /** What a valid end of segment `|ds|` at the path itself demands: the
      segment matches the path's last elements, which are at least as many
      as it needs after the previous segment, and exactly as many for an
      anchored first segment. */
  lemma MissAtPath(impl: PatternImpl, path: Path, ds: seq<int>,
                   runPred: (int, Path) -> FnResult, glob: (string, string) -> bool)
    requires WellFormed(impl) && |ds| < |impl.segments|
    ensures var seg, prev := impl.segments[|ds|], Prev(impl, ds, |ds|);
      ValidEnd(impl, AllPrefixes(path), |ds|, prev, |path|, runPred, glob) ==>
        Size(seg) <= |path| && MinMatchElts(impl.components, seg) <= |path| - prev
        && (|ds| == 0 && !impl.stretchBegin ==> |path| - |impl.prefix| == Size(seg))
        && SegmentMatchesAt(impl.components, seg, AllPrefixes(path), |path| - Size(seg), runPred, glob)
  {
    PrefixesAt(path, |path|);
  }

  /** A segment that does not match at the end of the path's last `n`
      prefixes has no valid end at the path. */
  lemma MissedAtEnd(impl: PatternImpl, path: Path, ds: seq<int>, n: nat, ps: seq<Path>,
                    runPred: (int, Path) -> FnResult, glob: (string, string) -> bool)
    requires WellFormed(impl) && |ds| < |impl.segments| && ps == Prefixes(path, n)
    requires Size(impl.segments[|ds|]) <= |ps|
    requires !SegmentMatchesAt(impl.components, impl.segments[|ds|], ps, |ps| - Size(impl.segments[|ds|]), runPred, glob)
    ensures !ValidEnd(impl, AllPrefixes(path), |ds|, Prev(impl, ds, |ds|), |path|, runPred, glob)
  {
    var all := AllPrefixes(path);
    assert |all| == |path|;
    PrefixesTail(path, n);
    EndOfTail(impl.components, impl.segments[|ds|], ps, all, |path| - |ps|, runPred, glob);
    MissAtPath(impl, path, ds, runPred, glob);
  }

  /** What one round of `_Next`'s segment loop finds: too few elements
      for the segment yet, too many for an anchored first segment, or the
      outcome of trying it (and the depth it pushes on a match). */
  datatype SegmentTry = TooFew | TooMany | Tried(matched: bool, depth: int)

  /** One round of `_Next`'s segment loop, for segment `|ds|`: it must end
      at the path (or, when it starts with a bare predicate and is not the
      final segment, one element above it). Too many elements only ever
      stop an anchored first segment; a miss means the segment has no
      valid end at the path itself. */
  method TrySegment(impl: PatternImpl, path: Path, ds: seq<int>,
                    runPred: (int, Path) -> FnResult, glob: (string, string) -> bool)
    returns (t: SegmentTry)
    requires WellFormed(impl) && |ds| < |impl.segments| && DepthsWithin(ds, path)
    requires HasPrefix(path, impl.prefix)
    ensures t.TooMany? ==> |ds| == 0 && !impl.stretchBegin && |path| - |impl.prefix| > Size(impl.segments[0])
    ensures t.Tried? && t.matched ==>
      |path| - 1 <= t.depth <= |path| && ValidEnd(impl, AllPrefixes(path), |ds|, Prev(impl, ds, |ds|), t.depth, runPred, glob)
    ensures t.Tried? && t.matched && |ds| == |impl.segments| - 1 ==> t.depth == |path|
    ensures t.TooFew? || (t.Tried? && !t.matched) ==>
      !ValidEnd(impl, AllPrefixes(path), |ds|, Prev(impl, ds, |ds|), |path|, runPred, glob)
  {
    var k := |ds|;
    var seg := impl.segments[k];
    var prev := if k > 0 then ds[k - 1] else |impl.prefix|;
    assert 0 <= prev <= |path| by {
      if k > 0 {
        assert 0 <= ds[k - 1] <= |path|;
      }
    }
    var numMatchComponents := |path| - prev;
    if numMatchComponents < MinMatchElts(impl.components, seg) {
      // Not enough elements yet; a longer path may match.
      MissAtPath(impl, path, ds, runPred, glob);
      return TooFew;
    }
    var hasStretch := k > 0 || impl.stretchBegin;
    if !hasStretch && numMatchComponents > Size(seg) {
      // Too many elements for an anchored first segment.
      return TooMany;
    }
    var extraPrefix := if hasStretch && IsBarePredicate(impl.components[seg.begin]) && |path| != 0 then 1 else 0;
    var matched, depth := TryAtEnd(impl, path, ds, numMatchComponents + extraPrefix, runPred, glob);
    return Tried(matched, depth);
  }

  /** The check of one round of `_Next`'s segment loop, on the path's last
      `n` prefixes: a match gives a valid end at the path or one above it,
      a miss means there is none at the path. */
  method TryAtEnd(impl: PatternImpl, path: Path, ds: seq<int>, n: nat,
                  runPred: (int, Path) -> FnResult, glob: (string, string) -> bool)
    returns (matched: bool, depth: int)
    requires WellFormed(impl) && |ds| < |impl.segments|
    requires var prev := Prev(impl, ds, |ds|);
      0 <= prev <= |path| && MinMatchElts(impl.components, impl.segments[|ds|]) <= |path| - prev
      && n == |path| - prev + if (|ds| > 0 || impl.stretchBegin) && |path| != 0 then Overlap(impl, |ds|) else 0
    requires |ds| == 0 && !impl.stretchBegin ==> |path| - |impl.prefix| <= Size(impl.segments[0])
    ensures matched ==>
      |path| - 1 <= depth <= |path| && ValidEnd(impl, AllPrefixes(path), |ds|, Prev(impl, ds, |ds|), depth, runPred, glob)
    ensures matched && |ds| == |impl.segments| - 1 ==> depth == |path|
    ensures !matched ==> !ValidEnd(impl, AllPrefixes(path), |ds|, Prev(impl, ds, |ds|), |path|, runPred, glob)
  {
    var seg := impl.segments[|ds|];
    var prefixes := Prefixes(path, n);
    if |prefixes| < Size(seg) {
      // No paths to examine, or (for an anchored first segment starting
      // with a bare predicate) fewer than the segment's size, where the
      // cursor would be placed before the first of them.
      MissAtPath(impl, path, ds, runPred, glob);
      return false, 0;
    }
    var m := MatchAtEnd(impl.components, seg, prefixes, |ds| == |impl.segments| - 1, runPred, glob);
    if !m.0 {
      MissedAtEnd(impl, path, ds, n, prefixes, runPred, glob);
      return false, 0;
    }
    EndFound(impl, path, ds, n, prefixes, m.1, runPred, glob);
    return true, if m.1 == |prefixes| then |path| else |path| - 1;
  }

  /** The check one round of `_Next`'s loop makes on the examined paths:
      the final segment must match exactly at their end, any other may
      also end one element before it when it starts with a bare
      predicate. It reports whether it matched and where the match ends. */
  function MatchAtEnd(comps: seq<Component>, seg: Segment, prefixes: seq<Path>, final: bool,
                      runPred: (int, Path) -> FnResult, glob: (string, string) -> bool): (r: (bool, nat))
    requires seg.begin < seg.end <= |comps| && Size(seg) <= |prefixes|
    ensures r.0 ==> FoundBefore(comps, seg, prefixes, r.1, runPred, glob)
    ensures r.0 ==> r.1 == |prefixes| || (!final && r.1 + 1 == |prefixes| && IsBarePredicate(comps[seg.begin]))
    ensures !r.0 ==> !SegmentMatchesAt(comps, seg, prefixes, |prefixes| - Size(seg), runPred, glob)
    ensures final ==> (r.0 <==> SegmentMatchesAt(comps, seg, prefixes, |prefixes| - Size(seg), runPred, glob))
    ensures !final ==> (r.0 <==> MatchesNear(comps, seg, prefixes, |prefixes| - Size(seg), runPred, glob))
  {
    var matchLoc := |prefixes| - Size(seg);
    if final then
      var result := CheckExactMatch(comps, seg, prefixes, matchLoc, runPred, glob);
      (result.0.value, result.1)
    else
      var result := CheckMatch(comps, seg, prefixes, matchLoc, runPred, glob);
      (result.0.value, result.1)
  }

  /** What `_Next`'s segment loop leaves behind, for a path below the
      pattern's prefix: the kept depths plus new valid ends pushed at the
      path or one above it; the match is complete exactly when the result
      is true, and then the final segment ends at the path itself; a
      constant false means an anchored first segment has too many elements
      to match; a varying false means the segment being matched has no
      valid end at the path. */
  ghost predicate SegmentsStep(impl: PatternImpl, search: SearchState, path: Path, r: FnResult, s': SearchState,
                               runPred: (int, Path) -> FnResult, glob: (string, string) -> bool)
    requires WellFormed(impl) && impl.components != [] && |search.segmentMatchDepths| <= |impl.segments|
  {
    var kept := Resume(impl, search.segmentMatchDepths);
    var ds := s'.segmentMatchDepths;
    kept <= ds && |ds| <= |impl.segments|
    && NewDepths(impl, path, ds, |kept|, runPred, glob) && DepthsWithin(ds, path)
    && (|ds| == |impl.segments| ==> ds[|ds| - 1] == |path|)
    && (r.value <==> |ds| == |impl.segments|)
    && (r.value ==> (r.constant <==> impl.stretchEnd))
    && (r.constant ==> s'.constantDepth != -1 && s'.constantValue == r.value)
    && (!r.constant ==> s' == search.(segmentMatchDepths := ds))
    && (r.constant && !r.value ==>
          kept == [] && ds == [] && !impl.stretchBegin && |path| - |impl.prefix| > Size(impl.segments[0]))
    && (!r.value && !r.constant ==>
          !ValidEnd(impl, AllPrefixes(path), |ds|, Prev(impl, ds, |ds|), |path|, runPred, glob))
  }

  /** `_Next`'s segment loop: matches the segments still unmatched against
      the path's last elements, the final one exactly at the end; a
      segment that starts with a bare predicate may match without using up
      an element, so several can be matched in one call. */
  method NextSegments(impl: PatternImpl, search: SearchState, path: Path,
                      runPred: (int, Path) -> FnResult, glob: (string, string) -> bool)
    returns (r: FnResult, s': SearchState)
    requires WellFormed(impl) && impl.components != [] && HasPrefix(path, impl.prefix)
    requires search.constantDepth == -1
    requires |search.segmentMatchDepths| <= |impl.segments| && DepthsWithin(search.segmentMatchDepths, path)
    ensures SegmentsStep(impl, search, path, r, s', runPred, glob)
  {
    var ds := Resume(impl, search.segmentMatchDepths);
    ghost var from := |ds|;
    while true
      invariant from <= |ds| < |impl.segments| && Resume(impl, search.segmentMatchDepths) <= ds
      invariant from == |Resume(impl, search.segmentMatchDepths)|
      invariant NewDepths(impl, path, ds, from, runPred, glob) && DepthsWithin(ds, path)
      decreases |impl.segments| - |ds|
    {
      var isFinalSeg := |ds| == |impl.segments| - 1;
      var t := TrySegment(impl, path, ds, runPred, glob);
      if t.TooFew? {
        return MakeVarying(false), search.(segmentMatchDepths := ds);
      } else if t.TooMany? {
        // No descendant can match either.
        return MakeConstant(false), SearchState(ds, |path|, false);
      }
      if t.matched {
        AppendDepth(impl, path, ds, from, t.depth, runPred, glob);
        ds := ds + [t.depth];
      }
      if !t.matched || isFinalSeg {
        var fin := Finish(impl, ds, path, search.constantValue);
        return fin.0, fin.1;
      }
    }
  }

  /** `_Next`: the next step of an incremental search, for a path visited
      after its ancestors (with the search state popped to its depth). */
  method Next(impl: PatternImpl, search: SearchState, path: Path,
              runPred: (int, Path) -> FnResult, glob: (string, string) -> bool)
    returns (r: FnResult, s': SearchState)
    requires WellFormed(impl)
    requires |search.segmentMatchDepths| <= |impl.segments| && DepthsWithin(search.segmentMatchDepths, path)
    requires search.segmentMatchDepths != [] ==> HasPrefix(path, impl.prefix)
    ensures search.constantDepth != -1 ==> r == MakeConstant(search.constantValue) && s' == search
    ensures search.constantDepth == -1 && !Supported(path) ==>
      r == MakeConstant(false) && s' == search.(constantDepth := 0, constantValue := false)
    ensures (search.constantDepth == -1 && Supported(path) && search.segmentMatchDepths == []
             && !HasPrefix(path, impl.prefix)) ==>
      if HasPrefix(impl.prefix, path) then r == MakeVarying(false) && s' == search
      else r == MakeConstant(false) && s' == search.(constantDepth := |impl.prefix|, constantValue := false)
    ensures (search.constantDepth == -1 && Supported(path) && HasPrefix(path, impl.prefix)) ==>
      (impl.matchObjType == MatchPropOnly && !IsPrimPropertyPath(path) ==> r == MakeVarying(false) && s' == search)
      && (impl.matchObjType == MatchPrimOnly && IsPrimPropertyPath(path) ==> r == MakeConstant(false) && s' == search)
    ensures (search.constantDepth == -1 && Supported(path) && HasPrefix(path, impl.prefix)
             && ObjTypeAllows(impl.matchObjType, path) && impl.components == []) ==>
      if impl.stretchBegin || impl.stretchEnd then
        r == MakeConstant(true) && s' == search.(constantDepth := |impl.prefix|, constantValue := true)
      else if |path| > |impl.prefix| then
        r == MakeConstant(false) && s' == search.(constantDepth := |impl.prefix|, constantValue := false)
      else r == MakeVarying(true) && s' == search
    ensures (search.constantDepth == -1 && Supported(path) && HasPrefix(path, impl.prefix)
             && ObjTypeAllows(impl.matchObjType, path) && impl.components != []) ==>
      SegmentsStep(impl, search, path, r, s', runPred, glob)
    ensures r.constant ==>
      ((s'.constantDepth != -1 && s'.constantValue == r.value)
       || (impl.matchObjType == MatchPrimOnly && IsPrimPropertyPath(path) && s' == search))
    ensures r.value && search.constantDepth == -1 ==>
      Supported(path) && HasPrefix(path, impl.prefix) && ObjTypeAllows(impl.matchObjType, path)
    ensures (r.value && search.constantDepth == -1 && impl.components != []) ==>
      (|s'.segmentMatchDepths| == |impl.segments|
       && (impl.stretchEnd || s'.segmentMatchDepths[|s'.segmentMatchDepths| - 1] == |path|)
       && (r.constant <==> impl.stretchEnd))
    ensures |s'.segmentMatchDepths| <= |impl.segments| && DepthsWithin(s'.segmentMatchDepths, path)
    ensures s'.segmentMatchDepths == search.segmentMatchDepths
      || (Resume(impl, search.segmentMatchDepths) <= s'.segmentMatchDepths
          && NewDepths(impl, path, s'.segmentMatchDepths, |Resume(impl, search.segmentMatchDepths)|, runPred, glob))
  {
    if search.constantDepth != -1 {
      r, s' := MakeConstant(search.constantValue), search;
    } else if !Supported(path) {
      r, s' := MakeConstant(false), search.(constantDepth := 0, constantValue := false);
    } else if search.segmentMatchDepths == [] && !HasPrefix(path, impl.prefix) {
      if !HasPrefix(impl.prefix, path) {
        // Outside the prefix: no descendant can match.
        r, s' := MakeConstant(false), search.(constantDepth := |impl.prefix|, constantValue := false);
      } else {
        // Above the prefix: a descendant may match.
        r, s' := MakeVarying(false), search;
      }
    } else if impl.matchObjType == MatchPropOnly && !IsPrimPropertyPath(path) {
      r, s' := MakeVarying(false), search;
    } else if impl.matchObjType == MatchPrimOnly && IsPrimPropertyPath(path) {
      r, s' := MakeConstant(false), search;
    } else if impl.components == [] {
      if impl.stretchBegin || impl.stretchEnd {
        r, s' := MakeConstant(true), search.(constantDepth := |impl.prefix|, constantValue := true);
      } else if |path| > |impl.prefix| {
        r, s' := MakeConstant(false), search.(constantDepth := |impl.prefix|, constantValue := false);
      } else {
        r, s' := MakeVarying(true), search;
      }
    } else {
      r, s' := NextSegments(impl, search, path, runPred, glob);
    }
  }

  // ---------------------------------------------------------------------
  // `_Next` along a path's prefixes agrees with `_Match`.

  /** Segment ends, one per segment, each a valid end after the previous
      one and within depth `n`, the last at `n` unless the pattern ends
      with a stretch: the segments matched along a path's first `n`
      prefixes. */
  ghost predicate FullChain(impl: PatternImpl, all: seq<Path>, n: int, es: seq<int>,
                            runPred: (int, Path) -> FnResult, glob: (string, string) -> bool)
    requires WellFormed(impl)
  {
    |es| == |impl.segments|
    && (forall i :: 0 <= i < |es| ==> es[i] <= n && ValidEnd(impl, all, i, Prev(impl, es, i), es[i], runPred, glob))
    && (!impl.stretchEnd && es != [] ==> es[|es| - 1] == n)
  }

  /** Where the paths `_Match` examines start among all of a path's
      prefixes: right after the pattern's prefix, or one earlier for a
      leading stretch followed by a bare predicate. */
  function MatchBase(impl: PatternImpl): int
    requires impl.components != []
  {
    |impl.prefix| - if impl.stretchBegin && IsBarePredicate(impl.components[0]) && |impl.prefix| != 0 then 1 else 0
  }

  /** The paths `_Match` examines are all the path's prefixes from
      `MatchBase` on. */
  lemma MatchPrefixesTail(impl: PatternImpl, path: Path)
    requires impl.components != [] && HasPrefix(path, impl.prefix)
    ensures 0 <= MatchBase(impl) <= |path| == |AllPrefixes(path)|
    ensures MatchPrefixes(impl, path) == AllPrefixes(path)[MatchBase(impl)..]
  {
    var extra := if impl.stretchBegin && IsBarePredicate(impl.components[0]) && |impl.prefix| != 0 then 1 else 0;
    var n := |path| - |impl.prefix| + extra;
    if n > 0 {
      PrefixesTail(path, n);
    }
  }

  /** The depths at which segments placed at `locs`, among the paths from
      `base` on, end. */
  function EndsOf(impl: PatternImpl, locs: seq<nat>, base: int): (es: seq<int>)
    requires |locs| <= |impl.segments|
    ensures |es| == |locs|
    ensures forall i :: 0 <= i < |locs| ==> es[i] == base + locs[i] + Size(impl.segments[i])
  {
    seq(|locs|, i requires 0 <= i < |locs| => base + locs[i] + Size(impl.segments[i]))
  }

  /** The places where segments ending at depths `es` start, among the
      paths from `base` on. */
  function StartsOf(impl: PatternImpl, es: seq<int>, base: int): (locs: seq<nat>)
    requires |es| <= |impl.segments|
    requires forall i :: 0 <= i < |es| ==> es[i] - Size(impl.segments[i]) >= base
    ensures |locs| == |es|
    ensures forall i :: 0 <= i < |es| ==> locs[i] == es[i] - Size(impl.segments[i]) - base
  {
    seq(|es|, i requires 0 <= i < |es| => (es[i] - Size(impl.segments[i]) - base) as nat)
  }

  /** Where the segments are placed among the paths from `base` on, they
      end at a chain of valid ends, when `base` lies where the pattern's
      prefix ends (one before it for a leading overlap). */
  lemma ChainFromLocsIn(impl: PatternImpl, all: seq<Path>, base: nat, locs: seq<nat>,
                        runPred: (int, Path) -> FnResult, glob: (string, string) -> bool)
    requires WellFormed(impl) && impl.components != [] && base <= |all|
    requires base + Overlap(impl, 0) >= |impl.prefix| && (!impl.stretchBegin ==> base == |impl.prefix|)
    requires SegmentsMatch(impl, all[base..], locs, runPred, glob)
    ensures FullChain(impl, all, |all|, EndsOf(impl, locs, base), runPred, glob)
  {
    var es := EndsOf(impl, locs, base);
    forall i | 0 <= i < |es|
      ensures es[i] <= |all| && ValidEnd(impl, all, i, Prev(impl, es, i), es[i], runPred, glob)
    {
      LocEndValid(impl, all, base, locs, i, runPred, glob);
    }
  }

  /** Segment `i`, placed at `locs[i]` among the paths from `base` on,
      ends at a valid end after the previous one. */
  lemma LocEndValid(impl: PatternImpl, all: seq<Path>, base: nat, locs: seq<nat>, i: nat,
                    runPred: (int, Path) -> FnResult, glob: (string, string) -> bool)
    requires WellFormed(impl) && impl.components != [] && base <= |all|
    requires base + Overlap(impl, 0) >= |impl.prefix| && (!impl.stretchBegin ==> base == |impl.prefix|)
    requires SegmentsMatch(impl, all[base..], locs, runPred, glob) && i < |locs|
    ensures var es := EndsOf(impl, locs, base);
      es[i] <= |all| && ValidEnd(impl, all, i, Prev(impl, es, i), es[i], runPred, glob)
  {
    var seg := impl.segments[i];
    assert SegmentMatchesAt(impl.components, seg, all[base..], locs[i], runPred, glob);
    MatchesInTail(impl.components, seg, all, base, locs[i], runPred, glob);
    assert i > 0 ==> locs[i - 1] + Size(impl.segments[i - 1]) <= locs[i] + Overlap(impl, i);
  }

  /** Where `_Match` places the segments, they end at a chain of valid
      ends along the path. */
  lemma ChainFromLocs(impl: PatternImpl, path: Path, locs: seq<nat>,
                      runPred: (int, Path) -> FnResult, glob: (string, string) -> bool)
    requires WellFormed(impl) && impl.components != [] && HasPrefix(path, impl.prefix)
    requires SegmentsMatch(impl, MatchPrefixes(impl, path), locs, runPred, glob)
    ensures FullChain(impl, AllPrefixes(path), |path|, EndsOf(impl, locs, MatchBase(impl)), runPred, glob)
  {
    MatchPrefixesTail(impl, path);
    assert impl.segments[0].begin == 0;
    ChainFromLocsIn(impl, AllPrefixes(path), MatchBase(impl), locs, runPred, glob);
  }

  /** Every segment of a chain along the path starts among the paths
      `_Match` examines. */
  lemma {:induction false} ChainStartsAfterBase(impl: PatternImpl, path: Path, es: seq<int>, i: nat,
                                                runPred: (int, Path) -> FnResult, glob: (string, string) -> bool)
    requires WellFormed(impl) && impl.components != [] && HasPrefix(path, impl.prefix)
    requires FullChain(impl, AllPrefixes(path), |path|, es, runPred, glob) && i < |es|
    ensures es[i] - Size(impl.segments[i]) >= MatchBase(impl)
    decreases i
  {
    assert ValidEnd(impl, AllPrefixes(path), i, Prev(impl, es, i), es[i], runPred, glob);
    if i > 0 {
      ChainStartsAfterBase(impl, path, es, i - 1, runPred, glob);
      assert impl.segments[i - 1].begin < impl.segments[i - 1].end;
    }
  }

  /** A valid end of a segment, seen from position `base` on: the segment
      matches there, at its start less `base`. */
  lemma StartOfValidEnd(impl: PatternImpl, all: seq<Path>, k: nat, prev: int, e: int, base: nat, loc: nat,
                        runPred: (int, Path) -> FnResult, glob: (string, string) -> bool)
    requires WellFormed(impl) && k < |impl.segments| && base <= |all|
    requires ValidEnd(impl, all, k, prev, e, runPred, glob) && base + loc == e - Size(impl.segments[k])
    ensures SegmentMatchesAt(impl.components, impl.segments[k], all[base..], loc, runPred, glob)
  {
    MatchesInTail(impl.components, impl.segments[k], all, base, loc, runPred, glob);
  }

  /** Segment `i` of a chain, seen from position `base` on, matches at
      its start less `base`, no earlier than the previous segment's end
      allows. */
  lemma LocOfValidEnd(impl: PatternImpl, all: seq<Path>, base: nat, es: seq<int>, i: nat,
                      runPred: (int, Path) -> FnResult, glob: (string, string) -> bool)
    requires WellFormed(impl) && base <= |all| && FullChain(impl, all, |all|, es, runPred, glob)
    requires forall j :: 0 <= j < |es| ==> es[j] - Size(impl.segments[j]) >= base
    requires i < |es|
    ensures var locs := StartsOf(impl, es, base);
      SegmentMatchesAt(impl.components, impl.segments[i], all[base..], locs[i], runPred, glob)
      && (i > 0 ==> locs[i - 1] + Size(impl.segments[i - 1]) <= locs[i] + Overlap(impl, i))
  {
    var locs := StartsOf(impl, es, base);
    assert ValidEnd(impl, all, i, Prev(impl, es, i), es[i], runPred, glob);
    StartOfValidEnd(impl, all, i, Prev(impl, es, i), es[i], base, locs[i], runPred, glob);
  }

  /** A chain of valid ends places the segments among the paths from
      `base` on, when every segment starts there and `base` is where the
      pattern's prefix ends for an anchored first segment. */
  lemma LocsFromChainIn(impl: PatternImpl, all: seq<Path>, base: nat, es: seq<int>,
                        runPred: (int, Path) -> FnResult, glob: (string, string) -> bool)
    requires WellFormed(impl) && impl.components != [] && base <= |all|
    requires FullChain(impl, all, |all|, es, runPred, glob)
    requires forall i :: 0 <= i < |es| ==> es[i] - Size(impl.segments[i]) >= base
    requires !impl.stretchBegin ==> base == |impl.prefix|
    ensures SegmentsMatch(impl, all[base..], StartsOf(impl, es, base), runPred, glob)
  {
    var locs := StartsOf(impl, es, base);
    forall i | 0 <= i < |es|
      ensures SegmentMatchesAt(impl.components, impl.segments[i], all[base..], locs[i], runPred, glob)
      ensures i > 0 ==> locs[i - 1] + Size(impl.segments[i - 1]) <= locs[i] + Overlap(impl, i)
    {
      LocOfValidEnd(impl, all, base, es, i, runPred, glob);
    }
    assert ValidEnd(impl, all, 0, Prev(impl, es, 0), es[0], runPred, glob);
  }

  /** A chain of valid ends along the path places the segments where
      `_Match`'s relation accepts them. */
  lemma LocsFromChain(impl: PatternImpl, path: Path, es: seq<int>,
                      runPred: (int, Path) -> FnResult, glob: (string, string) -> bool)
    requires WellFormed(impl) && impl.components != [] && HasPrefix(path, impl.prefix)
    requires FullChain(impl, AllPrefixes(path), |path|, es, runPred, glob)
    ensures exists locs :: SegmentsMatch(impl, MatchPrefixes(impl, path), locs, runPred, glob)
  {
    var base := MatchBase(impl);
    MatchPrefixesTail(impl, path);
    forall i | 0 <= i < |es|
      ensures es[i] - Size(impl.segments[i]) >= base
    {
      ChainStartsAfterBase(impl, path, es, i, runPred, glob);
    }
    LocsFromChainIn(impl, AllPrefixes(path), base, es, runPred, glob);
  }

  /** Valid ends among a front part of the prefixes are the valid ends
      within it. */
  lemma ValidEndInFront(impl: PatternImpl, all: seq<Path>, n: nat, k: nat, prev: int, e: int,
                        runPred: (int, Path) -> FnResult, glob: (string, string) -> bool)
    requires WellFormed(impl) && k < |impl.segments| && n <= |all|
    ensures ValidEnd(impl, all[..n], k, prev, e, runPred, glob) <==>
      e <= n && ValidEnd(impl, all, k, prev, e, runPred, glob)
  {
    var seg := impl.segments[k];
    if Size(seg) <= e {
      MatchesInFront(impl.components, seg, all, n, e - Size(seg), runPred, glob);
    }
  }

  /** A chain within depth `n` is the same among the first `n` prefixes as
      among them all. */
  lemma FullChainInFront(impl: PatternImpl, all: seq<Path>, n: nat, es: seq<int>,
                         runPred: (int, Path) -> FnResult, glob: (string, string) -> bool)
    requires WellFormed(impl) && n <= |all|
    ensures FullChain(impl, all[..n], n, es, runPred, glob) <==> FullChain(impl, all, n, es, runPred, glob)
  {
    if |es| == |impl.segments| {
      forall i | 0 <= i < |es| {
        ValidEndInFront(impl, all, n, i, Prev(impl, es, i), es[i], runPred, glob);
      }
    }
  }

  /** The segments match among the paths `_Match` examines for the
      path's prefix of depth `d` exactly when a chain of valid ends within
      depth `d` runs along the path's prefixes. */
  lemma SegmentsMatchIffChain(impl: PatternImpl, path: Path, d: nat,
                              runPred: (int, Path) -> FnResult, glob: (string, string) -> bool)
    requires WellFormed(impl) && impl.components != [] && d <= |path| && HasPrefix(path[..d], impl.prefix)
    ensures (exists locs :: SegmentsMatch(impl, MatchPrefixes(impl, path[..d]), locs, runPred, glob)) <==>
      exists es :: FullChain(impl, AllPrefixes(path), d, es, runPred, glob)
  {
    var p := path[..d];
    AllPrefixesOfPrefix(path, d);
    if locs :| SegmentsMatch(impl, MatchPrefixes(impl, p), locs, runPred, glob) {
      var es := EndsOf(impl, locs, MatchBase(impl));
      ChainFromLocs(impl, p, locs, runPred, glob);
      FullChainInFront(impl, AllPrefixes(path), d, es, runPred, glob);
    }
    if es :| FullChain(impl, AllPrefixes(path), d, es, runPred, glob) {
      FullChainInFront(impl, AllPrefixes(path), d, es, runPred, glob);
      LocsFromChain(impl, p, es, runPred, glob);
    }
  }

  /** Every depth is a valid end of its segment after the previous one,
      no deeper than `d`. */
  ghost predicate EndsValid(impl: PatternImpl, all: seq<Path>, ds: seq<int>, d: int,
                            runPred: (int, Path) -> FnResult, glob: (string, string) -> bool)
    requires WellFormed(impl) && |ds| <= |impl.segments|
  {
    forall i :: 0 <= i < |ds| ==> ds[i] <= d && ValidEnd(impl, all, i, Prev(impl, ds, i), ds[i], runPred, glob)
  }

  /** Every depth but the final segment's is the earliest valid end of its
      segment after the previous one. */
  ghost predicate Earliest(impl: PatternImpl, all: seq<Path>, ds: seq<int>,
                           runPred: (int, Path) -> FnResult, glob: (string, string) -> bool)
    requires WellFormed(impl) && |ds| <= |impl.segments|
  {
    forall i, e :: 0 <= i < |ds| && i < |impl.segments| - 1 && e < ds[i] ==>
      !ValidEnd(impl, all, i, Prev(impl, ds, i), e, runPred, glob)
  }

  /** The segment being matched has no valid end by depth `d` (the final
      one, without a trailing stretch, none at `d`). */
  ghost predicate Pending(impl: PatternImpl, all: seq<Path>, ds: seq<int>, d: int,
                          runPred: (int, Path) -> FnResult, glob: (string, string) -> bool)
    requires WellFormed(impl) && |ds| < |impl.segments|
  {
    forall e :: e <= d && (|ds| < |impl.segments| - 1 || impl.stretchEnd || e == d) ==>
      !ValidEnd(impl, all, |ds|, Prev(impl, ds, |ds|), e, runPred, glob)
  }

  /** The search state after depth `d`, walking down a path: every depth
      is a valid end of its segment after the previous one, the earliest
      for all but the final segment; the segment being matched has no
      valid end by depth `d` (the final one, without a trailing stretch,
      none at `d`); a complete match ends at `d`. */
  ghost predicate Greedy(impl: PatternImpl, all: seq<Path>, ds: seq<int>, d: int,
                         runPred: (int, Path) -> FnResult, glob: (string, string) -> bool)
    requires WellFormed(impl) && impl.segments != [] && |ds| <= |impl.segments|
  {
    EndsValid(impl, all, ds, d, runPred, glob) && Earliest(impl, all, ds, runPred, glob)
    && (|ds| < |impl.segments| ==> Pending(impl, all, ds, d, runPred, glob))
    && (|ds| == |impl.segments| ==> !impl.stretchEnd && ds[|ds| - 1] == d)
  }

  /** The greedy ends come no later than those of any chain. */
  lemma {:induction false} GreedyBelowChain(impl: PatternImpl, all: seq<Path>, ds: seq<int>, d: int, es: seq<int>, i: nat,
                                            runPred: (int, Path) -> FnResult, glob: (string, string) -> bool)
    requires WellFormed(impl) && impl.segments != [] && |ds| < |impl.segments|
    requires Greedy(impl, all, ds, d, runPred, glob) && FullChain(impl, all, d, es, runPred, glob)
    requires i <= |ds|
    ensures Prev(impl, ds, i) <= Prev(impl, es, i)
    decreases i
  {
    if i > 0 {
      GreedyBelowChain(impl, all, ds, d, es, i - 1, runPred, glob);
      assert ValidEnd(impl, all, i - 1, Prev(impl, ds, i - 1), es[i - 1], runPred, glob);
    }
  }

  /** A greedy state that has not completed the segments by depth `d`
      leaves no chain within depth `d`. */
  lemma GreedyBlocks(impl: PatternImpl, all: seq<Path>, ds: seq<int>, d: int, es: seq<int>,
                     runPred: (int, Path) -> FnResult, glob: (string, string) -> bool)
    requires WellFormed(impl) && impl.segments != [] && |ds| < |impl.segments|
    requires Greedy(impl, all, ds, d, runPred, glob)
    ensures !FullChain(impl, all, d, es, runPred, glob)
  {
    if FullChain(impl, all, d, es, runPred, glob) {
      GreedyBelowChain(impl, all, ds, d, es, |ds|, runPred, glob);
      assert ValidEnd(impl, all, |ds|, Prev(impl, ds, |ds|), es[|ds|], runPred, glob);
      assert false;
    }
  }

  /** Depths that never decrease from one at the top, `d`, and stay no
      deeper than it, all lie at `d`. */
  lemma {:induction false} StaysAtTop(ds: seq<int>, from: nat, d: int, i: nat)
    requires from <= i < |ds| && ds[from] == d
    requires forall j :: from < j < |ds| ==> ds[j - 1] <= ds[j] <= d
    ensures ds[i] == d
    decreases i
  {
    if i > from {
      StaysAtTop(ds, from, d, i - 1);
    }
  }

  /** Depths pushed for the path's prefix of depth `d` are valid ends
      among all of the path's prefixes. */
  lemma DepthsOfPrefix(impl: PatternImpl, path: Path, d: nat, ds: seq<int>, from: nat,
                       runPred: (int, Path) -> FnResult, glob: (string, string) -> bool)
    requires WellFormed(impl) && |ds| <= |impl.segments| && d <= |path|
    ensures NewDepths(impl, path[..d], ds, from, runPred, glob) ==>
      DepthsAt(impl, AllPrefixes(path), d, ds, from, runPred, glob)
    ensures |ds| < |impl.segments| ==>
      (ValidEnd(impl, AllPrefixes(path[..d]), |ds|, Prev(impl, ds, |ds|), d, runPred, glob) <==>
       ValidEnd(impl, AllPrefixes(path), |ds|, Prev(impl, ds, |ds|), d, runPred, glob))
  {
    AllPrefixesOfPrefix(path, d);
    forall i | 0 <= i < |ds| {
      ValidEndInFront(impl, AllPrefixes(path), d, i, Prev(impl, ds, i), ds[i], runPred, glob);
    }
    if |ds| < |impl.segments| {
      ValidEndInFront(impl, AllPrefixes(path), d, |ds|, Prev(impl, ds, |ds|), d, runPred, glob);
    }
  }

  /** The first depth pushed for a segment that is not the final one lies
      at the depth reached, when the segment had no valid end before it. */
  lemma FirstPushAtDepth(impl: PatternImpl, all: seq<Path>, ds0: seq<int>, ds: seq<int>, d: int,
                         runPred: (int, Path) -> FnResult, glob: (string, string) -> bool)
    requires WellFormed(impl) && |ds0| < |impl.segments| - 1 && ds0 < ds
    requires Pending(impl, all, ds0, d - 1, runPred, glob)
    requires var e := ds[|ds0|];
      d - 1 <= e <= d && ValidEnd(impl, all, |ds0|, Prev(impl, ds, |ds0|), e, runPred, glob)
    ensures ds[|ds0|] == d
  {
    assert Prev(impl, ds, |ds0|) == Prev(impl, ds0, |ds0|);
  }

  /** Depths pushed at `d` after the kept ones are the earliest valid
      ends: the first because the segment had no valid end before `d`,
      the others because they start after a segment ending at `d`. */
  lemma EarliestStep(impl: PatternImpl, all: seq<Path>, ds0: seq<int>, ds: seq<int>, d: int,
                     runPred: (int, Path) -> FnResult, glob: (string, string) -> bool)
    requires WellFormed(impl) && impl.segments != [] && |ds0| <= |impl.segments| && |ds| <= |impl.segments|
    requires Greedy(impl, all, ds0, d - 1, runPred, glob)
    requires Resume(impl, ds0) <= ds
    requires forall i :: |Resume(impl, ds0)| <= i < |ds| ==> ds[i] == d
    ensures Earliest(impl, all, ds, runPred, glob)
  {
    var kept := Resume(impl, ds0);
    forall i, e | 0 <= i < |ds| && i < |impl.segments| - 1 && e < ds[i]
      ensures !ValidEnd(impl, all, i, Prev(impl, ds, i), e, runPred, glob)
    {
      if i < |kept| {
        assert ds[i] == ds0[i] && Prev(impl, ds, i) == Prev(impl, ds0, i);
      } else if i == |kept| {
        assert kept == ds0 && Prev(impl, ds, i) == Prev(impl, ds0, |ds0|);
        assert Pending(impl, all, ds0, d - 1, runPred, glob);
      } else {
        assert Prev(impl, ds, i) == ds[i - 1] == d;
        EndsAfter(impl, all, i, d, e, runPred, glob);
      }
    }
  }

  /** After depths pushed at `d`, the segment being matched has no valid
      end by `d`: none at `d` itself, none earlier for the segment that
      was pending before, and none before the depth a pushed segment
      ends at. */
  lemma PendingStep(impl: PatternImpl, all: seq<Path>, ds0: seq<int>, ds: seq<int>, d: int,
                    runPred: (int, Path) -> FnResult, glob: (string, string) -> bool)
    requires WellFormed(impl) && impl.segments != [] && |ds0| <= |impl.segments| && |ds| < |impl.segments|
    requires Greedy(impl, all, ds0, d - 1, runPred, glob)
    requires Resume(impl, ds0) <= ds
    requires forall i :: |Resume(impl, ds0)| <= i < |ds| ==> ds[i] == d
    requires !ValidEnd(impl, all, |ds|, Prev(impl, ds, |ds|), d, runPred, glob)
    ensures Pending(impl, all, ds, d, runPred, glob)
  {
    var kept := Resume(impl, ds0);
    var k := |ds|;
    forall e | e <= d && (k < |impl.segments| - 1 || impl.stretchEnd || e == d)
      ensures !ValidEnd(impl, all, k, Prev(impl, ds, k), e, runPred, glob)
    {
      if e < d && k == |kept| && |ds0| < |impl.segments| {
        assert ds == ds0;
        assert Pending(impl, all, ds0, d - 1, runPred, glob);
      } else if e < d && k != |kept| {
        assert Prev(impl, ds, k) == ds[k - 1] == d;
        EndsAfter(impl, all, k, d, e, runPred, glob);
      }
    }
  }

  /** The walk's greedy state carries over a depth: kept depths stay,
      depths pushed at `d` are the earliest valid ends, and the segment
      being matched has no valid end at `d`. */
  lemma GreedyStep(impl: PatternImpl, all: seq<Path>, ds0: seq<int>, ds: seq<int>, d: int,
                   runPred: (int, Path) -> FnResult, glob: (string, string) -> bool)
    requires WellFormed(impl) && impl.segments != [] && |ds0| <= |impl.segments| && |ds| <= |impl.segments|
    requires Greedy(impl, all, ds0, d - 1, runPred, glob)
    requires Resume(impl, ds0) <= ds
    requires forall i :: |Resume(impl, ds0)| <= i < |ds| ==> ds[i] == d
    requires forall i :: 0 <= i < |ds| ==> ValidEnd(impl, all, i, Prev(impl, ds, i), ds[i], runPred, glob)
    requires |ds| == |impl.segments| ==> !impl.stretchEnd && ds[|ds| - 1] == d
    requires |ds| < |impl.segments| ==> !ValidEnd(impl, all, |ds|, Prev(impl, ds, |ds|), d, runPred, glob)
    ensures Greedy(impl, all, ds, d, runPred, glob)
  {
    var kept := Resume(impl, ds0);
    forall i | 0 <= i < |ds|
      ensures ds[i] <= d
    {
      if i < |kept| {
        assert ds[i] == ds0[i];
      }
    }
    EarliestStep(impl, all, ds0, ds, d, runPred, glob);
    if |ds| < |impl.segments| {
      PendingStep(impl, all, ds0, ds, d, runPred, glob);
    }
  }

  /** Valid ends after depth `d` lie no higher than `d`. */
  lemma EndsAfter(impl: PatternImpl, all: seq<Path>, k: nat, d: int, e: int,
                  runPred: (int, Path) -> FnResult, glob: (string, string) -> bool)
    requires WellFormed(impl) && k < |impl.segments|
    ensures ValidEnd(impl, all, k, d, e, runPred, glob) ==> e >= d
  {
    assert impl.segments[k].begin < impl.segments[k].end;
  }

  /** A path's prefixes are supported when the path is; only the path
      itself can be a property path. */
  lemma SupportedPrefix(path: Path, d: nat)
    requires Supported(path) && d <= |path|
    ensures Supported(path[..d])
    ensures d < |path| ==> !IsPrimPropertyPath(path[..d])
  {
    if d < |path| {
      assert d > 0 ==> path[..d][d - 1] == path[d - 1];
    } else {
      assert path[..d] == path;
    }
  }

  /** Below a prefix of the path that lies below the pattern's prefix,
      every deeper prefix lies below it too. */
  lemma PrefixGrows(path: Path, prefix: Path, d: nat, d': nat)
    requires d <= d' <= |path| && HasPrefix(path[..d], prefix)
    ensures HasPrefix(path[..d'], prefix)
  {
    assert prefix == path[..d][..|prefix|] == path[..|prefix|] == path[..d'][..|prefix|];
  }

  /** A prefix of the path below the pattern's prefix comes after a
      prefix of the path that either lies below it or above it. */
  lemma PrefixSplit(path: Path, prefix: Path, d: nat, d': nat)
    requires d <= d' <= |path| && HasPrefix(path[..d'], prefix)
    ensures HasPrefix(path[..d], prefix) || HasPrefix(prefix, path[..d])
  {
    if |prefix| <= d {
      assert prefix == path[..d'][..|prefix|] == path[..d][..|prefix|];
    } else {
      assert path[..d] == prefix[..d];
    }
  }

  /** Where the walk stands before visiting the path's prefix of depth
      `d`: a constant state gives the answer for every deeper prefix;
      otherwise the state is greedy up to depth `d - 1`. */
  ghost predicate WalkState(impl: PatternImpl, path: Path, s: SearchState, d: nat,
                            runPred: (int, Path) -> FnResult, glob: (string, string) -> bool)
    requires WellFormed(impl) && d <= |path|
  {
    |s.segmentMatchDepths| <= |impl.segments|
    && DepthsWithin(s.segmentMatchDepths, path[..d])
    && (s.segmentMatchDepths != [] ==> HasPrefix(path[..d], impl.prefix))
    && (s.constantDepth != -1 ==>
          forall d' :: d <= d' <= |path| ==> (Matches(impl, path[..d'], runPred, glob) <==> s.constantValue))
    && (s.constantDepth == -1 && impl.components == [] ==> s.segmentMatchDepths == [])
    && (s.constantDepth == -1 && impl.components != [] ==>
          Greedy(impl, AllPrefixes(path), s.segmentMatchDepths, d - 1, runPred, glob))
  }

  /** A walk step at a prefix of the path not yet below the pattern's
      prefix: no match there; a prefix outside the pattern's prefix
      rules out every deeper one, and one above it leaves the state
      greedy. */
  lemma BeforePrefixWalk(impl: PatternImpl, path: Path, d: nat,
                         runPred: (int, Path) -> FnResult, glob: (string, string) -> bool)
    requires WellFormed(impl) && d <= |path| && !HasPrefix(path[..d], impl.prefix)
    ensures !Matches(impl, path[..d], runPred, glob)
    ensures !HasPrefix(impl.prefix, path[..d]) ==>
      forall d' :: d <= d' <= |path| ==> !Matches(impl, path[..d'], runPred, glob)
    ensures HasPrefix(impl.prefix, path[..d]) && impl.components != [] ==>
      Greedy(impl, AllPrefixes(path), [], d, runPred, glob)
  {
    forall d' | d <= d' <= |path| && HasPrefix(path[..d'], impl.prefix)
      ensures HasPrefix(impl.prefix, path[..d])
    {
      PrefixSplit(path, impl.prefix, d, d');
    }
    if HasPrefix(impl.prefix, path[..d]) && impl.components != [] {
      forall e | e <= d
        ensures !ValidEnd(impl, AllPrefixes(path), 0, |impl.prefix|, e, runPred, glob)
      {
        EndsAfter(impl, AllPrefixes(path), 0, |impl.prefix|, e, runPred, glob);
      }
    }
  }

  /** A walk step for a pattern without components: `_Next` decides from
      the prefix and the stretches alone, as `Matches` does. */
  lemma NoComponentsWalk(impl: PatternImpl, path: Path, s: SearchState, d: nat, r: FnResult, s': SearchState,
                         runPred: (int, Path) -> FnResult, glob: (string, string) -> bool)
    requires WellFormed(impl) && impl.components == [] && Supported(path) && d <= |path|
    requires impl.matchObjType != MatchPropOnly && (impl.stretchBegin ==> impl.stretchEnd)
    requires impl.stretchEnd ==> impl.matchObjType != MatchPrimOnly
    requires HasPrefix(path[..d], impl.prefix) && ObjTypeAllows(impl.matchObjType, path[..d])
    requires s.constantDepth == -1 && s.segmentMatchDepths == []
    requires if impl.stretchBegin || impl.stretchEnd then
        r == MakeConstant(true) && s' == s.(constantDepth := |impl.prefix|, constantValue := true)
      else if d > |impl.prefix| then
        r == MakeConstant(false) && s' == s.(constantDepth := |impl.prefix|, constantValue := false)
      else r == MakeVarying(true) && s' == s
    ensures r.value <==> Matches(impl, path[..d], runPred, glob)
    ensures d < |path| ==> WalkState(impl, path, s', d + 1, runPred, glob)
  {
    forall d' | d <= d' <= |path|
      ensures Matches(impl, path[..d'], runPred, glob) <==>
        impl.stretchBegin || impl.stretchEnd || path[..d'] == impl.prefix
    {
      SupportedPrefix(path, d');
      PrefixGrows(path, impl.prefix, d, d');
    }
    if !impl.stretchBegin && !impl.stretchEnd && d <= |impl.prefix| {
      assert path[..d] == impl.prefix;
    }
  }

  /** The depths after a walk step: the kept ones stay, the pushed ones
      lie at the depth reached, and all are valid ends within it. */
  lemma StepEnds(impl: PatternImpl, all: seq<Path>, ds0: seq<int>, ds: seq<int>, d: int,
                 runPred: (int, Path) -> FnResult, glob: (string, string) -> bool)
    requires WellFormed(impl) && impl.segments != [] && |ds0| <= |impl.segments| && |ds| <= |impl.segments|
    requires Greedy(impl, all, ds0, d - 1, runPred, glob)
    requires Resume(impl, ds0) <= ds
    requires DepthsAt(impl, all, d, ds, |Resume(impl, ds0)|, runPred, glob)
    requires |ds| == |impl.segments| ==> ds[|ds| - 1] == d
    ensures forall i :: |Resume(impl, ds0)| <= i < |ds| ==> ds[i] == d
    ensures EndsValid(impl, all, ds, d, runPred, glob)
  {
    var kept := Resume(impl, ds0);
    forall i | |kept| < i < |ds|
      ensures ds[i - 1] <= ds[i] <= d
    {
      assert Prev(impl, ds, i) == ds[i - 1];
      EndsAfter(impl, all, i, ds[i - 1], ds[i], runPred, glob);
    }
    if |kept| < |ds| && |kept| < |impl.segments| - 1 {
      assert kept == ds0;
      FirstPushAtDepth(impl, all, ds0, ds, d, runPred, glob);
    }
    forall i | |kept| <= i < |ds|
      ensures ds[i] == d
    {
      StaysAtTop(ds, |kept|, d, i);
    }
    forall i | 0 <= i < |kept|
      ensures ds[i] <= d && ValidEnd(impl, all, i, Prev(impl, ds, i), ds[i], runPred, glob)
    {
      assert ds[i] == ds0[i] && Prev(impl, ds, i) == Prev(impl, ds0, i);
    }
  }

  /** A walk step through `_Next`'s segment loop, at the path's prefix of
      depth `d` below the pattern's prefix: the result is whether that
      prefix matches, and the state carried on stays greedy, or is
      constant with the answer for every deeper prefix. */
  lemma SegmentsWalk(impl: PatternImpl, path: Path, s: SearchState, d: nat, r: FnResult, s': SearchState,
                     runPred: (int, Path) -> FnResult, glob: (string, string) -> bool)
    requires WellFormed(impl) && impl.components != [] && Supported(path) && d <= |path|
    requires impl.matchObjType != MatchPropOnly && (impl.stretchEnd ==> impl.matchObjType != MatchPrimOnly)
    requires |s.segmentMatchDepths| <= |impl.segments| && s.constantDepth == -1
    requires Greedy(impl, AllPrefixes(path), s.segmentMatchDepths, d - 1, runPred, glob)
    requires HasPrefix(path[..d], impl.prefix) && ObjTypeAllows(impl.matchObjType, path[..d])
    requires SegmentsStep(impl, s, path[..d], r, s', runPred, glob)
    ensures r.value <==> Matches(impl, path[..d], runPred, glob)
    ensures d < |path| ==> WalkState(impl, path, s', d + 1, runPred, glob)
  {
    var ds := s'.segmentMatchDepths;
    SegmentsOutcome(impl, path, s, d, r, s', runPred, glob);
    if d < |path| {
      PrefixGrows(path, impl.prefix, d, d + 1);
      assert DepthsWithin(ds, path[..d + 1]);
    }
  }

  /** What a walk step through `_Next`'s segment loop decides: whether the
      prefix of depth `d` matches, and either a constant answer for every
      deeper prefix or a greedy state at `d`. */
  lemma SegmentsOutcome(impl: PatternImpl, path: Path, s: SearchState, d: nat, r: FnResult, s': SearchState,
                        runPred: (int, Path) -> FnResult, glob: (string, string) -> bool)
    requires WellFormed(impl) && impl.components != [] && Supported(path) && d <= |path|
    requires impl.matchObjType != MatchPropOnly && (impl.stretchEnd ==> impl.matchObjType != MatchPrimOnly)
    requires |s.segmentMatchDepths| <= |impl.segments| && s.constantDepth == -1
    requires Greedy(impl, AllPrefixes(path), s.segmentMatchDepths, d - 1, runPred, glob)
    requires HasPrefix(path[..d], impl.prefix) && ObjTypeAllows(impl.matchObjType, path[..d])
    requires SegmentsStep(impl, s, path[..d], r, s', runPred, glob)
    ensures r.value <==> Matches(impl, path[..d], runPred, glob)
    ensures s'.constantDepth != -1 ==>
      forall d' :: d <= d' <= |path| ==> (Matches(impl, path[..d'], runPred, glob) <==> s'.constantValue)
    ensures s'.constantDepth == -1 ==> Greedy(impl, AllPrefixes(path), s'.segmentMatchDepths, d, runPred, glob)
  {
    if r.value {
      OutcomeComplete(impl, path, s, d, r, s', runPred, glob);
    } else if !r.constant {
      OutcomeMiss(impl, path, s, d, r, s', runPred, glob);
    } else {
      OutcomeTooMany(impl, path, s, d, r, s', runPred, glob);
    }
  }

  /** `SegmentsOutcome` when the segment loop completes the segments. */
  lemma OutcomeComplete(impl: PatternImpl, path: Path, s: SearchState, d: nat, r: FnResult, s': SearchState,
                        runPred: (int, Path) -> FnResult, glob: (string, string) -> bool)
    requires WellFormed(impl) && impl.components != [] && Supported(path) && d <= |path|
    requires impl.matchObjType != MatchPropOnly && (impl.stretchEnd ==> impl.matchObjType != MatchPrimOnly)
    requires |s.segmentMatchDepths| <= |impl.segments| && s.constantDepth == -1
    requires Greedy(impl, AllPrefixes(path), s.segmentMatchDepths, d - 1, runPred, glob)
    requires HasPrefix(path[..d], impl.prefix) && ObjTypeAllows(impl.matchObjType, path[..d])
    requires SegmentsStep(impl, s, path[..d], r, s', runPred, glob)
    requires r.value
    ensures r.value <==> Matches(impl, path[..d], runPred, glob)
    ensures s'.constantDepth != -1 ==>
      forall d' :: d <= d' <= |path| ==> (Matches(impl, path[..d'], runPred, glob) <==> s'.constantValue)
    ensures s'.constantDepth == -1 ==> Greedy(impl, AllPrefixes(path), s'.segmentMatchDepths, d, runPred, glob)
  {
    DepthsLifted(impl, path, s.segmentMatchDepths, s'.segmentMatchDepths, d, runPred, glob);
    CompleteOutcome(impl, path, s.segmentMatchDepths, d, r, s', runPred, glob);
  }

  /** `SegmentsOutcome` when the segment reached has no valid end. */
  lemma OutcomeMiss(impl: PatternImpl, path: Path, s: SearchState, d: nat, r: FnResult, s': SearchState,
                        runPred: (int, Path) -> FnResult, glob: (string, string) -> bool)
    requires WellFormed(impl) && impl.components != [] && Supported(path) && d <= |path|
    requires impl.matchObjType != MatchPropOnly && (impl.stretchEnd ==> impl.matchObjType != MatchPrimOnly)
    requires |s.segmentMatchDepths| <= |impl.segments| && s.constantDepth == -1
    requires Greedy(impl, AllPrefixes(path), s.segmentMatchDepths, d - 1, runPred, glob)
    requires HasPrefix(path[..d], impl.prefix) && ObjTypeAllows(impl.matchObjType, path[..d])
    requires SegmentsStep(impl, s, path[..d], r, s', runPred, glob)
    requires !r.value && !r.constant
    ensures s'.constantDepth == -1 && !Matches(impl, path[..d], runPred, glob)
    ensures Greedy(impl, AllPrefixes(path), s'.segmentMatchDepths, d, runPred, glob)
  {
    DepthsLifted(impl, path, s.segmentMatchDepths, s'.segmentMatchDepths, d, runPred, glob);
    MissWalk(impl, path, s.segmentMatchDepths, s'.segmentMatchDepths, d, runPred, glob);
  }

  /** `SegmentsOutcome` when an anchored first segment has too many
      elements. */
  lemma OutcomeTooMany(impl: PatternImpl, path: Path, s: SearchState, d: nat, r: FnResult, s': SearchState,
                        runPred: (int, Path) -> FnResult, glob: (string, string) -> bool)
    requires WellFormed(impl) && impl.components != [] && Supported(path) && d <= |path|
    requires impl.matchObjType != MatchPropOnly && (impl.stretchEnd ==> impl.matchObjType != MatchPrimOnly)
    requires |s.segmentMatchDepths| <= |impl.segments| && s.constantDepth == -1
    requires Greedy(impl, AllPrefixes(path), s.segmentMatchDepths, d - 1, runPred, glob)
    requires HasPrefix(path[..d], impl.prefix) && ObjTypeAllows(impl.matchObjType, path[..d])
    requires SegmentsStep(impl, s, path[..d], r, s', runPred, glob)
    requires !r.value && r.constant
    ensures s'.constantDepth != -1 && !s'.constantValue
    ensures forall d' :: d <= d' <= |path| ==> !Matches(impl, path[..d'], runPred, glob)
  {
    TooManyWalk(impl, path, s.segmentMatchDepths, d, runPred, glob);
  }

  /** `SegmentsOutcome` when the segment loop completes the segments at
      depth `d`. */
  lemma CompleteOutcome(impl: PatternImpl, path: Path, ds0: seq<int>, d: nat, r: FnResult, s': SearchState,
                        runPred: (int, Path) -> FnResult, glob: (string, string) -> bool)
    requires WellFormed(impl) && impl.components != [] && Supported(path) && d <= |path|
    requires impl.matchObjType != MatchPropOnly && (impl.stretchEnd ==> impl.matchObjType != MatchPrimOnly)
    requires HasPrefix(path[..d], impl.prefix) && ObjTypeAllows(impl.matchObjType, path[..d])
    requires |ds0| <= |impl.segments| && Greedy(impl, AllPrefixes(path), ds0, d - 1, runPred, glob)
    requires var ds := s'.segmentMatchDepths;
      |ds| == |impl.segments| && Resume(impl, ds0) <= ds && ds[|ds| - 1] == d
      && (forall i :: |Resume(impl, ds0)| <= i < |ds| ==> ds[i] == d)
      && EndsValid(impl, AllPrefixes(path), ds, d, runPred, glob)
    requires r.value && (r.constant <==> impl.stretchEnd)
    requires r.constant ==> s'.constantDepth != -1 && s'.constantValue
    requires !r.constant ==> s'.constantDepth == -1
    ensures Matches(impl, path[..d], runPred, glob)
    ensures s'.constantDepth != -1 ==>
      forall d' :: d <= d' <= |path| ==> (Matches(impl, path[..d'], runPred, glob) <==> s'.constantValue)
    ensures s'.constantDepth == -1 ==> Greedy(impl, AllPrefixes(path), s'.segmentMatchDepths, d, runPred, glob)
  {
    var ds := s'.segmentMatchDepths;
    CompleteWalk(impl, path, ds0, ds, d, r.constant, runPred, glob);
    MatchesOfChain(impl, path, d, ds, runPred, glob);
  }

  /** A chain of segment ends within depth `d` makes the path's prefix of
      that depth match, when the pattern admits it. */
  lemma MatchesOfChain(impl: PatternImpl, path: Path, d: nat, es: seq<int>,
                       runPred: (int, Path) -> FnResult, glob: (string, string) -> bool)
    requires WellFormed(impl) && impl.components != [] && Supported(path) && d <= |path|
    requires HasPrefix(path[..d], impl.prefix) && ObjTypeAllows(impl.matchObjType, path[..d])
    requires FullChain(impl, AllPrefixes(path), d, es, runPred, glob)
    ensures Matches(impl, path[..d], runPred, glob)
  {
    SupportedPrefix(path, d);
    SegmentsMatchIffChain(impl, path, d, runPred, glob);
  }

  /** A walk step whose segment loop stops short of the final segment,
      with no valid end at depth `d` for the segment it reached: the
      state stays greedy, and the path's prefix of depth `d` does not
      match. */
  lemma MissWalk(impl: PatternImpl, path: Path, ds0: seq<int>, ds: seq<int>, d: nat,
                 runPred: (int, Path) -> FnResult, glob: (string, string) -> bool)
    requires WellFormed(impl) && impl.components != [] && d <= |path|
    requires |ds0| <= |impl.segments| && |ds| < |impl.segments|
    requires Greedy(impl, AllPrefixes(path), ds0, d - 1, runPred, glob)
    requires Resume(impl, ds0) <= ds
    requires forall i :: |Resume(impl, ds0)| <= i < |ds| ==> ds[i] == d
    requires EndsValid(impl, AllPrefixes(path), ds, d, runPred, glob)
    requires !ValidEnd(impl, AllPrefixes(path), |ds|, Prev(impl, ds, |ds|), d, runPred, glob)
    requires HasPrefix(path[..d], impl.prefix)
    ensures Greedy(impl, AllPrefixes(path), ds, d, runPred, glob)
    ensures !Matches(impl, path[..d], runPred, glob)
  {
    var all := AllPrefixes(path);
    GreedyStep(impl, all, ds0, ds, d, runPred, glob);
    forall es
      ensures !FullChain(impl, all, d, es, runPred, glob)
    {
      GreedyBlocks(impl, all, ds, d, es, runPred, glob);
    }
    SegmentsMatchIffChain(impl, path, d, runPred, glob);
  }

  /** The depths a step through `_Next`'s segment loop leaves at the
      path's prefix of depth `d`, restated among all of the path's
      prefixes: the pushed ones lie at `d`, each is a valid end within it,
      and the next segment has a valid end at `d` in the one exactly when
      it has in the other. */
  lemma DepthsLifted(impl: PatternImpl, path: Path, ds0: seq<int>, ds: seq<int>, d: nat,
                     runPred: (int, Path) -> FnResult, glob: (string, string) -> bool)
    requires WellFormed(impl) && impl.components != [] && d <= |path|
    requires |ds0| <= |impl.segments| && |ds| <= |impl.segments|
    requires Greedy(impl, AllPrefixes(path), ds0, d - 1, runPred, glob)
    requires Resume(impl, ds0) <= ds && NewDepths(impl, path[..d], ds, |Resume(impl, ds0)|, runPred, glob)
    requires |ds| == |impl.segments| ==> ds[|ds| - 1] == d
    ensures forall i :: |Resume(impl, ds0)| <= i < |ds| ==> ds[i] == d
    ensures EndsValid(impl, AllPrefixes(path), ds, d, runPred, glob)
    ensures |ds| < |impl.segments| ==>
      (ValidEnd(impl, AllPrefixes(path[..d]), |ds|, Prev(impl, ds, |ds|), d, runPred, glob) <==>
       ValidEnd(impl, AllPrefixes(path), |ds|, Prev(impl, ds, |ds|), d, runPred, glob))
  {
    DepthsOfPrefix(impl, path, d, ds, |Resume(impl, ds0)|, runPred, glob);
    StepEnds(impl, AllPrefixes(path), ds0, ds, d, runPred, glob);
  }

  /** A walk step that completes the segments at depth `d`: the prefix
      of depth `d` matches, and so does every deeper one when the pattern
      ends with a stretch; otherwise the state stays greedy. */
  lemma CompleteWalk(impl: PatternImpl, path: Path, ds0: seq<int>, ds: seq<int>, d: nat, constant: bool,
                     runPred: (int, Path) -> FnResult, glob: (string, string) -> bool)
    requires WellFormed(impl) && impl.components != [] && Supported(path) && d <= |path|
    requires |ds0| <= |impl.segments| && |ds| == |impl.segments|
    requires constant <==> impl.stretchEnd
    requires impl.matchObjType != MatchPropOnly && (impl.stretchEnd ==> impl.matchObjType != MatchPrimOnly)
    requires HasPrefix(path[..d], impl.prefix)
    requires Greedy(impl, AllPrefixes(path), ds0, d - 1, runPred, glob)
    requires Resume(impl, ds0) <= ds && ds[|ds| - 1] == d
    requires forall i :: |Resume(impl, ds0)| <= i < |ds| ==> ds[i] == d
    requires EndsValid(impl, AllPrefixes(path), ds, d, runPred, glob)
    ensures FullChain(impl, AllPrefixes(path), d, ds, runPred, glob)
    ensures constant ==> forall d' :: d <= d' <= |path| ==> Matches(impl, path[..d'], runPred, glob)
    ensures !constant ==> Greedy(impl, AllPrefixes(path), ds, d, runPred, glob)
  {
    if constant {
      forall d' | d <= d' <= |path|
        ensures Matches(impl, path[..d'], runPred, glob)
      {
        ChainAtDeeper(impl, path, ds, d, d', runPred, glob);
      }
    } else {
      GreedyStep(impl, AllPrefixes(path), ds0, ds, d, runPred, glob);
    }
  }

  /** A chain within depth `d` that the pattern's trailing stretch lets
      end above the path makes every deeper prefix match. */
  lemma ChainAtDeeper(impl: PatternImpl, path: Path, ds: seq<int>, d: nat, d': nat,
                      runPred: (int, Path) -> FnResult, glob: (string, string) -> bool)
    requires WellFormed(impl) && impl.components != [] && Supported(path) && d <= d' <= |path|
    requires impl.stretchEnd && impl.matchObjType == MatchPrimOrProp && HasPrefix(path[..d], impl.prefix)
    requires FullChain(impl, AllPrefixes(path), d, ds, runPred, glob)
    ensures Matches(impl, path[..d'], runPred, glob)
  {
    SupportedPrefix(path, d');
    PrefixGrows(path, impl.prefix, d, d');
    assert FullChain(impl, AllPrefixes(path), d', ds, runPred, glob);
    SegmentsMatchIffChain(impl, path, d', runPred, glob);
  }

  /** A walk step at which an anchored first segment has too many
      elements without having matched: no prefix from depth `d` on
      matches. */
  lemma TooManyWalk(impl: PatternImpl, path: Path, ds0: seq<int>, d: nat,
                    runPred: (int, Path) -> FnResult, glob: (string, string) -> bool)
    requires WellFormed(impl) && impl.components != [] && Supported(path) && d <= |path|
    requires |ds0| <= |impl.segments| && HasPrefix(path[..d], impl.prefix)
    requires Greedy(impl, AllPrefixes(path), ds0, d - 1, runPred, glob) && Resume(impl, ds0) == []
    requires !impl.stretchBegin && d - |impl.prefix| > Size(impl.segments[0])
    ensures forall d' :: d <= d' <= |path| ==> !Matches(impl, path[..d'], runPred, glob)
  {
    forall d' | d <= d' <= |path|
      ensures !Matches(impl, path[..d'], runPred, glob)
    {
      SupportedPrefix(path, d');
      PrefixGrows(path, impl.prefix, d, d');
      SegmentsMatchIffChain(impl, path, d', runPred, glob);
      forall es
        ensures !FullChain(impl, AllPrefixes(path), d', es, runPred, glob)
      {
        TooManyBlocks(impl, AllPrefixes(path), ds0, d, d', es, runPred, glob);
      }
    }
  }

  /** What a chain says of its first segment. */
  lemma ChainFirstEnd(impl: PatternImpl, all: seq<Path>, n: int, es: seq<int>,
                      runPred: (int, Path) -> FnResult, glob: (string, string) -> bool)
    requires WellFormed(impl) && impl.segments != []
    ensures FullChain(impl, all, n, es, runPred, glob) ==>
      es[0] <= n && ValidEnd(impl, all, 0, |impl.prefix|, es[0], runPred, glob)
      && (|impl.segments| == 1 && !impl.stretchEnd ==> es[0] == n)
  {
  }

  /** Once an anchored first segment has too many elements at depth `d`
      without having matched, no chain exists at `d` or deeper. */
  lemma TooManyBlocks(impl: PatternImpl, all: seq<Path>, ds0: seq<int>, d: int, n: int, es: seq<int>,
                      runPred: (int, Path) -> FnResult, glob: (string, string) -> bool)
    requires WellFormed(impl) && impl.segments != [] && |ds0| <= |impl.segments| && d <= n
    requires Greedy(impl, all, ds0, d - 1, runPred, glob) && Resume(impl, ds0) == []
    requires !impl.stretchBegin && d - |impl.prefix| > Size(impl.segments[0])
    ensures !FullChain(impl, all, n, es, runPred, glob)
  {
    ChainFirstEnd(impl, all, n, es, runPred, glob);
    var e := |impl.prefix| + Size(impl.segments[0]);
    assert es != [] && ValidEnd(impl, all, 0, |impl.prefix|, es[0], runPred, glob) ==> es[0] == e;
    if ds0 == [] && (|impl.segments| > 1 || impl.stretchEnd) {
      assert Prev(impl, ds0, 0) == |impl.prefix| && Pending(impl, all, ds0, d - 1, runPred, glob);
      assert !ValidEnd(impl, all, 0, |impl.prefix|, e, runPred, glob);
    }
  }

  /** One step of the walk down a path: given what `_Next` does at the
      path's prefix of depth `d`, its result is whether that prefix
      matches, and the state it carries on is where the walk stands at the
      next depth. */
  lemma WalkStep(impl: PatternImpl, path: Path, s: SearchState, d: nat, r: FnResult, s': SearchState,
                 runPred: (int, Path) -> FnResult, glob: (string, string) -> bool)
    requires WellFormed(impl) && Supported(path) && impl.matchObjType != MatchPropOnly
    requires impl.stretchEnd ==> impl.matchObjType != MatchPrimOnly
    requires impl.components == [] && impl.stretchBegin ==> impl.stretchEnd
    requires d <= |path| && WalkState(impl, path, s, d, runPred, glob)
    requires var p := path[..d];
      && (s.constantDepth != -1 ==> r == MakeConstant(s.constantValue) && s' == s)
      && ((s.constantDepth == -1 && Supported(p) && s.segmentMatchDepths == [] && !HasPrefix(p, impl.prefix)) ==>
            if HasPrefix(impl.prefix, p) then r == MakeVarying(false) && s' == s
            else r == MakeConstant(false) && s' == s.(constantDepth := |impl.prefix|, constantValue := false))
      && ((s.constantDepth == -1 && Supported(p) && HasPrefix(p, impl.prefix)) ==>
            (impl.matchObjType == MatchPrimOnly && IsPrimPropertyPath(p) ==> r == MakeConstant(false) && s' == s))
      && ((s.constantDepth == -1 && Supported(p) && HasPrefix(p, impl.prefix)
           && ObjTypeAllows(impl.matchObjType, p) && impl.components == []) ==>
            if impl.stretchBegin || impl.stretchEnd then
              r == MakeConstant(true) && s' == s.(constantDepth := |impl.prefix|, constantValue := true)
            else if |p| > |impl.prefix| then
              r == MakeConstant(false) && s' == s.(constantDepth := |impl.prefix|, constantValue := false)
            else r == MakeVarying(true) && s' == s)
      && ((s.constantDepth == -1 && Supported(p) && HasPrefix(p, impl.prefix)
           && ObjTypeAllows(impl.matchObjType, p) && impl.components != []) ==>
            SegmentsStep(impl, s, p, r, s', runPred, glob))
    ensures r.value <==> Matches(impl, path[..d], runPred, glob)
    ensures d < |path| ==> WalkState(impl, path, s', d + 1, runPred, glob)
  {
    var p := path[..d];
    SupportedPrefix(path, d);
    if s.constantDepth != -1 {
      if d < |path| && s.segmentMatchDepths != [] {
        PrefixGrows(path, impl.prefix, d, d + 1);
      }
    } else if s.segmentMatchDepths == [] && !HasPrefix(p, impl.prefix) {
      BeforePrefixWalk(impl, path, d, runPred, glob);
    } else if impl.matchObjType == MatchPrimOnly && IsPrimPropertyPath(p) {
      assert d == |path|;
    } else if impl.components == [] {
      NoComponentsWalk(impl, path, s, d, r, s', runPred, glob);
    } else {
      SegmentsWalk(impl, path, s, d, r, s', runPred, glob);
    }
  }

  /** `_Next` at the path's prefix of depth `d`, where the walk stands at
      that depth: its result is whether the prefix matches, and the state
      it carries on is where the walk stands at the next depth. */
  method NextAt(impl: PatternImpl, path: Path, s: SearchState, d: nat,
                runPred: (int, Path) -> FnResult, glob: (string, string) -> bool)
    returns (r: FnResult, s': SearchState)
    requires WellFormed(impl) && Supported(path) && impl.matchObjType != MatchPropOnly
    requires impl.stretchEnd ==> impl.matchObjType != MatchPrimOnly
    requires impl.components == [] && impl.stretchBegin ==> impl.stretchEnd
    requires d <= |path| && WalkState(impl, path, s, d, runPred, glob)
    ensures r.value <==> Matches(impl, path[..d], runPred, glob)
    ensures d < |path| ==> WalkState(impl, path, s', d + 1, runPred, glob)
  {
    r, s' := Next(impl, s, path[..d], runPred, glob);
    WalkStep(impl, path, s, d, r, s', runPred, glob);
  }

  /** `_Next` called on each of a path's prefixes in turn, from the root
      down to the path itself, carrying the search state from one to the
      next, answers for the path what `_Match` answers: whether it
      matches. */
  method NextAlong(impl: PatternImpl, path: Path, runPred: (int, Path) -> FnResult, glob: (string, string) -> bool)
    returns (r: FnResult)
    requires WellFormed(impl) && Supported(path) && impl.matchObjType != MatchPropOnly
    requires impl.stretchEnd ==> impl.matchObjType != MatchPrimOnly
    requires impl.components == [] && impl.stretchBegin ==> impl.stretchEnd
    ensures r.value <==> Matches(impl, path, runPred, glob)
  {
    var s := SearchState([], -1, false);
    r := MakeVarying(false);
    var d := 0;
    while d <= |path|
      invariant d <= |path| + 1
      invariant d > 0 ==> (r.value <==> Matches(impl, path[..d - 1], runPred, glob))
      invariant d <= |path| ==> WalkState(impl, path, s, d, runPred, glob)
    {
      r, s := NextAt(impl, path, s, d, runPred, glob);
      d := d + 1;
    }
    assert path[..|path|] == path;
  }

  /** The property pattern `//a//b.c`: the segment `a`, then the segment
      of `b` and the property name `c`, each after a stretch. */
  function NamesThenProperty(): (impl: PatternImpl)
    ensures WellFormed(impl) && impl.prefix == [] && impl.matchObjType == MatchPropOnly
    ensures impl.segments == [Segment(0, 1), Segment(1, 3)] && impl.stretchBegin && !impl.stretchEnd
    ensures impl.components == [Component(ExplicitName("a"), -1), Component(ExplicitName("b"), -1),
                                Component(ExplicitName("c"), -1)]
  {
    var impl := PatternImpl([], [Component(ExplicitName("a"), -1), Component(ExplicitName("b"), -1),
                                 Component(ExplicitName("c"), -1)],
                            [Segment(0, 1), Segment(1, 3)], true, false, MatchPropOnly);
    assert Partition(impl.segments, 3) by {
      forall k | 0 <= k < 2 ensures impl.segments[k].begin < impl.segments[k].end { }
    }
    impl
  }

  /** The property path `/a/b.c` has the prefixes `/a`, `/a/b` and itself,
      all of which `_Match` examines for `//a//b.c`. */
  lemma PropertyPathPrefixes()
    ensures var path: Path := [Prim("a"), Prim("b"), Prop("c")];
      var all := [[Prim("a")], [Prim("a"), Prim("b")], path];
      AllPrefixes(path) == all && MatchPrefixes(NamesThenProperty(), path) == all
  {
    var path: Path := [Prim("a"), Prim("b"), Prop("c")];
    assert path[..2] == [Prim("a"), Prim("b")] && [Prim("a"), Prim("b")][..1] == [Prim("a")];
    assert Prefixes(path, 3) == Prefixes([Prim("a"), Prim("b")], 2) + [path];
    assert Prefixes([Prim("a"), Prim("b")], 2) == Prefixes([Prim("a")], 1) + [[Prim("a"), Prim("b")]];
  }

  /** The segments of `//a//b.c` are found at `/a` and at `/a/b`,
      `/a/b.c` among the paths `_Match` examines for `/a/b.c`. */
  lemma PropertySegmentsAt(runPred: (int, Path) -> FnResult, glob: (string, string) -> bool)
    ensures var all := [[Prim("a")], [Prim("a"), Prim("b")], [Prim("a"), Prim("b"), Prop("c")]];
      SegmentsMatch(NamesThenProperty(), all, [0, 1], runPred, glob)
  {
    var impl := NamesThenProperty();
    var all := [[Prim("a")], [Prim("a"), Prim("b")], [Prim("a"), Prim("b"), Prop("c")]];
    assert AcceptsAt(impl.components, Segment(0, 1), all, 0, 0, runPred, glob) by {
      assert ElemName(all[0]) == "a";
    }
    forall j: nat | j < 2
      ensures AcceptsAt(impl.components, Segment(1, 3), all, 1, j, runPred, glob)
    {
      if j == 0 {
        assert ElemName(all[1]) == "b" && impl.components[1].kind == ExplicitName("b");
      } else {
        assert ElemName(all[2]) == "c" && impl.components[2].kind == ExplicitName("c");
      }
    }
    assert Overlap(impl, 1) == 0;
  }

  /** `//a//b.c` matches `/a/b.c`, whatever the predicates and the glob. */
  lemma PropertyPathMatches(runPred: (int, Path) -> FnResult, glob: (string, string) -> bool)
    ensures Matches(NamesThenProperty(), [Prim("a"), Prim("b"), Prop("c")], runPred, glob)
  {
    var impl := NamesThenProperty();
    var path: Path := [Prim("a"), Prim("b"), Prop("c")];
    var locs: seq<nat> := [0, 1];
    PropertyPathPrefixes();
    PropertySegmentsAt(runPred, glob);
    PropertyPathAdmitted();
    assert SegmentsMatch(impl, MatchPrefixes(impl, path), locs, runPred, glob);
    MatchesAt(impl, path, locs, runPred, glob);
  }

  /** `/a/b.c` is a supported prim property path below the prefix of
      `//a//b.c`, so the pattern's object type admits it. */
  lemma PropertyPathAdmitted()
    ensures var path: Path := [Prim("a"), Prim("b"), Prop("c")];
      Supported(path) && HasPrefix(path, NamesThenProperty().prefix)
      && ObjTypeAllows(NamesThenProperty().matchObjType, path)
  {
    var path: Path := [Prim("a"), Prim("b"), Prop("c")];
    assert ValidPath(path) && IsPropertyPath(path);
  }

  /** The segment `a` of `//a//b.c` cannot end at `/a/b` or `/a/b.c`,
      whose names are `b` and `c`. */
  lemma NoEndOfFirstSegment(e: int, runPred: (int, Path) -> FnResult, glob: (string, string) -> bool)
    requires 2 <= e <= 3
    ensures var all := [[Prim("a")], [Prim("a"), Prim("b")], [Prim("a"), Prim("b"), Prop("c")]];
      !ValidEnd(NamesThenProperty(), all, 0, 0, e, runPred, glob)
  {
    var impl := NamesThenProperty();
    var all := [[Prim("a")], [Prim("a"), Prim("b")], [Prim("a"), Prim("b"), Prop("c")]];
    var at: nat := e - 1;
    var name := if e == 2 then "b" else "c";
    assert ElemName(all[at]) == name;
    assert !NameMatches(ExplicitName("a"), name, glob);
    assert !AcceptsAt(impl.components, impl.segments[0], all, at, 0, runPred, glob);
  }

  /** At `/a/b.c`, with no depth recorded before, `_Next` can push none:
      the segment `a` would have to end at the path or one above it, at
      the names `b` or `c`. */
  lemma NoDepthAtPropertyPath(ds: seq<int>, runPred: (int, Path) -> FnResult, glob: (string, string) -> bool)
    requires |ds| <= 2 && NewDepths(NamesThenProperty(), [Prim("a"), Prim("b"), Prop("c")], ds, 0, runPred, glob)
    ensures ds == []
  {
    if ds != [] {
      PropertyPathPrefixes();
      NoEndOfFirstSegment(ds[0], runPred, glob);
    }
  }

  /** `_Next` walked from the root over `/a`, `/a/b` and `/a/b.c` for the
      property pattern `//a//b.c` answers false at `/a/b.c`, which the
      pattern matches: on the prim paths `_Next` returns before its
      segment loop, so the depth where `a` matched is never recorded, and
      at `/a/b.c` the segment `a` cannot end at its last two elements. */
  method PropertyWalkMisses(runPred: (int, Path) -> FnResult, glob: (string, string) -> bool)
    returns (r: FnResult)
    ensures Matches(NamesThenProperty(), [Prim("a"), Prim("b"), Prop("c")], runPred, glob)
    ensures !r.value
  {
    var impl := NamesThenProperty();
    var path: Path := [Prim("a"), Prim("b"), Prop("c")];
    var s := SearchState([], -1, false);
    var d := 0;
    while d < |path|
      invariant d <= |path| && s == SearchState([], -1, false)
    {
      assert !IsPrimPropertyPath(path[..d]);
      r, s := Next(impl, s, path[..d], runPred, glob);
      d := d + 1;
    }
    assert path[..3] == path;
    r, s := Next(impl, s, path, runPred, glob);
    NoDepthAtPropertyPath(s.segmentMatchDepths, runPred, glob);
    PropertyPathMatches(runPred, glob);
  }

  /** The pattern `//{p}/b`: one segment, a bare predicate followed by the
      name `b`, after a stretch. */
  function BareThenName(): (impl: PatternImpl)
    ensures WellFormed(impl) && impl.prefix == [] && impl.segments == [Segment(0, 2)]
    ensures impl.stretchBegin && !impl.stretchEnd && IsBarePredicate(impl.components[0])
    ensures impl.components[1] == Component(ExplicitName("b"), -1)
  {
    var impl := PatternImpl([], [Component(ExplicitName(""), 0), Component(ExplicitName("b"), -1)],
                            [Segment(0, 2)], true, false, MatchPrimOnly);
    assert Partition(impl.segments, 2);
    impl
  }

  /** For `//{p}/b` on `/x`, the final segment passes the check for enough
      remaining elements in both `_Match` and `_Next`, yet fewer paths are
      examined than the segment has components, so the cursor both place
      `Size` paths before the end of the examined paths would lie one
      before the first of them. The model answers false there, which is
      also whether the pattern matches `/x`. */
  lemma FinalCursorBeforeFirst(runPred: (int, Path) -> FnResult, glob: (string, string) -> bool)
    ensures var impl, path := BareThenName(), [Prim("x")];
      var seg, examined := impl.segments[0], MatchPrefixes(impl, path);
      |examined| >= MinMatchElts(impl.components, seg) && |examined| - Size(seg) == -1
    ensures var impl, path := BareThenName(), [Prim("x")];
      var seg, numMatch := impl.segments[0], |path| - |impl.prefix|;
      numMatch >= MinMatchElts(impl.components, seg)
      && |Prefixes(path, numMatch + Overlap(impl, 0))| - Size(seg) == -1
    ensures !Matches(BareThenName(), [Prim("x")], runPred, glob)
  {
    var impl, path := BareThenName(), [Prim("x")];
    assert MatchPrefixes(impl, path) == [path];
  }
}

=== FILE: path_table.dfy ===
/** The path table (pathTable.h): a hash map keyed by absolute paths that
    also keeps the paths as a tree, so that every ancestor of a key is a
    key, iteration visits the paths in pre-order (a path, then the subtrees
    of its children) and a whole subtree can be found or erased at once.

    The model keeps the entries in iteration order; a position in the
    sequence plays the part of an iterator and the length of the sequence
    is `end()`. The hash buckets and the child/sibling links are not
    modelled: the order they produce is the invariant `PreOrdered`. */
module PathTables {
  import opened Wrappers
  import opened Seqs
  import opened Paths

  datatype Entry<V> = Entry(path: Path, value: V)

  datatype PathTable<V> = PathTable(entries: seq<Entry<V>>)

  /** The keys in iteration order. */
  function Keys<V>(es: seq<Entry<V>>): (ks: seq<Path>)
    ensures |ks| == |es| && forall i :: 0 <= i < |es| ==> ks[i] == es[i].path
  {
    seq(|es|, i requires 0 <= i < |es| => es[i].path)
  }

  lemma KeysAppend<V>(a: seq<Entry<V>>, b: seq<Entry<V>>)
    ensures Keys(a + b) == Keys(a) + Keys(b)
  {
  }

  /** The iteration order of a well-formed table: the keys are distinct,
      the root comes first, and each later path's parent is a prefix of the
      path visited just before it (it is that path or one of its
      ancestors). Ancestor closure and the contiguity of subtrees follow
      (`AncestorAt`, `Contiguous`). */
  predicate PreOrdered<V>(es: seq<Entry<V>>) {
    Unique(Keys(es))
    && (|es| > 0 ==> es[0].path == Root)
    && forall i :: 0 < i < |es| ==> ParentBefore(es, i)
  }

  /** The parent of the path at position `i` is a prefix of the path at
      position `i - 1`. */
  predicate ParentBefore<V>(es: seq<Entry<V>>, i: nat)
    requires 0 < i < |es|
  {
    |es[i].path| > 0 && Parent(es[i].path) <= es[i - 1].path
  }

  predicate Valid<V>(t: PathTable<V>) {
    PreOrdered(t.entries)
  }

  predicate Contains<V>(t: PathTable<V>, p: Path) {
    p in Keys(t.entries)
  }

  /** `find`: the position of `p`, or `end()` when it is not a key. */
  function Find<V>(t: PathTable<V>, p: Path): (i: nat)
    ensures i <= |t.entries|
    ensures i < |t.entries| <==> Contains(t, p)
    ensures i < |t.entries| ==> t.entries[i].path == p && p !in Keys(t.entries)[..i]
  {
    if Contains(t, p) then IndexOf(Keys(t.entries), p) else |t.entries|
  }

  function Value<V>(t: PathTable<V>, p: Path): V
    requires Contains(t, p)
  {
    t.entries[Find(t, p)].value
  }

  /** `count`: how many entries have key `p`, at most one in a
      well-formed table. */
  function Count<V>(t: PathTable<V>, p: Path): (n: nat)
    ensures Valid(t) ==> n == multiset(Keys(t.entries))[p]
  {
    if Valid(t) then UniqueMultiplicity(Keys(t.entries), p); (if Contains(t, p) then 1 else 0)
    else if Contains(t, p) then 1 else 0
  }

  /** `begin`: the root's position, or `end()` for an empty table. */
  function Begin<V>(t: PathTable<V>): nat {
    if |t.entries| == 0 then 0 else Find(t, Root)
  }

  /** The empty table (`clear`). */
  function Clear<V>(t: PathTable<V>): (r: PathTable<V>)
    ensures Valid(r) && forall p :: !Contains(r, p)
  {
    PathTable([])
  }

  // ---- consequences of the pre-order invariant ----------------------------

  lemma PrefixesOfOne(a: Path, b: Path, c: Path)
    requires a <= c && b <= c && |a| <= |b|
    ensures a <= b
  {
    assert a == c[..|a|] && b == c[..|b|];
    assert b[..|a|] == c[..|a|];
  }

  lemma PrefixTrans(a: Path, b: Path, c: Path)
    requires a <= b && b <= c
    ensures a <= c
  {
    assert b == c[..|b|];
    assert a == b[..|a|] == c[..|a|];
  }

  /** A proper prefix of a path is a prefix of its parent. */
  lemma ProperPrefixOfParent(q: Path, p: Path)
    requires q <= p && q != p
    ensures |p| > 0 && q <= Parent(p)
  {
    PrefixesOfOne(q, Parent(p), p);
  }

  lemma PrefixOfParentIff(q: Path, p: Path)
    requires |p| > 0
    ensures q <= p <==> q == p || q <= Parent(p)
  {
    if q <= p && q != p {
      ProperPrefixOfParent(q, p);
    }
    if q <= Parent(p) {
      PrefixTrans(q, Parent(p), p);
    }
  }

  /** Ancestor closure: every prefix of the path at position `i` is the path
      of an entry at or before `i`. */
  lemma {:induction false} AncestorAt<V>(es: seq<Entry<V>>, i: nat, q: Path) returns (j: nat)
    requires PreOrdered(es) && i < |es| && q <= es[i].path
    ensures j <= i && es[j].path == q
    decreases i
  {
    if q == es[i].path {
      return i;
    }
    if i == 0 {
      assert false;
    }
    assert ParentBefore(es, i);
    ProperPrefixOfParent(q, es[i].path);
    PrefixTrans(q, Parent(es[i].path), es[i - 1].path);
    j := AncestorAt(es, i - 1, q);
  }

  /** Keys are distinct, so two entries with the same key are at the same
      position. */
  lemma SamePosition<V>(es: seq<Entry<V>>, i: nat, j: nat)
    requires Unique(Keys(es)) && i < |es| && j < |es| && es[i].path == es[j].path
    ensures i == j
  {
    assert Keys(es)[i] == Keys(es)[j];
  }

  /** An ancestor is visited before its descendants. */
  lemma AncestorFirst<V>(es: seq<Entry<V>>, i: nat, k: nat)
    requires PreOrdered(es) && i < |es| && k < |es| && es[k].path <= es[i].path
    ensures k <= i
  {
    var j := AncestorAt(es, i, es[k].path);
    SamePosition(es, j, k);
  }

  lemma PrefixedContained<V>(t: PathTable<V>, p: Path, q: Path)
    requires Valid(t) && Contains(t, q) && p <= q
    ensures Contains(t, p)
  {
    var j := AncestorAt(t.entries, Find(t, q), p);
    assert Keys(t.entries)[j] == p;
  }

  /** Contiguity: the entries between a path and one of its descendants are
      descendants too. */
  lemma {:induction false} Contiguous<V>(es: seq<Entry<V>>, i: nat, j: nat, k: nat)
    requires PreOrdered(es) && i < j < k < |es| && es[i].path <= es[k].path
    ensures es[i].path <= es[j].path
    decreases k - j
  {
    if es[i].path == es[k].path {
      SamePosition(es, i, k);
    }
    assert ParentBefore(es, k);
    ProperPrefixOfParent(es[i].path, es[k].path);
    PrefixTrans(es[i].path, Parent(es[k].path), es[k - 1].path);
    if j < k - 1 {
      Contiguous(es, i, j, k - 1);
    }
  }

  /** A non-empty well-formed table begins at the root. */
  lemma BeginIsRoot<V>(t: PathTable<V>)
    requires Valid(t) && |t.entries| > 0
    ensures Begin(t) == 0 && Contains(t, Root)
  {
    assert Keys(t.entries)[0] == Root;
  }

  // ---- subtrees ------------------------------------------------------------

  /** The first position from `k` on whose path lies outside `p`'s
      subtree. */
  function SubtreeEnd<V>(es: seq<Entry<V>>, p: Path, k: nat): (r: nat)
    requires k <= |es|
    ensures k <= r <= |es|
    ensures forall m :: k <= m < r ==> p <= es[m].path
    ensures r < |es| ==> !(p <= es[r].path)
    decreases |es| - k
  {
    if k == |es| || !(p <= es[k].path) then k else SubtreeEnd(es, p, k + 1)
  }

  /** `_GetNextSubtree`: the position after the subtree rooted at position
      `i`; the C++ table follows the sibling and parent links. */
  function NextSubtree<V>(t: PathTable<V>, i: nat): (r: nat)
    requires i <= |t.entries|
  {
    if i == |t.entries| then i else SubtreeEnd(t.entries, t.entries[i].path, i + 1)
  }

  /** `FindSubtreeRange`: `p`'s position and the position after its
      subtree; `(end(), end())` when `p` is not a key. */
  function FindSubtreeRange<V>(t: PathTable<V>, p: Path): (r: (nat, nat))
    ensures r.0 <= r.1 <= |t.entries|
    ensures r.0 == r.1 <==> !Contains(t, p)
  {
    var b := Find(t, p);
    (b, NextSubtree(t, b))
  }

  /** The range holds exactly the entries at or below `p`. */
  lemma SubtreeRangeSpec<V>(t: PathTable<V>, p: Path)
    requires Valid(t)
    ensures var (b, e) := FindSubtreeRange(t, p);
      forall k :: 0 <= k < |t.entries| ==> (b <= k < e <==> p <= t.entries[k].path)
  {
    var es := t.entries;
    var (b, e) := FindSubtreeRange(t, p);
    forall k | 0 <= k < |es|
      ensures b <= k < e <==> p <= es[k].path
    {
      if p <= es[k].path {
        var j := AncestorAt(es, k, p);
        assert Keys(es)[j] == p;
        SamePosition(es, j, b);
        if e <= k {
          assert e < |es| && !(p <= es[e].path);
          Contiguous(es, b, e, k);
        }
      }
    }
  }

  // ---- erase ---------------------------------------------------------------

  /** The entries outside `p`'s subtree, in order. */
  function Outside<V>(es: seq<Entry<V>>, p: Path): seq<Entry<V>> {
    if es == [] then []
    else (if p <= es[0].path then [] else [es[0]]) + Outside(es[1..], p)
  }

  lemma {:induction false} OutsideMembers<V>(es: seq<Entry<V>>, p: Path, x: Entry<V>)
    ensures x in Outside(es, p) <==> x in es && !(p <= x.path)
    decreases |es|
  {
    if es != [] {
      assert es == [es[0]] + es[1..];
      OutsideMembers(es[1..], p, x);
    }
  }

  /** `erase(path)`: removes `p` and its whole subtree; `false` when `p` is
      not a key. The C++ table unlinks `p` from its parent and frees its
      subtree through the child links; here that is the range
      `FindSubtreeRange` delimits. */
  function Erase<V>(t: PathTable<V>, p: Path): (r: (PathTable<V>, bool))
    ensures r.1 <==> Contains(t, p)
    ensures !r.1 ==> r.0 == t
  {
    var (b, e) := FindSubtreeRange(t, p);
    if b == e then (t, false)
    else (PathTable(t.entries[..b] + t.entries[e..]), true)
  }

  /** Removing a subtree's range keeps the pre-order. */
  lemma {:induction false} RemoveRangePreOrdered<V>(es: seq<Entry<V>>, b: nat, e: nat)
    requires PreOrdered(es) && b < e <= |es|
    requires forall k :: 0 <= k < |es| ==> (b <= k < e <==> es[b].path <= es[k].path)
    ensures PreOrdered(es[..b] + es[e..])
  {
    var r := es[..b] + es[e..];
    var p := es[b].path;
    RemoveRangeUnique(es, b, e);
    if b == 0 {
      assert p == Root && Root <= es[|es| - 1].path;
      assert r == [];
      return;
    }
    forall i | 0 < i < |r|
      ensures ParentBefore(r, i)
    {
      if i < b {
        assert r[i] == es[i] && r[i - 1] == es[i - 1];
        assert ParentBefore(es, i);
      } else if i > b {
        assert r[i] == es[i - b + e] && r[i - 1] == es[i - 1 - b + e];
        assert ParentBefore(es, i - b + e);
      } else {
        SeamParent(es, b, e);
        assert r[i] == es[e] && r[i - 1] == es[b - 1];
      }
    }
  }

  lemma RemoveRangeUnique<V>(es: seq<Entry<V>>, b: nat, e: nat)
    requires Unique(Keys(es)) && b <= e <= |es|
    ensures Unique(Keys(es[..b] + es[e..]))
  {
    var ks := Keys(es);
    assert Keys(es[..b] + es[e..]) == ks[..b] + ks[e..];
    assert ks == (ks[..b] + ks[b..e]) + ks[e..];
    UniqueAppend(ks[..b] + ks[b..e], ks[e..]);
    UniqueAppend(ks[..b], ks[b..e]);
    UniqueAppend(ks[..b], ks[e..]);
  }

  /** The entry after a removed subtree hangs below an ancestor of the
      subtree's root, so its parent is a prefix of the entry before the
      subtree. */
  lemma SeamParent<V>(es: seq<Entry<V>>, b: nat, e: nat)
    requires PreOrdered(es) && 0 < b < e < |es|
    requires es[b].path <= es[e - 1].path && !(es[b].path <= es[e].path)
    ensures Parent(es[e].path) <= es[b - 1].path
  {
    var p := es[b].path;
    assert ParentBefore(es, e) && ParentBefore(es, b);
    var q := Parent(es[e].path);
    if |p| <= |q| {
      PrefixesOfOne(p, q, es[e - 1].path);
      PrefixTrans(p, q, es[e].path);
    }
    PrefixesOfOne(q, p, es[e - 1].path);
    ProperPrefixOfParent(q, p);
    PrefixTrans(q, Parent(p), es[b - 1].path);
  }

  /** `erase` removes exactly the entries at or below `p`, keeps the rest in
      order, and keeps the table well formed. */
  lemma EraseSpec<V>(t: PathTable<V>, p: Path)
    requires Valid(t)
    ensures var r := Erase(t, p).0;
      Valid(r) && r.entries == Outside(t.entries, p)
  {
    var es := t.entries;
    var (b, e) := FindSubtreeRange(t, p);
    SubtreeRangeSpec(t, p);
    if b == e {
      OutsideNone(es, p);
    } else {
      RemoveRangePreOrdered(es, b, e);
      OutsideOfRange(es, p, b, e);
    }
  }

  lemma OutsideOfRange<V>(es: seq<Entry<V>>, p: Path, b: nat, e: nat)
    requires b <= e <= |es|
    requires forall k :: 0 <= k < |es| ==> (b <= k < e <==> p <= es[k].path)
    ensures Outside(es, p) == es[..b] + es[e..]
  {
    var front, mid, back := es[..b], es[b..e], es[e..];
    RangeParts(es, p, b, e);
    OutsideNone(front, p);
    OutsideNone(back, p);
    OutsideAll(mid, p);
    OutsideAppend(mid, back, p);
    assert Outside(mid + back, p) == back;
    SplitThree(es, b, e);
    OutsideAppend(front, mid + back, p);
  }

  lemma SplitThree<T>(s: seq<T>, b: nat, e: nat)
    requires b <= e <= |s|
    ensures s == s[..b] + (s[b..e] + s[e..])
  {
    assert s[b..] == s[b..e] + s[e..];
    assert s == s[..b] + s[b..];
  }

  /** The pieces before, inside and after the range of a subtree. */
  lemma RangeParts<V>(es: seq<Entry<V>>, p: Path, b: nat, e: nat)
    requires b <= e <= |es|
    requires forall k :: 0 <= k < |es| ==> (b <= k < e <==> p <= es[k].path)
    ensures forall k :: 0 <= k < |es[..b]| ==> !(p <= es[..b][k].path)
    ensures forall k :: 0 <= k < |es[b..e]| ==> p <= es[b..e][k].path
    ensures forall k :: 0 <= k < |es[e..]| ==> !(p <= es[e..][k].path)
  {
    forall k | 0 <= k < |es[..b]| ensures !(p <= es[..b][k].path) {
      assert es[..b][k] == es[k];
    }
    forall k | 0 <= k < |es[b..e]| ensures p <= es[b..e][k].path {
      assert es[b..e][k] == es[b + k];
    }
    forall k | 0 <= k < |es[e..]| ensures !(p <= es[e..][k].path) {
      assert es[e..][k] == es[e + k];
    }
  }

  lemma {:induction false} OutsideAppend<V>(a: seq<Entry<V>>, b: seq<Entry<V>>, p: Path)
    ensures Outside(a + b, p) == Outside(a, p) + Outside(b, p)
    decreases |a|
  {
    if a == [] {
      assert a + b == b;
    } else {
      var ab := a + b;
      assert ab[0] == a[0];
      assert ab[1..] == a[1..] + b;
      OutsideAppend(a[1..], b, p);
      var h := if p <= a[0].path then [] else [a[0]];
      assert Outside(ab, p) == h + (Outside(a[1..], p) + Outside(b, p));
      assert Outside(a, p) == h + Outside(a[1..], p);
    }
  }

  lemma {:induction false} OutsideNone<V>(es: seq<Entry<V>>, p: Path)
    requires forall k :: 0 <= k < |es| ==> !(p <= es[k].path)
    ensures Outside(es, p) == es
    decreases |es|
  {
    if es != [] {
      OutsideNone(es[1..], p);
    }
  }

  lemma {:induction false} OutsideAll<V>(es: seq<Entry<V>>, p: Path)
    requires forall k :: 0 <= k < |es| ==> p <= es[k].path
    ensures Outside(es, p) == []
    decreases |es|
  {
    if es != [] {
      OutsideAll(es[1..], p);
    }
  }

  // ---- insert --------------------------------------------------------------

  function InsertAt<T>(s: seq<T>, k: nat, x: T): (r: seq<T>)
    requires k <= |s|
    ensures |r| == |s| + 1 && r[k] == x
    ensures forall i :: 0 <= i < k ==> r[i] == s[i]
    ensures forall i :: k < i < |r| ==> r[i] == s[i - 1]
  {
    s[..k] + [x] + s[k..]
  }

  lemma InsertAtMembers<T>(s: seq<T>, k: nat, x: T)
    requires k <= |s|
    ensures forall y :: y in InsertAt(s, k, x) <==> y in s || y == x
  {
    assert s == s[..k] + s[k..];
  }

  lemma InsertAtKeys<V>(es: seq<Entry<V>>, k: nat, x: Entry<V>)
    requires k <= |es|
    ensures Keys(InsertAt(es, k, x)) == InsertAt(Keys(es), k, x.path)
  {
  }

  /** `insert`: a key already present leaves the table unchanged and
      reports `false`. Otherwise the missing ancestors are inserted first,
      each with the default value `def`, and the new entry becomes its
      parent's first child (`_UpdateTreeForNewEntry`, `AddChild`), so it is
      visited right after the parent. The root has no parent. */
  function Insert<V>(t: PathTable<V>, p: Path, v: V, def: V): (r: (PathTable<V>, bool))
    ensures r.1 <==> !Contains(t, p)
    ensures !r.1 ==> r.0 == t
    ensures Contains(r.0, p)
    decreases |p|
  {
    if Contains(t, p) then (t, false)
    else if p == Root then
      var r := [Entry(p, v)] + t.entries;
      assert Keys(r)[0] == p;
      (PathTable(r), true)
    else
      var t1 := Insert(t, Parent(p), def, def).0;
      var j := Find(t1, Parent(p));
      var r := InsertAt(t1.entries, j + 1, Entry(p, v));
      assert Keys(r)[j + 1] == p;
      (PathTable(r), true)
  }

  /** Inserting a new child right after its parent keeps the pre-order. */
  lemma InsertAfterParent<V>(es: seq<Entry<V>>, j: nat, x: Entry<V>)
    requires PreOrdered(es) && j < |es|
    requires |x.path| > 0 && Parent(x.path) == es[j].path && x.path !in Keys(es)
    ensures PreOrdered(InsertAt(es, j + 1, x))
  {
    var r := InsertAt(es, j + 1, x);
    var ks := Keys(es);
    InsertAtKeys(es, j + 1, x);
    assert ks == ks[..j + 1] + ks[j + 1..];
    UniqueAppend(ks[..j + 1], ks[j + 1..]);
    UniqueAppend(ks[..j + 1], [x.path]);
    UniqueAppend(ks[..j + 1] + [x.path], ks[j + 1..]);
    forall i | 0 < i < |r|
      ensures ParentBefore(r, i)
    {
      if i <= j {
        assert ParentBefore(es, i);
      } else if i == j + 2 {
        assert ParentBefore(es, j + 1);
        PrefixTrans(Parent(es[j + 1].path), Parent(x.path), x.path);
      } else if i > j + 2 {
        assert ParentBefore(es, i - 1);
      }
    }
  }

  /** The entries `insert` adds: `p` with its value when it was missing,
      and missing ancestors of `p` with the default value; every entry
      already present stays. */
  lemma {:induction false} InsertEntries<V>(t: PathTable<V>, p: Path, v: V, def: V)
    ensures var r := Insert(t, p, v, def);
      (forall x :: x in t.entries ==> x in r.0.entries)
      && (r.1 ==> Entry(p, v) in r.0.entries)
      && (forall x :: x in r.0.entries ==> x in t.entries || x == Entry(p, v) || (x.value == def && x.path < p))
    decreases |p|
  {
    if !Contains(t, p) && p != Root {
      var t1 := Insert(t, Parent(p), def, def).0;
      InsertEntries(t, Parent(p), def, def);
      InsertChildShape(t, p, v, def);
      ChildStepEntries(t.entries, t1.entries, Find(t1, Parent(p)), p, v, def);
    }
  }

  lemma ChildStepEntries<V>(es: seq<Entry<V>>, es1: seq<Entry<V>>, j: nat, p: Path, v: V, def: V)
    requires j < |es1| && |p| > 0
    requires forall x :: x in es ==> x in es1
    requires forall x :: x in es1 ==> x in es || x == Entry(Parent(p), def) || (x.value == def && x.path < Parent(p))
    ensures var r := InsertAt(es1, j + 1, Entry(p, v));
      (forall x :: x in es ==> x in r)
      && Entry(p, v) in r
      && (forall x :: x in r ==> x in es || x == Entry(p, v) || (x.value == def && x.path < p))
  {
    InsertAtMembers(es1, j + 1, Entry(p, v));
    forall x | x in es1 && x !in es
      ensures x.value == def && x.path < p
    {
      PrefixTrans(x.path, Parent(p), p);
    }
  }

  /** `insert` keeps a well-formed table well formed, and afterwards the
      keys are the old keys together with `p` and all its ancestors. */
  lemma {:induction false} InsertSpec<V>(t: PathTable<V>, p: Path, v: V, def: V)
    requires Valid(t)
    ensures var r := Insert(t, p, v, def).0;
      Valid(r) && forall q :: Contains(r, q) <==> Contains(t, q) || q <= p
    decreases |p|
  {
    if Contains(t, p) {
      forall q | q <= p
        ensures Contains(t, q)
      {
        PrefixedContained(t, q, p);
      }
    } else if p == Root {
      InsertRootSpec(t, v, def);
    } else {
      InsertSpec(t, Parent(p), def, def);
      InsertChildShape(t, p, v, def);
      ChildStep(t, Insert(t, Parent(p), def, def).0, Insert(t, p, v, def).0, p, v);
    }
  }

  lemma InsertRootSpec<V>(t: PathTable<V>, v: V, def: V)
    requires Valid(t) && !Contains(t, Root)
    ensures var r := Insert(t, Root, v, def).0;
      Valid(r) && forall q :: Contains(r, q) <==> Contains(t, q) || q <= Root
  {
    var r := Insert(t, Root, v, def).0;
    if |t.entries| > 0 {
      BeginIsRoot(t);
    }
    assert r.entries == [Entry(Root, v)];
    assert Keys(r.entries) == [Root];
  }

  lemma InsertChildShape<V>(t: PathTable<V>, p: Path, v: V, def: V)
    requires !Contains(t, p) && p != Root
    ensures var t1 := Insert(t, Parent(p), def, def).0;
      Insert(t, p, v, def).0.entries == InsertAt(t1.entries, Find(t1, Parent(p)) + 1, Entry(p, v))
  {
  }

  /** The inductive step of `InsertSpec`: the table `t1` holds `p`'s
      parent and `r` adds `p` right after it. */
  lemma ChildStep<V>(t: PathTable<V>, t1: PathTable<V>, r: PathTable<V>, p: Path, v: V)
    requires Valid(t) && !Contains(t, p) && p != Root
    requires Valid(t1) && forall q :: Contains(t1, q) <==> Contains(t, q) || q <= Parent(p)
    requires r.entries == InsertAt(t1.entries, Find(t1, Parent(p)) + 1, Entry(p, v))
    ensures Valid(r) && forall q :: Contains(r, q) <==> Contains(t, q) || q <= p
  {
    var j := Find(t1, Parent(p));
    assert !(p <= Parent(p));
    assert !Contains(t1, p);
    InsertAfterParent(t1.entries, j, Entry(p, v));
    KeysAfterChild(t, t1, r, p, v);
  }

  lemma KeysAfterChild<V>(t: PathTable<V>, t1: PathTable<V>, r: PathTable<V>, p: Path, v: V)
    requires |p| > 0 && Contains(t1, Parent(p))
    requires forall q :: Contains(t1, q) <==> Contains(t, q) || q <= Parent(p)
    requires r.entries == InsertAt(t1.entries, Find(t1, Parent(p)) + 1, Entry(p, v))
    ensures forall q :: Contains(r, q) <==> Contains(t, q) || q <= p
  {
    var j := Find(t1, Parent(p));
    InsertAtKeys(t1.entries, j + 1, Entry(p, v));
    InsertAtMembers(Keys(t1.entries), j + 1, p);
    forall q
      ensures Contains(r, q) <==> Contains(t, q) || q <= p
    {
      assert Contains(r, q) <==> Contains(t1, q) || q == p;
      PrefixOfParentIff(q, p);
    }
  }

  /** In a table with distinct keys an entry's value is the one `Value`
      reads. */
  lemma ValueOfMember<V>(t: PathTable<V>, x: Entry<V>)
    requires Unique(Keys(t.entries)) && x in t.entries
    ensures Contains(t, x.path) && Value(t, x.path) == x.value
  {
    var k :| 0 <= k < |t.entries| && t.entries[k] == x;
    assert Keys(t.entries)[k] == x.path;
    SamePosition(t.entries, k, Find(t, x.path));
  }

  /** `operator[]`: inserts `p` with the default value when it is missing
      and yields the value stored at `p`. */
  function At<V>(t: PathTable<V>, p: Path, def: V): (r: (PathTable<V>, V))
    ensures Contains(r.0, p)
    ensures Valid(t) ==> Valid(r.0) && r.1 == if Contains(t, p) then Value(t, p) else def
  {
    var t1 := Insert(t, p, def, def).0;
    if Valid(t) then
      InsertSpec(t, p, def, def);
      InsertEntries(t, p, def, def);
      if Contains(t, p) then (t1, Value(t1, p))
      else
        ValueOfMember(t1, Entry(p, def));
        (t1, Value(t1, p))
    else (t1, Value(t1, p))
  }

  /** `insert(NodeHandle&&)`: an empty handle inserts nothing; a handle
      whose key is already present stays full and the table is unchanged;
      otherwise its entry is inserted and the handle is emptied. */
  function InsertNode<V>(t: PathTable<V>, node: Option<Entry<V>>, def: V): (r: (PathTable<V>, bool, Option<Entry<V>>))
    ensures node.None? ==> r == (t, false, None)
    ensures node.Some? ==> (r.1 <==> !Contains(t, node.value.path))
    ensures r.1 ==> r.2.None? && Contains(r.0, node.value.path)
    ensures !r.1 ==> r.0 == t && r.2 == node
  {
    match node
    case None => (t, false, None)
    case Some(x) =>
      var (t1, inserted) := Insert(t, x.path, x.value, def);
      (t1, inserted, if inserted then None else node)
  }

  // ---- rename --------------------------------------------------------------

  lemma ContainsEntry<V>(t: PathTable<V>, x: Entry<V>)
    requires x in t.entries
    ensures Contains(t, x.path)
  {
    var k :| 0 <= k < |t.entries| && t.entries[k] == x;
    assert Keys(t.entries)[k] == x.path;
  }

  lemma EntryOf<V>(t: PathTable<V>, q: Path) returns (x: Entry<V>)
    requires Contains(t, q)
    ensures x in t.entries && x.path == q
  {
    x := t.entries[Find(t, q)];
  }

  /** Every key of `t` is a key of a table holding all of `t`'s entries. */
  lemma ContainsMore<V>(t: PathTable<V>, r: PathTable<V>, q: Path)
    requires Contains(t, q) && forall x :: x in t.entries ==> x in r.entries
    ensures Contains(r, q)
  {
    var x := EntryOf(t, q);
    ContainsEntry(r, x);
  }

  /** Prefix replacement inside `oldName`'s subtree reflects the prefix
      order. */
  lemma ReplaceReflects(a: Path, b: Path, oldName: Path, newName: Path)
    requires oldName <= a && oldName <= b
    requires ReplacePrefix(a, oldName, newName) <= ReplacePrefix(b, oldName, newName)
    ensures a <= b
  {
    var ra := ReplacePrefix(a, oldName, newName);
    var rb := ReplacePrefix(b, oldName, newName);
    assert a == oldName + ra[|newName|..] && b == oldName + rb[|newName|..];
    assert ra[|newName|..] == rb[|newName|..][..|ra| - |newName|];
  }

  /** Distinct siblings: nothing below one lies below the other. */
  lemma SiblingsDisjoint(q: Path, oldName: Path, newName: Path)
    requires ParentPath(oldName) == ParentPath(newName) && oldName != newName
    requires newName <= q
    ensures !(oldName <= q)
  {
    assert |oldName| == |newName| && newName == q[..|newName|];
    assert q[..|oldName|] != oldName;
  }

  lemma ReplaceSame(q: Path, p: Path)
    requires p <= q
    ensures ReplacePrefix(q, p, p) == q
  {
    assert q == q[..|p|] + q[|p|..];
  }

  /** The loop of `UpdateForRename`: each entry of `xs` is inserted again
      under the new prefix, in order. */
  function InsertAll<V>(t: PathTable<V>, xs: seq<Entry<V>>, oldName: Path, newName: Path, def: V): PathTable<V>
    decreases |xs|
  {
    if xs == [] then t
    else
      var t1 := Insert(t, ReplacePrefix(xs[0].path, oldName, newName), xs[0].value, def).0;
      InsertAll(t1, xs[1..], oldName, newName, def)
  }

  /** No entry of `xs` is an ancestor-or-self of an earlier one. */
  predicate AncestorsFirst<V>(xs: seq<Entry<V>>) {
    forall i, k :: 0 <= i < k < |xs| ==> !(xs[k].path <= xs[i].path)
  }

  lemma {:induction false} InsertAllKeeps<V>(t: PathTable<V>, xs: seq<Entry<V>>, oldName: Path, newName: Path, def: V)
    ensures var r := InsertAll(t, xs, oldName, newName, def);
      (forall x :: x in t.entries ==> x in r.entries)
      && (Valid(t) ==> Valid(r))
    decreases |xs|
  {
    if xs != [] {
      var p := ReplacePrefix(xs[0].path, oldName, newName);
      var t1 := Insert(t, p, xs[0].value, def).0;
      InsertEntries(t, p, xs[0].value, def);
      if Valid(t) {
        InsertSpec(t, p, xs[0].value, def);
      }
      InsertAllKeeps(t1, xs[1..], oldName, newName, def);
    }
  }

  /** After the loop every renamed path is a key. */
  lemma {:induction false} InsertAllAdds<V>(t: PathTable<V>, xs: seq<Entry<V>>, oldName: Path, newName: Path, def: V)
    ensures var r := InsertAll(t, xs, oldName, newName, def);
      forall k :: 0 <= k < |xs| ==> Contains(r, ReplacePrefix(xs[k].path, oldName, newName))
    decreases |xs|
  {
    if xs != [] {
      var p := ReplacePrefix(xs[0].path, oldName, newName);
      var t1 := Insert(t, p, xs[0].value, def).0;
      var r := InsertAll(t, xs, oldName, newName, def);
      InsertAllAdds(t1, xs[1..], oldName, newName, def);
      InsertAllKeeps(t1, xs[1..], oldName, newName, def);
      ContainsMore(t1, r, p);
      forall k | 1 <= k < |xs|
        ensures Contains(r, ReplacePrefix(xs[k].path, oldName, newName))
      {
        assert xs[1..][k - 1] == xs[k];
      }
    }
  }

  /** After the loop a key is an old key or a prefix of a renamed path. */
  lemma {:induction false} InsertAllKeys<V>(t: PathTable<V>, xs: seq<Entry<V>>, oldName: Path, newName: Path, def: V)
    requires Valid(t)
    ensures var r := InsertAll(t, xs, oldName, newName, def);
      forall q :: Contains(r, q) ==>
        Contains(t, q) || exists k :: 0 <= k < |xs| && q <= ReplacePrefix(xs[k].path, oldName, newName)
    decreases |xs|
  {
    if xs != [] {
      var p := ReplacePrefix(xs[0].path, oldName, newName);
      var t1 := Insert(t, p, xs[0].value, def).0;
      var r := InsertAll(t, xs, oldName, newName, def);
      InsertSpec(t, p, xs[0].value, def);
      InsertAllKeys(t1, xs[1..], oldName, newName, def);
      forall q | Contains(r, q)
        ensures Contains(t, q) || exists k :: 0 <= k < |xs| && q <= ReplacePrefix(xs[k].path, oldName, newName)
      {
        if !Contains(t1, q) {
          var k :| 0 <= k < |xs[1..]| && q <= ReplacePrefix(xs[1..][k].path, oldName, newName);
          assert xs[1..][k] == xs[k + 1];
        } else if !Contains(t, q) {
          assert q <= ReplacePrefix(xs[0].path, oldName, newName);
        }
      }
    }
  }

  /** A renamed path that was not a key receives the value of the entry it
      was renamed from: the entries of `xs` come ancestors first, so no
      earlier insertion has created it as an ancestor with the default
      value. */
  lemma {:induction false} InsertAllValues<V>(t: PathTable<V>, xs: seq<Entry<V>>, oldName: Path, newName: Path, def: V)
    requires Valid(t) && AncestorsFirst(xs)
    requires forall k :: 0 <= k < |xs| ==> oldName <= xs[k].path
    ensures var r := InsertAll(t, xs, oldName, newName, def);
      forall k :: 0 <= k < |xs| && !Contains(t, ReplacePrefix(xs[k].path, oldName, newName)) ==>
        Entry(ReplacePrefix(xs[k].path, oldName, newName), xs[k].value) in r.entries
    decreases |xs|
  {
    if xs != [] {
      var p := ReplacePrefix(xs[0].path, oldName, newName);
      var t1 := Insert(t, p, xs[0].value, def).0;
      var r := InsertAll(t, xs, oldName, newName, def);
      InsertSpec(t, p, xs[0].value, def);
      InsertEntries(t, p, xs[0].value, def);
      InsertAllKeeps(t1, xs[1..], oldName, newName, def);
      assert AncestorsFirst(xs[1..]) by {
        forall i, k | 0 <= i < k < |xs[1..]|
          ensures !(xs[1..][k].path <= xs[1..][i].path)
        {
          assert xs[1..][k] == xs[k + 1] && xs[1..][i] == xs[i + 1];
        }
      }
      InsertAllValues(t1, xs[1..], oldName, newName, def);
      forall k | 0 <= k < |xs| && !Contains(t, ReplacePrefix(xs[k].path, oldName, newName))
        ensures Entry(ReplacePrefix(xs[k].path, oldName, newName), xs[k].value) in r.entries
      {
        if k > 0 {
          var q := ReplacePrefix(xs[k].path, oldName, newName);
          if q <= p {
            ReplaceReflects(xs[k].path, xs[0].path, oldName, newName);
          }
          assert xs[1..][k - 1] == xs[k];
        }
      }
    }
  }

  /** `UpdateForRename` as the C++ code writes it: paths that are not
      siblings are refused; otherwise every entry of `oldName`'s subtree
      is inserted under `newName` and, when the subtree was not empty,
      `oldName` is erased. The C++ loop walks the live table; every
      insertion lands in `newName`'s subtree, which is visited before
      `oldName`'s, so the entries it reaches are those of the range found
      at the start. */
  function UpdateForRenameAsWritten<V>(t: PathTable<V>, oldName: Path, newName: Path, def: V): PathTable<V> {
    if ParentPath(oldName) != ParentPath(newName) then t
    else
      var (b, e) := FindSubtreeRange(t, oldName);
      var t1 := InsertAll(t, t.entries[b..e], oldName, newName, def);
      if b != e then Erase(t1, oldName).0 else t1
  }

  /** Renaming a path to itself re-inserts nothing (every path is already
      a key) and then erases the path with its whole subtree. */
  lemma RenameToItselfErases<V>(t: PathTable<V>, p: Path, def: V)
    requires Valid(t) && Contains(t, p)
    ensures !Contains(UpdateForRenameAsWritten(t, p, p, def), p)
  {
    var (b, e) := FindSubtreeRange(t, p);
    var xs := t.entries[b..e];
    SubtreeRangeSpec(t, p);
    InsertAllPresent(t, xs, p, def);
    var r := UpdateForRenameAsWritten(t, p, p, def);
    EraseSpec(t, p);
    if Contains(r, p) {
      var x := EntryOf(r, p);
      OutsideMembers(t.entries, p, x);
    }
  }

  /** Re-inserting keys under an unchanged prefix changes nothing. */
  lemma {:induction false} InsertAllPresent<V>(t: PathTable<V>, xs: seq<Entry<V>>, p: Path, def: V)
    requires forall k :: 0 <= k < |xs| ==> p <= xs[k].path && Contains(t, xs[k].path)
    ensures InsertAll(t, xs, p, p, def) == t
    decreases |xs|
  {
    if xs != [] {
      ReplaceSame(xs[0].path, p);
      forall k | 0 <= k < |xs[1..]|
        ensures p <= xs[1..][k].path && Contains(t, xs[1..][k].path)
      {
        assert xs[1..][k] == xs[k + 1];
      }
      InsertAllPresent(t, xs[1..], p, def);
    }
  }

  /** `UpdateForRename`, renaming a path to itself being a no-op. */
  function UpdateForRename<V>(t: PathTable<V>, oldName: Path, newName: Path, def: V): PathTable<V> {
    if oldName == newName then t else UpdateForRenameAsWritten(t, oldName, newName, def)
  }

  /** The range `FindSubtreeRange` finds, taken as a snapshot: its entries
      lie in the subtree, come ancestors first and include every entry of
      the subtree. */
  lemma SubtreeSnapshot<V>(t: PathTable<V>, oldName: Path)
    requires Valid(t)
    ensures var (b, e) := FindSubtreeRange(t, oldName);
      var xs := t.entries[b..e];
      AncestorsFirst(xs)
      && (forall k :: 0 <= k < |xs| ==> oldName <= xs[k].path)
      && (forall x :: x in t.entries && oldName <= x.path ==> x in xs)
  {
    var (b, e) := FindSubtreeRange(t, oldName);
    SubtreeRangeSpec(t, oldName);
    RangeSnapshot(t.entries, oldName, b, e);
  }

  lemma RangeSnapshot<V>(es: seq<Entry<V>>, p: Path, b: nat, e: nat)
    requires PreOrdered(es) && b <= e <= |es|
    requires forall k :: 0 <= k < |es| ==> (b <= k < e <==> p <= es[k].path)
    ensures var xs := es[b..e];
      AncestorsFirst(xs)
      && (forall k :: 0 <= k < |xs| ==> p <= xs[k].path)
      && (forall x :: x in es && p <= x.path ==> x in xs)
  {
    var xs := es[b..e];
    RangeAncestorsFirst(es, b, e);
    forall k | 0 <= k < |xs|
      ensures p <= xs[k].path
    {
      assert xs[k] == es[b + k];
    }
    forall x | x in es && p <= x.path
      ensures x in xs
    {
      var i :| 0 <= i < |es| && es[i] == x;
      assert xs[i - b] == x;
    }
  }

  lemma RangeAncestorsFirst<V>(es: seq<Entry<V>>, b: nat, e: nat)
    requires PreOrdered(es) && b <= e <= |es|
    ensures AncestorsFirst(es[b..e])
  {
    var xs := es[b..e];
    forall i, k | 0 <= i < k < |xs|
      ensures !(xs[k].path <= xs[i].path)
    {
      assert xs[k] == es[b + k] && xs[i] == es[b + i];
      if xs[k].path <= xs[i].path {
        AncestorFirst(es, b + i, b + k);
      }
    }
  }

  /** The renamed paths lie below `newName`; a prefix of one is below
      `newName` or is a prefix of the common parent. */
  lemma PrefixOfRenamed(q: Path, p: Path, oldName: Path, newName: Path)
    requires ParentPath(oldName) == ParentPath(newName) && oldName != newName
    requires oldName <= p && q <= ReplacePrefix(p, oldName, newName)
    ensures newName <= q || (q <= oldName && q != oldName)
  {
    var rp := ReplacePrefix(p, oldName, newName);
    if !(newName <= q) {
      PrefixesOfOne(q, newName, rp);
      ProperPrefixOfParent(q, newName);
      assert Parent(newName) == Parent(oldName);
      PrefixTrans(q, Parent(oldName), oldName);
    }
  }

  /** Renaming `oldName`, which is a key, to a distinct sibling. */
  lemma RenamePresent<V>(t: PathTable<V>, oldName: Path, newName: Path, def: V)
    requires Valid(t) && Contains(t, oldName)
    requires ParentPath(oldName) == ParentPath(newName) && oldName != newName
    ensures var (b, e) := FindSubtreeRange(t, oldName);
      var t1 := InsertAll(t, t.entries[b..e], oldName, newName, def);
      var r := Erase(t1, oldName).0;
      Valid(r)
      && (forall q :: Contains(r, q) ==> !(oldName <= q) && (Contains(t, q) || newName <= q))
      && (forall x :: x in t.entries && !(oldName <= x.path) ==> x in r.entries)
      && (forall x :: x in t.entries && oldName <= x.path ==> Contains(r, ReplacePrefix(x.path, oldName, newName)))
      && (forall x :: x in t.entries && oldName <= x.path && !Contains(t, ReplacePrefix(x.path, oldName, newName)) ==>
            Entry(ReplacePrefix(x.path, oldName, newName), x.value) in r.entries)
  {
    var (b, e) := FindSubtreeRange(t, oldName);
    var xs := t.entries[b..e];
    var t1 := InsertAll(t, xs, oldName, newName, def);
    var r := Erase(t1, oldName).0;
    SubtreeSnapshot(t, oldName);
    InsertAllKeeps(t, xs, oldName, newName, def);
    InsertAllAdds(t, xs, oldName, newName, def);
    InsertAllKeys(t, xs, oldName, newName, def);
    InsertAllValues(t, xs, oldName, newName, def);
    EraseSpec(t1, oldName);
    RenamedKeys(t, t1, r, xs, oldName, newName);
    RenamedEntries(t, t1, r, xs, oldName, newName);
  }

  /** The keys after the rename, given the keys after the loop. */
  lemma RenamedKeys<V>(t: PathTable<V>, t1: PathTable<V>, r: PathTable<V>, xs: seq<Entry<V>>, oldName: Path, newName: Path)
    requires Valid(t) && Contains(t, oldName)
    requires ParentPath(oldName) == ParentPath(newName) && oldName != newName
    requires forall k :: 0 <= k < |xs| ==> oldName <= xs[k].path
    requires forall q :: Contains(t1, q) ==>
      Contains(t, q) || exists k :: 0 <= k < |xs| && q <= ReplacePrefix(xs[k].path, oldName, newName)
    requires r.entries == Outside(t1.entries, oldName)
    ensures forall q :: Contains(r, q) ==> !(oldName <= q) && (Contains(t, q) || newName <= q)
  {
    forall q | Contains(r, q)
      ensures !(oldName <= q) && (Contains(t, q) || newName <= q)
    {
      var x := EntryOf(r, q);
      OutsideMembers(t1.entries, oldName, x);
      ContainsEntry(t1, x);
      if !Contains(t, q) {
        var k :| 0 <= k < |xs| && q <= ReplacePrefix(xs[k].path, oldName, newName);
        PrefixOfRenamed(q, xs[k].path, oldName, newName);
        if !(newName <= q) {
          PrefixedContained(t, q, oldName);
        }
      }
    }
  }

  /** The entries after the rename, given the entries after the loop. */
  lemma RenamedEntries<V>(t: PathTable<V>, t1: PathTable<V>, r: PathTable<V>, xs: seq<Entry<V>>, oldName: Path, newName: Path)
    requires ParentPath(oldName) == ParentPath(newName) && oldName != newName
    requires forall x :: x in t.entries && oldName <= x.path ==> x in xs
    requires forall x :: x in t.entries ==> x in t1.entries
    requires forall k :: 0 <= k < |xs| ==> Contains(t1, ReplacePrefix(xs[k].path, oldName, newName))
    requires forall k :: 0 <= k < |xs| && !Contains(t, ReplacePrefix(xs[k].path, oldName, newName)) ==>
      Entry(ReplacePrefix(xs[k].path, oldName, newName), xs[k].value) in t1.entries
    requires r.entries == Outside(t1.entries, oldName)
    ensures forall x :: x in t.entries && !(oldName <= x.path) ==> x in r.entries
    ensures forall x :: x in t.entries && oldName <= x.path ==> Contains(r, ReplacePrefix(x.path, oldName, newName))
    ensures forall x :: x in t.entries && oldName <= x.path && !Contains(t, ReplacePrefix(x.path, oldName, newName)) ==>
      Entry(ReplacePrefix(x.path, oldName, newName), x.value) in r.entries
  {
    forall x | x in t.entries && !(oldName <= x.path)
      ensures x in r.entries
    {
      OutsideMembers(t1.entries, oldName, x);
    }
    forall x | x in t.entries && oldName <= x.path
      ensures Contains(r, ReplacePrefix(x.path, oldName, newName))
    {
      var p := ReplacePrefix(x.path, oldName, newName);
      var k :| 0 <= k < |xs| && xs[k] == x;
      var y := EntryOf(t1, p);
      SiblingsDisjoint(p, oldName, newName);
      OutsideMembers(t1.entries, oldName, y);
      ContainsEntry(r, y);
    }
    forall x | x in t.entries && oldName <= x.path && !Contains(t, ReplacePrefix(x.path, oldName, newName))
      ensures Entry(ReplacePrefix(x.path, oldName, newName), x.value) in r.entries
    {
      var p := ReplacePrefix(x.path, oldName, newName);
      var k :| 0 <= k < |xs| && xs[k] == x;
      SiblingsDisjoint(p, oldName, newName);
      OutsideMembers(t1.entries, oldName, Entry(p, x.value));
    }
  }

  /** Renaming `oldName` to a distinct sibling `newName` in a well-formed
      table: the table stays well formed; nothing remains at or below
      `oldName`; every entry outside that subtree is kept; every path of
      the subtree becomes a key under `newName`, holding the value it had
      unless the renamed path was already a key; and every key that was
      not there before lies below `newName`. Non-siblings leave the table
      unchanged. */
  lemma RenameSpec<V>(t: PathTable<V>, oldName: Path, newName: Path, def: V)
    requires Valid(t)
    ensures oldName == newName || ParentPath(oldName) != ParentPath(newName) ==>
      UpdateForRename(t, oldName, newName, def) == t
    ensures ParentPath(oldName) == ParentPath(newName) && oldName != newName ==>
      var r := UpdateForRename(t, oldName, newName, def);
      Valid(r)
      && (forall q :: Contains(r, q) ==> !(oldName <= q) && (Contains(t, q) || newName <= q))
      && (forall x :: x in t.entries && !(oldName <= x.path) ==> x in r.entries)
      && (forall x :: x in t.entries && oldName <= x.path ==> Contains(r, ReplacePrefix(x.path, oldName, newName)))
      && (forall x :: x in t.entries && oldName <= x.path && !Contains(t, ReplacePrefix(x.path, oldName, newName)) ==>
            Entry(ReplacePrefix(x.path, oldName, newName), x.value) in r.entries)
  {
    if ParentPath(oldName) == ParentPath(newName) && oldName != newName {
      if Contains(t, oldName) {
        RenamePresent(t, oldName, newName, def);
      } else {
        forall x | x in t.entries
          ensures !(oldName <= x.path)
        {
          ContainsEntry(t, x);
          if oldName <= x.path {
            PrefixedContained(t, oldName, x.path);
          }
        }
        forall q | Contains(t, q)
          ensures !(oldName <= q)
        {
          var x := EntryOf(t, q);
        }
      }
    }
  }
}

=== FILE: paths.dfy ===
/** Absolute scene paths, the key type of most components.

    An absolute path is the sequence of its name elements below the root:
    prim names, optionally followed by one property name as the last
    element. The absolute root path is the empty sequence. The empty
    (invalid) path, which the C++ code writes `SdfPath()`, is not a sequence
    and is represented by `MaybePath.EmptyPath`. */
module Paths {
  import Strings

  datatype Elem = Prim(name: string) | Prop(name: string)

  type Path = seq<Elem>

  /** Only the last element of a path may name a property. */
  predicate ValidPath(p: Path) {
    forall i :: 0 <= i < |p| - 1 ==> p[i].Prim?
  }

  const Root: Path := []

  predicate IsPropertyPath(p: Path) {
    |p| > 0 && p[|p| - 1].Prop?
  }

  /** Root or prim path (`IsAbsoluteRootOrPrimPath`). */
  predicate IsRootOrPrimPath(p: Path) {
    !IsPropertyPath(p)
  }

  predicate IsRootPrimPath(p: Path) {
    |p| == 1 && p[0].Prim?
  }

  /** `HasPrefix`: every path has itself and the root as prefixes. */
  predicate HasPrefix(p: Path, prefix: Path) {
    prefix <= p
  }

  function Parent(p: Path): (q: Path)
    requires |p| > 0
    ensures |q| == |p| - 1 && HasPrefix(p, q)
  {
    p[..|p| - 1]
  }

  /** `GetParentPath`: the root's parent is the empty path. */
  function ParentPath(p: Path): MaybePath {
    if p == Root then EmptyPath else PathOf(Parent(p))
  }

  /** `ReplacePrefix(oldPrefix, newPrefix)`: paths outside `oldPrefix` are
      returned unchanged. */
  function ReplacePrefix(p: Path, oldPrefix: Path, newPrefix: Path): (q: Path)
    ensures HasPrefix(p, oldPrefix) ==> HasPrefix(q, newPrefix) && |q| == |p| - |oldPrefix| + |newPrefix|
    ensures HasPrefix(p, oldPrefix) ==> q[|newPrefix|..] == p[|oldPrefix|..]
    ensures !HasPrefix(p, oldPrefix) ==> q == p
  {
    if HasPrefix(p, oldPrefix) then newPrefix + p[|oldPrefix|..] else p
  }

  /** An `SdfPath` value: either empty or an absolute path. */
  datatype MaybePath = EmptyPath | PathOf(path: Path)

  /** Element order: by name, prims before properties of the same name. */
  predicate ElemLess(a: Elem, b: Elem) {
    Strings.Less(a.name, b.name) || (a.name == b.name && a.Prim? && b.Prop?)
  }

  /** Path order: lexicographic on elements, an ancestor before its
      descendants. */
  predicate PathLess(a: Path, b: Path)
    decreases |a|
  {
    if |a| == 0 then |b| > 0
    else if |b| == 0 then false
    else ElemLess(a[0], b[0]) || (a[0] == b[0] && PathLess(a[1..], b[1..]))
  }

  lemma {:induction false} PathLessIrreflexive(a: Path)
    ensures !PathLess(a, a)
    decreases |a|
  {
    if |a| > 0 {
      Strings.LessIrreflexive(a[0].name);
      PathLessIrreflexive(a[1..]);
    }
  }

  lemma ElemLessAsymmetric(a: Elem, b: Elem)
    requires ElemLess(a, b)
    ensures !ElemLess(b, a)
  {
    if Strings.Less(a.name, b.name) {
      Strings.LessAsymmetric(a.name, b.name);
    } else {
      Strings.LessIrreflexive(a.name);
    }
  }

  lemma ElemLessTransitive(a: Elem, b: Elem, c: Elem)
    requires ElemLess(a, b) && ElemLess(b, c)
    ensures ElemLess(a, c)
  {
    if Strings.Less(a.name, b.name) && Strings.Less(b.name, c.name) {
      Strings.LessTransitive(a.name, b.name, c.name);
    }
  }

  lemma ElemLessTotal(a: Elem, b: Elem)
    ensures a == b || ElemLess(a, b) || ElemLess(b, a)
  {
    Strings.LessTrichotomous(a.name, b.name);
  }

  lemma {:induction false} PathLessAsymmetric(a: Path, b: Path)
    requires PathLess(a, b)
    ensures !PathLess(b, a)
    decreases |a|
  {
    if |a| > 0 && |b| > 0 {
      if ElemLess(a[0], b[0]) {
        ElemLessAsymmetric(a[0], b[0]);
      } else {
        Strings.LessIrreflexive(a[0].name);
        PathLessAsymmetric(a[1..], b[1..]);
      }
    }
  }

  lemma {:induction false} PathLessTransitive(a: Path, b: Path, c: Path)
    requires PathLess(a, b) && PathLess(b, c)
    ensures PathLess(a, c)
    decreases |a|
  {
    if |a| > 0 {
      if ElemLess(a[0], b[0]) && ElemLess(b[0], c[0]) {
        ElemLessTransitive(a[0], b[0], c[0]);
      } else if a[0] == b[0] && b[0] == c[0] {
        PathLessTransitive(a[1..], b[1..], c[1..]);
      }
    }
  }

  /** Any two paths are equal or ordered one way. */
  lemma {:induction false} PathLessTotal(a: Path, b: Path)
    ensures a == b || PathLess(a, b) || PathLess(b, a)
    decreases |a|
  {
    if |a| > 0 && |b| > 0 {
      ElemLessTotal(a[0], b[0]);
      if a[0] == b[0] {
        PathLessTotal(a[1..], b[1..]);
        if a[1..] == b[1..] {
          assert a == [a[0]] + a[1..] && b == [b[0]] + b[1..];
        }
      }
    }
  }

  /** `SdfPath` order with the empty path first. */
  predicate MaybePathLess(a: MaybePath, b: MaybePath) {
    match (a, b)
    case (EmptyPath, PathOf(_)) => true
    case (PathOf(p), PathOf(q)) => PathLess(p, q)
    case _ => false
  }

  lemma MaybePathLessStrictTotal(a: MaybePath, b: MaybePath, c: MaybePath)
    ensures !MaybePathLess(a, a)
    ensures MaybePathLess(a, b) ==> !MaybePathLess(b, a)
    ensures MaybePathLess(a, b) && MaybePathLess(b, c) ==> MaybePathLess(a, c)
    ensures a == b || MaybePathLess(a, b) || MaybePathLess(b, a)
  {
    if a.PathOf? {
      PathLessIrreflexive(a.path);
    }
    if a.PathOf? && b.PathOf? {
      PathLessTotal(a.path, b.path);
      if PathLess(a.path, b.path) {
        PathLessAsymmetric(a.path, b.path);
      }
      if c.PathOf? && PathLess(a.path, b.path) && PathLess(b.path, c.path) {
        PathLessTransitive(a.path, b.path, c.path);
      }
    }
  }
}

=== FILE: predicate_expression.dfy ===
/** Predicate expressions (predicateExpression.cpp).

    An expression stores its operators in reverse prefix order (`ops`) and
    its function calls in left-to-right order (`calls`).  `Tree` is the
    expression as a tree; it is the reference against which the encoding,
    the stack-driven walk and the printer are proved. */
module PredicateExpressions {
  import opened Wrappers
  import opened Seqs
  import Strings

  /** The operators, in declaration order: a smaller rank binds tighter. */
  datatype Op = Call | Not | ImpliedAnd | And | Or

  function Rank(op: Op): nat {
    match op
    case Call => 0
    case Not => 1
    case ImpliedAnd => 2
    case And => 3
    case Or => 4
  }

  predicate OpLess(a: Op, b: Op) {
    Rank(a) < Rank(b)
  }

  type BinaryOp = op: Op | op == ImpliedAnd || op == And || op == Or witness And

  datatype CallKind = BareCall | ColonCall | ParenCall

  /** A call argument; `valueText` is the argument value as the file-IO
      utility prints it, which this model takes as given. */
  datatype Arg = Arg(argName: string, valueText: string)

  datatype FnCall = FnCall(kind: CallKind, funcName: string, args: seq<Arg>)

  datatype Expr = Expr(ops: seq<Op>, calls: seq<FnCall>)

  const Empty: Expr := Expr([], [])

  predicate IsEmpty(e: Expr) {
    e.ops == []
  }

  // ---------------------------------------------------------------------
  // Construction

  /** Number of `Call` operators. */
  function CallCount(ops: seq<Op>): (n: nat)
    ensures n <= |ops|
    ensures n == 0 <==> Call !in ops
  {
    if ops == [] then 0 else CallCount(ops[..|ops| - 1]) + (if ops[|ops| - 1] == Call then 1 else 0)
  }

  lemma {:induction false} CallCountAppend(a: seq<Op>, b: seq<Op>)
    ensures CallCount(a + b) == CallCount(a) + CallCount(b)
    decreases |b|
  {
    if b == [] {
      assert a + b == a;
    } else {
      var b' := b[..|b| - 1];
      assert (a + b)[..|a + b| - 1] == a + b';
      CallCountAppend(a, b');
    }
  }

  /** Every `Call` operator has its call: the invariant the constructors keep. */
  predicate Balanced(e: Expr) {
    CallCount(e.ops) == |e.calls|
  }

  /** `MakeCall`: a one-call expression. */
  function MakeCall(c: FnCall): (e: Expr)
    ensures Balanced(e) && !IsEmpty(e)
    ensures e.calls == [c] && |e.ops| == 1
  {
    Expr([Call], [c])
  }

  /** `MakeNot`: the operand's ops followed by `Not`; calls unchanged. */
  function MakeNot(right: Expr): (e: Expr)
    ensures Balanced(e) <==> Balanced(right)
    ensures e.calls == right.calls
    ensures |e.ops| == |right.ops| + 1 && e.ops[..|right.ops|] == right.ops && e.ops[|right.ops|] == Not
  {
    var e := Expr(right.ops + [Not], right.calls);
    CallCountAppend(right.ops, [Not]);
    assert CallCount([Not]) == 0 by { assert [Not][..0] == []; }
    e
  }

  /** `MakeOp`: right's ops, then left's ops, then the operator; left's calls
      then right's calls. */
  function MakeOp(op: Op, left: Expr, right: Expr): (e: Expr)
    ensures Balanced(left) && Balanced(right) && op != Call ==> Balanced(e)
    ensures e.calls == left.calls + right.calls
    ensures |e.ops| == |right.ops| + |left.ops| + 1 && e.ops[|e.ops| - 1] == op
    ensures e.ops[..|right.ops|] == right.ops && e.ops[|right.ops|..|e.ops| - 1] == left.ops
  {
    var e := Expr(right.ops + left.ops + [op], left.calls + right.calls);
    CallCountAppend(right.ops + left.ops, [op]);
    CallCountAppend(right.ops, left.ops);
    assert CallCount([op]) == (if op == Call then 1 else 0) by { assert [op][..0] == []; }
    e
  }

  // ---------------------------------------------------------------------
  // The tree reference

  datatype Tree =
    | Leaf(call: FnCall)
    | Negation(operand: Tree)
    | Binary(op: BinaryOp, left: Tree, right: Tree)

  function Root(t: Tree): Op {
    match t
    case Leaf(_) => Call
    case Negation(_) => Not
    case Binary(op, _, _) => op
  }

  /** The operators in prefix order. */
  function Prefix(t: Tree): (p: seq<Op>)
    ensures |p| >= 1 && p[0] == Root(t)
  {
    match t
    case Leaf(_) => [Call]
    case Negation(x) => [Not] + Prefix(x)
    case Binary(op, l, r) => [op] + Prefix(l) + Prefix(r)
  }

  /** The calls from left to right. */
  function Leaves(t: Tree): seq<FnCall> {
    match t
    case Leaf(c) => [c]
    case Negation(x) => Leaves(x)
    case Binary(_, l, r) => Leaves(l) + Leaves(r)
  }

  /** The expression the constructors build for a tree. */
  function Encode(t: Tree): (e: Expr)
    ensures Balanced(e) && !IsEmpty(e)
  {
    match t
    case Leaf(c) => MakeCall(c)
    case Negation(x) => MakeNot(Encode(x))
    case Binary(op, l, r) => MakeOp(op, Encode(l), Encode(r))
  }

  /** The stored ops, read from the back, are the tree in prefix order, and
      the stored calls are its leaves. */
  lemma {:induction false} EncodeLayout(t: Tree)
    ensures Reverse(Encode(t).ops) == Prefix(t)
    ensures Encode(t).calls == Leaves(t)
  {
    match t
    case Leaf(c) =>
      ReverseSingle(Call);
    case Negation(x) =>
      EncodeLayout(x);
      var xo := Encode(x).ops;
      assert Encode(t).ops == xo + [Not];
      ReverseAppend(xo, [Not]);
      ReverseSingle(Not);
      assert Reverse(xo + [Not]) == [Not] + Prefix(x);
    case Binary(op, l, r) =>
      EncodeLayout(l);
      EncodeLayout(r);
      ReverseOfMakeOp(op, Encode(l).ops, Encode(r).ops);
  }

  lemma ReverseOfMakeOp(op: Op, lo: seq<Op>, ro: seq<Op>)
    ensures Reverse(ro + lo + [op]) == [op] + Reverse(lo) + Reverse(ro)
  {
    ReverseAppend(ro + lo, [op]);
    ReverseAppend(ro, lo);
    ReverseSingle(op);
  }

  // ---------------------------------------------------------------------
  // The stack walk

  /** One stack entry: an operator and how many of its operands have been
      entered. */
  datatype Frame = Frame(op: Op, index: int)

  /** The walk's stack, top last as in the C++ walk's vector: `Push(s, f)` is
      `s` with `f` appended. */
  datatype Stack = Bottom | Push(below: Stack, top: Frame)

  /** What the walk reports: the `logic` callback with the whole stack, or
      the `call` callback. */
  datatype Event = LogicEvent(stack: Stack) | CallEvent(call: FnCall)

  /** The walk's state: the stack, the operators not yet pushed (in the
      order the reverse iterator reaches them) and the calls not yet
      visited. */
  datatype Machine = Machine(stack: Stack, ops: seq<Op>, calls: seq<FnCall>)

  datatype Trace = Trace(events: seq<Event>, m: Machine)

  /** One iteration of the walk loop.  `None` where the C++ walk would read
      past the operators or the calls, which an expression built by the
      constructors never does. */
  function Step(m: Machine): (r: Option<Trace>)
    requires m.stack.Push?
    ensures r.Some? ==> |r.value.events| == 1
    ensures r.Some? && m.stack.top.op == Call ==> m.calls != [] && r.value.m.calls == m.calls[1..]
    ensures r.Some? && m.stack.top == Frame(Call, 0) ==> r.value.m.stack == m.stack.below
  {
    var top := m.stack.top;
    if top.op == Call && m.calls == [] then None
    else
      var ev := if top.op == Call then CallEvent(m.calls[0]) else LogicEvent(m.stack);
      var calls := if top.op == Call then m.calls[1..] else m.calls;
      var index := if top.op == Call then top.index else top.index + 1;
      var end := if top.op == Call then 0 else if top.op == Not then 2 else 3;
      if index == end then Some(Trace([ev], Machine(m.stack.below, m.ops, calls)))
      else if m.ops == [] then None
      else Some(Trace([ev], Machine(Push(Push(m.stack.below, Frame(top.op, index)), Frame(m.ops[0], 0)), m.ops[1..], calls)))
  }

  /** At most `fuel` iterations of the loop, stopping when the stack empties. */
  function Run(m: Machine, fuel: nat): (r: Trace)
    ensures |r.events| <= fuel
    ensures m.stack == Bottom ==> r == Trace([], m)
    decreases fuel
  {
    if fuel == 0 || m.stack == Bottom then Trace([], m)
    else match Step(m)
      case None => Trace([], m)
      case Some(t) =>
        var rest := Run(t.m, fuel - 1);
        Trace(t.events + rest.events, rest.m)
  }

  lemma {:induction false} RunSplit(m: Machine, a: nat, b: nat)
    ensures var first := Run(m, a);
      var second := Run(first.m, b);
      Run(m, a + b) == Trace(first.events + second.events, second.m)
    decreases a
  {
    if a == 0 || m.stack == Bottom || Step(m).None? {
    } else {
      var t := Step(m).value;
      var rest := Run(t.m, a - 1);
      var second := Run(rest.m, b);
      assert Run(m, a) == Trace(t.events + rest.events, rest.m);
      assert Run(m, a + b) == Trace(t.events + Run(t.m, (a - 1) + b).events, Run(t.m, (a - 1) + b).m);
      RunSplit(t.m, a - 1, b);
      Assoc3(t.events, rest.events, second.events);
    }
  }

  /** Running `m` for `n` iterations emits `e` and ends in `m'`. */
  predicate Walks(m: Machine, n: nat, e: seq<Event>, m': Machine) {
    Run(m, n) == Trace(e, m')
  }

  lemma RunCompose(m: Machine, a: nat, b: nat, n: nat,
                   e1: seq<Event>, m1: Machine, e2: seq<Event>, m2: Machine, e: seq<Event>)
    requires Walks(m, a, e1, m1)
    requires Walks(m1, b, e2, m2)
    requires n == a + b && e == e1 + e2
    ensures Walks(m, n, e, m2)
  {
    RunSplit(m, a, b);
  }

  /** Loop iterations a subtree takes: one per call, and one per operand
      boundary of each operator. */
  function Steps(t: Tree): (n: nat)
    ensures n >= 1
  {
    match t
    case Leaf(_) => 1
    case Negation(x) => 2 + Steps(x)
    case Binary(_, l, r) => 3 + Steps(l) + Steps(r)
  }

  lemma {:induction false} StepsBound(t: Tree)
    ensures Steps(t) <= 3 * |Prefix(t)|
  {
    match t
    case Leaf(_) =>
    case Negation(x) => StepsBound(x);
    case Binary(_, l, r) => StepsBound(l); StepsBound(r);
  }

  /** The operators below the root, in prefix order. */
  function Operands(t: Tree): (p: seq<Op>)
    ensures Prefix(t) == [Root(t)] + p
  {
    match t
    case Leaf(_) => []
    case Negation(x) => Prefix(x)
    case Binary(_, l, r) => Prefix(l) + Prefix(r)
  }

  lemma PrefixParts(t: Tree)
    ensures Prefix(t)[1..] == Operands(t)
  {
    PrefixThen(t, []);
    assert Prefix(t) == [Root(t)] + Operands(t);
  }

  lemma PrefixThen(t: Tree, tail: seq<Op>)
    ensures Prefix(t) + tail == [Root(t)] + (Operands(t) + tail)
  {
  }

  /** The events of a subtree whose ancestors' stack is `s`: the reference
      for the walk. */
  function Events(s: Stack, t: Tree): seq<Event>
    decreases t
  {
    match t
    case Leaf(c) => [CallEvent(c)]
    case Negation(x) =>
      [LogicEvent(Push(s, Frame(Not, 0)))] + Events(Push(s, Frame(Not, 1)), x) + [LogicEvent(Push(s, Frame(Not, 1)))]
    case Binary(op, l, r) =>
      [LogicEvent(Push(s, Frame(op, 0)))] + Events(Push(s, Frame(op, 1)), l)
      + [LogicEvent(Push(s, Frame(op, 1)))] + Events(Push(s, Frame(op, 2)), r)
      + [LogicEvent(Push(s, Frame(op, 2)))]
  }

  lemma Assoc3<T>(a: seq<T>, b: seq<T>, c: seq<T>)
    ensures a + b + c == a + (b + c)
  {
  }

  lemma Assoc5<T>(a: seq<T>, b: seq<T>, c: seq<T>, d: seq<T>, e: seq<T>)
    ensures a + b + c + d + e == (a + b) + (c + d + e)
  {
  }

  /** A leaf is one iteration: the call is visited and its frame popped. */
  lemma RunLeaf(c: FnCall, s: Stack, tail: seq<Op>, ctail: seq<FnCall>)
    ensures Walks(Machine(Push(s, Frame(Call, 0)), [] + tail, [c] + ctail), 1,
      [CallEvent(c)], Machine(s, tail, ctail))
  {
    assert ([c] + ctail)[0] == c;
    assert ([c] + ctail)[1..] == ctail;
    assert [] + tail == tail;
  }

  /** The iteration that enters an operator's next operand: the operator's
      frame is updated and the operand's root pushed. */
  lemma RunEnter(s: Stack, op: Op, index: nat, x: Op, rest: seq<Op>, cs: seq<FnCall>)
    requires op != Call && index < (if op == Not then 1 else 2)
    ensures Walks(Machine(Push(s, Frame(op, index)), [x] + rest, cs), 1,
      [LogicEvent(Push(s, Frame(op, index)))],
      Machine(Push(Push(s, Frame(op, index + 1)), Frame(x, 0)), rest, cs))
  {
    assert ([x] + rest)[0] == x;
    assert ([x] + rest)[1..] == rest;
  }

  /** The iteration that finishes an operator: its frame is popped. */
  lemma RunLeave(s: Stack, op: Op, ops: seq<Op>, cs: seq<FnCall>)
    requires op != Call
    ensures var index := if op == Not then 1 else 2;
      Walks(Machine(Push(s, Frame(op, index)), ops, cs), 1,
        [LogicEvent(Push(s, Frame(op, index)))], Machine(s, ops, cs))
  {
  }

  /** The walk of a subtree, started with its root's frame on top of `s`
      and its other operators and its calls next in line, produces the
      subtree's events and leaves `s` and what followed behind. */
  lemma {:induction false} RunSubtree(t: Tree, s: Stack, tail: seq<Op>, ctail: seq<FnCall>)
    ensures Walks(Machine(Push(s, Frame(Root(t), 0)), Operands(t) + tail, Leaves(t) + ctail), Steps(t),
      Events(s, t), Machine(s, tail, ctail))
    decreases t, 1
  {
    match t
    case Leaf(c) =>
      RunLeaf(c, s, tail, ctail);
    case Negation(x) =>
      RunNegation(x, s, tail, ctail);
    case Binary(op, l, r) =>
      Assoc3(Prefix(l), Prefix(r), tail);
      Assoc3(Leaves(l), Leaves(r), ctail);
      RunBinary(op, l, r, s, tail, ctail);
  }

  lemma {:induction false} RunNegation(x: Tree, s: Stack, tail: seq<Op>, ctail: seq<FnCall>)
    ensures Walks(Machine(Push(s, Frame(Not, 0)), Prefix(x) + tail, Leaves(x) + ctail), Steps(Negation(x)),
      Events(s, Negation(x)), Machine(s, tail, ctail))
    decreases Negation(x), 0
  {
    var s1 := Push(s, Frame(Not, 1));
    var m0 := Machine(Push(s, Frame(Not, 0)), Prefix(x) + tail, Leaves(x) + ctail);
    var ex := [LogicEvent(Push(s, Frame(Not, 0)))] + Events(s1, x);
    var m1, m2 := Machine(s1, tail, ctail), Machine(s, tail, ctail);
    var n := Steps(Negation(x));
    assert Walks(m0, 1 + Steps(x), ex, m1) by {
      RunOperand(s, Not, 0, x, tail, ctail);
    }
    assert Walks(m1, 1, [LogicEvent(s1)], m2) by {
      RunLeave(s, Not, tail, ctail);
    }
    RunCompose(m0, 1 + Steps(x), 1, n, ex, m1, [LogicEvent(s1)], m2, Events(s, Negation(x)));
  }

  lemma {:induction false} RunBinary(op: BinaryOp, l: Tree, r: Tree, s: Stack, tail: seq<Op>, ctail: seq<FnCall>)
    ensures Walks(Machine(Push(s, Frame(op, 0)), Prefix(l) + (Prefix(r) + tail), Leaves(l) + (Leaves(r) + ctail)),
                Steps(Binary(op, l, r)), Events(s, Binary(op, l, r)), Machine(s, tail, ctail))
    decreases Binary(op, l, r), 0
  {
    var mid, cmid := Prefix(r) + tail, Leaves(r) + ctail;
    var s1, s2 := Push(s, Frame(op, 1)), Push(s, Frame(op, 2));
    var m0, m1, m3 := Machine(Push(s, Frame(op, 0)), Prefix(l) + mid, Leaves(l) + cmid), Machine(s1, mid, cmid),
                      Machine(s, tail, ctail);
    var el := [LogicEvent(Push(s, Frame(op, 0)))] + Events(s1, l);
    var er := [LogicEvent(s1)] + Events(s2, r) + [LogicEvent(s2)];
    var n := Steps(Binary(op, l, r));
    assert Walks(m0, 1 + Steps(l), el, m1) by {
      RunOperand(s, op, 0, l, mid, cmid);
    }
    assert Walks(m1, Steps(r) + 2, er, m3) by {
      RunRightOperand(op, r, s, tail, ctail);
    }
    assert Events(s, Binary(op, l, r)) == el + er by {
      EventsBinarySplit(op, l, r, s);
    }
    RunCompose(m0, 1 + Steps(l), Steps(r) + 2, n, el, m1, er, m3, Events(s, Binary(op, l, r)));
  }

  /** A binary operator's events, cut after its left operand. */
  lemma EventsBinarySplit(op: BinaryOp, l: Tree, r: Tree, s: Stack)
    ensures Events(s, Binary(op, l, r))
      == ([LogicEvent(Push(s, Frame(op, 0)))] + Events(Push(s, Frame(op, 1)), l))
         + ([LogicEvent(Push(s, Frame(op, 1)))] + Events(Push(s, Frame(op, 2)), r) + [LogicEvent(Push(s, Frame(op, 2)))])
  {
    Assoc5([LogicEvent(Push(s, Frame(op, 0)))], Events(Push(s, Frame(op, 1)), l), [LogicEvent(Push(s, Frame(op, 1)))],
           Events(Push(s, Frame(op, 2)), r), [LogicEvent(Push(s, Frame(op, 2)))]);
  }

  /** Walking a binary operator's right operand and leaving the operator. */
  lemma {:induction false} RunRightOperand(op: BinaryOp, r: Tree, s: Stack, tail: seq<Op>, ctail: seq<FnCall>)
    ensures Walks(Machine(Push(s, Frame(op, 1)), Prefix(r) + tail, Leaves(r) + ctail), Steps(r) + 2,
      [LogicEvent(Push(s, Frame(op, 1)))] + Events(Push(s, Frame(op, 2)), r) + [LogicEvent(Push(s, Frame(op, 2)))],
      Machine(s, tail, ctail))
    decreases r, 3
  {
    var s1, s2 := Push(s, Frame(op, 1)), Push(s, Frame(op, 2));
    var m1, m2, m3 := Machine(s1, Prefix(r) + tail, Leaves(r) + ctail), Machine(s2, tail, ctail), Machine(s, tail, ctail);
    var er := [LogicEvent(s1)] + Events(s2, r);
    var n := Steps(r) + 2;
    RunOperand(s, op, 1, r, tail, ctail);
    RunLeave(s, op, tail, ctail);
    RunCompose(m1, 1 + Steps(r), 1, n, er, m2, [LogicEvent(s2)], m3, er + [LogicEvent(s2)]);
  }

  /** Entering an operator's operand and walking it: the operator's frame
      moves to the next operand boundary. */
  lemma {:induction false} RunOperand(s: Stack, op: Op, index: nat, t: Tree, tail: seq<Op>, ctail: seq<FnCall>)
    requires op != Call && index < (if op == Not then 1 else 2)
    ensures Walks(Machine(Push(s, Frame(op, index)), Prefix(t) + tail, Leaves(t) + ctail), 1 + Steps(t),
      [LogicEvent(Push(s, Frame(op, index)))] + Events(Push(s, Frame(op, index + 1)), t),
      Machine(Push(s, Frame(op, index + 1)), tail, ctail))
    decreases t, 2
  {
    var s1 := Push(s, Frame(op, index + 1));
    var m1 := Machine(Push(s1, Frame(Root(t), 0)), Operands(t) + tail, Leaves(t) + ctail);
    var m0 := Machine(Push(s, Frame(op, index)), Prefix(t) + tail, Leaves(t) + ctail);
    var e0 := [LogicEvent(Push(s, Frame(op, index)))];
    RunEnterTree(s, op, index, t, tail, ctail);
    RunSubtree(t, s1, tail, ctail);
    RunCompose(m0, 1, Steps(t), 1 + Steps(t), e0, m1, Events(s1, t), Machine(s1, tail, ctail), e0 + Events(s1, t));
  }

  /** The first iteration of an operand: the operand's root is pushed. */
  lemma RunEnterTree(s: Stack, op: Op, index: nat, t: Tree, tail: seq<Op>, ctail: seq<FnCall>)
    requires op != Call && index < (if op == Not then 1 else 2)
    ensures Walks(Machine(Push(s, Frame(op, index)), Prefix(t) + tail, Leaves(t) + ctail), 1,
      [LogicEvent(Push(s, Frame(op, index)))],
      Machine(Push(Push(s, Frame(op, index + 1)), Frame(Root(t), 0)), Operands(t) + tail, Leaves(t) + ctail))
  {
    PrefixThen(t, tail);
    RunEnter(s, op, index, Root(t), Operands(t) + tail, Leaves(t) + ctail);
  }

  /** `WalkWithOpStack`: nothing for the empty expression; otherwise the loop
      started with the last stored operator on the stack.  Every iteration
      consumes at most three of the operator's operand boundaries, so
      `3 * |ops|` iterations are enough for every expression the
      constructors build (`WalkMatchesTree`). */
  function WalkWithOpStack(e: Expr): (r: seq<Event>)
    ensures IsEmpty(e) ==> r == []
    ensures |r| <= 3 * |e.ops|
  {
    if IsEmpty(e) then []
    else
      var rev := Reverse(e.ops);
      Run(Machine(Push(Bottom, Frame(rev[0], 0)), rev[1..], e.calls), 3 * |e.ops|).events
  }

  /** Enough fuel to walk a whole tree from an empty stack walks exactly
      the tree. */
  lemma RunWholeTree(t: Tree, fuel: nat)
    requires Steps(t) <= fuel
    ensures Run(Machine(Push(Bottom, Frame(Root(t), 0)), Operands(t), Leaves(t)), fuel).events == Events(Bottom, t)
  {
    var m1 := Machine(Bottom, [], []);
    RunSubtree(t, Bottom, [], []);
    assert Operands(t) + [] == Operands(t);
    assert Leaves(t) + [] == Leaves(t);
    RunCompose(Machine(Push(Bottom, Frame(Root(t), 0)), Operands(t), Leaves(t)), Steps(t), fuel - Steps(t), fuel,
               Events(Bottom, t), m1, [], m1, Events(Bottom, t));
  }

  /** The walk of a constructed expression is the tree's event sequence. */
  lemma WalkMatchesTree(t: Tree)
    ensures WalkWithOpStack(Encode(t)) == Events(Bottom, t)
  {
    var e := Encode(t);
    EncodeLayout(t);
    StepsBound(t);
    PrefixParts(t);
    RunWholeTree(t, 3 * |e.ops|);
  }

  /** The calls an event sequence visits, in order. */
  function CallsOf(evs: seq<Event>): (cs: seq<FnCall>)
    ensures |cs| <= |evs|
  {
    if evs == [] then []
    else (if evs[0].CallEvent? then [evs[0].call] else []) + CallsOf(evs[1..])
  }

  lemma {:induction false} CallsOfAppend(a: seq<Event>, b: seq<Event>)
    ensures CallsOf(a + b) == CallsOf(a) + CallsOf(b)
    decreases |a|
  {
    if a == [] {
      assert a + b == b;
    } else {
      var h := if a[0].CallEvent? then [a[0].call] else [];
      assert (a + b)[0] == a[0];
      assert (a + b)[1..] == a[1..] + b;
      assert CallsOf(a + b) == h + CallsOf(a[1..] + b);
      CallsOfAppend(a[1..], b);
      assert CallsOf(a) == h + CallsOf(a[1..]);
    }
  }

  lemma LogicHasNoCalls(s: Stack)
    ensures CallsOf([LogicEvent(s)]) == []
  {
    assert [LogicEvent(s)][1..] == [];
  }

  lemma {:induction false} EventsCalls(s: Stack, t: Tree)
    ensures CallsOf(Events(s, t)) == Leaves(t)
    decreases t
  {
    match t
    case Leaf(c) =>
      assert [CallEvent(c)][1..] == [];
    case Negation(x) =>
      var s1 := Push(s, Frame(Not, 1));
      EventsCalls(s1, x);
      var a, z := [LogicEvent(Push(s, Frame(Not, 0)))], [LogicEvent(s1)];
      CallsOfAppend(a + Events(s1, x), z);
      CallsOfAppend(a, Events(s1, x));
      LogicHasNoCalls(Push(s, Frame(Not, 0)));
      LogicHasNoCalls(s1);
    case Binary(op, l, r) =>
      var s1, s2 := Push(s, Frame(op, 1)), Push(s, Frame(op, 2));
      EventsCalls(s1, l);
      EventsCalls(s2, r);
      var a, b, z := [LogicEvent(Push(s, Frame(op, 0)))], [LogicEvent(s1)], [LogicEvent(s2)];
      var el, er := Events(s1, l), Events(s2, r);
      CallsOfFive(a, el, b, er, z);
      LogicHasNoCalls(Push(s, Frame(op, 0)));
      LogicHasNoCalls(s1);
      LogicHasNoCalls(s2);
      assert [] + Leaves(l) + [] + Leaves(r) + [] == Leaves(l) + Leaves(r);
  }

  lemma CallsOfFive(a: seq<Event>, b: seq<Event>, c: seq<Event>, d: seq<Event>, e: seq<Event>)
    ensures CallsOf(a + b + c + d + e) == CallsOf(a) + CallsOf(b) + CallsOf(c) + CallsOf(d) + CallsOf(e)
  {
    CallsOfAppend(a + b + c + d, e);
    CallsOfAppend(a + b + c, d);
    CallsOfAppend(a + b, c);
    CallsOfAppend(a, b);
  }

  /** Each call of a constructed expression is visited exactly once, in the
      stored (forward) order. */
  lemma WalkVisitsCallsInOrder(t: Tree)
    ensures CallsOf(WalkWithOpStack(Encode(t))) == Encode(t).calls
  {
    WalkMatchesTree(t);
    EventsCalls(Bottom, t);
    EncodeLayout(t);
  }

  /** The `(op, index)` pair `Walk` hands to its logic callback. */
  datatype Callback = OnLogic(op: Op, index: int) | OnCall(call: FnCall)

  function Adapt(ev: Event): Callback {
    match ev
    case LogicEvent(stack) =>
      if stack == Bottom then OnLogic(Call, 0) else OnLogic(stack.top.op, stack.top.index)
    case CallEvent(c) => OnCall(c)
  }

  /** `Walk`: the stack walk seen through the top frame only. */
  function Walk(e: Expr): (r: seq<Callback>)
    ensures |r| == |WalkWithOpStack(e)|
    ensures forall k :: 0 <= k < |r| ==> r[k] == Adapt(WalkWithOpStack(e)[k])
  {
    var evs := WalkWithOpStack(e);
    seq(|evs|, k requires 0 <= k < |evs| => Adapt(evs[k]))
  }

  /** The operand indices a logic callback can see for an operator: 0 and 1
      for `Not`, 0, 1 and 2 for a binary operator. */
  predicate ProperIndex(op: Op, index: int) {
    match op
    case Call => false
    case Not => 0 <= index <= 1
    case _ => 0 <= index <= 2
  }

  lemma {:induction false} EventsIndices(s: Stack, t: Tree)
    ensures forall k :: 0 <= k < |Events(s, t)| && Events(s, t)[k].LogicEvent? ==>
      Adapt(Events(s, t)[k]).OnLogic? && ProperIndex(Adapt(Events(s, t)[k]).op, Adapt(Events(s, t)[k]).index)
    decreases t
  {
    match t
    case Leaf(c) =>
    case Negation(x) =>
      EventsIndices(Push(s, Frame(Not, 1)), x);
    case Binary(op, l, r) =>
      EventsIndices(Push(s, Frame(op, 1)), l);
      EventsIndices(Push(s, Frame(op, 2)), r);
  }

  /** Every logic callback of a constructed expression names an operator
      and one of its operand indices. */
  lemma WalkLogicIndices(t: Tree)
    ensures forall k :: 0 <= k < |Walk(Encode(t))| && Walk(Encode(t))[k].OnLogic? ==>
      ProperIndex(Walk(Encode(t))[k].op, Walk(Encode(t))[k].index)
  {
    WalkMatchesTree(t);
    EventsIndices(Bottom, t);
  }

  // ---------------------------------------------------------------------
  // Printing

  function OpName(op: Op): string {
    match op
    case Not => "not "
    case ImpliedAnd => " "
    case And => " and "
    case Or => " or "
    case Call => "<unknown>"
  }

  function Join(parts: seq<string>, sep: string): (r: string)
    ensures parts == [] ==> r == []
    ensures |parts| == 1 ==> r == parts[0]
  {
    if parts == [] then []
    else if |parts| == 1 then parts[0]
    else parts[0] + sep + Join(parts[1..], sep)
  }

  /** One parenthesised argument: `name=value`, or just the value when the
      name is empty; both are printed as C strings. */
  function ArgText(a: Arg): string {
    Strings.CString(a.argName) + (if a.argName == [] then "" else "=") + Strings.CString(a.valueText)
  }

  /** The text of one call. */
  function CallText(c: FnCall): (r: string)
    ensures c.funcName <= r
    ensures c.kind == BareCall ==> r == c.funcName
    ensures c.kind == ParenCall ==> |r| > 0 && r[|r| - 1] == ')'
  {
    match c.kind
    case BareCall => c.funcName
    case ColonCall =>
      var values := seq(|c.args|, i requires 0 <= i < |c.args| => c.args[i].valueText);
      c.funcName + (if values == [] then "" else ":" + Join(values, ","))
    case ParenCall =>
      var texts := seq(|c.args|, i requires 0 <= i < |c.args| => ArgText(c.args[i]));
      c.funcName + "(" + Join(texts, ", ") + ")"
  }

  /** Whether an operator under the given parent frame is parenthesised: the
      parent binds tighter, or it is the same operator and this is its
      right operand. */
  predicate Parenthesize(parent: Option<Frame>, op: Op) {
    parent.Some? && (OpLess(parent.value.op, op) || (parent.value.op == op && parent.value.index == 2))
  }

  function ParentOf(s: Stack): Option<Frame> {
    if s == Bottom then None else Some(s.top)
  }

  /** The printer's logic callback. */
  function PrintLogic(stack: Stack): string {
    if stack == Bottom then ""
    else
      var op := stack.top.op;
      var argIndex := stack.top.index;
      var paren := Parenthesize(ParentOf(stack.below), op);
      (if paren && argIndex == 0 then "(" else "")
      + (if (if op == Not then argIndex == 0 else argIndex == 1) then OpName(op) else "")
      + (if paren && (if op == Not then argIndex == 1 else argIndex == 2) then ")" else "")
  }

  function Print(ev: Event): string {
    match ev
    case LogicEvent(stack) => PrintLogic(stack)
    case CallEvent(c) => CallText(c)
  }

  /** The texts of `xs` one after another. */
  function Concat<T>(f: T -> string, xs: seq<T>): string {
    if xs == [] then "" else f(xs[0]) + Concat(f, xs[1..])
  }

  lemma {:induction false} ConcatAppend<T>(f: T -> string, a: seq<T>, b: seq<T>)
    ensures Concat(f, a + b) == Concat(f, a) + Concat(f, b)
    decreases |a|
  {
    if a == [] {
      assert a + b == b;
    } else {
      assert (a + b)[0] == a[0];
      assert (a + b)[1..] == a[1..] + b;
      assert Concat(f, a + b) == f(a[0]) + Concat(f, a[1..] + b);
      ConcatAppend(f, a[1..], b);
      assert Concat(f, a) == f(a[0]) + Concat(f, a[1..]);
    }
  }

  function Text(evs: seq<Event>): string {
    Concat(Print, evs)
  }

  lemma TextAppend(a: seq<Event>, b: seq<Event>)
    ensures Text(a + b) == Text(a) + Text(b)
  {
    ConcatAppend(Print, a, b);
  }

  lemma TextSingle(ev: Event)
    ensures Text([ev]) == Print(ev)
  {
    assert [ev][1..] == [];
    assert Concat(Print, [ev]) == Print(ev) + Concat(Print, []);
  }

  /** `GetText`: the printer callbacks' output over the walk. */
  function GetText(e: Expr): (r: string)
    ensures IsEmpty(e) ==> r == ""
  {
    if IsEmpty(e) then "" else Text(WalkWithOpStack(e))
  }

  /** The reference printer: infix text with the parenthesisation rule. */
  function TreeText(t: Tree, parent: Option<Frame>): string {
    match t
    case Leaf(c) => CallText(c)
    case Negation(x) =>
      var paren := Parenthesize(parent, Not);
      (if paren then "(" else "") + OpName(Not) + TreeText(x, Some(Frame(Not, 1))) + (if paren then ")" else "")
    case Binary(op, l, r) =>
      var paren := Parenthesize(parent, op);
      (if paren then "(" else "") + TreeText(l, Some(Frame(op, 1))) + OpName(op)
      + TreeText(r, Some(Frame(op, 2))) + (if paren then ")" else "")
  }

  lemma {:induction false} EventsText(s: Stack, t: Tree)
    ensures Text(Events(s, t)) == TreeText(t, ParentOf(s))
    decreases t
  {
    match t
    case Leaf(c) =>
      TextSingle(CallEvent(c));
    case Negation(x) =>
      EventsTextNegation(s, x);
    case Binary(op, l, r) =>
      EventsTextBinary(s, op, l, r);
  }

  lemma {:induction false} EventsTextNegation(s: Stack, x: Tree)
    ensures Text(Events(s, Negation(x))) == TreeText(Negation(x), ParentOf(s))
    decreases Negation(x), 0
  {
    var s1 := Push(s, Frame(Not, 1));
    var a, z := [LogicEvent(Push(s, Frame(Not, 0)))], [LogicEvent(s1)];
    var ex := Events(s1, x);
    var paren := Parenthesize(ParentOf(s), Not);
    var open, close := if paren then "(" else "", if paren then ")" else "";
    assert Text(a + ex + z) == Text(a) + Text(ex) + Text(z) by {
      TextAppend(a + ex, z);
      TextAppend(a, ex);
    }
    assert Text(a) == open + OpName(Not) by {
      TextSingle(a[0]);
      assert PrintLogic(Push(s, Frame(Not, 0))) == open + OpName(Not) + "";
    }
    assert Text(z) == close by {
      TextSingle(z[0]);
      assert PrintLogic(s1) == "" + "" + close;
    }
    assert Text(ex) == TreeText(x, Some(Frame(Not, 1))) by {
      EventsText(s1, x);
    }
    assert Events(s, Negation(x)) == a + ex + z;
  }

  lemma {:induction false} EventsTextBinary(s: Stack, op: BinaryOp, l: Tree, r: Tree)
    ensures Text(Events(s, Binary(op, l, r))) == TreeText(Binary(op, l, r), ParentOf(s))
    decreases Binary(op, l, r), 0
  {
    var s1, s2 := Push(s, Frame(op, 1)), Push(s, Frame(op, 2));
    var a, b, z := [LogicEvent(Push(s, Frame(op, 0)))], [LogicEvent(s1)], [LogicEvent(s2)];
    var el, er := Events(s1, l), Events(s2, r);
    var paren := Parenthesize(ParentOf(s), op);
    var open, close := if paren then "(" else "", if paren then ")" else "";
    assert Events(s, Binary(op, l, r)) == a + el + b + er + z;
    assert Text(a + el + b + er + z) == Text(a) + Text(el) + Text(b) + Text(er) + Text(z) by {
      TextAppend(a + el + b + er, z);
      TextAppend(a + el + b, er);
      TextAppend(a + el, b);
      TextAppend(a, el);
    }
    assert Text(a) == open by {
      TextSingle(a[0]);
      assert PrintLogic(Push(s, Frame(op, 0))) == open + "" + "";
    }
    assert Text(b) == OpName(op) by {
      TextSingle(b[0]);
      assert PrintLogic(s1) == "" + OpName(op) + "";
    }
    assert Text(z) == close by {
      TextSingle(z[0]);
      assert PrintLogic(s2) == "" + "" + close;
    }
    assert Text(el) == TreeText(l, Some(Frame(op, 1))) by {
      EventsText(s1, l);
    }
    assert Text(er) == TreeText(r, Some(Frame(op, 2))) by {
      EventsText(s2, r);
    }
  }

  /** The printed text of a constructed expression is the reference text. */
  lemma GetTextMatchesTree(t: Tree)
    ensures GetText(Encode(t)) == TreeText(t, None)
  {
    WalkMatchesTree(t);
    EventsText(Bottom, t);
  }

  /** An operator's text is either its bare text or that text in
      parentheses, and the parentheses are there exactly when the parent
      binds tighter or it is a right operand of the same operator. */
  lemma ParenthesisedIff(t: Tree, parent: Option<Frame>)
    requires !t.Leaf?
    ensures TreeText(t, parent)
      == if Parenthesize(parent, Root(t)) then "(" + TreeText(t, None) + ")" else TreeText(t, None)
  {
    match t
    case Negation(x) =>
      NegationText(x, parent);
      NegationText(x, None);
    case Binary(op, l, r) =>
      BinaryText(op, l, r, parent);
      BinaryText(op, l, r, None);
  }

  /** A negation's text: "not " before its operand, in parentheses when
      the parent asks for them. */
  lemma NegationText(x: Tree, parent: Option<Frame>)
    ensures var y := OpName(Not) + TreeText(x, Some(Frame(Not, 1)));
      TreeText(Negation(x), parent) == if Parenthesize(parent, Not) then "(" + y + ")" else y
  {
    var tx, o := TreeText(x, Some(Frame(Not, 1))), OpName(Not);
    if Parenthesize(parent, Not) {
      assert TreeText(Negation(x), parent) == "(" + o + tx + ")";
      assert "(" + o + tx + ")" == "(" + (o + tx) + ")";
    } else {
      assert TreeText(Negation(x), parent) == "" + o + tx + "";
      assert "" + o + tx + "" == o + tx;
    }
  }

  /** A binary operator's text: its operands around its name, in
      parentheses when the parent asks for them. */
  lemma BinaryText(op: BinaryOp, l: Tree, r: Tree, parent: Option<Frame>)
    ensures var x := TreeText(l, Some(Frame(op, 1))) + OpName(op) + TreeText(r, Some(Frame(op, 2)));
      TreeText(Binary(op, l, r), parent) == if Parenthesize(parent, op) then "(" + x + ")" else x
  {
    var tl, tr, o := TreeText(l, Some(Frame(op, 1))), TreeText(r, Some(Frame(op, 2))), OpName(op);
    var paren := Parenthesize(parent, op);
    var open, close := if paren then "(" else "", if paren then ")" else "";
    assert TreeText(Binary(op, l, r), parent) == open + tl + o + tr + close;
    Wrapped(open, tl, o, tr, close);
  }

  lemma Wrapped<T>(a: seq<T>, b: seq<T>, c: seq<T>, d: seq<T>, e: seq<T>)
    ensures a + b + c + d + e == a + (b + c + d) + e
    ensures a == [] && e == [] ==> a + b + c + d + e == b + c + d
  {
  }

  /** Equal operators group to the left: a left operand built with the
      same operator is printed bare, ... */
  lemma SameOperatorLeftBare(op: BinaryOp, a: FnCall, b: FnCall, c: FnCall)
    ensures TreeText(Binary(op, Binary(op, Leaf(a), Leaf(b)), Leaf(c)), None)
      == CallText(a) + OpName(op) + CallText(b) + OpName(op) + CallText(c)
  {
    var ta, tb, tc, o := CallText(a), CallText(b), CallText(c), OpName(op);
    BinaryText(op, Leaf(a), Leaf(b), Some(Frame(op, 1)));
    BinaryText(op, Binary(op, Leaf(a), Leaf(b)), Leaf(c), None);
  }

  /** ... and a right operand built with it is parenthesised. */
  lemma SameOperatorRightParenthesised(op: BinaryOp, a: FnCall, b: FnCall, c: FnCall)
    ensures TreeText(Binary(op, Leaf(a), Binary(op, Leaf(b), Leaf(c))), None)
      == CallText(a) + OpName(op) + "(" + CallText(b) + OpName(op) + CallText(c) + ")"
  {
    var ta, tb, tc, o := CallText(a), CallText(b), CallText(c), OpName(op);
    BinaryText(op, Leaf(b), Leaf(c), Some(Frame(op, 2)));
    BinaryText(op, Leaf(a), Binary(op, Leaf(b), Leaf(c)), None);
    assert ta + o + ("(" + (tb + o + tc) + ")") == ta + o + "(" + tb + o + tc + ")";
  }

  /** `not` binds tighter than every binary operator, ... */
  lemma NotOfAndParenthesised(a: FnCall, b: FnCall)
    ensures TreeText(Negation(Binary(And, Leaf(a), Leaf(b))), None)
      == "not " + "(" + CallText(a) + " and " + CallText(b) + ")"
  {
    var ta, tb := CallText(a), CallText(b);
    var inner := TreeText(Binary(And, Leaf(a), Leaf(b)), Some(Frame(Not, 1)));
    BinaryText(And, Leaf(a), Leaf(b), Some(Frame(Not, 1)));
    assert inner == "(" + (ta + " and " + tb) + ")";
    assert TreeText(Negation(Binary(And, Leaf(a), Leaf(b))), None) == "" + "not " + inner + "";
  }

  /** ... and `and` binds tighter than `or`: an `and` under an `or` is
      printed bare, ... */
  lemma AndUnderOrBare(a: FnCall, b: FnCall, c: FnCall)
    ensures TreeText(Binary(Or, Binary(And, Leaf(a), Leaf(b)), Leaf(c)), None)
      == CallText(a) + " and " + CallText(b) + " or " + CallText(c)
  {
    var ta, tb, tc := CallText(a), CallText(b), CallText(c);
    BinaryText(And, Leaf(a), Leaf(b), Some(Frame(Or, 1)));
    BinaryText(Or, Binary(And, Leaf(a), Leaf(b)), Leaf(c), None);
  }

  /** ... while an `or` under an `and` is parenthesised. */
  lemma OrUnderAndParenthesised(a: FnCall, b: FnCall, c: FnCall)
    ensures TreeText(Binary(And, Binary(Or, Leaf(a), Leaf(b)), Leaf(c)), None)
      == "(" + CallText(a) + " or " + CallText(b) + ")" + " and " + CallText(c)
  {
    var ta, tb, tc := CallText(a), CallText(b), CallText(c);
    BinaryText(Or, Leaf(a), Leaf(b), Some(Frame(And, 1)));
    BinaryText(And, Binary(Or, Leaf(a), Leaf(b)), Leaf(c), None);
  }
}

=== FILE: predicate_library.dfy ===
/** The parameter list of a predicate function: each parameter has a name
    and possibly a default value (an empty `VtValue` in the C++ code means "no
    default"). */
module PredicateLibrary {
  import opened Wrappers

  datatype Param<V> = Param(name: string, default: Option<V>)

  predicate HasDefault<V>(p: Param<V>) {
    p.default.Some?
  }

  /** `_CountDefaults`: the number of parameters carrying a default. */
  function CountDefaults<V>(ps: seq<Param<V>>): (n: nat)
    ensures n <= |ps|
    ensures n == 0 <==> forall i :: 0 <= i < |ps| ==> !HasDefault(ps[i])
    ensures n == |ps| <==> forall i :: 0 <= i < |ps| ==> HasDefault(ps[i])
  {
    if ps == [] then 0
    else
      var rest := CountDefaults(ps[..|ps| - 1]);
      assert forall i :: 0 <= i < |ps| - 1 ==> ps[..|ps| - 1][i] == ps[i];
      rest + (if HasDefault(ps[|ps| - 1]) then 1 else 0)
  }

  /** What `CheckValidity` accepts: no empty name, and once a parameter has a
      default every later one has one too. */
  predicate Valid<V>(ps: seq<Param<V>>) {
    (forall i :: 0 <= i < |ps| ==> ps[i].name != "")
    && (forall i, j :: 0 <= i < j < |ps| && HasDefault(ps[i]) ==> HasDefault(ps[j]))
  }

  /** `CheckValidity`: walks the parameters once, remembering the first one
      with a default, and reports whether no error was raised. */
  method CheckValidity<V>(ps: seq<Param<V>>) returns (ok: bool)
    ensures ok <==> Valid(ps)
  {
    var firstDefault: Option<nat> := None;
    ok := true;
    for k := 0 to |ps|
      invariant firstDefault.None? <==> forall i :: 0 <= i < k ==> !HasDefault(ps[i])
      invariant firstDefault.Some? ==> firstDefault.value < k && HasDefault(ps[firstDefault.value])
      invariant ok <==> Valid(ps[..k])
    {
      assert ps[..k + 1] == ps[..k] + [ps[k]];
      if ps[k].name == "" {
        ok := false;
      }
      var hasDefault := HasDefault(ps[k]);
      if firstDefault.Some? {
        if !hasDefault {
          assert !Valid(ps[..k + 1]) by {
            var f := firstDefault.value;
            assert ps[..k + 1][f] == ps[f] && ps[..k + 1][k] == ps[k];
          }
          ok := false;
        }
      } else if hasDefault {
        firstDefault := Some(k);
      }
    }
    assert ps[..|ps|] == ps;
  }

  /** In a valid list the defaulted parameters are exactly the last
      `CountDefaults` ones. */
  lemma {:induction false} DefaultsFormSuffix<V>(ps: seq<Param<V>>, i: nat)
    requires Valid(ps) && i < |ps|
    ensures HasDefault(ps[i]) <==> i >= |ps| - CountDefaults(ps)
    decreases |ps|
  {
    var last := |ps| - 1;
    var init := ps[..last];
    assert forall j :: 0 <= j < last ==> init[j] == ps[j];
    assert Valid(init);
    if HasDefault(ps[last]) {
      if i < last {
        DefaultsFormSuffix(init, i);
      }
    } else {
      assert forall j :: 0 <= j < |ps| ==> !HasDefault(ps[j]);
    }
  }
}

=== FILE: seqs.dfy ===
/** Sequence vocabulary shared by the list-op, list-editor and table models:
    distinctness, the elements of a sequence, removal of a set of items
    keeping the order of the rest, and the two de-duplications the list
    operations use (keep the first occurrence, keep the last). */
module Seqs {

  function Reverse<T>(s: seq<T>): (r: seq<T>)
    ensures |r| == |s|
  {
    if s == [] then [] else Reverse(s[1..]) + [s[0]]
  }

  lemma {:induction false} ReverseAppend<T>(a: seq<T>, b: seq<T>)
    ensures Reverse(a + b) == Reverse(b) + Reverse(a)
    decreases |a|
  {
    if a == [] {
      assert a + b == b;
    } else {
      assert (a + b)[1..] == a[1..] + b;
      ReverseAppend(a[1..], b);
    }
  }

  lemma ReverseSingle<T>(x: T)
    ensures Reverse([x]) == [x]
  {
    assert [x][1..] == [];
  }

  lemma AppendAssoc<T>(a: seq<T>, b: seq<T>, c: seq<T>)
    ensures (a + b) + c == a + (b + c)
  {
  }

  /** No item occurs twice. */
  predicate Unique<T(==)>(s: seq<T>) {
    forall i, j :: 0 <= i < j < |s| ==> s[i] != s[j]
  }

  function Elems<T>(s: seq<T>): set<T> {
    set x | x in s
  }

  lemma ElemsAppend<T>(a: seq<T>, b: seq<T>)
    ensures Elems(a + b) == Elems(a) + Elems(b)
  {
  }

  lemma UniqueAppend<T>(a: seq<T>, b: seq<T>)
    ensures Unique(a + b) <==> Unique(a) && Unique(b) && (forall x :: x in a ==> x !in b)
  {
    if Unique(a + b) {
      forall i, j | 0 <= i < j < |a| ensures a[i] != a[j] {
        assert (a + b)[i] == a[i] && (a + b)[j] == a[j];
      }
      forall i, j | 0 <= i < j < |b| ensures b[i] != b[j] {
        assert (a + b)[|a| + i] == b[i] && (a + b)[|a| + j] == b[j];
      }
      forall i, j | 0 <= i < |a| && 0 <= j < |b| ensures a[i] != b[j] {
        assert (a + b)[i] == a[i] && (a + b)[|a| + j] == b[j];
      }
    }
    if Unique(a) && Unique(b) && (forall x :: x in a ==> x !in b) {
      forall i, j | 0 <= i < j < |a + b| ensures (a + b)[i] != (a + b)[j] {
        if j < |a| {
          assert (a + b)[i] == a[i] && (a + b)[j] == a[j];
        } else if i >= |a| {
          assert (a + b)[i] == b[i - |a|] && (a + b)[j] == b[j - |a|];
        } else {
          assert (a + b)[i] == a[i] && (a + b)[j] == b[j - |a|];
          assert a[i] in a && b[j - |a|] in b;
        }
      }
    }
  }

  lemma UniqueCons<T>(x: T, s: seq<T>)
    ensures Unique([x] + s) <==> x !in s && Unique(s)
  {
    UniqueAppend([x], s);
  }

  /** `s` without the items of `xs`; the rest keep their order.  This is
      what a sequence of erase/remove passes leaves. */
  function Without<T>(s: seq<T>, xs: set<T>): seq<T> {
    if s == [] then []
    else if s[0] in xs then Without(s[1..], xs)
    else [s[0]] + Without(s[1..], xs)
  }

  /** An item survives `Without` exactly when it was there and not removed. */
  lemma {:induction false} WithoutMembers<T>(s: seq<T>, xs: set<T>, x: T)
    ensures x in Without(s, xs) <==> x in s && x !in xs
    decreases |s|
  {
    if s != [] {
      WithoutMembers(s[1..], xs, x);
      assert x in s <==> x == s[0] || x in s[1..];
    }
  }

  lemma {:induction false} WithoutUnique<T>(s: seq<T>, xs: set<T>)
    requires Unique(s)
    ensures Unique(Without(s, xs))
    decreases |s|
  {
    if s != [] {
      UniqueCons(s[0], s[1..]);
      assert s == [s[0]] + s[1..];
      WithoutUnique(s[1..], xs);
      WithoutMembers(s[1..], xs, s[0]);
      UniqueCons(s[0], Without(s[1..], xs));
    }
  }

  lemma {:induction false} WithoutAppend<T>(a: seq<T>, b: seq<T>, xs: set<T>)
    ensures Without(a + b, xs) == Without(a, xs) + Without(b, xs)
    decreases |a|
  {
    if a == [] {
      assert a + b == b;
    } else {
      assert (a + b)[0] == a[0];
      assert (a + b)[1..] == a[1..] + b;
      WithoutAppend(a[1..], b, xs);
    }
  }

  lemma {:induction false} WithoutWithout<T>(s: seq<T>, xs: set<T>, ys: set<T>)
    ensures Without(Without(s, xs), ys) == Without(s, xs + ys)
    decreases |s|
  {
    if s != [] {
      WithoutWithout(s[1..], xs, ys);
      if s[0] !in xs {
        assert ([s[0]] + Without(s[1..], xs))[1..] == Without(s[1..], xs);
      }
    }
  }

  /** Removing items a sequence does not hold changes nothing. */
  lemma {:induction false} WithoutNone<T>(s: seq<T>, xs: set<T>)
    requires forall x :: x in s ==> x !in xs
    ensures Without(s, xs) == s
    decreases |s|
  {
    if s != [] {
      WithoutNone(s[1..], xs);
      assert s == [s[0]] + s[1..];
    }
  }

  /** Only the removed items the sequence holds matter. */
  lemma {:induction false} WithoutCongruent<T>(s: seq<T>, xs: set<T>, ys: set<T>)
    requires forall x :: x in s ==> (x in xs <==> x in ys)
    ensures Without(s, xs) == Without(s, ys)
    decreases |s|
  {
    if s != [] {
      WithoutCongruent(s[1..], xs, ys);
    }
  }

  lemma WithoutSingle<T>(x: T, xs: set<T>)
    ensures Without([x], xs) == if x in xs then [] else [x]
  {
    assert [x][1..] == [];
  }

  /** De-duplication keeping each item's first occurrence. */
  function DedupFirst<T(==)>(s: seq<T>): seq<T> {
    if s == [] then [] else [s[0]] + Without(DedupFirst(s[1..]), {s[0]})
  }

  /** De-duplication keeping each item's last occurrence. */
  function DedupLast<T(==)>(s: seq<T>): seq<T> {
    if s == [] then []
    else if s[0] in s[1..] then DedupLast(s[1..])
    else [s[0]] + DedupLast(s[1..])
  }

  /** Both de-duplications keep every item and leave no duplicate. */
  lemma {:induction false} DedupSpec<T>(s: seq<T>)
    ensures Unique(DedupFirst(s)) && Unique(DedupLast(s))
    ensures forall x :: x in DedupFirst(s) <==> x in s
    ensures forall x :: x in DedupLast(s) <==> x in s
    decreases |s|
  {
    if s != [] {
      var h, t := s[0], s[1..];
      DedupSpec(t);
      var rest := DedupFirst(t);
      WithoutUnique(rest, {h});
      forall x ensures x in Without(rest, {h}) <==> x in rest && x != h {
        WithoutMembers(rest, {h}, x);
      }
      UniqueCons(h, Without(rest, {h}));
      UniqueCons(h, DedupLast(t));
      assert forall x :: x in s <==> x == h || x in t;
    }
  }

  /** A sequence without duplicates is its own de-duplication, either way. */
  lemma {:induction false} DedupOfUnique<T>(s: seq<T>)
    requires Unique(s)
    ensures DedupFirst(s) == s && DedupLast(s) == s
    decreases |s|
  {
    if s != [] {
      assert s == [s[0]] + s[1..];
      UniqueCons(s[0], s[1..]);
      DedupOfUnique(s[1..]);
      WithoutNone(s[1..], {s[0]});
    }
  }

  /** `DedupFirst` grows at the back by the new items only: the shape of a
      forward pass with a set of items already seen. */
  lemma {:induction false} DedupFirstSnoc<T>(s: seq<T>, x: T)
    ensures DedupFirst(s + [x]) == DedupFirst(s) + (if x in s then [] else [x])
    decreases |s|
  {
    if s == [] {
      assert [] + [x] == [x];
      assert [x][1..] == [];
    } else {
      var h, t := s[0], s[1..];
      var e: seq<T> := if x in t then [] else [x];
      var e2: seq<T> := if x in s then [] else [x];
      var a := DedupFirst(t);
      assert DedupFirst(s + [x]) == [h] + Without(a + e, {h}) by {
        assert (s + [x])[0] == h;
        assert (s + [x])[1..] == t + [x];
        DedupFirstSnoc(t, x);
      }
      assert Without(a + e, {h}) == Without(a, {h}) + e2 by {
        WithoutAppend(a, e, {h});
        assert x in s <==> x == h || x in t;
        if x !in t {
          WithoutSingle(x, {h});
        }
      }
      assert DedupFirst(s) == [h] + Without(a, {h});
      assert [h] + (Without(a, {h}) + e2) == ([h] + Without(a, {h})) + e2;
    }
  }

  /** The items of `s` that belong to `xs`, in order. */
  function Keep<T>(s: seq<T>, xs: set<T>): seq<T> {
    if s == [] then []
    else if s[0] in xs then [s[0]] + Keep(s[1..], xs)
    else Keep(s[1..], xs)
  }

  lemma {:induction false} KeepAppend<T>(a: seq<T>, b: seq<T>, xs: set<T>)
    ensures Keep(a + b, xs) == Keep(a, xs) + Keep(b, xs)
    decreases |a|
  {
    if a == [] {
      assert a + b == b;
    } else {
      assert (a + b)[0] == a[0];
      assert (a + b)[1..] == a[1..] + b;
      KeepAppend(a[1..], b, xs);
    }
  }

  /** Only the kept items the sequence holds matter. */
  lemma {:induction false} KeepCongruent<T>(s: seq<T>, xs: set<T>, ys: set<T>)
    requires forall x :: x in s ==> (x in xs <==> x in ys)
    ensures Keep(s, xs) == Keep(s, ys)
    decreases |s|
  {
    if s != [] {
      KeepCongruent(s[1..], xs, ys);
    }
  }

  lemma {:induction false} KeepNone<T>(s: seq<T>, xs: set<T>)
    requires forall i :: 0 <= i < |s| ==> s[i] !in xs
    ensures Keep(s, xs) == []
    decreases |s|
  {
    if s != [] {
      KeepNone(s[1..], xs);
    }
  }

  /** In a sequence without repetitions, cutting out the item at `i`
      removes every occurrence of it. */
  lemma WithoutAt<T>(s: seq<T>, i: nat)
    requires Unique(s) && i < |s|
    ensures s[..i] + s[i + 1..] == Without(s, {s[i]})
  {
    var a, x, b := s[..i], s[i], s[i + 1..];
    var xs := {x};
    UniqueApart(s, i);
    SplitAround(s, i);
    WithoutAppend(a, [x] + b, xs);
    WithoutAppend([x], b, xs);
    WithoutNone(a, xs);
    WithoutNone(b, xs);
    assert Without([x], xs) == [] by {
      assert [x][1..] == [];
    }
  }

  /** A sequence is what comes before `i`, the item at `i`, and what
      comes after it. */
  lemma SplitAround<T>(s: seq<T>, i: nat)
    requires i < |s|
    ensures s == s[..i] + ([s[i]] + s[i + 1..])
  {
    assert [s[i]] + s[i + 1..] == s[i..];
  }

  /** In a sequence without repetitions the item at `i` occurs neither
      before nor after `i`. */
  lemma UniqueApart<T>(s: seq<T>, i: nat)
    requires Unique(s) && i < |s|
    ensures s[i] !in s[..i] && s[i] !in s[i + 1..]
  {
    forall y | y in s[..i]
      ensures y != s[i]
    {
      var j :| 0 <= j < i && s[..i][j] == y;
      assert s[j] == y;
    }
    var after := s[i + 1..];
    forall y | y in after
      ensures y != s[i]
    {
      var j :| 0 <= j < |after| && after[j] == y;
      assert s[i + 1 + j] == y;
    }
  }

  /** In a sequence without repetitions an item occurs at most once. */
  lemma {:induction false} UniqueMultiplicity<T>(s: seq<T>, x: T)
    requires Unique(s)
    ensures multiset(s)[x] == if x in s then 1 else 0
    decreases |s|
  {
    if s != [] {
      assert s == [s[0]] + s[1..];
      UniqueCons(s[0], s[1..]);
      UniqueMultiplicity(s[1..], x);
    }
  }

  function IndexOf<T(==)>(s: seq<T>, x: T): (i: nat)
    requires x in s
    ensures i < |s| && s[i] == x && x !in s[..i]
  {
    if s[0] == x then 0
    else
      var k := IndexOf(s[1..], x);
      assert s[..k + 1] == [s[0]] + s[1..][..k];
      k + 1
  }
}

=== FILE: site.dfy ===
/** `SdfSite`: a (layer, path) pair. A layer handle is either null or the
    identity of a live layer; handles order by identity with null first, as
    address comparison does. */
module Sites {
  import opened Paths

  datatype LayerHandle = NullLayer | Layer(id: nat)

  predicate HandleLess(a: LayerHandle, b: LayerHandle) {
    match (a, b)
    case (NullLayer, Layer(_)) => true
    case (Layer(x), Layer(y)) => x < y
    case _ => false
  }

  datatype Site = Site(layer: LayerHandle, path: MaybePath)

  predicate Equal(a: Site, b: Site) {
    a.layer == b.layer && a.path == b.path
  }

  predicate NotEqual(a: Site, b: Site) {
    !Equal(a, b)
  }

  /** `operator<`, as written: `layer < o.layer || (!(o.layer < layer) &&
      path < o.path)`. */
  predicate Less(a: Site, b: Site) {
    HandleLess(a.layer, b.layer) || (!HandleLess(b.layer, a.layer) && MaybePathLess(a.path, b.path))
  }

  predicate Greater(a: Site, b: Site) {
    Less(b, a)
  }

  predicate LessEq(a: Site, b: Site) {
    !Less(b, a)
  }

  predicate GreaterEq(a: Site, b: Site) {
    !Less(a, b)
  }

  /** `explicit operator bool`. */
  predicate IsValid(s: Site) {
    s.layer.Layer? && s.path.PathOf?
  }

  /** The `!(o.layer < layer)` test is equality of layers, so `<` is the
      lexicographic order on (layer, path). */
  lemma LessIsLexicographic(a: Site, b: Site)
    ensures Less(a, b) <==> HandleLess(a.layer, b.layer) || (a.layer == b.layer && MaybePathLess(a.path, b.path))
  {
  }

  lemma EqualIsIdentity(a: Site, b: Site)
    ensures Equal(a, b) <==> a == b
    ensures NotEqual(a, b) <==> a != b
  {
  }

  /** `<` is a strict total order, as `std::set<SdfSite>` needs. */
  lemma LessIsStrictTotalOrder(a: Site, b: Site, c: Site)
    ensures !Less(a, a)
    ensures Less(a, b) ==> !Less(b, a)
    ensures Less(a, b) && Less(b, c) ==> Less(a, c)
    ensures a == b || Less(a, b) || Less(b, a)
  {
    MaybePathLessStrictTotal(a.path, b.path, c.path);
    MaybePathLessStrictTotal(b.path, a.path, c.path);
  }

  lemma DerivedOperators(a: Site, b: Site)
    ensures LessEq(a, b) <==> Less(a, b) || a == b
    ensures Greater(a, b) <==> !LessEq(a, b)
    ensures GreaterEq(a, b) <==> Greater(a, b) || a == b
  {
    LessIsStrictTotalOrder(a, b, a);
  }

  /** The default-constructed site is invalid and below every other site. */
  lemma DefaultSite(s: Site)
    ensures !IsValid(Site(NullLayer, EmptyPath))
    ensures s != Site(NullLayer, EmptyPath) ==> Less(Site(NullLayer, EmptyPath), s)
  {
  }
}

=== FILE: spec_data.dfy ===
/** The in-memory spec store (data.cpp): a hash map from paths to specs,
    where a spec is a spec type and a list of (field name, value) pairs in
    the order the fields were first set, plus the time-sample queries the
    store answers from a spec's `timeSamples` field.

    Values are modelled by what the store inspects: the empty value, a
    time-sample map, a dictionary, and any other value as an opaque
    token. A time-sample map (`std::map<double, VtValue>`) is a sequence of
    samples with strictly increasing times; sample times are `real`
    because only their order is used. */
module SpecData {
  import opened Wrappers
  import opened Seqs
  import opened Paths

  type Token = string

  /** The field that holds a spec's time samples. */
  const TimeSamplesField: Token := "timeSamples"

  datatype SpecType =
    | Unknown | Attribute | Connection | Expression | Mapper | MapperArg
    | Prim | PseudoRoot | Relationship | RelationshipTarget | Variant | VariantSet

  datatype Value =
    | Empty
    | Opaque(id: int)
    | Samples(samples: seq<Sample>)
    | Dict(dict: map<Token, Value>)

  datatype Sample = Sample(time: real, value: Value)

  datatype Field = Field(name: Token, value: Value)

  datatype Spec = Spec(specType: SpecType, fields: seq<Field>)

  type Data = map<Path, Spec>

  function Names(fs: seq<Field>): (ns: seq<Token>)
    ensures |ns| == |fs| && forall i :: 0 <= i < |fs| ==> ns[i] == fs[i].name
  {
    seq(|fs|, i requires 0 <= i < |fs| => fs[i].name)
  }

  lemma NamesCons(fs: seq<Field>)
    requires fs != []
    ensures Names(fs) == [fs[0].name] + Names(fs[1..])
  {
  }

  /** A time-sample map: times strictly increase. */
  predicate TimesIncrease(ss: seq<Sample>) {
    forall i, j :: 0 <= i < j < |ss| ==> ss[i].time < ss[j].time
  }

  /** What the store keeps: no spec of unknown type (`CreateSpec` refuses
      it), distinct field names, no empty field value (`Set` erases
      instead), and ordered time samples. */
  predicate WellFormed(d: Data) {
    forall p :: p in d ==> SpecOk(d[p])
  }

  /** Distinct names and acceptable values. */
  predicate FieldsOk(fs: seq<Field>) {
    Unique(Names(fs)) && forall i :: 0 <= i < |fs| ==> ValueOk(fs[i].value)
  }

  predicate SpecOk(s: Spec) {
    s.specType != Unknown && FieldsOk(s.fields)
  }

  predicate ValueOk(v: Value) {
    v != Empty && (v.Samples? ==> TimesIncrease(v.samples))
  }

  // ---- specs ---------------------------------------------------------------

  predicate HasSpec(d: Data, p: Path) {
    p in d
  }

  /** `GetSpecType`: `Unknown` for a missing spec. */
  function GetSpecType(d: Data, p: Path): SpecType {
    if p in d then d[p].specType else Unknown
  }

  /** `EraseSpec`: a missing spec is a coding error and changes nothing. */
  function EraseSpec(d: Data, p: Path): (r: Data)
    ensures forall q :: HasSpec(r, q) <==> HasSpec(d, q) && q != p
    ensures forall q :: q in r ==> q in d && r[q] == d[q]
  {
    if p in d then d - {p} else d
  }

  /** `MoveSpec`: nothing changes when the source is missing or the
      destination already exists; otherwise the spec moves. */
  function MoveSpec(d: Data, oldPath: Path, newPath: Path): (r: Data)
    ensures oldPath !in d || newPath in d ==> r == d
    ensures oldPath in d && newPath !in d ==>
      newPath in r && r[newPath] == d[oldPath] && oldPath !in r
      && forall q :: q != oldPath && q != newPath ==> (q in r <==> q in d) && (q in r ==> r[q] == d[q])
  {
    if oldPath !in d || newPath in d then d
    else d[newPath := d[oldPath]] - {oldPath}
  }

  /** `CreateSpec`: the unknown type is refused; otherwise the spec gets the
      type and keeps whatever fields it already had. */
  function CreateSpec(d: Data, p: Path, t: SpecType): (r: Data)
    ensures t == Unknown ==> r == d
    ensures t != Unknown ==>
      p in r && r[p].specType == t && r[p].fields == (if p in d then d[p].fields else [])
    ensures forall q :: q != p ==> (q in r <==> q in d) && (q in r ==> r[q] == d[q])
  {
    if t == Unknown then d
    else if p in d then d[p := d[p].(specType := t)]
    else d[p := Spec(t, [])]
  }

  // ---- fields --------------------------------------------------------------

  /** Position of the first field named `name`, or the number of fields. */
  function FieldIndex(fs: seq<Field>, name: Token): (i: nat)
    ensures i <= |fs|
    ensures i < |fs| <==> name in Names(fs)
    ensures i < |fs| ==> fs[i].name == name
    ensures forall k :: 0 <= k < i ==> fs[k].name != name
  {
    if fs == [] then 0
    else
      NamesCons(fs);
      if fs[0].name == name then 0
      else 1 + FieldIndex(fs[1..], name)
  }

  /** `_GetFieldValue`: the value of the first field named `name` of the
      spec at `p`. */
  function FieldValue(d: Data, p: Path, name: Token): Option<Value> {
    if p !in d then None
    else
      var fs := d[p].fields;
      var i := FieldIndex(fs, name);
      if i < |fs| then Some(fs[i].value) else None
  }

  /** `Has`. */
  predicate Has(d: Data, p: Path, name: Token) {
    FieldValue(d, p, name).Some?
  }

  /** `Get`: the empty value when the spec or the field is missing. */
  function Get(d: Data, p: Path, name: Token): Value {
    match FieldValue(d, p, name)
    case Some(v) => v
    case None => Empty
  }

  /** `List`: the field names in the order they were first set. */
  function List(d: Data, p: Path): seq<Token> {
    if p in d then Names(d[p].fields) else []
  }

  /** `Erase`: removes the first field named `name`; a missing spec or
      field changes nothing. */
  function Erase(d: Data, p: Path, name: Token): (r: Data)
    ensures forall q :: q != p ==> (q in r <==> q in d) && (q in r ==> r[q] == d[q])
    ensures (p in r <==> p in d) && (p in r ==> r[p].specType == d[p].specType)
  {
    if p !in d then d
    else
      var fs := d[p].fields;
      var i := FieldIndex(fs, name);
      if i == |fs| then d
      else d[p := d[p].(fields := fs[..i] + fs[i + 1..])]
  }

  /** `Set`: an empty value erases the field; a missing spec is a coding
      error and changes nothing; an existing field is overwritten where it
      is, and a new one is appended. */
  function Set(d: Data, p: Path, name: Token, v: Value): (r: Data)
    ensures forall q :: q != p ==> (q in r <==> q in d) && (q in r ==> r[q] == d[q])
    ensures (p in r <==> p in d) && (p in r ==> r[p].specType == d[p].specType)
  {
    if v == Empty then Erase(d, p, name)
    else if p !in d then d
    else
      var fs := d[p].fields;
      var i := FieldIndex(fs, name);
      if i < |fs| then d[p := d[p].(fields := fs[i := Field(name, v)])]
      else d[p := d[p].(fields := fs + [Field(name, v)])]
  }

  // ---- field lemmas --------------------------------------------------------

  lemma {:induction false} FieldIndexOfNames(a: seq<Field>, b: seq<Field>, g: Token)
    requires Names(a) == Names(b)
    ensures FieldIndex(a, g) == FieldIndex(b, g)
    decreases |a|
  {
    if a != [] {
      assert a[0].name == Names(a)[0] == Names(b)[0] == b[0].name;
      assert Names(a[1..]) == Names(a)[1..] && Names(b[1..]) == Names(b)[1..];
      FieldIndexOfNames(a[1..], b[1..], g);
    }
  }

  /** With distinct names, the field at position `k` is the first one with
      its name. */
  lemma FieldIndexUnique(fs: seq<Field>, k: nat)
    requires Unique(Names(fs)) && k < |fs|
    ensures FieldIndex(fs, fs[k].name) == k
  {
    var i := FieldIndex(fs, fs[k].name);
    assert i <= k;
    assert Names(fs)[i] == Names(fs)[k];
  }

  /** Cutting out the field at `i` removes its name and keeps the others
      distinct. */
  lemma CutNames(fs: seq<Field>, i: nat)
    requires Unique(Names(fs)) && i < |fs|
    ensures var r := fs[..i] + fs[i + 1..];
      Names(r) == Without(Names(fs), {fs[i].name}) && Unique(Names(r))
  {
    var r := fs[..i] + fs[i + 1..];
    assert Names(r) == Names(fs)[..i] + Names(fs)[i + 1..];
    assert Names(fs)[i] == fs[i].name;
    WithoutAt(Names(fs), i);
    WithoutUnique(Names(fs), {fs[i].name});
  }

  /** Looking a field up after cutting out the field at `i`. */
  lemma LookupAfterCut(fs: seq<Field>, i: nat, g: Token)
    requires Unique(Names(fs)) && i < |fs|
    ensures var r := fs[..i] + fs[i + 1..];
      var k := FieldIndex(r, g);
      g == fs[i].name ==> k == |r|
    ensures var r := fs[..i] + fs[i + 1..];
      var k := FieldIndex(r, g);
      var j := FieldIndex(fs, g);
      g != fs[i].name ==> (k < |r| <==> j < |fs|) && (k < |r| ==> r[k] == fs[j])
  {
    var r := fs[..i] + fs[i + 1..];
    CutNames(fs, i);
    WithoutMembers(Names(fs), {fs[i].name}, g);
    var j := FieldIndex(fs, g);
    if g != fs[i].name && j < |fs| {
      CutLookup(fs, i, j);
    }
  }

  lemma CutLookup(fs: seq<Field>, i: nat, j: nat)
    requires Unique(Names(fs)) && i < |fs| && j < |fs| && j != i
    ensures var r := fs[..i] + fs[i + 1..];
      var k := FieldIndex(r, fs[j].name);
      k < |r| && r[k] == fs[j]
  {
    var r := fs[..i] + fs[i + 1..];
    CutNames(fs, i);
    var k := if j < i then j else j - 1;
    assert r[k] == fs[j];
    FieldIndexUnique(r, k);
  }

  /** The value of the first field named `g` in a field list. */
  function FieldsGet(fs: seq<Field>, g: Token): Value {
    var j := FieldIndex(fs, g);
    if j < |fs| then fs[j].value else Empty
  }

  lemma GetFields(d: Data, p: Path, g: Token)
    requires p in d
    ensures Get(d, p, g) == FieldsGet(d[p].fields, g)
  {
  }

  lemma CutGet(fs: seq<Field>, i: nat, g: Token)
    requires Unique(Names(fs)) && i < |fs|
    ensures FieldsGet(fs[..i] + fs[i + 1..], g) == if g == fs[i].name then Empty else FieldsGet(fs, g)
  {
    LookupAfterCut(fs, i, g);
  }

  lemma ReplaceGet(fs: seq<Field>, i: nat, name: Token, v: Value, g: Token)
    requires i == FieldIndex(fs, name) && i < |fs|
    ensures FieldsGet(fs[i := Field(name, v)], g) == if g == name then v else FieldsGet(fs, g)
  {
    var r := fs[i := Field(name, v)];
    assert Names(r) == Names(fs);
    FieldIndexOfNames(r, fs, g);
  }

  lemma AppendGet(fs: seq<Field>, name: Token, v: Value, g: Token)
    requires FieldIndex(fs, name) == |fs|
    ensures FieldsGet(fs + [Field(name, v)], g) == if g == name then v else FieldsGet(fs, g)
  {
    SetAppendLookup(fs, name, v, g);
  }

  /** `Set` then `Get`: the field just set reads back as the value set
      (the empty value after an erase) provided the spec exists; every
      other field and spec reads as before. */
  lemma SetGet(d: Data, p: Path, name: Token, v: Value, q: Path, g: Token)
    requires p in d ==> Unique(Names(d[p].fields))
    ensures Get(Set(d, p, name, v), q, g) == if q == p && g == name && p in d then v else Get(d, q, g)
  {
    if q == p && p in d {
      SetGetOwn(d, p, name, v, g);
    }
  }

  /** The spec that `Set` edits: the field set reads as the value set, the
      others as before. */
  lemma SetGetOwn(d: Data, p: Path, name: Token, v: Value, g: Token)
    requires p in d && Unique(Names(d[p].fields))
    ensures Get(Set(d, p, name, v), p, g) == if g == name then v else Get(d, p, g)
  {
    var fs := d[p].fields;
    var i := FieldIndex(fs, name);
    var r := Set(d, p, name, v);
    GetFields(d, p, g);
    GetFields(r, p, g);
    if v == Empty {
      if i < |fs| {
        assert r[p].fields == fs[..i] + fs[i + 1..];
        CutGet(fs, i, g);
      } else {
        assert r == d;
      }
    } else if i < |fs| {
      assert r[p].fields == fs[i := Field(name, v)];
      ReplaceGet(fs, i, name, v, g);
    } else {
      assert r[p].fields == fs + [Field(name, v)];
      AppendGet(fs, name, v, g);
    }
  }

  lemma {:induction false} SetAppendLookup(fs: seq<Field>, name: Token, v: Value, g: Token)
    requires FieldIndex(fs, name) == |fs|
    ensures var r := fs + [Field(name, v)];
      var k := FieldIndex(r, g);
      var j := FieldIndex(fs, g);
      (g == name ==> k == |fs|) && (g != name ==> (k < |r| <==> j < |fs|) && (j < |fs| ==> k == j))
    decreases |fs|
  {
    var r := fs + [Field(name, v)];
    if fs != [] {
      assert r[0] == fs[0] && r[1..] == fs[1..] + [Field(name, v)];
      assert fs[0].name != name;
      assert FieldIndex(fs, name) == 1 + FieldIndex(fs[1..], name);
      SetAppendLookup(fs[1..], name, v, g);
      if fs[0].name != g {
        assert FieldIndex(r, g) == 1 + FieldIndex(r[1..], g);
        assert FieldIndex(fs, g) == 1 + FieldIndex(fs[1..], g);
      }
    }
  }

  /** `Set` then `List`: a new field is appended to the names, an existing
      one keeps its place, and an empty value removes the name. */
  lemma SetList(d: Data, p: Path, name: Token, v: Value)
    requires p in d && Unique(Names(d[p].fields))
    ensures v != Empty && name in List(d, p) ==> List(Set(d, p, name, v), p) == List(d, p)
    ensures v != Empty && name !in List(d, p) ==> List(Set(d, p, name, v), p) == List(d, p) + [name]
    ensures v == Empty ==> List(Set(d, p, name, v), p) == Without(List(d, p), {name})
  {
    var fs := d[p].fields;
    var i := FieldIndex(fs, name);
    if i < |fs| {
      assert Names(fs)[i] == name;
      if v == Empty {
        assert Names(fs[..i] + fs[i + 1..]) == Names(fs)[..i] + Names(fs)[i + 1..];
        WithoutAt(Names(fs), i);
      } else {
        assert Names(fs[i := Field(name, v)]) == Names(fs);
      }
    } else {
      if v == Empty {
        WithoutNone(Names(fs), {name});
      } else {
        assert Names(fs + [Field(name, v)]) == Names(fs) + [name];
      }
    }
  }

  /** `Set` keeps the store well formed. */
  lemma SetWellFormed(d: Data, p: Path, name: Token, v: Value)
    requires WellFormed(d) && (v != Empty ==> ValueOk(v))
    ensures WellFormed(Set(d, p, name, v))
  {
    var r := Set(d, p, name, v);
    if p in d {
      SetSpecOk(d, p, name, v);
    }
    forall q | q in r
      ensures SpecOk(r[q])
    {
      if q != p {
        assert r[q] == d[q];
      }
    }
  }

  lemma SetSpecOk(d: Data, p: Path, name: Token, v: Value)
    requires p in d && SpecOk(d[p]) && (v != Empty ==> ValueOk(v))
    ensures SpecOk(Set(d, p, name, v)[p])
  {
    var r := Set(d, p, name, v);
    var fs := d[p].fields;
    var i := FieldIndex(fs, name);
    if v == Empty {
      if i < |fs| {
        assert r[p].fields == fs[..i] + fs[i + 1..];
        CutOk(fs, i);
      }
    } else if i < |fs| {
      assert r[p].fields == fs[i := Field(name, v)];
      ReplaceOk(fs, i, Field(name, v));
    } else {
      assert r[p].fields == fs + [Field(name, v)];
      AppendOk(fs, Field(name, v));
    }
  }

  lemma CutOk(fs: seq<Field>, i: nat)
    requires FieldsOk(fs) && i < |fs|
    ensures FieldsOk(fs[..i] + fs[i + 1..])
  {
    var cut := fs[..i] + fs[i + 1..];
    CutNames(fs, i);
    forall k | 0 <= k < |cut|
      ensures ValueOk(cut[k].value)
    {
      assert cut[k] == if k < i then fs[k] else fs[k + 1];
    }
  }

  lemma ReplaceOk(fs: seq<Field>, i: nat, f: Field)
    requires FieldsOk(fs) && i < |fs| && f.name == fs[i].name && ValueOk(f.value)
    ensures FieldsOk(fs[i := f])
  {
    assert Names(fs[i := f]) == Names(fs);
  }

  lemma AppendOk(fs: seq<Field>, f: Field)
    requires FieldsOk(fs) && f.name !in Names(fs) && ValueOk(f.value)
    ensures FieldsOk(fs + [f])
  {
    var r := fs + [f];
    assert Names(r) == Names(fs) + [f.name];
    UniqueAppend(Names(fs), [f.name]);
    forall k | 0 <= k < |r|
      ensures ValueOk(r[k].value)
    {
      if k < |fs| {
        assert r[k] == fs[k];
      }
    }
  }

  // ---- time samples --------------------------------------------------------

  function Times(ss: seq<Sample>): (ts: seq<real>)
    ensures |ts| == |ss| && forall i :: 0 <= i < |ss| ==> ts[i] == ss[i].time
  {
    seq(|ss|, i requires 0 <= i < |ss| => ss[i].time)
  }

  /** The samples of the spec at `p`: those of its `timeSamples` field when
      that holds a time-sample map, and none otherwise. */
  function PathSamples(d: Data, p: Path): seq<Sample> {
    match FieldValue(d, p, TimeSamplesField)
    case Some(Samples(ss)) => ss
    case _ => []
  }

  /** `ListTimeSamplesForPath`. */
  function ListTimeSamplesForPath(d: Data, p: Path): set<real> {
    Elems(Times(PathSamples(d, p)))
  }

  /** `ListAllTimeSamples`: the union over all specs. */
  function ListAllTimeSamples(d: Data): (ts: set<real>)
    ensures forall t :: t in ts <==> exists p :: p in d && t in ListTimeSamplesForPath(d, p)
  {
    set p, t | p in d && t in Times(PathSamples(d, p)) :: t
  }

  /** The value of the sample at `t`, if any. */
  function SampleAt(ss: seq<Sample>, t: real): Option<Value> {
    if ss == [] then None
    else if ss[0].time == t then Some(ss[0].value)
    else SampleAt(ss[1..], t)
  }

  /** `newSamples[time] = value` on an ordered sample map. */
  function PutSample(ss: seq<Sample>, t: real, v: Value): (r: seq<Sample>)
    ensures TimesIncrease(ss) ==> TimesIncrease(r)
    ensures forall i :: 0 <= i < |r| ==> r[i].time == t || r[i].time in Times(ss)
    decreases |ss|
  {
    if ss == [] then [Sample(t, v)]
    else if ss[0].time == t then [Sample(t, v)] + ss[1..]
    else if t < ss[0].time then [Sample(t, v)] + ss
    else
      var rest := PutSample(ss[1..], t, v);
      assert forall i :: 0 <= i < |rest| ==> rest[i].time == t || rest[i].time in Times(ss) by {
        forall i | 0 <= i < |rest| && rest[i].time != t
          ensures rest[i].time in Times(ss)
        {
          var k :| 0 <= k < |ss[1..]| && Times(ss[1..])[k] == rest[i].time;
          assert Times(ss)[k + 1] == rest[i].time;
        }
      }
      [ss[0]] + rest
  }

  /** `newSamples.erase(time)`. */
  function RemoveSample(ss: seq<Sample>, t: real): (r: seq<Sample>)
    ensures |r| <= |ss|
    ensures forall i :: 0 <= i < |r| ==> r[i] in ss
  {
    if ss == [] then []
    else if ss[0].time == t then RemoveSample(ss[1..], t)
    else [ss[0]] + RemoveSample(ss[1..], t)
  }

  lemma {:induction false} PutSampleAt(ss: seq<Sample>, t: real, v: Value, u: real)
    ensures SampleAt(PutSample(ss, t, v), u) == if u == t then Some(v) else SampleAt(ss, u)
    decreases |ss|
  {
    if ss != [] && ss[0].time != t && !(t < ss[0].time) {
      PutSampleAt(ss[1..], t, v, u);
    }
  }

  lemma {:induction false} RemoveSampleAt(ss: seq<Sample>, t: real, u: real)
    requires TimesIncrease(ss)
    ensures SampleAt(RemoveSample(ss, t), u) == if u == t then None else SampleAt(ss, u)
    decreases |ss|
  {
    if ss != [] {
      RemoveSampleAt(ss[1..], t, u);
    }
  }

  lemma {:induction false} RemoveSampleOrdered(ss: seq<Sample>, t: real)
    requires TimesIncrease(ss)
    ensures TimesIncrease(RemoveSample(ss, t))
    decreases |ss|
  {
    if ss != [] {
      RemoveSampleOrdered(ss[1..], t);
      var rest := RemoveSample(ss[1..], t);
      forall k | 0 <= k < |rest|
        ensures ss[0].time < rest[k].time
      {
        var m :| 0 <= m < |ss[1..]| && ss[1..][m] == rest[k];
      }
    }
  }

  /** `SetTimeSample`: an empty value erases the sample; otherwise the
      sample is inserted or overwritten in the spec's time-sample map,
      which starts empty when the field holds something else. A missing
      spec is left alone. */
  function SetTimeSample(d: Data, p: Path, t: real, v: Value): Data {
    if v == Empty then EraseTimeSample(d, p, t)
    else Set(d, p, TimeSamplesField, Samples(PutSample(PathSamples(d, p), t, v)))
  }

  /** `EraseTimeSample`: only a field holding a time-sample map is touched,
      and the field goes away with its last sample. */
  function EraseTimeSample(d: Data, p: Path, t: real): Data {
    match FieldValue(d, p, TimeSamplesField)
    case Some(Samples(ss)) =>
      var rest := RemoveSample(ss, t);
      if rest == [] then Erase(d, p, TimeSamplesField)
      else Set(d, p, TimeSamplesField, Samples(rest))
    case _ => d
  }

  /** `QueryTimeSample`. */
  function QueryTimeSample(d: Data, p: Path, t: real): Option<Value> {
    SampleAt(PathSamples(d, p), t)
  }

  /** `SetTimeSample` then `QueryTimeSample`: the sample set reads back
      (none after an erase), the others are unchanged. */
  lemma SetTimeSampleQuery(d: Data, p: Path, t: real, v: Value, u: real)
    requires WellFormed(d) && p in d
    ensures QueryTimeSample(SetTimeSample(d, p, t, v), p, u)
      == if u == t then (if v == Empty then None else Some(v)) else QueryTimeSample(d, p, u)
  {
    if v == Empty {
      EraseTimeSampleQuery(d, p, t, u);
    } else {
      var ss := PathSamples(d, p);
      SetGet(d, p, TimeSamplesField, Samples(PutSample(ss, t, v)), p, TimeSamplesField);
      PutSampleAt(ss, t, v, u);
    }
  }

  lemma EraseTimeSampleQuery(d: Data, p: Path, t: real, u: real)
    requires WellFormed(d) && p in d
    ensures QueryTimeSample(EraseTimeSample(d, p, t), p, u)
      == if u == t then None else QueryTimeSample(d, p, u)
  {
    match FieldValue(d, p, TimeSamplesField)
    case Some(Samples(ss)) =>
      var fs := d[p].fields;
      assert ValueOk(fs[FieldIndex(fs, TimeSamplesField)].value);
      RemoveSampleAt(ss, t, u);
      var rest := RemoveSample(ss, t);
      if rest == [] {
        SetGet(d, p, TimeSamplesField, Empty, p, TimeSamplesField);
      } else {
        SetGet(d, p, TimeSamplesField, Samples(rest), p, TimeSamplesField);
      }
    case _ =>
  }

  /** Erasing the last sample removes the `timeSamples` field itself. */
  lemma EraseLastSample(d: Data, p: Path, t: real, v: Value)
    requires WellFormed(d) && p in d
    requires FieldValue(d, p, TimeSamplesField) == Some(Samples([Sample(t, v)]))
    ensures !Has(EraseTimeSample(d, p, t), p, TimeSamplesField)
  {
    assert RemoveSample([Sample(t, v)], t) == [];
    SetGet(d, p, TimeSamplesField, Empty, p, TimeSamplesField);
  }

  /** The sample-map operations keep the store well formed. */
  lemma SetTimeSampleWellFormed(d: Data, p: Path, t: real, v: Value)
    requires WellFormed(d) && (v != Empty ==> ValueOk(v))
    ensures WellFormed(SetTimeSample(d, p, t, v))
  {
    if v == Empty {
      EraseTimeSampleWellFormed(d, p, t);
    } else {
      PathSamplesOrdered(d, p);
      SetWellFormed(d, p, TimeSamplesField, Samples(PutSample(PathSamples(d, p), t, v)));
    }
  }

  lemma EraseTimeSampleWellFormed(d: Data, p: Path, t: real)
    requires WellFormed(d)
    ensures WellFormed(EraseTimeSample(d, p, t))
  {
    match FieldValue(d, p, TimeSamplesField)
    case Some(Samples(ss)) =>
      PathSamplesOrdered(d, p);
      RemoveSampleOrdered(ss, t);
      var rest := RemoveSample(ss, t);
      if rest == [] {
        SetWellFormed(d, p, TimeSamplesField, Empty);
      } else {
        SetWellFormed(d, p, TimeSamplesField, Samples(rest));
      }
    case _ =>
  }

  lemma PathSamplesOrdered(d: Data, p: Path)
    requires WellFormed(d)
    ensures TimesIncrease(PathSamples(d, p))
  {
    if p in d {
      var fs := d[p].fields;
      var i := FieldIndex(fs, TimeSamplesField);
      if i < |fs| {
        assert ValueOk(fs[i].value);
      }
    }
  }

  /** `GetNumTimeSamplesForPath`: the size of the path's time-sample map,
      zero when the field is missing or holds something else. */
  function NumTimeSamplesForPath(d: Data, p: Path): nat {
    |PathSamples(d, p)|
  }

  /** In a well-formed store the count is the number of distinct times
      `ListTimeSamplesForPath` reports. */
  lemma NumTimeSamplesCounts(d: Data, p: Path)
    requires WellFormed(d)
    ensures NumTimeSamplesForPath(d, p) == |ListTimeSamplesForPath(d, p)|
  {
    PathSamplesOrdered(d, p);
    IncreasingCard(Times(PathSamples(d, p)));
  }

  /** Strictly increasing times are distinct, so there are as many as the
      set of them has members. */
  lemma {:induction false} IncreasingCard(ts: seq<real>)
    requires Increasing(ts)
    ensures |Elems(ts)| == |ts|
  {
    if ts != [] {
      var rest := ts[1..];
      assert Increasing(rest) by {
        forall i, j | 0 <= i < j < |rest| ensures rest[i] < rest[j] {
          assert rest[i] == ts[i + 1] && rest[j] == ts[j + 1];
        }
      }
      IncreasingCard(rest);
      assert ts == [ts[0]] + rest;
      ElemsAppend([ts[0]], rest);
      assert Elems([ts[0]]) == {ts[0]};
      assert ts[0] !in Elems(rest);
    }
  }

  // ---- bracketing ----------------------------------------------------------

  /** Strictly increasing sample times, the iteration order of a
      `std::set<double>` or of a time-sample map's keys. */
  predicate Increasing(ts: seq<real>) {
    forall i, j :: 0 <= i < j < |ts| ==> ts[i] < ts[j]
  }

  /** `lower_bound`: the first position whose time is not below `t`. */
  function LowerBound(ts: seq<real>, t: real): (i: nat)
    ensures i <= |ts|
    ensures i < |ts| ==> t <= ts[i]
    ensures forall k :: 0 <= k < i ==> ts[k] < t
  {
    if ts == [] || t <= ts[0] then 0 else 1 + LowerBound(ts[1..], t)
  }

  /** `_GetBracketingTimeSamplesImpl`: `None` without samples; both bounds
      on the first or last sample when `t` lies at or outside the ends;
      both on `t` when a sample is there; otherwise the neighbours. */
  function Bracket(ts: seq<real>, t: real): Option<(real, real)> {
    if ts == [] then None
    else if t <= ts[0] then Some((ts[0], ts[0]))
    else if t >= ts[|ts| - 1] then Some((ts[|ts| - 1], ts[|ts| - 1]))
    else
      var i := LowerBound(ts, t);
      if ts[i] == t then Some((t, t))
      else Some((ts[i - 1], ts[i]))
  }

  /** The bracketing bounds are samples that enclose `t` as tightly as the
      samples allow. */
  lemma BracketSpec(ts: seq<real>, t: real)
    requires Increasing(ts)
    ensures Bracket(ts, t).None? <==> ts == []
    ensures Bracket(ts, t).Some? ==>
      var (lo, hi) := Bracket(ts, t).value;
      lo in ts && hi in ts && lo <= hi
      && (t <= ts[0] ==> lo == hi == ts[0])
      && (t >= ts[|ts| - 1] ==> lo == hi == ts[|ts| - 1])
      && (t in ts ==> lo == hi == t)
      && (ts[0] < t < ts[|ts| - 1] && t !in ts ==>
            lo < t < hi && forall k :: 0 <= k < |ts| ==> !(lo < ts[k] < hi))
  {
    if ts != [] && ts[0] < t < ts[|ts| - 1] {
      var i := LowerBound(ts, t);
      if ts[i] != t {
        forall k | 0 <= k < |ts|
          ensures !(ts[i - 1] < ts[k] < ts[i])
        {
          if k < i - 1 {
            assert ts[k] < ts[i - 1];
          } else if k > i {
            assert ts[i] < ts[k];
          }
        }
      }
    }
  }

  /** `GetBracketingTimeSamplesForPath`: over the path's samples, `None`
      when the field does not hold a time-sample map. */
  function BracketingTimeSamplesForPath(d: Data, p: Path, t: real): Option<(real, real)> {
    Bracket(Times(PathSamples(d, p)), t)
  }

  /** `GetBracketingTimeSamples`: over all sample times of the store, given
      in increasing order as the `std::set` holding them iterates. */
  function BracketingTimeSamples(d: Data, ordered: seq<real>, t: real): (r: Option<(real, real)>)
    requires Increasing(ordered) && Elems(ordered) == ListAllTimeSamples(d)
    ensures r.None? <==> ListAllTimeSamples(d) == {}
    ensures r.Some? ==> var (lo, hi) := r.value;
      lo in ListAllTimeSamples(d) && hi in ListAllTimeSamples(d) && lo <= hi
      && forall s :: s in ListAllTimeSamples(d) ==> !(lo < s < hi)
    ensures r.Some? && t in ListAllTimeSamples(d) ==> r.value == (t, t)
    ensures (r.Some? && (exists s :: s in ListAllTimeSamples(d) && s <= t)
             && (exists s :: s in ListAllTimeSamples(d) && t <= s)) ==> r.value.0 <= t <= r.value.1
  {
    BracketOfSet(ordered, t);
    Bracket(ordered, t)
  }

  /** What `Bracket` gives, stated on the set of sample times. */
  lemma BracketOfSet(ts: seq<real>, t: real)
    requires Increasing(ts)
    ensures Bracket(ts, t).None? <==> Elems(ts) == {}
    ensures Bracket(ts, t).Some? ==> var (lo, hi) := Bracket(ts, t).value;
      lo in Elems(ts) && hi in Elems(ts) && lo <= hi
      && forall s :: s in Elems(ts) ==> !(lo < s < hi)
    ensures Bracket(ts, t).Some? && t in Elems(ts) ==> Bracket(ts, t).value == (t, t)
    ensures (Bracket(ts, t).Some? && (exists s :: s in Elems(ts) && s <= t)
             && (exists s :: s in Elems(ts) && t <= s)) ==> Bracket(ts, t).value.0 <= t <= Bracket(ts, t).value.1
  {
    BracketSpec(ts, t);
    if ts != [] {
      assert ts[0] in Elems(ts);
    }
  }

  /** `SdfData::GetPreviousTimeSampleForPath` on the sample times: none at
      or before the first sample, the last sample after it, and otherwise
      the sample before the lower bound. */
  function PreviousSample(ts: seq<real>, t: real): Option<real> {
    if ts == [] || t <= ts[0] then None
    else if t > ts[|ts| - 1] then Some(ts[|ts| - 1])
    else
      var i := LowerBound(ts, t);
      Some(ts[i - 1])
  }

  /** The previous sample is the greatest sample time below `t`, and there
      is none exactly when no sample lies below `t`. */
  lemma PreviousSampleSpec(ts: seq<real>, t: real)
    requires Increasing(ts)
    ensures PreviousSample(ts, t).None? <==> forall k :: 0 <= k < |ts| ==> t <= ts[k]
    ensures PreviousSample(ts, t).Some? ==>
      var u := PreviousSample(ts, t).value;
      u in ts && u < t && forall k :: 0 <= k < |ts| && ts[k] < t ==> ts[k] <= u
  {
    if ts != [] && t <= ts[0] {
      forall k | 0 <= k < |ts|
        ensures t <= ts[k]
      {
        if k > 0 {
          assert ts[0] < ts[k];
        }
      }
    } else if ts != [] && t > ts[|ts| - 1] {
      forall k | 0 <= k < |ts|
        ensures ts[k] <= ts[|ts| - 1]
      {
        if k < |ts| - 1 {
          assert ts[k] < ts[|ts| - 1];
        }
      }
    } else if ts != [] {
      var i := LowerBound(ts, t);
      forall k | i < k < |ts|
        ensures t <= ts[k]
      {
        assert ts[i] < ts[k];
      }
      forall k | 0 <= k < |ts| && ts[k] < t
        ensures ts[k] <= ts[i - 1]
      {
        if k < i - 1 {
          assert ts[k] < ts[i - 1];
        }
      }
    }
  }

  /** `GetPreviousTimeSampleForPath`. */
  function PreviousTimeSampleForPath(d: Data, p: Path, t: real): Option<real> {
    PreviousSample(Times(PathSamples(d, p)), t)
  }

  /** Ordered sample maps give increasing sample times. */
  lemma TimesIncreasing(ss: seq<Sample>)
    requires TimesIncrease(ss)
    ensures Increasing(Times(ss))
  {
  }
}

=== FILE: strings.dfy ===
/** Character-string helpers shared by the components: std::string ordering,
    occurrence counting and prefix tests. Strings are `seq<char>`; a byte of
    a C++ string is one `char` here. */
module Strings {

  /** std::string's operator<: lexicographic on character codes, a proper
      prefix comes first. */
  predicate Less(a: string, b: string)
    decreases |a|
  {
    if |a| == 0 then |b| > 0
    else if |b| == 0 then false
    else a[0] < b[0] || (a[0] == b[0] && Less(a[1..], b[1..]))
  }

  lemma {:induction false} LessIrreflexive(a: string)
    ensures !Less(a, a)
    decreases |a|
  {
    if |a| > 0 {
      LessIrreflexive(a[1..]);
    }
  }

  lemma {:induction false} LessTransitive(a: string, b: string, c: string)
    requires Less(a, b) && Less(b, c)
    ensures Less(a, c)
    decreases |a|
  {
    if |a| > 0 && a[0] == b[0] && b[0] == c[0] {
      LessTransitive(a[1..], b[1..], c[1..]);
    }
  }

  /** Any two strings are equal or ordered one way. */
  lemma {:induction false} LessTrichotomous(a: string, b: string)
    ensures a == b || Less(a, b) || Less(b, a)
    decreases |a|
  {
    if |a| > 0 && |b| > 0 && a[0] == b[0] {
      LessTrichotomous(a[1..], b[1..]);
      if a[1..] == b[1..] {
        assert a == [a[0]] + a[1..] && b == [b[0]] + b[1..];
      }
    }
  }

  lemma {:induction false} LessAsymmetric(a: string, b: string)
    requires Less(a, b)
    ensures !Less(b, a)
    decreases |a|
  {
    if |a| > 0 && |b| > 0 && a[0] == b[0] {
      LessAsymmetric(a[1..], b[1..]);
    }
  }

  /** A proper prefix orders before its extensions (e.g. "/a" < "/a/b"). */
  lemma {:induction false} ProperPrefixIsLess(a: string, b: string)
    requires a < b
    ensures Less(a, b)
    decreases |a|
  {
    if |a| > 0 {
      assert a[1..] < b[1..];
      ProperPrefixIsLess(a[1..], b[1..]);
    }
  }

  /** Number of occurrences of `c` in `s` (std::count). */
  function Count(s: string, c: char): (n: nat)
    ensures n <= |s|
    ensures n == 0 <==> c !in s
  {
    if |s| == 0 then 0 else (if s[0] == c then 1 else 0) + Count(s[1..], c)
  }

  lemma {:induction false} CountAppend(a: string, b: string, c: char)
    ensures Count(a + b, c) == Count(a, c) + Count(b, c)
    decreases |a|
  {
    if |a| > 0 {
      assert (a + b)[0] == a[0];
      assert (a + b)[1..] == a[1..] + b;
      CountAppend(a[1..], b, c);
    } else {
      assert a + b == b;
    }
  }

  /** The text a `char const *` sees of a std::string: up to the first NUL. */
  function CString(s: string): (c: string)
    ensures c <= s && '\0' !in c
    ensures |c| < |s| ==> s[|c|] == '\0'
  {
    if |s| == 0 || s[0] == '\0' then [] else [s[0]] + CString(s[1..])
  }

  lemma {:induction false} CStringAppend(a: string, b: string)
    requires '\0' !in a
    ensures CString(a + b) == a + CString(b)
    decreases |a|
  {
    if |a| > 0 {
      assert (a + b)[0] == a[0];
      assert (a + b)[1..] == a[1..] + b;
      assert '\0' !in a[1..];
      CStringAppend(a[1..], b);
      assert a == [a[0]] + a[1..];
    } else {
      assert a + b == b;
    }
  }

  /** A NUL at position `k` ends the C string there or earlier. */
  lemma {:induction false} CStringStopsAtNul(s: string, k: nat)
    requires k < |s| && s[k] == '\0'
    ensures |CString(s)| <= k
    decreases k
  {
    if k > 0 && s[0] != '\0' {
      CStringStopsAtNul(s[1..], k - 1);
    }
  }
}

=== FILE: sublayer_list_editor.dfy ===
/** The sublayer list editor's edit hook (subLayerListEditor.cpp): a
    layer keeps its sublayer paths and their offsets in two parallel
    fields, and every edit of the paths rebuilds the offsets so that each
    path keeps its own. */
module SubLayerListEditor {
  import opened Wrappers
  import opened Seqs

  /** A time offset and scale; the default is the identity. */
  datatype LayerOffset = LayerOffset(offset: real, scale: real)

  const DefaultOffset := LayerOffset(0.0, 1.0)

  /** The offset the rebuilt vector gives `path`: the one stored at its
      first old position, or the default for a new path. */
  function OffsetFor(oldPaths: seq<string>, oldOffsets: seq<LayerOffset>, path: string): LayerOffset
    requires |oldPaths| == |oldOffsets|
  {
    if path in oldPaths then oldOffsets[IndexOf(oldPaths, path)] else DefaultOffset
  }

  /** `_OnEdit`: `None` when the stored offsets do not match the old paths
      in length (nothing is written), otherwise the offsets to store. */
  method OnEdit(oldPaths: seq<string>, newPaths: seq<string>, oldOffsets: seq<LayerOffset>)
    returns (written: Option<seq<LayerOffset>>)
    ensures written.None? <==> |oldPaths| != |oldOffsets|
    ensures written.Some? ==>
      |written.value| == |newPaths|
      && forall i :: 0 <= i < |newPaths| ==>
           written.value[i] == OffsetFor(oldPaths, oldOffsets, newPaths[i])
  {
    if |oldPaths| != |oldOffsets| {
      return None;
    }
    var offsets := seq(|newPaths|, _ => DefaultOffset);
    for i := 0 to |newPaths|
      invariant |offsets| == |newPaths|
      invariant forall k :: 0 <= k < i ==> offsets[k] == OffsetFor(oldPaths, oldOffsets, newPaths[k])
      invariant forall k :: i <= k < |newPaths| ==> offsets[k] == DefaultOffset
    {
      var j := 0;
      while j < |oldPaths| && oldPaths[j] != newPaths[i]
        invariant j <= |oldPaths|
        invariant newPaths[i] !in oldPaths[..j]
      {
        assert oldPaths[..j + 1] == oldPaths[..j] + [oldPaths[j]];
        j := j + 1;
      }
      if j == |oldPaths| {
        assert oldPaths[..j] == oldPaths;
        continue;
      }
      assert j == IndexOf(oldPaths, newPaths[i]);
      offsets := offsets[i := oldOffsets[j]];
    }
    return Some(offsets);
  }

  /** An edit that changes no path keeps every offset. */
  lemma UnchangedPathsKeepOffsets(paths: seq<string>, offsets: seq<LayerOffset>, i: nat)
    requires |paths| == |offsets| && Unique(paths) && i < |paths|
    ensures OffsetFor(paths, offsets, paths[i]) == offsets[i]
  {
    var k := IndexOf(paths, paths[i]);
    assert k == i;
  }

  /** Removing the path at position `r` removes its offset and keeps the
      others with their paths. */
  lemma RemovalDropsOffset(paths: seq<string>, offsets: seq<LayerOffset>, r: nat, i: nat)
    requires |paths| == |offsets| && Unique(paths) && r < |paths|
    requires i < |paths| - 1
    ensures var newPaths := paths[..r] + paths[r + 1..];
      var newOffsets := offsets[..r] + offsets[r + 1..];
      OffsetFor(paths, offsets, newPaths[i]) == newOffsets[i]
  {
    var j := if i < r then i else i + 1;
    assert (paths[..r] + paths[r + 1..])[i] == paths[j];
    assert (offsets[..r] + offsets[r + 1..])[i] == offsets[j];
    UnchangedPathsKeepOffsets(paths, offsets, j);
  }

  /** A path moved to a new position carries its offset along. */
  lemma MovedPathKeepsOffset(oldPaths: seq<string>, oldOffsets: seq<LayerOffset>, newPaths: seq<string>,
                             i: nat, j: nat)
    requires |oldPaths| == |oldOffsets| && Unique(oldPaths)
    requires i < |newPaths| && j < |oldPaths| && newPaths[i] == oldPaths[j]
    ensures OffsetFor(oldPaths, oldOffsets, newPaths[i]) == oldOffsets[j]
  {
    UnchangedPathsKeepOffsets(oldPaths, oldOffsets, j);
  }
}

=== FILE: text_output.dfy ===
/** The buffered writer behind the text file format (fileIO.h, fileIO.cpp):
    a stream asset that writes at an offset, a 4096-byte buffer in front of
    it, the "#cookie version" header, and the rewrite of that header when the
    layer needs a newer version than the one first written. */
module TextOutput {
  import opened FileVersion
  import opened UsdaData

  // ---------------------------------------------------------------------
  // `Sdf_StreamWritableAsset`.

  /** An output stream: its text, the asset's recorded offset, whether the
      stream can seek (pipes and terminals cannot), and the stream's sticky
      failure state. */
  datatype Stream = Stream(text: string, offset: nat, seekable: bool, failed: bool)

  /** While the stream has not failed, the recorded offset is a position in
      its text. */
  type Asset = s: Stream | s.failed || s.offset <= |s.text| witness Stream([], 0, true, false)

  /** `bytes` written over `text` from position `at`, extending it if
      needed. */
  function Overwrite(text: string, at: nat, bytes: string): (r: string)
    requires at <= |text|
    ensures |r| == if at + |bytes| <= |text| then |text| else at + |bytes|
    ensures r[..at] == text[..at] && r[at..at + |bytes|] == bytes
    ensures at + |bytes| <= |text| ==> r[at + |bytes|..] == text[at + |bytes|..]
  {
    text[..at] + bytes + (if at + |bytes| < |text| then text[at + |bytes|..] else [])
  }

  datatype Written = Written(asset: Asset, count: nat)

  /** `Write(buffer, count, offset)`: a different offset needs a seek, which
      fails on a failed or unseekable stream or past the end and then writes
      nothing; otherwise all bytes are written and the offset advances. A
      stream that failed earlier swallows writes at its recorded offset. */
  function StreamWrite(s: Asset, bytes: string, offset: nat): (r: Written)
    ensures || (r.count == |bytes| && r.asset.offset == offset + |bytes|)
            || (r.count == 0 && offset != s.offset && r.asset.failed && r.asset.text == s.text)
    ensures r.count == |bytes| && !r.asset.failed ==> offset <= |s.text| && r.asset.text == Overwrite(s.text, offset, bytes)
    ensures offset == s.offset && !s.failed ==> r.count == |bytes| && !r.asset.failed
    ensures r.asset.seekable == s.seekable
  {
    if offset != s.offset && (s.failed || !s.seekable || offset > |s.text|) then
      Written(s.(failed := true), 0)
    else if s.failed then
      Written(s.(offset := offset + |bytes|), |bytes|)
    else
      Written(Stream(Overwrite(s.text, offset, bytes), offset + |bytes|, s.seekable, false), |bytes|)
  }

  /** `Close`: flushes the stream and resets the recorded offset. */
  function StreamClose(s: Asset): (r: Asset)
    ensures r.text == s.text && r.offset == 0
  {
    s.(offset := 0)
  }

  // ---------------------------------------------------------------------
  // `Sdf_TextOutput`.

  const BufferSize: nat := 4096

  /** The writer: its asset (released on close), the offset of the next
      flush, the pending buffer, and the header it wrote. */
  datatype Output = Output(
    asset: Asset, open: bool, offset: nat, buffer: string,
    cookie: string, written: Version, requested: Version)

  function NewOutput(asset: Asset): (o: Output)
    ensures o.open && o.buffer == [] && o.offset == 0
  {
    Output(asset, true, 0, [], [], Zero, Zero)
  }

  /** Between calls the buffer is never full. */
  predicate Valid(o: Output) {
    |o.buffer| < BufferSize
  }

  /** Plain sequential output: every flush lands at the end of the text. */
  predicate Appending(o: Output) {
    o.open && !o.asset.failed && o.asset.offset == o.offset == |o.asset.text|
  }

  /** Everything the writer has taken so far: the text delivered to the
      asset followed by the buffer. */
  function Delivered(o: Output): string {
    o.asset.text + o.buffer
  }

  datatype Step = Step(out: Output, ok: bool)

  /** `_FlushBuffer`: an empty buffer is a no-op; otherwise the buffer is
      written at the output offset, and only a complete write empties it and
      advances the offset. */
  function FlushBuffer(o: Output): (r: Step)
    requires o.open || o.buffer == []
    ensures o.buffer == [] ==> r == Step(o, true)
    ensures r.ok ==> r.out.buffer == [] && r.out.offset == o.offset + |o.buffer|
    ensures !r.ok ==> r.out.buffer == o.buffer && r.out.offset == o.offset
    ensures Appending(o) ==> r.ok && Appending(r.out) && Delivered(r.out) == Delivered(o)
    ensures r.out.open == o.open && r.out.asset.seekable == o.asset.seekable
    ensures r.out.cookie == o.cookie && r.out.written == o.written && r.out.requested == o.requested
  {
    if |o.buffer| == 0 then Step(o, true)
    else
      var w := StreamWrite(o.asset, o.buffer, o.offset);
      if w.count != |o.buffer| then Step(o.(asset := w.asset), false)
      else Step(o.(asset := w.asset, offset := o.offset + w.count, buffer := []), true)
  }

  /** `_Seek`: flush, then only move the output offset; the stream itself
      seeks at the next flush. */
  function Seek(o: Output, pos: nat): (r: Step)
    requires o.open
    ensures r.ok <==> FlushBuffer(o).ok
    ensures r.ok ==> r.out.offset == pos && r.out.buffer == [] && r.out.asset == FlushBuffer(o).out.asset
    ensures r.out.open && r.out.cookie == o.cookie && r.out.written == o.written && r.out.requested == o.requested
  {
    var f := FlushBuffer(o);
    if !f.ok then f else Step(f.out.(offset := pos), true)
  }

  function Min(a: nat, b: nat): nat {
    if a <= b then a else b
  }

  /** Taking `n` more characters of `str` appends them. */
  lemma PrefixGrows(pre: string, str: string, i: nat, n: nat)
    requires i + n <= |str|
    ensures pre + str[..i + n] == (pre + str[..i]) + str[i..i + n]
  {
    assert str[..i + n] == str[..i] + str[i..i + n];
  }

  /** `_Write`: copy into the buffer chunk by chunk, flushing whenever it
      fills up. */
  method Write(o: Output, str: string) returns (r: Output, ok: bool)
    requires o.open && |o.buffer| <= BufferSize
    ensures r.open && |r.buffer| <= BufferSize && r.asset.seekable == o.asset.seekable
    ensures r.cookie == o.cookie && r.written == o.written && r.requested == o.requested
    ensures ok && Valid(o) ==> Valid(r)
    ensures |o.buffer| + |str| < BufferSize ==> ok && r == o.(buffer := o.buffer + str)
    ensures Appending(o) ==> ok && Appending(r) && Delivered(r) == Delivered(o) + str
  {
    r := o;
    var i := 0;
    while i < |str|
      invariant 0 <= i <= |str|
      invariant r.open && |r.buffer| <= BufferSize && r.asset.seekable == o.asset.seekable
      invariant r.cookie == o.cookie && r.written == o.written && r.requested == o.requested
      invariant Valid(o) ==> Valid(r)
      invariant |o.buffer| + |str| < BufferSize ==> r == o.(buffer := o.buffer + str[..i])
      invariant Appending(o) ==> Appending(r) && Delivered(r) == Delivered(o) + str[..i]
      decreases |str| - i, |r.buffer|
    {
      var n := Min(BufferSize - |r.buffer|, |str| - i);
      var chunk := str[i..i + n];
      PrefixGrows(o.buffer, str, i, n);
      PrefixGrows(Delivered(o), str, i, n);
      assert Delivered(r.(buffer := r.buffer + chunk)) == Delivered(r) + chunk by {
        assert r.asset.text + (r.buffer + chunk) == (r.asset.text + r.buffer) + chunk;
      }
      r := r.(buffer := r.buffer + chunk);
      i := i + n;
      if |r.buffer| == BufferSize {
        var f := FlushBuffer(r);
        if !f.ok {
          return f.out, false;
        }
        r := f.out;
      }
    }
    assert str[..i] == str;
    ok := true;
  }

  /** `_ComposeHeader`: the cookie, a space, the short version text and a
      newline. The version must be valid. */
  function ComposeHeader(cookie: string, v: Version): (h: string)
    requires IsValid(v)
    ensures |h| == |cookie| + |AsString(v)| + 2
    ensures h[..|cookie|] == cookie && h[|cookie|] == ' ' && h[|h| - 1] == '\n'
  {
    cookie + " " + AsString(v) + "\n"
  }

  /** The version read back from a composed header, after the cookie and the
      space, is the version it was composed from. */
  lemma ComposeHeaderRoundTrip(cookie: string, v: Version)
    requires IsValid(v)
    ensures FromString(ComposeHeader(cookie, v)[|cookie| + 1..]) == v
  {
    var h := ComposeHeader(cookie, v);
    assert h[|cookie| + 1..] == AsString(v) + "\n";
    AsStringRoundTrip(v, "\n");
  }

  /** `WriteHeader`: an invalid version falls back to the default output
      version; the buffer is flushed, both the requested and the written
      version become the chosen one, and the header is written. */
  method WriteHeader(lim: Limits, o: Output, cookie: string, version: Version) returns (r: Output, ok: bool)
    requires o.open && |o.buffer| <= BufferSize
    ensures var chosen := if IsValid(version) then version else lim.defaultOutput;
      && (ok ==> IsValid(chosen) && r.cookie == cookie && r.written == chosen && r.requested == chosen)
      && (!IsValid(chosen) ==> !ok && r == o)
      && (Appending(o) && IsValid(chosen) ==> ok && Appending(r) && Delivered(r) == Delivered(o) + ComposeHeader(cookie, chosen))
    ensures r.open && |r.buffer| <= BufferSize
  {
    var chosen := if IsValid(version) then version else lim.defaultOutput;
    if !IsValid(chosen) {
      return o, false;
    }
    var f := FlushBuffer(o);
    if !f.ok {
      return f.out, false;
    }
    r := f.out.(cookie := cookie, requested := chosen, written := chosen);
    r, ok := Write(r, ComposeHeader(cookie, chosen));
  }

  /** `RequestWriteVersionUpgrade`: a version above the maximum output
      version is refused and changes nothing; otherwise the requested
      version becomes `v` when the current one cannot read `v`. */
  function RequestWriteVersionUpgrade(lim: Limits, o: Output, v: Version): (r: Step)
    ensures Greater(v, lim.maxOutput) <==> !r.ok
    ensures !r.ok ==> r.out == o
    ensures r.ok ==> r.out == o.(requested := r.out.requested)
    ensures r.ok ==> (r.out.requested == v <==> !CanRead(o.requested, v) || o.requested == v)
  {
    if Greater(v, lim.maxOutput) then Step(o, false)
    else if !CanRead(o.requested, v) then Step(o.(requested := v), true)
    else Step(o, true)
  }

  /** After a successful request the requested version can read `v`: the
      header written at close announces a version able to read everything
      the writer was told about. */
  lemma UpgradeCoversRequest(lim: Limits, o: Output, v: Version)
    requires RequestWriteVersionUpgrade(lim, o, v).ok
    ensures CanRead(RequestWriteVersionUpgrade(lim, o, v).out.requested, v)
  {
  }

  /** The header is rewritten when a newer version than the written one was
      requested. */
  predicate NeedsUpgrade(o: Output) {
    IsValid(o.written) && Less(o.written, o.requested)
  }

  /** On a plain sequential seekable output, flushing, seeking to 0 and
      flushing a buffered header writes the header over the start of
      everything delivered. */
  lemma FlushedHeaderLandsAtStart(o: Output, header: string)
    requires Appending(o) && o.asset.seekable
    ensures var s := Seek(o, 0);
      s.ok && !s.out.asset.failed && s.out.asset.text == Delivered(o)
      && FlushBuffer(s.out.(buffer := header)).ok
      && FlushBuffer(s.out.(buffer := header)).out.asset.text == Overwrite(Delivered(o), 0, header)
  {
    assert FlushBuffer(o).out.asset.text == Delivered(o);
  }

  /** `_UpdateHeader`: with an upgrade pending, seek to 0, write the new
      header, flush, and on success record the new version as written; with
      none, only flush. */
  method UpdateHeader(o: Output) returns (r: Output, ok: bool)
    requires o.open && Valid(o)
    ensures r.open && |r.buffer| <= BufferSize
    ensures r.cookie == o.cookie && r.requested == o.requested
    ensures !NeedsUpgrade(o) ==> r == FlushBuffer(o).out && ok == FlushBuffer(o).ok
    ensures NeedsUpgrade(o) ==> (ok <==> r.written == o.requested)
    ensures !ok ==> r.written == o.written
    ensures NeedsUpgrade(o) && Appending(o) && o.asset.seekable && |ComposeHeader(o.cookie, o.requested)| < BufferSize
      ==> ok && r.asset.text == Overwrite(Delivered(o), 0, ComposeHeader(o.cookie, o.requested))
  {
    if !NeedsUpgrade(o) {
      var f := FlushBuffer(o);
      return f.out, f.ok;
    }
    r, ok := RewriteHeader(o);
  }

  /** The upgrade branch of `_UpdateHeader`. */
  method RewriteHeader(o: Output) returns (r: Output, ok: bool)
    requires o.open && Valid(o) && NeedsUpgrade(o)
    ensures r.open && |r.buffer| <= BufferSize
    ensures r.cookie == o.cookie && r.requested == o.requested
    ensures ok <==> r.written == o.requested
    ensures !ok ==> r.written == o.written
    ensures Appending(o) && o.asset.seekable && |ComposeHeader(o.cookie, o.requested)| < BufferSize
      ==> ok && r.asset.text == Overwrite(Delivered(o), 0, ComposeHeader(o.cookie, o.requested))
  {
    NewerIsValid(o.written, o.requested);
    var header := ComposeHeader(o.cookie, o.requested);
    var s := Seek(o, 0);
    var cur := s.out;
    var written := false;
    if s.ok {
      cur, written := Write(cur, header);
    }
    if Appending(o) && o.asset.seekable && |header| < BufferSize {
      FlushedHeaderLandsAtStart(o, header);
    }
    var f := FlushBuffer(cur);
    if !(f.ok && written) {
      return f.out, false;
    }
    r := f.out.(written := o.requested);
    ok := true;
  }

  /** With a new header exactly as long as the old one, the rewrite replaces
      the header and keeps the rest of the file. */
  lemma SameLengthHeaderRewrite(text: string, oldHeader: string, newHeader: string)
    requires oldHeader <= text && |newHeader| == |oldHeader|
    ensures Overwrite(text, 0, newHeader) == newHeader + text[|oldHeader|..]
  {
  }

  /** `Close`: closing a closed output succeeds and does nothing; otherwise
      flush, update the header and close the asset, stopping at the first
      failure, and release the asset in every case. */
  method Close(o: Output) returns (r: Output, ok: bool)
    requires |o.buffer| <= BufferSize
    ensures !r.open
    ensures !o.open ==> r == o && ok
    ensures o.open && !FlushBuffer(o).ok ==> !ok && r.buffer == o.buffer
    ensures o.open && Appending(o) && !NeedsUpgrade(o) ==> ok && r.asset.text == Delivered(o)
    ensures o.open && Appending(o) && NeedsUpgrade(o) && o.asset.seekable
      && |ComposeHeader(o.cookie, o.requested)| < BufferSize
      ==> ok && r.asset.text == Overwrite(Delivered(o), 0, ComposeHeader(o.cookie, o.requested))
  {
    if !o.open {
      return o, true;
    }
    var f := FlushBuffer(o);
    r := f.out;
    ok := f.ok;
    if ok {
      r, ok := UpdateHeader(r);
      if ok {
        r := r.(asset := StreamClose(r.asset));
      }
    }
    r := r.(open := false);
  }
}

=== FILE: usda_data.dfy ===
/** Layer-version checks of the text format's data object (usdaData.cpp).

    The minimum and maximum input versions and the maximum output version
    are constants of the text file format that this model does not fix; they
    are the fields of `Limits`. */
module UsdaData {
  import opened FileVersion

  datatype Limits = Limits(minInput: Version, maxInput: Version, maxOutput: Version, defaultOutput: Version)

  /** Why a version string was refused; `Cleared` is the emptied reason of a
      success. */
  datatype Reason =
    | Cleared
    | Unparseable(text: string)
    | BelowMinimum(found: Version, minimum: Version)
    | AboveMaximum(found: Version, maximum: Version)

  datatype Checked = Checked(version: Version, reason: Reason)

  /** Whether the input version window accepts `v`. */
  predicate Readable(lim: Limits, v: Version) {
    IsValid(v) && !Less(v, lim.minInput) && CanRead(lim.maxInput, v)
  }

  /** `ValidateLayerVersionString`: the parsed version when it is valid, not
      below the minimum input version and readable by the maximum input
      version; otherwise 0.0.0 and the first failed check as reason. */
  function ValidateLayerVersionString(lim: Limits, text: string): (r: Checked)
    ensures r.reason == Cleared <==> Readable(lim, FromString(text))
    ensures r.reason == Cleared ==> r.version == FromString(text)
    ensures r.reason != Cleared ==> r.version == Zero
    ensures !IsValid(FromString(text)) ==> r.reason == Unparseable(text)
  {
    var v := FromString(text);
    if !IsValid(v) then Checked(Zero, Unparseable(text))
    else if Less(v, lim.minInput) then Checked(Zero, BelowMinimum(v, lim.minInput))
    else if !CanRead(lim.maxInput, v) then Checked(Zero, AboveMaximum(v, lim.maxInput))
    else Checked(v, Cleared)
  }

  /** A version that passes validation is never 0.0.0, so success and
      failure are told apart by the version alone. */
  lemma AcceptedVersionIsValid(lim: Limits, text: string)
    ensures IsValid(ValidateLayerVersionString(lim, text).version)
        <==> ValidateLayerVersionString(lim, text).reason == Cleared
  {
  }

  /** Printed versions inside the window validate to themselves. */
  lemma PrintedVersionValidates(lim: Limits, v: Version)
    requires Readable(lim, v)
    ensures ValidateLayerVersionString(lim, AsString(v)) == Checked(v, Cleared)
  {
    AsStringRoundTrip(v, []);
    assert AsString(v) + [] == AsString(v);
  }

  /** The data object's stored layer version. */
  datatype Data = Data(layerVersion: Version)

  /** `SetLayerVersion`: an invalid version, or one the maximum output
      version can write, is stored; anything else is a coding error and
      leaves the data unchanged. */
  function SetLayerVersion(lim: Limits, d: Data, v: Version): (r: Data)
    ensures r == d || r.layerVersion == v
    ensures r.layerVersion == v <==> (v == d.layerVersion || !IsValid(v) || CanWrite(lim.maxOutput, v))
  {
    if !IsValid(v) || CanWrite(lim.maxOutput, v) then d.(layerVersion := v) else d
  }

  /** Whatever `SetLayerVersion` stores is invalid or writable, so the
      stored version stays writable when it was. */
  lemma SetLayerVersionKeepsWritable(lim: Limits, d: Data, v: Version)
    requires !IsValid(d.layerVersion) || CanWrite(lim.maxOutput, d.layerVersion)
    ensures var r := SetLayerVersion(lim, d, v);
      !IsValid(r.layerVersion) || CanWrite(lim.maxOutput, r.layerVersion)
  {
  }
}

=== FILE: usda_format.dfy ===
/** The string and cookie logic of the text file format
    (usdaFileFormat.cpp): the quick cookie check before parsing, the
    acceptance of strings that carry the legacy "#sdf 1.4.32" header, and
    which parts of a layer's text are written at all. The parser and the
    rendering of metadata and prims are not part of this model. */
module UsdaFormat {
  import opened Wrappers
  import Strings

  const LegacyCookie: string := "#sdf 1.4.32"
  const ModernCookie: string := "#usda 1.0"

  // ---------------------------------------------------------------------
  // Leading whitespace.

  /** The characters `TfStringTrimLeft` removes by default. */
  predicate IsTrimmed(c: char) {
    c == ' ' || c == '\n' || c == '\t' || c == '\r'
  }

  /** `TfStringTrimLeft`: drop the leading run of trimmed characters. */
  function TrimLeft(s: string): (t: string)
    ensures |t| <= |s| && t == s[|s| - |t|..]
    ensures forall i :: 0 <= i < |s| - |t| ==> IsTrimmed(s[i])
    ensures t == [] || !IsTrimmed(t[0])
  {
    if |s| == 0 || !IsTrimmed(s[0]) then s
    else
      var t := TrimLeft(s[1..]);
      assert s[1..][|s| - 1 - |t|..] == s[|s| - |t|..];
      t
  }

  /** Trimming twice trims nothing more. */
  lemma TrimLeftIdempotent(s: string)
    ensures TrimLeft(TrimLeft(s)) == TrimLeft(s)
  {
  }

  /** A string that starts with a kept character is its own trim. */
  lemma TrimLeftKeeps(s: string)
    requires s != [] && !IsTrimmed(s[0])
    ensures TrimLeft(s) == s
  {
  }

  // ---------------------------------------------------------------------
  // `ReadFromString`.

  /** The `SDF_FILE_FORMAT_LEGACY_IMPORT` setting: "allow", "warn", or
      anything else, which refuses legacy strings. */
  datatype LegacyImport = Allow | Warn | Refuse

  /** The text handed to the parser, or `None` when the string is refused
      before parsing. Whether the parse then succeeds is not modelled. */
  function ReadFromString(setting: LegacyImport, str: string): (r: Option<string>)
    ensures var t := TrimLeft(str);
      && (!(LegacyCookie <= t) ==> r == Some(t))
      && (LegacyCookie <= t && setting != Refuse ==> r == Some(ModernCookie + t[|LegacyCookie|..]))
      && (LegacyCookie <= t && setting == Refuse ==> r == None)
  {
    var t := TrimLeft(str);
    if LegacyCookie <= t then
      if setting == Allow || setting == Warn then Some(ModernCookie + t[|LegacyCookie|..])
      else None
    else Some(t)
  }

  /** What reaches the parser never starts with the legacy cookie, and
      re-reading it hands the parser the same text: the rewrite is a fixed
      point. */
  lemma ReadFromStringIsStable(setting: LegacyImport, str: string)
    requires ReadFromString(setting, str).Some?
    ensures var t := ReadFromString(setting, str).value;
      !(LegacyCookie <= t) && ReadFromString(setting, t) == Some(t)
  {
    var t := ReadFromString(setting, str).value;
    if LegacyCookie <= TrimLeft(str) {
      assert t[1] == 'u' && LegacyCookie[1] == 's';
      TrimLeftKeeps(t);
    } else if t != [] {
      TrimLeftKeeps(t);
    }
  }

  /** The legacy and the modern strings with the same body reach the parser
      as the same text, unless legacy strings are refused. */
  lemma LegacyAndModernAgree(setting: LegacyImport, lead: string, body: string)
    requires forall i :: 0 <= i < |lead| ==> IsTrimmed(lead[i])
    requires setting != Refuse
    ensures ReadFromString(setting, lead + LegacyCookie + body)
         == ReadFromString(setting, lead + ModernCookie + body)
         == Some(ModernCookie + body)
  {
    LegacyRead(setting, lead, body);
    ModernRead(setting, lead, body);
  }

  lemma LegacyRead(setting: LegacyImport, lead: string, body: string)
    requires forall i :: 0 <= i < |lead| ==> IsTrimmed(lead[i])
    requires setting != Refuse
    ensures ReadFromString(setting, lead + LegacyCookie + body) == Some(ModernCookie + body)
  {
    var t := LegacyCookie + body;
    assert TrimLeft(lead + LegacyCookie + body) == t by {
      assert t[0] == '#';
      TrimLead(lead, t);
      assert lead + LegacyCookie + body == lead + t;
    }
    assert LegacyCookie <= t && t[|LegacyCookie|..] == body by {
      assert t[..|LegacyCookie|] == LegacyCookie;
    }
  }

  lemma ModernRead(setting: LegacyImport, lead: string, body: string)
    requires forall i :: 0 <= i < |lead| ==> IsTrimmed(lead[i])
    ensures ReadFromString(setting, lead + ModernCookie + body) == Some(ModernCookie + body)
  {
    var t := ModernCookie + body;
    assert t[0] == '#' && t[1] == 'u';
    assert !(LegacyCookie <= t) by {
      assert LegacyCookie[1] == 's';
    }
    TrimLead(lead, t);
    assert lead + ModernCookie + body == lead + t;
  }

  lemma {:induction false} TrimLead(lead: string, rest: string)
    requires forall i :: 0 <= i < |lead| ==> IsTrimmed(lead[i])
    requires rest != [] && !IsTrimmed(rest[0])
    ensures TrimLeft(lead + rest) == rest
    decreases |lead|
  {
    if |lead| == 0 {
      assert lead + rest == rest;
    } else {
      assert (lead + rest)[0] == lead[0];
      assert (lead + rest)[1..] == lead[1..] + rest;
      TrimLead(lead[1..], rest);
    }
  }

  // ---------------------------------------------------------------------
  // `_CanReadImpl`.

  /** `ArAsset::Read` of `count` bytes at offset 0: as many as there are. */
  function ReadPrefix(content: string, count: nat): (r: string)
    ensures r <= content && |r| == if count <= |content| then count else |content|
  {
    if count <= |content| then content[..count] else content
  }

  /** `_CanReadImpl`: read the cookie's length; a short read fails;
      otherwise the bytes, seen as a C string, must start with the cookie
      and the read must not have raised an error. */
  function CanReadImpl(content: string, cookie: string, readError: bool): (ok: bool)
    ensures ok ==> |content| >= |cookie| && !readError
  {
    var buf := ReadPrefix(content, |cookie|);
    if |buf| != |cookie| then false
    else !readError && cookie <= Strings.CString(buf)
  }

  /** For a cookie without NUL characters, the check accepts exactly the
      contents that start with the cookie, read without error. */
  lemma CanReadIffCookiePrefix(content: string, cookie: string, readError: bool)
    requires '\0' !in cookie
    ensures CanReadImpl(content, cookie, readError) <==> !readError && cookie <= content
  {
    if |content| >= |cookie| {
      var buf := content[..|cookie|];
      if cookie <= Strings.CString(buf) {
        assert cookie == buf;
      }
      if cookie <= content {
        assert buf == cookie;
        Strings.CStringAppend(cookie, []);
        assert cookie + [] == cookie;
      }
    }
  }

  /** A NUL inside the cookie-sized prefix hides the rest of the prefix
      from the comparison, so such contents are refused even when the bytes
      match a cookie that has the NUL at the same place. */
  lemma NulInPrefixRefuses(content: string, cookie: string, k: nat)
    requires k < |cookie| <= |content| && content[k] == '\0'
    ensures !CanReadImpl(content, cookie, false)
  {
    var buf := content[..|cookie|];
    assert buf[k] == '\0';
    Strings.CStringStopsAtNul(buf, k);
  }

  // ---------------------------------------------------------------------
  // `_WriteLayer`.

  /** What `_WriteLayer` needs of a layer: its accumulated metadata text
      (comment, documentation, sublayers, other fields and relocates), its
      root prim order and its root prims. */
  datatype LayerText<P> = LayerText(header: string, rootPrimOrder: seq<string>, rootPrims: seq<P>)

  /** The parts of the written text, in order. */
  datatype Section<P> =
    | CookieLine(cookie: string, version: string)
    | HeaderBlock(text: string)
    | ReorderRootPrims(names: seq<string>)
    | RootPrim(prim: P)
    | FinalNewline

  /** `_WriteLayer`: the cookie line, the "( ... )" block only for
      non-empty metadata, the `reorder rootPrims` statement only for more
      than one name, each root prim, and a final newline. */
  function WriteLayer<P>(l: LayerText<P>, cookie: string, version: string): (r: seq<Section<P>>)
    ensures |r| >= 2 && r[0] == CookieLine(cookie, version) && r[|r| - 1] == FinalNewline
  {
    [CookieLine(cookie, version)] + Middle(l) + [FinalNewline]
  }

  /** The sections between the cookie line and the final newline. */
  function Middle<P>(l: LayerText<P>): seq<Section<P>> {
    (if l.header != [] then [HeaderBlock(l.header)] else [])
    + (if |l.rootPrimOrder| > 1 then [ReorderRootPrims(l.rootPrimOrder)] else [])
    + PrimSections(l.rootPrims)
  }

  /** The header block appears exactly when there is metadata, the reorder
      statement exactly when there is more than one name, both with the
      layer's own content, and one section per root prim besides. */
  lemma WriteLayerSections<P>(l: LayerText<P>, cookie: string, version: string)
    ensures var r := WriteLayer(l, cookie, version);
      && (HeaderBlock(l.header) in r <==> l.header != [])
      && (ReorderRootPrims(l.rootPrimOrder) in r <==> |l.rootPrimOrder| > 1)
      && (forall s :: s in r && s.HeaderBlock? ==> s == HeaderBlock(l.header))
      && (forall s :: s in r && s.ReorderRootPrims? ==> s == ReorderRootPrims(l.rootPrimOrder))
      && |r| == 2 + (if l.header != [] then 1 else 0) + (if |l.rootPrimOrder| > 1 then 1 else 0) + |l.rootPrims|
  {
    var head := if l.header != [] then [HeaderBlock(l.header)] else [];
    var reorder := if |l.rootPrimOrder| > 1 then [ReorderRootPrims(l.rootPrimOrder)] else [];
    var prims := PrimSections(l.rootPrims);
    PrimSectionsArePrims(l.rootPrims);
    assert WriteLayer(l, cookie, version) == [CookieLine(cookie, version)] + (head + reorder + prims) + [FinalNewline];
  }

  lemma PrimSectionsArePrims<P>(prims: seq<P>)
    ensures forall s :: s in PrimSections(prims) ==> s.RootPrim?
  {
  }

  /** One `RootPrim` section per prim, in order. */
  function PrimSections<P>(prims: seq<P>): (r: seq<Section<P>>)
    ensures |r| == |prims| && forall i :: 0 <= i < |r| ==> r[i] == RootPrim(prims[i])
  {
    if |prims| == 0 then [] else [RootPrim(prims[0])] + PrimSections(prims[1..])
  }

  /** The root prims appear in the layer's order, after the header and the
      reorder statement. */
  lemma WriteLayerPrimOrder<P>(l: LayerText<P>, cookie: string, version: string)
    ensures var r := WriteLayer(l, cookie, version);
      var k := 1 + (if l.header != [] then 1 else 0) + (if |l.rootPrimOrder| > 1 then 1 else 0);
      r[k..|r| - 1] == PrimSections(l.rootPrims)
  {
    var r := WriteLayer(l, cookie, version);
    var k := 1 + (if l.header != [] then 1 else 0) + (if |l.rootPrimOrder| > 1 then 1 else 0);
    var front := [CookieLine(cookie, version)]
      + (if l.header != [] then [HeaderBlock(l.header)] else [])
      + (if |l.rootPrimOrder| > 1 then [ReorderRootPrims(l.rootPrimOrder)] else []);
    assert r == front + PrimSections(l.rootPrims) + [FinalNewline];
    assert |front| == k;
  }

  /** The text of one section; the metadata, the name vector and the prims
      are rendered by the given functions. */
  function Render<P>(s: Section<P>, nameVector: seq<string> -> string, prim: P -> string): string {
    match s
    case CookieLine(c, v) => c + " " + v + "\n"
    case HeaderBlock(t) => "(\n" + t + ")\n"
    case ReorderRootPrims(names) => "\n" + "reorder rootPrims = " + nameVector(names) + "\n"
    case RootPrim(p) => "\n" + prim(p)
    case FinalNewline => "\n"
  }

  function RenderAll<P>(ss: seq<Section<P>>, nameVector: seq<string> -> string, prim: P -> string): string {
    if |ss| == 0 then [] else Render(ss[0], nameVector, prim) + RenderAll(ss[1..], nameVector, prim)
  }

  /** A written layer starts with its cookie line, so the cookie check
      accepts it and the text reader hands it to the parser unchanged. */
  lemma WrittenLayerIsReadable<P>(l: LayerText<P>, version: string, nameVector: seq<string> -> string, prim: P -> string, setting: LegacyImport)
    ensures var text := RenderAll(WriteLayer(l, ModernCookie, version), nameVector, prim);
      && ModernCookie <= text
      && CanReadImpl(text, ModernCookie, false)
      && ReadFromString(setting, text) == Some(text)
  {
    var ss := WriteLayer(l, ModernCookie, version);
    var text := RenderAll(ss, nameVector, prim);
    assert ModernCookie <= text by {
      var line := ModernCookie + " " + version + "\n";
      assert text == line + RenderAll(ss[1..], nameVector, prim);
      assert ModernCookie <= line;
    }
    CanReadIffCookiePrefix(text, ModernCookie, false);
    assert TrimLeft(text) == text by {
      assert text[0] == ModernCookie[0] == '#';
      TrimLeftKeeps(text);
    }
    assert !(LegacyCookie <= text) by {
      assert text[1] == ModernCookie[1] == 'u' && LegacyCookie[1] == 's';
    }
  }
}

=== FILE: wrappers.dfy ===
/** Optional values, used wherever the C++ code returns a null handle, an
    end iterator or an empty std::optional. */
module Wrappers {

  datatype Option<+T> = None | Some(value: T) {

    /** The held value, or `default` when there is none. */
    function GetOr(default: T): T {
      match this
      case Some(v) => v
      case None => default
    }
  }
}
